=== FILE: README.md ===
# NW-Aus-Features pipeline: a Dafny model

This project models the bookkeeping and overlay rules of the NW Australian reef-feature processing pipeline, and proves properties about them. Each pipeline stage reads a feature layer (a GeoDataFrame of attribute rows with one geometry each), cuts or merges polygons according to class priorities, and writes the next layer. A shared `DataDownloader` class fetches and unpacks the input datasets into a local cache.

Geometry is modelled on a grid-cell abstraction. A region is a finite set of grid cells, and each cell has an area of 0.00001 square degrees. So every area threshold of the stages becomes a cell count: 0.0005 is 50 cells and 0.0001 is 10 cells. Difference, intersection and union are then exact set operations, and the promises of the stages can be proved as stated:

- disjointness from what was cut;
- staying inside the original;
- partitions of the rows;
- row-count accounting.

GEOS's `make_valid` is modelled as an operation that only guarantees validity and keeps the covered area.

Modules, one per stage or shared concern:

| module | file | what it holds |
|---|---|---|
| `Wrappers` | wrappers.dfy | `Option` and `Result` |
| `SetFacts` | sets.dfy | cardinality facts about finite sets |
| `Text` | text.dfy | decimal rendering and parsing, `strip`, `split`/`join`, `os.path.join` |
| `Geometry` | geometry.dfy | cell regions, polygons, multipolygons, collections; overlay; `process_geometry`; `make_valid` |
| `Tables` | tables.dfy | rows, columns, null cells, boolean filters |
| `CleanOverlaps` | clean_overlaps.dfy | stage 02: High-Intertidal priority cut and the residual-overlap scan |
| `CrossWalkV03` | crosswalk_v03.dfy | stage 03: the v0-3 class table, `EdgeAcc_m` parsing, DebugIDs |
| `RockyGraph` | rocky_graph.dfy | stage 04: the NW connection graph and its DFS components |
| `MergeRocky` | merge_rocky.dfy | stage 04: merging AIMS rocky reefs into the NW features |
| `ClipRocks` | clip_rocks.dfy | stage 05: cutting rocky reefs out of all other features |
| `CorrectMask` | correct_mask.dfy | stage 06 (both versions): the Add/Remove correction of the shallow mask |
| `ShallowSediment` | shallow_sediment.dfy | stage 07: shallow sediment filling the gaps between features |
| `ClipLand` | clip_land.dfy | stages 08 and 10: clipping land out of features |
| `CrossWalkV04` | crosswalk_v04.dfy | stage 09: winding repair, lookup-table expansion, the left join |
| `ValidationLocations` | validation_locations.dfy | stage 20: validation sampling, ValidIDs, extents, boundary points, file names |
| `FileSystem` | file_system.dfy | an abstract file system: a map from paths to files and directories |
| `Downloader` | downloader.dfy | the download cache |

How the Python behaviour is carried over:

- A source error that stops a stage on purpose (`sys.exit`, a raised `ValueError`) is a failure value in the model.
- A library call that raises on the data (pandas' MergeError, geopandas refusing an empty frame with a CRS) ends the stage with a failure value as well.
- A crash the code does not guard against (a missing key, an attribute of `None`) is a precondition.
- Library behaviour is that of Python 3.12, pandas 2 and geopandas 1.0 or later.
- Random draws, the clock, the HTTP body and the archive's members are parameters, and so are the GEOS exceptions that stage 02 (an overlap's intersection) and stage 10 (a clip) catch.

The two stage-06 scripts are byte-identical, so they share one model, and their rows below cite both files.

## Model

| member | source | states |
|---|---|---|
| CleanOverlaps.InGroup | 02-clean-overlaps.py:73-76 | a class group holds exactly the input rows whose `RB_Type_L3` selects that group, a null type falling in the "everything else" group |
| CleanOverlaps.GroupsPartition | 02-clean-overlaps.py:73-76 | the four groups (High Intertidal, Platform, Fringing, the rest) together hold every input row exactly once |
| CleanOverlaps.GroupsPartitionSizes | 02-clean-overlaps.py:73-76 | the group sizes add up to the number of input rows |
| CleanOverlaps.CutFrom | 02-clean-overlaps.py:95-103 | the overlays cut from one target are listed in increasing order, and the target's remaining area is its original area minus exactly those overlays; with no cut the geometry is untouched |
| CleanOverlaps.CutFromDisjoint | 02-clean-overlaps.py:96-103 | cutting never grows a target, and what remains shares no area with any overlay that was cut from it |
| CleanOverlaps.CutFromResidual | 02-clean-overlaps.py:95-103 | after the loop has reached an overlay, that overlay overlaps the remaining target by at most 0.0005 square degrees |
| CleanOverlaps.ShrinkKeepsSmallOverlap | 02-clean-overlaps.py:95-103 | an overlap already at most 0.0005 stays so when the target later shrinks, which is why one pass over the overlays suffices |
| CleanOverlaps.CutEach | 02-clean-overlaps.py:105-118 | the kept rows are an increasing selection of the targets, one output row per kept target |
| CleanOverlaps.CutEachRows | 02-clean-overlaps.py:116-118 | every output row is its target row with all attributes copied and only the geometry replaced by the fully cut one |
| CleanOverlaps.CutEachKept | 02-clean-overlaps.py:105-108 | each target appears in the output if and only if its cut geometry is not empty |
| CleanOverlaps.CutEachCount | 02-clean-overlaps.py:99-101 | the reported modification count is the total, over all targets, of the overlays cut from each |
| CleanOverlaps.CutOutOverlaps | 02-clean-overlaps.py:84-123 | with no targets or no overlays the targets come back unchanged with a zero count; otherwise the result is the per-target cut, and never has more rows than the targets |
| CleanOverlaps.CutOutResidual | 02-clean-overlaps.py:84-123 | every returned row has a geometry that overlaps each overlay by at most 0.0005 |
| CleanOverlaps.CutOutKeepsGroup | 02-clean-overlaps.py:116-118 | cutting keeps every row in its class group |
| CleanOverlaps.CombinedSize | 02-clean-overlaps.py:137-142 | the recombined table is never larger than the input and is empty only when the input is |
| CleanOverlaps.CleanOverlaps | 02-clean-overlaps.py:62-147 | a missing `RB_Type_L3` column and an empty combined result are the two failures; otherwise the output keeps the input's columns and holds the recombined rows, at least one and at most as many as the input |
| CleanOverlaps.CleanLeavesOnlySmallOverlaps | 02-clean-overlaps.py:125-133 | in the output, no Platform or Fringing row overlaps any High Intertidal row by more than 0.0005 square degrees |
| CleanOverlaps.CleanKeepsUncutClasses | 02-clean-overlaps.py:137-144 | the High Intertidal rows and the rows of every other class close the output unchanged and in their input order |
| CleanOverlaps.CheckPair | 02-clean-overlaps.py:195-208 | one candidate pair yields an overlap record exactly when the pair is reportable and computing its intersection does not raise, and the record carries both types and the intersection |
| CleanOverlaps.ScanRow | 02-clean-overlaps.py:168-208 | after scanning row `i`, the pairs found are exactly the reportable pairs whose first row is at most `i` and whose intersection does not raise, each found once, each with the two types and the intersection |
| CleanOverlaps.IdentifyOverlaps | 02-clean-overlaps.py:150-210 | the report lists exactly once every reportable pair `i < j` whose intersection does not raise, and nothing else; a pair whose intersection raises is skipped; this holds for any candidate lists that miss no intersecting row |
| CleanOverlaps.ReportableIffSharedCells | 02-clean-overlaps.py:195-198 | for two present rows, a pair is reported if and only if the rows share more than ten cells (more than 0.0001 square degrees), so touching rows are never reported |
| CrossWalkV03.Translate | 03-v0-3-class-cross-walk.py:136-143 | a mapped class yields its entry of the class table, anything else (a null class included) the 'Unknown' fallback set |
| CrossWalkV03.UnknownIffUnmapped | 03-v0-3-class-cross-walk.py:138-142 | a row's Feat_L3 becomes 'Unknown' if and only if its class is not in the table |
| CrossWalkV03.OnlyDeepPlatformReliefNull | 03-v0-3-class-cross-walk.py:30-123 | Deep Platform Coral Reef is the only class without a Relief value, and every class has the other five attributes |
| CrossWalkV03.EdgeAcc | 03-v0-3-class-cross-walk.py:173-185 | the converted edge accuracy is never text: a null stays null and an integer stays as it is |
| CrossWalkV03.EdgeAccText | 03-v0-3-class-cross-walk.py:175-185 | text becomes a number exactly when Python's `int` accepts it (optional sign, at most 4300 ASCII digits grouped by single underscores, surrounded only by the whitespace `int` skips, which leaves out the separators U+001C..U+001F), and null otherwise, so the 'NA' and blank cases, tested on `strip`, agree with the general rule |
| CrossWalkV03.EdgeAccRoundTrip | 03-v0-3-class-cross-walk.py:179 | an integer of at most 4300 digits, written as Python prints it, with or without surrounding whitespace that `int` skips, converts back to that integer |
| CrossWalkV03.SeparatorPaddedNull | 03-v0-3-class-cross-walk.py:175-185 | text starting with an information separator (U+001C..U+001F) converts to null, although `strip` would remove the separator: `int` is given the unstripped cell and refuses it |
| CrossWalkV03.LargeAccuracyOverflows | 03-v0-3-class-cross-walk.py:179-188 | an accuracy written as an integer outside the signed 64-bit range, but of at most 4300 digits, converts to a value the `Int64` cast cannot hold |
| CrossWalkV03.LongAccuracyNull | 03-v0-3-class-cross-walk.py:178-185 | an accuracy written with more than 4300 digits makes `int` raise, the handler catches it, and the accuracy becomes null |
| CrossWalkV03.WrittenFitsInt64 | 03-v0-3-class-cross-walk.py:188 | every edge accuracy in a written table fits the signed 64-bit range |
| CrossWalkV03.CrossWalkRow | 03-v0-3-class-cross-walk.py:196-211 | an output row keeps its input geometry and holds exactly the output columns |
| CrossWalkV03.CrossWalkRows | 03-v0-3-class-cross-walk.py:196-211 | one output row per kept input row, the `k`-th made from the `k`-th |
| CrossWalkV03.CrossWalk | 03-v0-3-class-cross-walk.py:145-211 | an existing output stops the stage and is never overwritten; a missing input stops it next; the `Int64` cast fails exactly when some kept row's converted accuracy lies outside the signed 64-bit range; otherwise the table has exactly the schema's columns and one row per input row with a non-empty geometry |
| CrossWalkV03.CrossWalkRowKept | 03-v0-3-class-cross-walk.py:167-188 | each kept column holds the input's value under its renamed source column, the edge accuracy converted |
| CrossWalkV03.CrossWalkRowClass | 03-v0-3-class-cross-walk.py:196-199 | the six new attributes of a row are those its own class maps to |
| CrossWalkV03.CrossWalkRowId | 03-v0-3-class-cross-walk.py:211 | output row `k` is numbered 'NW_k' |
| CrossWalkV03.CrossWalkIds | 03-v0-3-class-cross-walk.py:211 | no two written rows share a DebugID |
| CrossWalkV03.CrossWalkKeepsGeometries | 03-v0-3-class-cross-walk.py:154-157 | every written row has a non-empty geometry, and every input row with one is written |
| Text.Strip | 03-v0-3-class-cross-walk.py:175 | the stripped text neither starts nor ends with a character Python's `isspace` accepts (the ASCII information separators, NEL, no-break space and the Unicode space separators included) |
| Text.StripIdempotent | 03-v0-3-class-cross-walk.py:175 | stripping twice is stripping once |
| Text.StripCut | 03-v0-3-class-cross-walk.py:175 | text made of whitespace, a stripped core and whitespace strips to that core |
| Text.TrimCut | 03-v0-3-class-cross-walk.py:175-179 | for `strip`'s and for `int`'s whitespace alike, text made of whitespace, a trimmed core and whitespace trims to that core |
| Text.ParseShowInt | 03-v0-3-class-cross-walk.py:179 | reading back what Python prints for an integer of at most 4300 digits gives that integer |
| Text.LongNumberRejected | 03-v0-3-class-cross-walk.py:179 | `int` refuses a printed integer of more than 4300 digits, Python's default `int_max_str_digits` |
| Text.ParsePyIntIgnoresPadding | 03-v0-3-class-cross-walk.py:179 | surrounding whitespace that `int` skips (ASCII tab to carriage return and space, NEL, no-break space, the Unicode space separators) does not change what `int` reads |
| Text.SeparatorRefused | 03-v0-3-class-cross-walk.py:179 | `int` refuses text starting with an information separator U+001C..U+001F, which `isspace` accepts but `int` does not skip |
| Text.TrimPadded | 03-v0-3-class-cross-walk.py:175-179 | whitespace of either kind (`strip`'s or `int`'s) added around text is removed again by the trim of that kind |
| Text.IntTrimHead | 03-v0-3-class-cross-walk.py:175-179 | where the whitespace `int` skips ends on a non-`isspace` character, `strip` stops at that same character |
| Text.NoNumberStart | 03-v0-3-class-cross-walk.py:175-179 | text that does not strip to a sign or a digit, blank and 'NA' included, is refused by `int` |
| Text.ParseGrouped | 03-v0-3-class-cross-walk.py:179 | a run of digits is read exactly when it is well grouped (it starts and ends with a digit and no two underscores are adjacent) and holds at most 4300 digits, underscores not counted |
| Text.UnderscoreIgnored | 03-v0-3-class-cross-walk.py:179 | an underscore between two digit groups is ignored: `a_b` reads as `ab` does, and as the digits `ab` within the digit limit |
| Text.GroupedExample | 03-v0-3-class-cross-walk.py:179 | `int('1_000')` is 1000 |
| Text.IdeographicPadding | 03-v0-3-class-cross-walk.py:179 | `int` reads `1_000` between two ideographic spaces (U+3000) as 1000 |
| Text.ShowParseNat | 03-v0-3-class-cross-walk.py:211 | a printed natural number parses back to itself |
| Text.ShowNatInjective | 03-v0-3-class-cross-walk.py:211 | distinct row numbers print as distinct text |
| RockyGraph.LinkAdj | 04-merge-rocky-reefs.py:165-166 | recording one neighbour adds exactly that edge and keeps every other |
| RockyGraph.LinkKeeps | 04-merge-rocky-reefs.py:165-166 | recording a neighbour keeps each node recorded once and every recorded node with a neighbour |
| RockyGraph.ConnectPairsEdges | 04-merge-rocky-reefs.py:160-166 | connecting a newly touched feature adds exactly the edges between it and the features touched before it, in both directions |
| RockyGraph.ConnectListEdges | 04-merge-rocky-reefs.py:146-166 | processing one AIMS polygon adds exactly the edges between every two different features it touches |
| RockyGraph.ConnectionsEdges | 04-merge-rocky-reefs.py:141-166 | two features are neighbours in the connection graph if and only if some AIMS polygon touches both |
| RockyGraph.ConnectionsWellFormed | 04-merge-rocky-reefs.py:141-166 | the connection graph is symmetric, has no self-loops, records each node once, and gives every recorded node a neighbour |
| RockyGraph.ConnectionsKeys | 04-merge-rocky-reefs.py:141-166 | a feature is a node of the graph if and only if it shares an AIMS polygon with another feature |
| RockyGraph.Dfs | 04-merge-rocky-reefs.py:197-202 | the search lists its start node first, never repeats or revisits a node, and everything reachable from what it lists is either listed or was visited before |
| RockyGraph.DfsList | 04-merge-rocky-reefs.py:200-202 | searching a neighbour list reaches each neighbour unless it was visited before, without repeats |
| RockyGraph.FreshComponent | 04-merge-rocky-reefs.py:204-208 | a search from an unvisited node finds a whole component with at least two members |
| RockyGraph.StartFirst | 04-merge-rocky-reefs.py:204-208 | each component starts with its member that comes first in the graph's key order |
| RockyGraph.ComponentsFrom | 04-merge-rocky-reefs.py:204-208 | the components found from a key position on partition the unvisited nodes into closed, disjoint components each led by its first key |
| RockyGraph.FindComponents | 04-merge-rocky-reefs.py:193-210 | the components partition the graph's nodes: each has at least two members, no repeats, no neighbour outside itself, no member shared with another, and starts with its first node in key order |
| RockyGraph.AllMembers | 04-merge-rocky-reefs.py:229 | the union of the components holds exactly the members of some component |
| MergeRocky.Tracked | 04-merge-rocky-reefs.py:64-69 | a tracked NW row keeps its geometry and every other attribute, has status 'original', and keeps its DebugID or, without that column, is numbered 'NW_k' |
| MergeRocky.TrackNw | 04-merge-rocky-reefs.py:64-69 | every NW row is tracked in place, and the DebugID and status columns are added after the existing ones |
| MergeRocky.NumberedIdsDistinct | 04-merge-rocky-reefs.py:66 | generated DebugIDs never repeat |
| MergeRocky.FillDefaults | 04-merge-rocky-reefs.py:108-114 | an AIMS row takes the default value exactly in the default columns where it has none, and keeps every other value and its geometry |
| MergeRocky.PrepareAims | 04-merge-rocky-reefs.py:80-114 | every AIMS row has its defaults filled, and the AIMS table gains every NW column and every default column |
| MergeRocky.RockRows | 04-merge-rocky-reefs.py:119-126 | the rocky-reef positions are, in increasing order, exactly the NW rows whose Feat_L3 is 'Rocky Reef' |
| MergeRocky.RockGeoms | 04-merge-rocky-reefs.py:121-123 | the `j`-th rocky reef geometry is that of the `j`-th rocky-reef row |
| MergeRocky.Touched | 04-merge-rocky-reefs.py:143-157 | the reefs an AIMS polygon is tagged with are, without repeats, exactly the index candidates it touches or intersects |
| MergeRocky.TouchedLists | 04-merge-rocky-reefs.py:141-166 | one touched list per AIMS polygon, in order, none with a repeat |
| MergeRocky.TouchSplit | 04-merge-rocky-reefs.py:168-182 | an AIMS polygon is merged (rather than new) if and only if it intersects some NW rocky reef, given an index that misses no intersecting reef |
| MergeRocky.Group | 04-merge-rocky-reefs.py:150 | the AIMS geometries grouped under a reef are exactly those of the AIMS polygons tagged with it, and the group exists exactly when one is |
| MergeRocky.ComponentMember | 04-merge-rocky-reefs.py:248-267 | every member of a component is a rocky reef touched by some AIMS polygon |
| MergeRocky.ComponentOf | 04-merge-rocky-reefs.py:229 | the component found for a reef contains it, and no component is found exactly when no component contains it |
| MergeRocky.MemberGeomsCells | 04-merge-rocky-reefs.py:256-267 | the dissolved area of a component is exactly the union of its members' reefs and their AIMS groups |
| MergeRocky.RemovedIffFollower | 04-merge-rocky-reefs.py:264-271 | a reef is removed if and only if it is a member of a component other than its first |
| MergeRocky.KeptIffUntouched | 04-merge-rocky-reefs.py:228-284 | a reef is left untouched if and only if no AIMS polygon touches it |
| MergeRocky.DissolveCells | 04-merge-rocky-reefs.py:228-284 | an isolated touched reef becomes its own area plus its AIMS group; a component's first reef becomes the whole component's area with status 'primary_with_n_others' |
| MergeRocky.RockIndex | 04-merge-rocky-reefs.py:126 | the rocky-reef number found for a row index points back to it, and none is found for a non-rocky row |
| MergeRocky.Apply | 04-merge-rocky-reefs.py:244-245 | an update removes the row exactly when it is a removal, and otherwise leaves every attribute but the status unchanged |
| MergeRocky.Marked | 04-merge-rocky-reefs.py:228-294 | one marked entry per NW row, each the row after its reef's update |
| MergeRocky.MarkedOther | 04-merge-rocky-reefs.py:228-294 | a row that is not a rocky reef comes through step 6 unchanged |
| MergeRocky.MarkedRock | 04-merge-rocky-reefs.py:228-294 | a rocky-reef row comes through step 6 with its reef's update applied |
| MergeRocky.Survivors | 04-merge-rocky-reefs.py:292-294 | the rows left after the drop are exactly the ones not removed |
| MergeRocky.PlanOf | 04-merge-rocky-reefs.py:119-213 | the merge plan is built from the NW rocky reefs, the AIMS geometries and their touched lists, and satisfies the plan's invariants |
| MergeRocky.NewRows | 04-merge-rocky-reefs.py:179-185 | the new features are exactly the AIMS polygons that touch no NW rocky reef, marked 'new_feature' |
| MergeRocky.MergedColumns | 04-merge-rocky-reefs.py:300-303 | the output columns start with the NW columns and are exactly the NW, AIMS, default, DebugID and status columns |
| MergeRocky.MergeRockyReefs | 04-merge-rocky-reefs.py:300-303 | the output never has more rows than the NW and AIMS inputs together, and has the merged columns |
| MergeRocky.TrackKeepsRocks | 04-merge-rocky-reefs.py:64-69 | tracking changes neither which rows are rocky reefs nor any geometry |
| MergeRocky.Home | 04-merge-rocky-reefs.py:228-284 | every reef's area, with its AIMS group, ends up inside some reef that is not removed |
| MergeRocky.OutputRows | 04-merge-rocky-reefs.py:296-303 | every output row is a marked NW row or a new AIMS feature |
| MergeRocky.MarkedInOutput | 04-merge-rocky-reefs.py:292-303 | every NW row not removed is in the output |
| MergeRocky.NewInOutput | 04-merge-rocky-reefs.py:297-303 | every AIMS polygon touching no reef is in the output |
| MergeRocky.AreaFromInput | 04-merge-rocky-reefs.py:220-303 | the output covers no area outside the NW and AIMS inputs |
| MergeRocky.AreaInOutput | 04-merge-rocky-reefs.py:220-303 | no area of the NW or AIMS inputs is lost |
| MergeRocky.MergeKeepsArea | 04-merge-rocky-reefs.py:220-303 | the output covers exactly the NW features plus the AIMS rocky reefs |
| MergeRocky.MarkedKeepsAttrs | 04-merge-rocky-reefs.py:242-245 | step 6 changes no attribute of a row except its status |
| MergeRocky.OtherFeaturesUnchanged | 04-merge-rocky-reefs.py:119-123 | every NW feature that is not a rocky reef reaches the output unchanged |
| MergeRocky.RockyReefInOutput | 04-merge-rocky-reefs.py:242-284 | a reef that is not removed reaches the output with its attributes, its updated area and its new status |
| MergeRocky.NewFeatureId | 04-merge-rocky-reefs.py:108-114 | filling defaults keeps an AIMS polygon's DebugID |
| MergeRocky.RemovedRow | 04-merge-rocky-reefs.py:264-294 | step 6 drops a NW row exactly when its reef follows another in its component |
| MergeRocky.DroppedIffRemoved | 04-merge-rocky-reefs.py:264-294 | the same, stated for the NW input row |
| MergeRocky.MissingIds | 04-merge-rocky-reefs.py:310-314 | with unique DebugIDs not reused by AIMS, a NW DebugID is missing from the output if and only if that feature was dissolved into another |
| Geometry.ProcessGeometry | 05-clip-rocks-from-reefs.py:41-69 | an empty input or a line yields nothing, a non-empty polygon or multipolygon comes back unchanged, a non-empty collection yields nothing exactly when no member is polygonal and otherwise its one polygonal member or a multipolygon of member polygons, and whatever is returned is polygonal; a collection whose several polygonal members include a non-empty multipolygon is a precondition |
| Geometry.PolygonalMembers | 05-clip-rocks-from-reefs.py:49 | the list keeps exactly the Polygon and MultiPolygon members of the collection |
| Geometry.MultiOf | 05-clip-rocks-from-reefs.py:55 | `MultiPolygon(polygons)` has one part for each non-empty Polygon member and no other, empty members being dropped; a non-empty MultiPolygon member is outside its domain |
| Geometry.MultiMemberRefused | 07-v0-3-clip-merge-shallow-sed.py:59-67 | a collection holding a polygon and a non-empty multipolygon is outside what `process_geometry` handles, as shapely's `MultiPolygon` raises on it |
| ClipRocks.Hits | 05-clip-rocks-from-reefs.py:85 | the rocks a feature is clipped against are exactly the rocks whose geometry intersects it |
| ClipRocks.ClipSeq | 05-clip-rocks-from-reefs.py:91-98 | successive differences leave the feature's area minus every hit rock, or nothing when the rocks cover it |
| ClipRocks.ClipRow | 05-clip-rocks-from-reefs.py:78-109 | a clipped row keeps every attribute; a row without geometry or without a hit rock passes through unchanged |
| ClipRocks.ClipRowSpec | 05-clip-rocks-from-reefs.py:78-109 | a kept row covers exactly its original area minus all rocky reef, and a row is dropped if and only if its non-empty area lies entirely inside the rocky reef |
| ClipRocks.ClipRowHits | 05-clip-rocks-from-reefs.py:91-106 | when some rock is hit, a kept row is left with a non-empty area equal to its own minus the rocky reef |
| ClipRocks.ClipRowNoHits | 05-clip-rocks-from-reefs.py:107-109 | a row that hits no rock shares no area with the rocky reef, so passing it through unchanged is right |
| ClipRocks.HitsCover | 05-clip-rocks-from-reefs.py:85 | restricting the clip to the intersecting rocks loses no overlap with the rocky reef as a whole |
| ClipRocks.ClipSeqKeepsShape | 05-clip-rocks-from-reefs.py:91-98 | clipping a geometry in canonical form leaves it in canonical form |
| ClipRocks.ClipSeqChanges | 05-clip-rocks-from-reefs.py:100-106 | a clipped result counts as empty exactly when it covers no area |
| ClipRocks.ClipAll | 05-clip-rocks-from-reefs.py:78-109 | each non-rocky row is either kept or counted as skipped, and the kept rows are an increasing selection |
| ClipRocks.ClipAllRows | 05-clip-rocks-from-reefs.py:100-109 | every output row is the clipped version of the input row it came from |
| ClipRocks.ClipAllKept | 05-clip-rocks-from-reefs.py:100-106 | a non-rocky row is kept if and only if its clip produced a feature |
| ClipRocks.ClipRocks | 05-clip-rocks-from-reefs.py:34-120 | the output starts with every Rocky Reef row unchanged and in order, and output rows plus skipped rows account for every input row |
| ClipRocks.ClipRocksStage | 05-clip-rocks-from-reefs.py:112-120 | with a CRS set, the stage stops exactly when the clipping keeps no non-rocky row (geopandas refuses the empty frame); otherwise its result is the clipped output |
| ClipRocks.ClipRocksOutput | 05-clip-rocks-from-reefs.py:78-120 | after the rocky rows, each output row keeps its source's attributes and covers exactly its source's area minus all rocky reef |
| ClipRocks.ClipRocksDrops | 05-clip-rocks-from-reefs.py:100-106 | a non-rocky row is dropped if and only if it has a non-empty geometry lying wholly inside the rocky reef |
| CorrectMask.UsableGeoms | 06-correct-shallow-mask.py:68-79 | the geometries taken from a layer are exactly those of its rows that are valid Polygons or MultiPolygons |
| CorrectMask.CorrectedCells | 06-correct-shallow-mask.py:81-100 | the corrected mask covers exactly the usable mask and 'Add' areas minus the usable 'Remove' areas |
| CorrectMask.OtherOperationsIgnored | 06-v0-3-correct-shallow-mask.py:60-62 | a correction whose Operation is neither 'Add' nor 'Remove' leaves the corrected mask unchanged |
| CorrectMask.UnusableMaskRowIgnored | 06-v0-3-correct-shallow-mask.py:70-73 | a mask row whose geometry is missing, invalid or not polygonal leaves the corrected mask unchanged |
| CorrectMask.PolygonalParts | 06-correct-shallow-mask.py:107-114 | every part taken from a Polygon or MultiPolygon is valid and not empty |
| CorrectMask.MembersParts | 06-correct-shallow-mask.py:122-125 | every part taken from the members of a collection is valid and not empty |
| CorrectMask.SingleParts | 06-correct-shallow-mask.py:116-127 | every part of the exploded result, whatever its kind, is a valid non-empty polygon |
| CorrectMask.ExplodeKeepsCells | 06-correct-shallow-mask.py:107-118 | exploding a valid Polygon or MultiPolygon into parts loses no area |
| CorrectMask.ExplodeCoversCorrected | 06-v0-3-correct-shallow-mask.py:102-127 | the single parts together cover exactly the corrected mask |
| CorrectMask.Templated | 06-correct-shallow-mask.py:137-143 | one output row per part, each a copy of the template row with only its geometry set to that part |
| CorrectMask.CorrectShallowMask | 06-correct-shallow-mask.py:129-146 | no file is written exactly when there are no parts; an empty mask with parts fails on the template row; otherwise every written row copies the first mask row's attributes and holds one valid non-empty Polygon |
| ShallowSediment.PresentGeoms | 07-v0-3-clip-merge-shallow-sed.py:100-103 | the geometries dissolved into the clip mask are exactly those the feature rows hold, a missing geometry contributing nothing |
| ShallowSediment.PresentGeomsConcat | 07-v0-3-clip-merge-shallow-sed.py:100-103 | the geometries of two tables placed one after the other are those of the first followed by those of the second |
| ShallowSediment.Polys | 07-v0-3-clip-merge-shallow-sed.py:133-138 | one Polygon geometry per part, in the parts' order |
| ShallowSediment.PolysCells | 07-v0-3-clip-merge-shallow-sed.py:133-138 | the Polygon geometries of a list of parts cover exactly the parts |
| ShallowSediment.SplitParts | 07-v0-3-clip-merge-shallow-sed.py:131-142 | a MultiPolygon splits into valid non-empty Polygons drawn from its own parts; any other kind stays one piece |
| ShallowSediment.SplitKeepsCells | 07-v0-3-clip-merge-shallow-sed.py:131-142 | splitting never adds area, and loses none when the geometry is valid |
| ShallowSediment.NewGeoms | 07-v0-3-clip-merge-shallow-sed.py:118-142 | an invalid or empty shallow polygon contributes nothing; every piece contributed is non-empty and lies in the shallow polygon outside all features |
| ShallowSediment.NewGeomsCells | 07-v0-3-clip-merge-shallow-sed.py:118-142 | the pieces one kept shallow polygon contributes cover exactly its area outside the features |
| ShallowSediment.AsFeatures | 07-v0-3-clip-merge-shallow-sed.py:35-50 | every new feature carries exactly the fixed default attribute values and one piece as its geometry |
| ShallowSediment.AsFeaturesGeoms | 07-v0-3-clip-merge-shallow-sed.py:136-141 | the geometries of the new features are the pieces, in order |
| ShallowSediment.SedimentRows | 07-v0-3-clip-merge-shallow-sed.py:114-142 | every new sediment feature has the default attributes and a non-empty geometry that shares no area with the features |
| ShallowSediment.SedimentCells | 07-v0-3-clip-merge-shallow-sed.py:114-142 | the sediment features together cover exactly the kept shallow mask outside the dissolved features |
| ShallowSediment.SkippedCount | 07-v0-3-clip-merge-shallow-sed.py:120-123 | the skip count is at most the number of shallow polygons and is zero exactly when none is invalid or empty |
| ShallowSediment.ShallowSediment | 07-v0-3-clip-merge-shallow-sed.py:100-161 | the output starts with the input features unchanged, followed by exactly the sediment features; the feature columns come first, every default column is present once a sediment feature exists, and the skip count is reported |
| ShallowSediment.ShallowSedimentAsWritten | 07-v0-3-clip-merge-shallow-sed.py:147-151 | as written, with a CRS set, the run stops exactly when no sediment feature was made, and otherwise gives the stage's result |
| ShallowSediment.EmptyBranchRaises | 07-v0-3-clip-merge-shallow-sed.py:148-150 | with no shallow polygon at all, the run as written stops on the empty frame |
| ShallowSediment.NoSedimentKeepsFeatures | 07-v0-3-clip-merge-shallow-sed.py:148-161 | when no sediment feature is made, the stage gives back its input table, rows and columns alike |
| ShallowSediment.NewFeaturesAvoidFeatures | 07-v0-3-clip-merge-shallow-sed.py:155-161 | every appended row has the default attributes and shares no area with any input feature |
| Geometry.MakeValid | 08-v0-3-clip-land.py:80-81 | the repaired geometry is valid, covers the same area, and a valid geometry is left as it is |
| ClipLand.InvalidCount | 08-v0-3-clip-land.py:58-63 | the number of repaired coastline geometries is at most the number of coastline geometries |
| ClipLand.RepairCoast | 08-v0-3-clip-land.py:59-62 | after the repair every coastline geometry is valid and covers the same area, and a valid one is left untouched |
| ClipLand.RepairCount | 10-v0-4-clip-land.py:60-65 | the repair count is zero if and only if the repair changes nothing |
| ClipLand.RepairKeepsLand | 10-v0-4-clip-land.py:61-64 | repairing the coastline does not change the land it covers |
| ClipLand.Land | 08-v0-3-clip-land.py:71 | the dissolved coastline is a valid geometry |
| ClipLand.LandCells | 10-v0-4-clip-land.py:73 | the dissolved coastline covers exactly the land of all coastline geometries |
| ClipLand.ClipGeometry | 08-v0-3-clip-land.py:75-101 | no geometry stays none; without a double fault a result is valid and is the geometry minus the land; on the fault-free path the result is none exactly when the geometry lies wholly on land; after a fault a geometry is always returned, and after a second fault it is the input itself |
| ClipLand.ClipAll | 10-v0-4-clip-land.py:109 | every row keeps its attributes and takes its clipped geometry, in order |
| ClipLand.ClipLand | 08-v0-3-clip-land.py:32-116 | the surviving rows are exactly the clipped rows with a present non-empty geometry, in order; survivors plus removed rows make up the input, and the repair count is the number of invalid coastline geometries |
| ClipLand.ClipLandRow | 10-v0-4-clip-land.py:77-116 | unless both attempts fail, a row survives if and only if it has area off the land, and then it keeps its attributes and exactly its area off the land |
| ClipLand.ClipLandAvoidsLand | 08-v0-3-clip-land.py:107-114 | in a run without faults, no surviving feature covers any land |
| CrossWalkV04.Reverse | 09-v0-4-class-cross-walk.py:55 | a reversed ring visits the same vertices in the opposite order |
| CrossWalkV04.ReverseNegates | 09-v0-4-class-cross-walk.py:55 | reversing a ring negates its signed (shoelace) area, which is what turns clockwise into counter-clockwise |
| CrossWalkV04.ReverseReverse | 09-v0-4-class-cross-walk.py:55 | reversing a ring twice gives the ring back |
| CrossWalkV04.OrientRing | 09-v0-4-class-cross-walk.py:55 | an oriented ring is the ring itself or its reverse, with a signed area of the requested sign and the same magnitude |
| CrossWalkV04.Orient | 09-v0-4-class-cross-walk.py:55 | after orienting, the exterior is counter-clockwise and every hole clockwise, with no hole lost |
| CrossWalkV04.FixWinding | 09-v0-4-class-cross-walk.py:53-59 | a Polygon is oriented, a MultiPolygon has each of its parts oriented in place, and anything else is returned unchanged |
| CrossWalkV04.OrientIdempotent | 09-v0-4-class-cross-walk.py:53-59 | orienting an oriented polygon changes nothing |
| CrossWalkV04.FixWindingIdempotent | 09-v0-4-class-cross-walk.py:53-59 | fixing the winding twice is fixing it once |
| CrossWalkV04.FixedFlagged | 09-v0-4-class-cross-walk.py:89-99 | for rings whose orientation is the sign of their area (simple rings), after the fix a feature is flagged for its winding if and only if one of its exteriors encloses no area (its signed area is zero, so it is neither way round) |
| CrossWalkV04.WindingWarnings | 09-v0-4-class-cross-walk.py:89-99 | the warning list holds, in increasing order and once each, exactly the indices of the flagged features |
| CrossWalkV04.FixAll | 09-v0-4-class-cross-walk.py:83 | every feature geometry is replaced by its fixed winding, in order |
| CrossWalkV04.StrippedPieces | 09-v0-4-class-cross-walk.py:120-126 | the keys kept are exactly the non-empty stripped pieces, each a stripped key without ';' |
| CrossWalkV04.KeyParts | 09-v0-4-class-cross-walk.py:119-126 | an old-class cell yields exactly the non-empty stripped pieces between its semicolons |
| Text.Split | 09-v0-4-class-cross-walk.py:120 | the pieces contain no separator and join back to the original text |
| CrossWalkV04.Explode | 09-v0-4-class-cross-walk.py:121 | one copy of the lookup row per key, differing only in the old-class cell |
| CrossWalkV04.ExpandRow | 09-v0-4-class-cross-walk.py:116-126 | a lookup row expands into exactly one row per key its old-class cell splits into, and into none when that cell is blank |
| CrossWalkV04.PrepareLut | 09-v0-4-class-cross-walk.py:115-126 | the prepared lookup holds exactly the expansions of all lookup rows |
| CrossWalkV04.PreparedKeys | 09-v0-4-class-cross-walk.py:115-126 | every prepared row has a clean text key and otherwise agrees with a lookup row whose old class was not blank |
| CrossWalkV04.Keys | 09-v0-4-class-cross-walk.py:146 | the keys of the prepared lookup, in order |
| CrossWalkV04.Duplicated | 09-v0-4-class-cross-walk.py:146-149 | the duplicate list holds exactly the keys that occur twice or more, and is empty if and only if the keys are distinct |
| CrossWalkV04.Lookup | 09-v0-4-class-cross-walk.py:162 | the left join finds a lookup row carrying the class, and finds none exactly when no row carries it |
| CrossWalkV04.LookupUnique | 09-v0-4-class-cross-walk.py:145-162 | once the keys are distinct, the join finds for each class the one lookup row that carries it |
| CrossWalkV04.OnlyTextMatches | 09-v0-4-class-cross-walk.py:119-122 | a null or numeric class never matches a lookup row, since every prepared key is text |
| CrossWalkV04.LutColumns | 09-v0-4-class-cross-walk.py:115-162 | the lookup contributes all its columns except the join key and the split helper column the preparation drops |
| CrossWalkV04.JoinedColumns | 09-v0-4-class-cross-walk.py:162 | every feature column (the geometry included) appears under its label and every other lookup column under its label, and nothing else does; a column both sides carry, other than the key, is labelled `_x` on the feature side and `_y` on the lookup side |
| CrossWalkV04.JoinedUnsuffixed | 09-v0-4-class-cross-walk.py:162 | a name without a join suffix is a merged column exactly when one side carries it and the other does not |
| CrossWalkV04.CollisionNeedsClash | 09-v0-4-class-cross-walk.py:162 | two columns of one side can only end up with one label when some column clashes |
| CrossWalkV04.CollisionExample | 09-v0-4-class-cross-walk.py:162 | a feature table holding `Notes` and `Notes_x`, joined to a lookup holding `Notes`, makes the join's labels collide |
| CrossWalkV04.ClashDropsColumn | 09-v0-4-class-cross-walk.py:162-183 | a kept column that both sides carry, and that no rename feeds, is missing from the output, since only its suffixed copies reach the keep filter |
| CrossWalkV04.Rank | 09-v0-4-class-cross-walk.py:177-182 | the position of a column in the keep list is its first occurrence |
| CrossWalkV04.Present | 09-v0-4-class-cross-walk.py:182 | the filtered keep list holds exactly the listed columns that exist, in the list's order |
| CrossWalkV04.RankPrefix | 09-v0-4-class-cross-walk.py:182 | positions in a prefix of the keep list are positions in the whole list |
| CrossWalkV04.RenamedColumns | 09-v0-4-class-cross-walk.py:173-174 | renaming maps each merged column to its new name, one for one |
| CrossWalkV04.RenamedHas | 09-v0-4-class-cross-walk.py:173-174 | a kept column exists after renaming if and only if its source column exists before |
| CrossWalkV04.KeepListDistinct | 09-v0-4-class-cross-walk.py:177-180 | the keep list names no column twice |
| CrossWalkV04.OutputColumns | 09-v0-4-class-cross-walk.py:176-183 | the output holds exactly the kept columns that exist after renaming |
| CrossWalkV04.OutputColumnsOrdered | 09-v0-4-class-cross-walk.py:182-183 | the output columns follow the keep list's order |
| CrossWalkV04.WalkRow | 09-v0-4-class-cross-walk.py:162-183 | an output row keeps its geometry and holds exactly the output columns |
| CrossWalkV04.WalkRows | 09-v0-4-class-cross-walk.py:162-183 | one output row per feature, the `i`-th made from the `i`-th |
| CrossWalkV04.CrossWalk | 09-v0-4-class-cross-walk.py:133-190 | the winding warnings are always reported; the missing-column errors come in the source's order; the stage succeeds if and only if every required column exists, the keys are distinct, the lookup has no class column of its own, the join's suffixes give no two columns one label, the features carry neither the new-class nor the Attachment column (the join would suffix away the column read at lines 165-166) and the lookup has no geometry column; a failure on Attachment comes only from its clash; on success there is one output row per feature, with the output columns of the suffixed join, and the unmapped count is the number of rows with a null class |
| CrossWalkV04.OldClassCheckUnreachable | 09-v0-4-class-cross-walk.py:136-137 | the missing old-class check never fires, because the blank-row drop before it already needs that column |
| CrossWalkV04.CrossWalkRow | 09-v0-4-class-cross-walk.py:162-166 | each output row keeps its feature's geometry and takes the new class and attachment of the lookup row carrying its old class, or nulls when there is none |
| CrossWalkV04.UnmappedIff | 09-v0-4-class-cross-walk.py:190 | a feature is counted as unmapped if and only if no lookup row gives its old class a new class |
| CrossWalkV04.CrossWalkKeeps | 09-v0-4-class-cross-walk.py:172-183 | every other kept column whose source column is an unsuffixed feature column carries the feature's own value from that column |
| CrossWalkV04.CrossWalkColumns | 09-v0-4-class-cross-walk.py:164-183 | the output always has the class and attachment columns |
| Text.SplitJoin | 09-v0-4-class-cross-walk.py:120 | splitting joined pieces that hold no separator gives the pieces back |
| ValidationLocations.ToCrsUnits | 20-v0-4-generate-validation-locations.py:198-204 | a distance in metres becomes degrees at 111 km per degree for a geographic CRS and stays as it is otherwise |
| ValidationLocations.UnitsRoundTrip | 20-v0-4-generate-validation-locations.py:198-204 | converting metres to CRS units and back gives the same distance |
| ValidationLocations.Shift | 20-v0-4-generate-validation-locations.py:216-218 | each fuzzed vertex is its original vertex moved by exactly its drawn offset |
| ValidationLocations.Fuzz | 20-v0-4-generate-validation-locations.py:220-232 | a fuzzed Polygon or MultiPolygon keeps its number of parts and vertices and loses its holes; any other geometry is returned as it is |
| ValidationLocations.FuzzNear | 20-v0-4-generate-validation-locations.py:216-218 | no fuzzed vertex is more than the fuzz distance from its original along either axis |
| ValidationLocations.Bounds | 20-v0-4-generate-validation-locations.py:236 | the bounds contain every vertex and each of the four is attained by some vertex |
| ValidationLocations.BoxRing | 20-v0-4-generate-validation-locations.py:237-243 | the extent ring is closed, has five vertices, and every vertex is a corner of the box |
| ValidationLocations.BoxRingClockwise | 20-v0-4-generate-validation-locations.py:237-243 | the extent ring as written winds clockwise, with signed area minus twice the box area |
| ValidationLocations.Extent | 20-v0-4-generate-validation-locations.py:234-245 | with the bounding-box switch on, the extent is a hole-free Polygon with a five-vertex ring |
| ValidationLocations.ExtentHoldsOutline | 20-v0-4-generate-validation-locations.py:234-243 | the extent is the smallest box holding every fuzzed vertex: each vertex lies inside it and each side touches one |
| ValidationLocations.PointCountFacts | 20-v0-4-generate-validation-locations.py:268-275 | a geographic perimeter is judged by its length in metres, and with both counts set to one every feature gets one point |
| ValidationLocations.TotalNonNegative | 20-v0-4-generate-validation-locations.py:287 | the total boundary length is never negative |
| ValidationLocations.Locate | 20-v0-4-generate-validation-locations.py:299-308 | a position is placed on the first line whose end it does not pass, at the matching offset within that line, and no line is found exactly when there are no lines or the position is past the total length |
| ValidationLocations.Accepted | 20-v0-4-generate-validation-locations.py:294-315 | no more points are accepted than positions drawn, and none of them is on land |
| ValidationLocations.SamplePoints | 20-v0-4-generate-validation-locations.py:290-321 | the loop stops after at most the attempt limit with the points accepted so far, never more than requested; it runs to the limit whenever it falls short, and it stops no later than the attempt that completes the count |
| ValidationLocations.AcceptedGrows | 20-v0-4-generate-validation-locations.py:294-315 | further attempts never lose a point already accepted, so the count of accepted points only grows |
| ValidationLocations.AcceptedOnBoundary | 20-v0-4-generate-validation-locations.py:296-313 | every accepted point lies on a real line within its length and off land |
| ValidationLocations.BoundaryPoints | 20-v0-4-generate-validation-locations.py:256-321 | an unexpected boundary yields no points, and otherwise at most one point off land |
| ValidationLocations.Without | 20-v0-4-generate-validation-locations.py:362 | removing a drawn feature leaves exactly the other features, still without repeats |
| ValidationLocations.Choose | 20-v0-4-generate-validation-locations.py:362 | drawing without replacement returns the requested number of distinct available features |
| ValidationLocations.Available | 20-v0-4-generate-validation-locations.py:354 | the available features are exactly the region's features not used before, without repeats |
| ValidationLocations.Selection | 20-v0-4-generate-validation-locations.py:354-362 | a region yields as many distinct unused features as it has, up to two per batch |
| ValidationLocations.Number | 20-v0-4-generate-validation-locations.py:368-399 | the selected features are numbered with consecutive ValidIDs, in order |
| ValidationLocations.MarkUsed | 20-v0-4-generate-validation-locations.py:366 | marking adds exactly the selected features to their region's used set and touches no other region |
| ValidationLocations.RegionStep | 20-v0-4-generate-validation-locations.py:344-399 | one region's step numbers consecutively from the next ValidID, selects unused features of that region without repeats, and records exactly them as used |
| ValidationLocations.PointRecords | 20-v0-4-generate-validation-locations.py:390-397 | every boundary record belongs to a selected feature |
| ValidationLocations.PointRecordsConcat | 20-v0-4-generate-validation-locations.py:390-397 | the boundary records of two feature lists placed one after the other are those of the first list followed by those of the second |
| ValidationLocations.PointRecordsCount | 20-v0-4-generate-validation-locations.py:390-397 | each selected pick has exactly as many boundary records as it got points |
| ValidationLocations.PointRecordsAtMost | 20-v0-4-generate-validation-locations.py:256-321 | when each pick gets at most one point, as `generate_boundary_points` gives with both point counts set to one, there are no more boundary records than picks |
| ValidationLocations.CountOneRegion | 20-v0-4-generate-validation-locations.py:344-366 | a step's records all count toward its own region |
| ValidationLocations.CreateBatch | 20-v0-4-generate-validation-locations.py:332-408 | the centroid and extent layers list the same records, ValidIDs run from 1, each pick gets its own boundary records, at most one, so there are no more boundary records than centroids, every pick was unused before, no region repeats a feature, the used sets grow by exactly the picks, and each region gets its full quota; a batch with no centroid or boundary point is returned as it is, and `Writable` says whether the frame construction at lines 402-406 accepts it |
| ValidationLocations.NoCentroidsIffNoQuota | 20-v0-4-generate-validation-locations.py:332-402 | a batch has no centroid exactly when no region has an unused feature left, so the empty frame at line 402 arises from regions that are missing or used up |
| ValidationLocations.GenerateBatches | 20-v0-4-generate-validation-locations.py:402-467 | batches are made in order until one cannot be written (no centroid or no boundary point, which the frame construction at lines 402-406 refuses); the run then stops with that batch, and otherwise makes one batch per batch number; every pick is recorded as used, and no feature is picked twice in one region across batches |
| ValidationLocations.ZeroFill | 20-v0-4-generate-validation-locations.py:417 | padding keeps the text as a suffix and adds only leading zeros up to the width |
| ValidationLocations.ZeroFillValue | 20-v0-4-generate-validation-locations.py:417 | padding with zeros does not change the number |
| ValidationLocations.BatchStringParses | 20-v0-4-generate-validation-locations.py:417 | a batch string has at least two digits and reads back as its batch number |
| ValidationLocations.BatchStringInjective | 20-v0-4-generate-validation-locations.py:417 | different batches get different batch strings |
| ValidationLocations.OutputFileLayout | 20-v0-4-generate-validation-locations.py:422-428 | each validator's files lie in that validator's own directory under the output directory |
| ValidationLocations.OutputFileInjective | 20-v0-4-generate-validation-locations.py:426-428 | different layers or batches of one validator never share a file |
| Downloader.FirstOf | data_downloader.py:194 | the position of the first character of a class: nothing before it belongs to the class, and it does when it is not the end |
| Downloader.FirstOfIs | data_downloader.py:194 | any position with those two properties is the one found, so the scan is characterised exactly |
| Downloader.FileNameFromUrl | data_downloader.py:177-194 | the file name taken from a URL has no slash in it, is the tail of the URL's path component, and carries no `;params` when the scheme is one `urlparse` splits them for |
| Downloader.AfterSchemeOf | data_downloader.py:193 | a well-formed scheme and its colon are removed exactly, whatever follows |
| Downloader.PathPartOf | data_downloader.py:193 | after the `//`, the host is skipped and the path runs up to the query or fragment |
| Downloader.UrlPathOf | data_downloader.py:193-194 | for any `scheme://host/path;params?query` with a scheme `urlparse` splits parameters for, the path component is exactly `/path` |
| Downloader.UrlPathNoQuery | data_downloader.py:193-194 | the same holds when the URL carries neither parameters nor a query |
| Downloader.LStripControls | data_downloader.py:193 | stripping leading C0 controls and spaces leaves a suffix of the URL that does not start with one |
| Downloader.RemoveUnsafe | data_downloader.py:193 | removing tabs and line breaks leaves none and never lengthens the URL |
| Downloader.LeadingControlIgnored | data_downloader.py:193 | a leading control character or space does not change the path component |
| Downloader.UnsafeIgnored | data_downloader.py:193 | a tab, carriage return or line feed inside the URL does not change the path component |
| Downloader.WithoutParams | data_downloader.py:193 | cutting the parameters leaves a prefix of the path whose last segment holds no ';' |
| Downloader.WithoutParamsOf | data_downloader.py:193 | a rooted path followed by `;params` without a slash loses exactly the parameters |
| Downloader.ParamsExample | data_downloader.py:193-194 | the name taken from `https://example.com/d/file.zip;v=2` is `file.zip` |
| Downloader.FileNameExample | data_downloader.py:188-189 | the documented example: a query string after `file.txt` is ignored and `file.txt` is returned |
| Downloader.ExamplePath | data_downloader.py:188-189 | the path component of the documented URL is `/path/to/file.txt` |
| Downloader.ExampleLastSegment | data_downloader.py:194 | the last segment of that path is `file.txt` |
| Downloader.ExampleUrl | data_downloader.py:188-189 | the documented URL decomposes into scheme, host, path and query as the parser expects |
| Downloader.NoFileNameExample | data_downloader.py:190-191 | the documented example: a URL whose path ends in `/` yields the empty name |
| Downloader.MakeDestDir | data_downloader.py:104-106 | creating the destination's directory keeps every existing entry, adds only directories above the path, and leaves the target absent if it was |
| Downloader.DirBelowNeither | data_downloader.py:104-107 | the directory made for a download lies above neither the final path nor its `.tmp` sibling |
| Downloader.Download | data_downloader.py:89-135 | an existing destination is left alone; otherwise the destination holds the concatenated body, the `.tmp` file is gone, every other entry is kept and new entries are only the parent directories |
| Downloader.DownloadIdempotent | data_downloader.py:100-101 | after one download the destination exists, so a second download with any body changes nothing |
| Downloader.ConcatSnoc | data_downloader.py:126-133 | the bytes written after one more chunk are the earlier bytes followed by that chunk |
| Downloader.Writing | data_downloader.py:120-133 | while the body is streamed the destination is still absent and the `.tmp` file holds exactly the bytes written so far |
| Downloader.WritingMore | data_downloader.py:126-133 | writing more bytes to the `.tmp` file is the same state as having written the longer prefix |
| Downloader.WritingDone | data_downloader.py:131-134 | renaming the fully written `.tmp` file gives exactly the download's final state |
| Downloader.Fetch | data_downloader.py:120-134 | the chunk loop ends in the download's final state, and before each chunk the destination is absent while `.tmp` holds the prefix received so far |
| Downloader.DownloadFile | data_downloader.py:196-219 | a download is skipped when `os.path.exists` finds the destination (a destination ending in '/' only as a directory), and otherwise leaves the destination holding the received bytes |
| Downloader.DestPathLayout | data_downloader.py:210-214 | the destination is `download_path/dataset/name`, with the saved name when one is given and the URL's file name otherwise |
| Downloader.Tree | data_downloader.py:171 | the entries an archive extracts to are exactly the member paths and every directory above them |
| Downloader.TreeMember | data_downloader.py:171 | each member appears in the extracted tree as its own file or directory |
| Downloader.OwnEntries | data_downloader.py:171 | the members' own entries are exactly the member paths, each with its kind and bytes |
| Downloader.UpperDirs | data_downloader.py:171 | the set of paths that are a member path or lie above one |
| Downloader.FirstTooLong | data_downloader.py:165-170 | the scan for the first member whose absolute extraction path exceeds 260 characters: no earlier member is too long, and the one found is |
| Downloader.AsideApart | data_downloader.py:160 | `u_tmp` and `u` lie neither inside each other nor share any entry below both |
| Downloader.MakeAsideUnextracted | data_downloader.py:160-161 | creating the `_tmp` directory changes nothing at or below the unzip path |
| Downloader.Unzip | data_downloader.py:153-174 | an existing unpack directory skips the step; otherwise it fails exactly when some member's path is over 260 characters, leaving the unzip path untouched, and on success the unzip path holds the archive tree and nothing is left in `_tmp`; entries elsewhere are kept |
| Downloader.Placed | data_downloader.py:171-174 | extracting into the empty `_tmp` directory and renaming it makes the unzip path hold the archive tree, empties `_tmp` and keeps the rest |
| Downloader.Flatten | data_downloader.py:263-285 | flattening succeeds exactly when the unzip path holds one entry that is a directory; then that directory's contents move up one level, the directory itself disappears and nothing outside the unzip path changes; otherwise the error names the path, its contents and the URL |
| Downloader.TreeRel | data_downloader.py:171 | the archive tree is a well-formed relative tree: relative, normalised and closed under parents |
| Downloader.TreePath | data_downloader.py:171 | a directory above some member is a normal relative path every ancestor of which is also above a member |
| Downloader.TreeAncestor | data_downloader.py:171 | a path above some member is in the tree and is a directory |
| Downloader.OwnAncestor | data_downloader.py:171 | a member path that also lies above another member is a directory member |
| Downloader.FlattenableTree | data_downloader.py:265-267 | after extraction the listing of the unzip path is the archive's top-level names, so flattening applies exactly when the archive has one top-level directory |
| Downloader.Fetched | data_downloader.py:256-259 | the download into the fresh temporary directory writes the zip there and changes nothing outside it |
| Downloader.FetchReady | data_downloader.py:256-259 | the zip path lies directly inside the temporary directory, is absent and can be written |
| Downloader.ZipInTemp | data_downloader.py:258 | `temp_dir/dataset.zip` is a normal path whose parent is the temporary directory |
| Downloader.FetchOutside | data_downloader.py:256-259 | the download only touches entries inside the temporary directory |
| Downloader.CanUnzipApart | data_downloader.py:256-262 | changes confined to the temporary directory do not affect whether the unzip can proceed |
| Downloader.FlattenExtracted | data_downloader.py:265-285 | on a freshly extracted archive, flattening succeeds iff it has one top-level directory, then the unzip path holds that directory's contents; otherwise the error names the top-level entries; nothing outside the unzip path changes |
| Downloader.DownloadAndUnzip | data_downloader.py:245-251 | an unzip path that `os.path.exists` finds (one ending in '/' only as a directory) skips the download and leaves the file system unchanged; otherwise the outcome is that of the download, unzip and flatten steps |
| Downloader.Install | data_downloader.py:253-285 | the temporary directory is gone afterwards and entries elsewhere are kept; the step fails with a path error exactly when some member path is too long; without flattening it leaves the archive tree under the unzip path; with flattening it fails exactly when the tree does not hold a single directory, and otherwise leaves that directory's contents one level up |
| Downloader.UnzipReady | data_downloader.py:256-262 | after the download into the temporary directory, the unpack directory is still absent and the unzip can proceed |
| Downloader.Cleaned | data_downloader.py:256-262 | removing the temporary directory keeps the extraction result and everything outside it |
| Downloader.CleanedApart | data_downloader.py:256 | a childless temporary directory shares no entry with the unzip path or its `_tmp` directory |
| Downloader.DownloadAndUnzipRerun | data_downloader.py:249-252 | after a successful run the unzip path exists, so running again with any temporary directory, body and archive changes nothing |
| Downloader.PercentOvershoots | data_downloader.py:81 | as written, a 40000-byte file read in two 32768-byte blocks reports 163 percent |
| Downloader.Received | data_downloader.py:77-81 | the bytes received after `count` blocks never exceed the total nor the blocks read, and equal one of them |
| Downloader.Percent | data_downloader.py:81 | the corrected percentage lies in 0..100, is 100 exactly when the blocks read cover the total, and agrees with the source's formula while they do not overshoot |
| Downloader.PercentBounds | data_downloader.py:81 | the integer percentage of a received count is within 0..100 and is 100 only when everything arrived |
| Downloader.ReportHook | data_downloader.py:60-87 | block 0 restarts the clock without reporting; a later block reports exactly when more than one second passed since the last report, moves the report time to now, and carries the corrected percentage, in 0..100, exactly when the size is known |
| Downloader.Line | data_downloader.py:76-86 | a progress line is stamped with the current time; it has a percentage in 0..100 exactly when the size is known, equal to the source's value while the blocks read do not overshoot; the megabytes, KB/s and seconds are the received bytes, the speed and the elapsed time, each rounded down as `%d` prints them |
| Downloader.ProgressSpaced | data_downloader.py:73-75 | over any increasing sequence of block times, consecutive progress reports are more than one second apart and the state remembers the last one |
| FileSystem.Key | data_downloader.py:153 | the normalised path is the input with its trailing slashes removed and no trailing slash left |
| FileSystem.KeySlash | data_downloader.py:153 | normalising a normal path, with or without one trailing slash, gives the path back |
| FileSystem.FileWithSlash | data_downloader.py:250 | `os.path.exists` finds a file under its own name but not with a '/' after it, so an unzip path `<dataset>/` over a file named like the dataset does not skip the download |
| FileSystem.LastSegment | data_downloader.py:194 | the text after the last slash: it has no slash and is a suffix preceded by a slash when shorter than the path |
| FileSystem.LastSegmentUnique | data_downloader.py:194 | any split into a slash-terminated head and a slash-free tail yields that tail |
| FileSystem.MakeDirs | data_downloader.py:104-106 | making directories keeps every entry, adds every missing ancestor as a directory and nothing else |
| FileSystem.RenameFile | data_downloader.py:134 | after a rename the destination holds the source's entry, the source is gone and everything else is kept |
| FileSystem.Move | data_downloader.py:272 | moving a subtree relocates every entry under the source to the same relative place under the destination and changes nothing else |
| FileSystem.MoveHolds | data_downloader.py:272 | a directory tree held at the source is held at the destination after the move |
| FileSystem.RemoveTree | data_downloader.py:273 | removal deletes exactly the entries at or below the path and keeps the rest unchanged |
| FileSystem.Lift | data_downloader.py:269-273 | moving the contents of the single child `u/c` up into `u` and removing `u/c` keeps everything outside `u` and maps each entry under `u/c` to the same place under `u` |
| FileSystem.LiftHolds | data_downloader.py:269-273 | when `u` holds a tree with a single top directory, lifting leaves `u` holding that directory's subtree |
| Geometry.Difference | 05-clip-rocks-from-reefs.py:95 | `a.difference(b)` covers exactly the area of `a` outside `b` and is a valid geometry |
| Geometry.Intersection | 02-clean-overlaps.py:98 | `a.intersection(b)` covers exactly the area common to both and is a valid geometry |
| Geometry.UnionAll | 07-v0-3-clip-merge-shallow-sed.py:102-103 | `unary_union` of a list covers exactly the area of its members and is a valid geometry |
| Tables.Where | 05-clip-rocks-from-reefs.py:34-35 | a boolean row filter keeps exactly the rows whose test has the wanted value, never more rows than the input |
| Tables.WherePartition | 05-clip-rocks-from-reefs.py:34-35 | the rows passing a test and those failing it together are the input rows, each exactly once |
| Text.PathJoin | data_downloader.py:246-247 | `os.path.join`: an absolute second part replaces the first, otherwise the parts are joined by one separator |

## Left out

- Floating-point geometry. Shapely/GEOS over float coordinates is replaced by the cell abstraction. GEOS's part structure of overlay results is not modelled: a difference, intersection or union is a single polygon, or empty.
- Geometry.MakeValid: only validity and an unchanged covered area are stated. How GEOS actually repairs a polygon is not modelled.
- CRS reprojection: `to_crs` in stages 03 and 10, and the geographic-CRS test in stage 20, which is an input flag.
- Spatial indexes. In stages 02 and 04 each `sindex` query is an input list of candidate rows, and the model requires that it misses no intersecting row. The list without an index, every row, meets that requirement.
- Randomness. `random.uniform`, `np.random.choice`, the vertex-fuzz offsets and the positions along a boundary are parameters. Any draw is accepted.
- Time. The progress hook takes the time in whole milliseconds instead of float seconds, and "more than 1 second" becomes "more than 1000 ms".
- Downloader.ReportHook: reports carry the corrected percentage (see Findings), so the source's values above 100 do not appear in them. `Downloader.PercentAsWritten` is the source's formula.
- CrossWalkV04.IsCcw: orientation is the sign of the shoelace area. GEOS's `is_ccw` looks at the turn at the ring's highest vertex. The two agree on simple rings and can differ on self-intersecting ones.
- CrossWalkV04.FixedFlagged: holds as stated for simple rings only, for the same reason.
- CrossWalkV04.CrossWalk: a feature or lookup table with a repeated column name is not modelled, since a row maps each name to one value.
- Text.ParsePyInt: only ASCII digits are digits. Python's `int` also reads the other Unicode decimal digits (Arabic-Indic, fullwidth and so on). The digit limit is Python's default of 4300. `sys.set_int_max_str_digits`, `-X int_max_str_digits` and `PYTHONINTMAXSTRDIGITS` can change it, and that is not modelled.
- CrossWalkV03.EdgeAcc: the same restriction, through `Text.ParsePyInt`.
- Downloader.UrlPath: `urlsplit` raises ValueError on a malformed network location (unbalanced brackets, a bracketed host that is not an IP address, characters NFKC normalisation turns into delimiters). That error is not modelled, and a path is always returned.
- RockyGraph.Dfs: the source searches recursively, so a chain of more than about 1000 linked rocky reefs exceeds Python's default recursion limit and raises RecursionError. The model has no stack bound.
- ValidationLocations.Writable: assumes the features carry a CRS. Without one, an empty boundary frame would be built and only the missing centroid columns would stop the run.
- File and shapefile I/O, `config.ini`, printing, `tqdm` and console output. The stages take their tables as values and return them.
- Stage 02: the point shapefile of overlap centroids and the counts by type pair. They are derived from the report, which `CleanOverlaps.IdentifyOverlaps` returns, and only written or printed.
- Stage 03: a missing input file is an outcome without a table. Reading and writing it are not modelled.
- Stage 09: writing the winding warnings to a shapefile. The model returns the positions of the warned rows instead.
- Stage 10: `check_file_locked`. It only probes the operating system for a lock.
- Stage 20: `load_data` and `assign_features_to_regions`. That is file reading plus a spatial join, so region membership is an input.
- Stage 20: `simplify`, `centroid`, `boundary`, `interpolate` and `ensure_centroid_inside`. They are GEOS operations, so their results are inputs, and the coastline test of a sampled point is an input predicate.
- MergeRocky.PrepareAims: requires every AIMS row to have a geometry. The bounds computation crashes on a missing one.
- MergeRocky.MergeRockyReefs: requires a Feat_L3 column in the NW layer, where `gdf_nw["Feat_L3"]` would raise KeyError, and a text DebugID on every rocky reef an AIMS polygon touches, where `"_and_".join` would raise TypeError. It also assumes Feat_L3 holds text, as a shapefile string field reads. A column with no string at all makes pandas' `.str` accessor raise AttributeError, and the model reads it as having no rocky reef.
- Geometry.ProcessGeometry: requires that a collection with two or more polygonal members has no non-empty MultiPolygon among them. Shapely 2's `MultiPolygon` constructor does not flatten and raises ValueError or TypeError on one, and the `GeometryCollection` branch has no `try`. The stages only reduce overlay results, which the model never returns as collections.
- CorrectMask.CorrectShallowMask: requires an Operation column in the correction layer. Selecting the 'Add' and 'Remove' rows on a missing one raises KeyError.
- Stage 04: the "merged_with_…" debug status written to touching AIMS rows is left out. Those rows are discarded before the output is assembled.
- ClipLand.ClipGeometry: a GEOS exception is an input per row (`ClipFault`), not derived from the geometry.
- HTTP: request headers, status codes and errors. The response body is an input sequence of chunks.
- Zip decoding. An archive is its list of members. Member names ending in more than one '/' are not modelled.
- Text.PathJoin: `os.path.normpath` and `os.path.abspath` are modelled for normal paths only. The model strips trailing separators and joins a relative path to an absolute working directory. `..` and `.` segments are not resolved.
- Downloader.Flatten: requires that the single top-level directory holds no entry of its own name. In that case `shutil.move` would fail on the clash.
- Downloader.Percent: requires a positive `total_size`. A reported size of 0 would divide by zero in the source.
- Downloader.Unzip: requires that an existing unzip path is an empty directory or absent, since `os.rename` cannot replace anything else. It also requires that the `_tmp` directory holds nothing yet.
- Downloader.DownloadAndUnzip: requires a fresh temporary directory that lies apart from the unzip path. An unzip path ending in '/' over a file is not skipped, and the extraction into it fails, so that case is a precondition too.
- Downloader.DownloadFile: requires a destination that `_download` can write. A URL with no file name and no saved name gives a destination ending in '/', and writing `<dest>.tmp` or renaming it onto that path fails.
- Downloader.Install: requires the same fresh temporary directory, apart from the unzip path.
- `move_files`, `keep_subset_of_files` and the GDAL VRT builders of the downloader. They are glob-driven moves and foreign-library calls.
- `01-download-input-data.py`. It is a fixed list of downloader calls with no logic of its own.
- Python set and dict iteration order. Graph keys and neighbours follow the order in which they were first recorded, which is the order CPython dicts keep. Nothing stated depends on the order within a set.

## Findings

| source | as written | input that shows it | evidently intended | confidence | as-written member | corrected member |
|---|---|---|---|---|---|---|
| 07-v0-3-clip-merge-shallow-sed.py:148-150 | when no sediment feature is made, the empty frame is built as `GeoDataFrame([], crs=nw_features.crs)`, which geopandas 1.0 and later refuse with a ValueError for a set CRS | any input whose shallow polygons all lie inside the features, or no shallow polygon at all | the features written back unchanged, which is what the branch exists for | not executed; holds for geopandas 1.0 and later | ShallowSediment.ShallowSedimentAsWritten | ShallowSediment.ShallowSediment |
| data_downloader.py:81 | the percentage is `int(count * block_size * 100 / total_size)`, so it counts whole blocks even when the last block is only partly filled | a 40000-byte file read in blocks of 32768: at block 2 it reports 163% | the percentage of bytes received, capped at 100 | not executed | Downloader.PercentOvershoots | Downloader.Percent |

`Downloader.PercentAsWritten` is the source's formula. `Downloader.PercentOvershoots` exhibits the 163% report. `Downloader.Percent` counts at most `total_size` received bytes. It is proved to stay within 0..100, to reach 100 exactly when the blocks read cover the file, and to agree with the source's value until then. `Downloader.ReportHook` uses the corrected percentage.

`ShallowSediment.ShallowSedimentAsWritten` stops exactly when no sediment feature is made and a CRS is set, and `ShallowSediment.EmptyBranchRaises` exhibits the case with no shallow polygon. `ShallowSediment.ShallowSediment` handles the case, and `ShallowSediment.NoSedimentKeepsFeatures` proves that it then returns the input table unchanged.

=== FILE: clean_overlaps.dfy ===
/**
 * Stage 02: cut High-Intertidal coral reef out of Platform and Fringing coral
 * reefs, recombine the classes, and report the overlaps that remain.
 */
module CleanOverlaps {

  import opened Wrappers
  import opened Geometry
  import opened Tables
  import opened SetFacts

  const TypeColumn := "RB_Type_L3"
  const HighIntertidal := "High Intertidal Coral Reef"
  const Platform := "Platform Coral Reef"
  const Fringing := "Fringing Coral Reef"

  /** An overlay is cut out only when it overlaps by more than this area. */
  const CutThreshold: real := 0.0005
  /** A remaining overlap is reported only above this area. */
  const ReportThreshold: real := 0.0001

  // ---------------------------------------------------------------------------
  // Type partition

  datatype Group = HighIntertidalGroup | PlatformGroup | FringingGroup | OtherGroup

  function GroupOf(f: Feature): Group {
    if HasText(f, TypeColumn, HighIntertidal) then HighIntertidalGroup
    else if HasText(f, TypeColumn, Platform) then PlatformGroup
    else if HasText(f, TypeColumn, Fringing) then FringingGroup
    else OtherGroup
  }

  /** `gdf[gdf['RB_Type_L3'] == ...]` (and `~isin(...)` for the last group), in row order. */
  function InGroup(rows: seq<Feature>, g: Group): (r: seq<Feature>)
    ensures forall x :: x in r <==> x in rows && GroupOf(x) == g
  {
    if |rows| == 0 then []
    else InGroup(rows[..|rows| - 1], g) + (if GroupOf(rows[|rows| - 1]) == g then [rows[|rows| - 1]] else [])
  }

  /** What the last row adds to a group: itself, when it belongs there. */
  function Extra(x: Feature, g: Group): multiset<Feature> {
    if GroupOf(x) == g then multiset{x} else multiset{}
  }

  lemma InGroupStep(rows: seq<Feature>, g: Group)
    requires |rows| > 0
    ensures multiset(InGroup(rows, g)) == multiset(InGroup(rows[..|rows| - 1], g)) + Extra(rows[|rows| - 1], g)
  {
  }

  /** A row lands in exactly one group. */
  lemma ExtraOnce(x: Feature)
    ensures Extra(x, HighIntertidalGroup) + Extra(x, PlatformGroup) + Extra(x, FringingGroup) + Extra(x, OtherGroup)
         == multiset{x}
  {
  }

  /** Four groups that each grow by their share of one new row still add up to all rows. */
  lemma Regroup<T>(a: multiset<T>, b: multiset<T>, c: multiset<T>, d: multiset<T>,
                   e: multiset<T>, f: multiset<T>, g: multiset<T>, h: multiset<T>, all: multiset<T>, x: T)
    requires a + b + c + d == all
    requires e + f + g + h == multiset{x}
    ensures (a + e) + (b + f) + (c + g) + (d + h) == all + multiset{x}
  {
  }

  lemma SnocMultiset<T>(s: seq<T>)
    requires |s| > 0
    ensures multiset(s) == multiset(s[..|s| - 1]) + multiset{s[|s| - 1]}
  {
    assert s == s[..|s| - 1] + [s[|s| - 1]];
  }

  /** Every row falls in exactly one of the four groups. */
  lemma {:induction false} GroupsPartition(rows: seq<Feature>)
    ensures multiset(InGroup(rows, HighIntertidalGroup)) + multiset(InGroup(rows, PlatformGroup))
          + multiset(InGroup(rows, FringingGroup)) + multiset(InGroup(rows, OtherGroup))
         == multiset(rows)
  {
    if |rows| > 0 {
      var init := rows[..|rows| - 1];
      var last := rows[|rows| - 1];
      GroupsPartition(init);
      SnocMultiset(rows);
      InGroupStep(rows, HighIntertidalGroup);
      InGroupStep(rows, PlatformGroup);
      InGroupStep(rows, FringingGroup);
      InGroupStep(rows, OtherGroup);
      ExtraOnce(last);
      Regroup(multiset(InGroup(init, HighIntertidalGroup)), multiset(InGroup(init, PlatformGroup)),
              multiset(InGroup(init, FringingGroup)), multiset(InGroup(init, OtherGroup)),
              Extra(last, HighIntertidalGroup), Extra(last, PlatformGroup),
              Extra(last, FringingGroup), Extra(last, OtherGroup), multiset(init), last);
    }
  }

  lemma GroupsPartitionSizes(rows: seq<Feature>)
    ensures |InGroup(rows, HighIntertidalGroup)| + |InGroup(rows, PlatformGroup)|
          + |InGroup(rows, FringingGroup)| + |InGroup(rows, OtherGroup)| == |rows|
  {
    GroupsPartition(rows);
    assert |multiset(rows)| == |rows|;
  }

  // ---------------------------------------------------------------------------
  // Cutting one target

  /** The running geometry of one target and the overlays cut from it so far. */
  datatype Cut = Cut(geom: Geom, cuts: seq<nat>)

  predicate SignificantOverlap(g: Geom, o: Geom) {
    Intersects(g, o) && Area(Intersection(g, o)) > CutThreshold
  }

  function CutCells(ovs: seq<Geom>, cuts: seq<nat>): Region
    requires forall k :: 0 <= k < |cuts| ==> cuts[k] < |ovs|
  {
    if |cuts| == 0 then {} else CutCells(ovs, cuts[..|cuts| - 1]) + Cells(ovs[cuts[|cuts| - 1]])
  }

  predicate Increasing(s: seq<nat>) {
    forall a, b :: 0 <= a < b < |s| ==> s[a] < s[b]
  }

  /**
   * The target after the first `n` overlays, in order: each overlay that still
   * overlaps the running geometry by more than the threshold is subtracted.
   */
  function CutFrom(target: Geom, ovs: seq<Geom>, n: nat): (c: Cut)
    requires n <= |ovs|
    ensures Increasing(c.cuts)
    ensures forall k :: 0 <= k < |c.cuts| ==> c.cuts[k] < n
    ensures Cells(c.geom) == Cells(target) - CutCells(ovs, c.cuts)
    ensures |c.cuts| == 0 ==> c.geom == target
  {
    if n == 0 then Cut(target, [])
    else
      var prev := CutFrom(target, ovs, n - 1);
      var o := ovs[n - 1];
      if SignificantOverlap(prev.geom, o) then
        CutStep(target, ovs, prev, n);
        Cut(Difference(prev.geom, o), prev.cuts + [n - 1])
      else
        prev
  }

  /** Cutting overlay `n - 1` from a running geometry keeps the cut invariants. */
  lemma CutStep(target: Geom, ovs: seq<Geom>, prev: Cut, n: nat)
    requires 0 < n <= |ovs|
    requires Increasing(prev.cuts)
    requires forall k :: 0 <= k < |prev.cuts| ==> prev.cuts[k] < n - 1
    requires Cells(prev.geom) == Cells(target) - CutCells(ovs, prev.cuts)
    ensures Increasing(prev.cuts + [n - 1])
    ensures var cuts := prev.cuts + [n - 1]; forall k :: 0 <= k < |cuts| ==> cuts[k] < n
    ensures Cells(Difference(prev.geom, ovs[n - 1])) == Cells(target) - CutCells(ovs, prev.cuts + [n - 1])
  {
    var cuts := prev.cuts + [n - 1];
    assert cuts[..|cuts| - 1] == prev.cuts;
    assert CutCells(ovs, cuts) == CutCells(ovs, prev.cuts) + Cells(ovs[n - 1]);
  }

  /** Each cut overlay's cells are part of what was removed. */
  lemma {:induction false} CutCellsContains(ovs: seq<Geom>, cuts: seq<nat>, k: nat)
    requires forall j :: 0 <= j < |cuts| ==> cuts[j] < |ovs|
    requires k < |cuts|
    ensures Cells(ovs[cuts[k]]) <= CutCells(ovs, cuts)
  {
    if k < |cuts| - 1 {
      CutCellsContains(ovs, cuts[..|cuts| - 1], k);
    }
  }

  /** The result is inside the target and disjoint from every overlay that was cut. */
  lemma CutFromDisjoint(target: Geom, ovs: seq<Geom>, n: nat)
    requires n <= |ovs|
    ensures Cells(CutFrom(target, ovs, n).geom) <= Cells(target)
    ensures forall k :: 0 <= k < |CutFrom(target, ovs, n).cuts| ==>
      Cells(CutFrom(target, ovs, n).geom) * Cells(ovs[CutFrom(target, ovs, n).cuts[k]]) == {}
  {
    var c := CutFrom(target, ovs, n);
    forall k | 0 <= k < |c.cuts|
      ensures Cells(c.geom) * Cells(ovs[c.cuts[k]]) == {}
    {
      CutCellsContains(ovs, c.cuts, k);
    }
  }

  /** No overlay among the first `n` overlaps the result by more than the cut threshold. */
  lemma {:induction false} CutFromResidual(target: Geom, ovs: seq<Geom>, n: nat, i: nat)
    requires i < n <= |ovs|
    ensures Area(Intersection(CutFrom(target, ovs, n).geom, ovs[i])) <= CutThreshold
    decreases n
  {
    if i < n - 1 {
      CutFromResidual(target, ovs, n - 1, i);
    }
    ResidualStep(target, ovs, n, i);
  }

  /** One step of `CutFrom` keeps every overlap already small and makes the new overlay's small. */
  lemma ResidualStep(target: Geom, ovs: seq<Geom>, n: nat, i: nat)
    requires i < n <= |ovs|
    requires i < n - 1 ==> Area(Intersection(CutFrom(target, ovs, n - 1).geom, ovs[i])) <= CutThreshold
    ensures Area(Intersection(CutFrom(target, ovs, n).geom, ovs[i])) <= CutThreshold
  {
    if SignificantOverlap(CutFrom(target, ovs, n - 1).geom, ovs[n - 1]) {
      ResidualAfterCut(target, ovs, n, i);
    } else {
      ResidualAfterSkip(target, ovs, n, i);
    }
  }

  /** One step of `CutFrom` that subtracts overlay `n - 1`. */
  lemma ResidualAfterCut(target: Geom, ovs: seq<Geom>, n: nat, i: nat)
    requires i < n <= |ovs|
    requires SignificantOverlap(CutFrom(target, ovs, n - 1).geom, ovs[n - 1])
    requires i < n - 1 ==> Area(Intersection(CutFrom(target, ovs, n - 1).geom, ovs[i])) <= CutThreshold
    ensures Area(Intersection(CutFrom(target, ovs, n).geom, ovs[i])) <= CutThreshold
  {
    var prev := CutFrom(target, ovs, n - 1);
    var c := CutFrom(target, ovs, n);
    assert c.geom == Difference(prev.geom, ovs[n - 1]);
    if i < n - 1 {
      ShrinkKeepsSmallOverlap(prev.geom, c.geom, ovs[i]);
    } else {
      assert Cells(c.geom) * Cells(ovs[i]) == {};
    }
  }

  /** One step of `CutFrom` that leaves the running geometry alone. */
  lemma ResidualAfterSkip(target: Geom, ovs: seq<Geom>, n: nat, i: nat)
    requires i < n <= |ovs|
    requires !SignificantOverlap(CutFrom(target, ovs, n - 1).geom, ovs[n - 1])
    requires i < n - 1 ==> Area(Intersection(CutFrom(target, ovs, n - 1).geom, ovs[i])) <= CutThreshold
    ensures Area(Intersection(CutFrom(target, ovs, n).geom, ovs[i])) <= CutThreshold
  {
    var prev := CutFrom(target, ovs, n - 1);
    assert CutFrom(target, ovs, n).geom == prev.geom;
    if i == n - 1 && Cells(prev.geom) * Cells(ovs[i]) != {} {
      OverlapMeets(prev.geom, ovs[i]);
    }
  }

  /** A positive-area overlap implies the geometries intersect. */
  lemma OverlapMeets(g: Geom, h: Geom)
    requires Cells(g) * Cells(h) != {}
    ensures Intersects(g, h)
  {
    var c :| c in Cells(g) * Cells(h);
    assert Near(c, c);
  }

  lemma AreaMonotone(a: Region, b: Region)
    requires a <= b
    ensures RegionArea(a) <= RegionArea(b)
  {
    SubsetCard(a, b);
  }

  /** Shrinking the running geometry never enlarges its overlap with an overlay. */
  lemma ShrinkKeepsSmallOverlap(big: Geom, small: Geom, o: Geom)
    requires Cells(small) <= Cells(big)
    requires Area(Intersection(big, o)) <= CutThreshold
    ensures Area(Intersection(small, o)) <= CutThreshold
  {
    AreaMonotone(Cells(small) * Cells(o), Cells(big) * Cells(o));
  }

  // ---------------------------------------------------------------------------
  // Cutting a class

  /** The rows kept by `cut_out_overlaps`, how many cuts it made, and where each kept row came from. */
  datatype CutRows = CutRows(rows: seq<Feature>, count: nat, kept: seq<nat>)

  predicate AllHaveGeom(rows: seq<Feature>) {
    forall i :: 0 <= i < |rows| ==> rows[i].geom.Some?
  }

  function Final(f: Feature, ovs: seq<Geom>): Cut
    requires f.geom.Some?
  {
    CutFrom(f.geom.value, ovs, |ovs|)
  }

  /**
   * The per-target loop of `cut_out_overlaps`: each target is cut by every
   * overlay in turn; a target left empty is dropped, the others keep their
   * attributes and take the cut geometry.
   */
  function CutEach(targets: seq<Feature>, ovs: seq<Geom>): (r: CutRows)
    requires AllHaveGeom(targets)
    ensures |r.rows| == |r.kept| <= |targets|
    ensures Increasing(r.kept)
    ensures forall k :: 0 <= k < |r.kept| ==> r.kept[k] < |targets|
  {
    if |targets| == 0 then CutRows([], 0, [])
    else
      var n := |targets| - 1;
      var prev := CutEach(targets[..n], ovs);
      var c := Final(targets[n], ovs);
      if IsEmpty(c.geom) then CutRows(prev.rows, prev.count + |c.cuts|, prev.kept)
      else CutRows(prev.rows + [WithGeom(targets[n], Some(c.geom))], prev.count + |c.cuts|, prev.kept + [n])
  }

  /** Kept rows keep their attributes and take the fully cut geometry. */
  lemma {:induction false} CutEachRows(targets: seq<Feature>, ovs: seq<Geom>)
    requires AllHaveGeom(targets)
    ensures forall k :: 0 <= k < |CutEach(targets, ovs).kept| ==>
      CutEach(targets, ovs).rows[k]
        == WithGeom(targets[CutEach(targets, ovs).kept[k]], Some(Final(targets[CutEach(targets, ovs).kept[k]], ovs).geom))
  {
    if |targets| > 0 {
      var n := |targets| - 1;
      var init := targets[..n];
      CutEachRows(init, ovs);
      var prev := CutEach(init, ovs);
      var r := CutEach(targets, ovs);
      assert forall k :: 0 <= k < |prev.kept| ==> init[prev.kept[k]] == targets[prev.kept[k]];
      if !IsEmpty(Final(targets[n], ovs).geom) {
        assert r.rows == prev.rows + [WithGeom(targets[n], Some(Final(targets[n], ovs).geom))];
        assert r.kept == prev.kept + [n];
        forall k | 0 <= k < |r.kept|
          ensures r.rows[k] == WithGeom(targets[r.kept[k]], Some(Final(targets[r.kept[k]], ovs).geom))
        {
          if k < |prev.kept| {
            assert r.rows[k] == prev.rows[k] && r.kept[k] == prev.kept[k];
            assert prev.rows[k] == WithGeom(init[prev.kept[k]], Some(Final(init[prev.kept[k]], ovs).geom));
          }
        }
      }
    }
  }

  /** A target is kept exactly when its cut geometry is not empty. */
  lemma {:induction false} CutEachKept(targets: seq<Feature>, ovs: seq<Geom>, i: nat)
    requires AllHaveGeom(targets) && i < |targets|
    ensures i in CutEach(targets, ovs).kept <==> !IsEmpty(Final(targets[i], ovs).geom)
  {
    var n := |targets| - 1;
    var init := targets[..n];
    var prev := CutEach(init, ovs);
    CutEachStep(targets, ovs);
    SnocMember(prev.kept, n, !IsEmpty(Final(targets[n], ovs).geom), i);
    if i < n {
      CutEachKept(init, ovs, i);
      assert init[i] == targets[i];
    }
  }

  /** Appending `n` to indices below `n` adds exactly `n`. */
  lemma SnocMember(prev: seq<nat>, n: nat, add: bool, i: nat)
    requires forall k :: 0 <= k < |prev| ==> prev[k] < n
    requires i <= n
    ensures i in prev + (if add then [n] else []) <==> (i < n && i in prev) || (i == n && add)
  {
  }

  /** One more target adds its index to the kept ones exactly when its cut geometry is not empty. */
  lemma CutEachStep(targets: seq<Feature>, ovs: seq<Geom>)
    requires AllHaveGeom(targets) && |targets| > 0
    ensures CutEach(targets, ovs).kept == CutEach(targets[..|targets| - 1], ovs).kept
      + (if IsEmpty(Final(targets[|targets| - 1], ovs).geom) then [] else [|targets| - 1])
  {
  }

  /** Each target contributes one to the count per overlay cut from it. */
  function TotalCuts(targets: seq<Feature>, ovs: seq<Geom>): nat
    requires AllHaveGeom(targets)
  {
    if |targets| == 0 then 0
    else TotalCuts(targets[..|targets| - 1], ovs) + |Final(targets[|targets| - 1], ovs).cuts|
  }

  lemma {:induction false} CutEachCount(targets: seq<Feature>, ovs: seq<Geom>)
    requires AllHaveGeom(targets)
    ensures CutEach(targets, ovs).count == TotalCuts(targets, ovs)
  {
    if |targets| > 0 {
      CutEachCount(targets[..|targets| - 1], ovs);
    }
  }

  function Indices(n: nat): (s: seq<nat>)
    ensures |s| == n && forall k :: 0 <= k < n ==> s[k] == k
  {
    if n == 0 then [] else Indices(n - 1) + [n - 1]
  }

  /** `cut_out_overlaps(target_gdf, overlay_gdf)`. */
  function CutOutOverlaps(targets: seq<Feature>, overlays: seq<Feature>): (r: CutRows)
    requires |overlays| > 0 ==> AllHaveGeom(targets)
    ensures |targets| == 0 || |overlays| == 0 ==> r.rows == targets && r.count == 0
    ensures |r.rows| <= |targets|
    ensures |targets| > 0 && |overlays| > 0 ==> r == CutEach(targets, Geoms(overlays))
  {
    if |targets| == 0 || |overlays| == 0 then CutRows(targets, 0, Indices(|targets|))
    else CutEach(targets, Geoms(overlays))
  }

  // ---------------------------------------------------------------------------
  // The stage

  datatype StageError = MissingTypeColumn | NothingLeft

  /** Platform and Fringing rows need a geometry once there is anything to cut them with. */
  predicate CuttableRows(rows: seq<Feature>) {
    |InGroup(rows, HighIntertidalGroup)| > 0 ==>
      AllHaveGeom(InGroup(rows, PlatformGroup)) && AllHaveGeom(InGroup(rows, FringingGroup))
  }

  /** Modified Platform, then modified Fringing, then High Intertidal, then every other class. */
  function Combined(rows: seq<Feature>): seq<Feature>
    requires CuttableRows(rows)
  {
    var hi := InGroup(rows, HighIntertidalGroup);
    CutOutOverlaps(InGroup(rows, PlatformGroup), hi).rows
      + CutOutOverlaps(InGroup(rows, FringingGroup), hi).rows
      + hi + InGroup(rows, OtherGroup)
  }

  /** The combined rows are empty only when the input is. */
  lemma CombinedSize(rows: seq<Feature>)
    requires CuttableRows(rows)
    ensures |Combined(rows)| <= |rows|
    ensures |Combined(rows)| == 0 <==> |rows| == 0
  {
    GroupsPartitionSizes(rows);
  }

  /** Cut High Intertidal out of Platform and Fringing reefs and recombine all four classes. */
  function CleanOverlaps(t: Table): (r: Result<Table, StageError>)
    requires CuttableRows(t.rows)
    ensures TypeColumn !in t.columns ==> r == Failure(MissingTypeColumn)
    ensures TypeColumn in t.columns && |t.rows| == 0 ==> r == Failure(NothingLeft)
    ensures TypeColumn in t.columns && |t.rows| > 0 ==> r == Success(Table(t.columns, Combined(t.rows)))
    ensures r.Success? ==> 0 < |r.value.rows| <= |t.rows|
  {
    if TypeColumn !in t.columns then Failure(MissingTypeColumn)
    else
      var out := Combined(t.rows);
      CombinedSize(t.rows);
      if |out| == 0 then Failure(NothingLeft) else Success(Table(t.columns, out))
  }

  /** A row kept by `cut_out_overlaps` overlaps no overlay by more than the cut threshold. */
  lemma CutOutResidual(targets: seq<Feature>, overlays: seq<Feature>, x: Feature, h: Feature)
    requires |overlays| > 0 ==> AllHaveGeom(targets)
    requires x in CutOutOverlaps(targets, overlays).rows && h in overlays
    ensures x.geom.Some? && Area(Intersection(x.geom.value, GeomOf(h))) <= CutThreshold
  {
    var ovs := Geoms(overlays);
    var r := CutEach(targets, ovs);
    CutEachRows(targets, ovs);
    var k :| 0 <= k < |r.rows| && r.rows[k] == x;
    var j :| 0 <= j < |overlays| && overlays[j] == h;
    var f := targets[r.kept[k]];
    CutFromResidual(f.geom.value, ovs, |ovs|, j);
    assert ovs[j] == GeomOf(h);
  }

  /** Cutting changes geometry only, so every kept row stays in its class. */
  lemma CutOutKeepsGroup(targets: seq<Feature>, overlays: seq<Feature>, g: Group, k: nat)
    requires |overlays| > 0 ==> AllHaveGeom(targets)
    requires forall x :: x in targets ==> GroupOf(x) == g
    requires k < |CutOutOverlaps(targets, overlays).rows|
    ensures GroupOf(CutOutOverlaps(targets, overlays).rows[k]) == g
  {
    if |targets| > 0 && |overlays| > 0 {
      var ovs := Geoms(overlays);
      var r := CutEach(targets, ovs);
      CutEachRows(targets, ovs);
      var f := targets[r.kept[k]];
      assert f in targets;
      assert r.rows[k].attrs == f.attrs;
      assert Get(r.rows[k], TypeColumn) == Get(f, TypeColumn);
    } else {
      assert CutOutOverlaps(targets, overlays).rows[k] in targets;
    }
  }

  lemma CutOutMemberGroup(targets: seq<Feature>, overlays: seq<Feature>, g: Group, y: Feature)
    requires |overlays| > 0 ==> AllHaveGeom(targets)
    requires forall x :: x in targets ==> GroupOf(x) == g
    requires y in CutOutOverlaps(targets, overlays).rows
    ensures GroupOf(y) == g
  {
    var rows := CutOutOverlaps(targets, overlays).rows;
    var k :| 0 <= k < |rows| && rows[k] == y;
    CutOutKeepsGroup(targets, overlays, g, k);
  }

  /**
   * After the stage, no Platform or Fringing coral reef overlaps any High
   * Intertidal coral reef by more than the cut threshold.
   */
  lemma CleanLeavesOnlySmallOverlaps(rows: seq<Feature>, x: Feature, h: Feature)
    requires CuttableRows(rows)
    requires x in Combined(rows) && h in Combined(rows)
    requires GroupOf(x) == PlatformGroup || GroupOf(x) == FringingGroup
    requires GroupOf(h) == HighIntertidalGroup
    ensures x.geom.Some? && Area(Intersection(x.geom.value, GeomOf(h))) <= CutThreshold
  {
    var hi := InGroup(rows, HighIntertidalGroup);
    var pt, ft := InGroup(rows, PlatformGroup), InGroup(rows, FringingGroup);
    var platform := CutOutOverlaps(pt, hi);
    var fringing := CutOutOverlaps(ft, hi);
    var other := InGroup(rows, OtherGroup);
    assert Combined(rows) == platform.rows + fringing.rows + hi + other;
    if h in platform.rows {
      CutOutMemberGroup(pt, hi, PlatformGroup, h);
    } else if h in fringing.rows {
      CutOutMemberGroup(ft, hi, FringingGroup, h);
    }
    assert h in hi;
    if x in platform.rows {
      CutOutResidual(pt, hi, x, h);
    } else {
      assert x in fringing.rows;
      CutOutResidual(ft, hi, x, h);
    }
  }

  /** The High Intertidal and remaining classes pass through unchanged, after the cut classes. */
  lemma CleanKeepsUncutClasses(rows: seq<Feature>)
    requires CuttableRows(rows)
    ensures var tail := InGroup(rows, HighIntertidalGroup) + InGroup(rows, OtherGroup);
      |tail| <= |Combined(rows)| && Combined(rows)[|Combined(rows)| - |tail|..] == tail
  {
  }

  // ---------------------------------------------------------------------------
  // Remaining-overlap report

  /** One reported overlap between rows `i` and `j`. */
  datatype Overlap = Overlap(i: nat, j: nat, typeI: Value, typeJ: Value, intersection: Geom)

  predicate Present(rows: seq<Feature>, i: int) {
    0 <= i < |rows| && rows[i].geom.Some? && !IsEmpty(rows[i].geom.value)
  }

  /** The test `identify_overlaps` applies to a pair of rows. */
  predicate Reportable(rows: seq<Feature>, i: int, j: int) {
    i < j && Present(rows, i) && Present(rows, j)
    && var gi, gj := rows[i].geom.value, rows[j].geom.value;
       Intersects(gi, gj) && !Touches(gi, gj) && Area(Intersection(gi, gj)) > ReportThreshold
  }

  /**
   * A reportable pair is reported unless computing its intersection raises in
   * GEOS; `faults` holds the pairs for which it does, and those are skipped
   * with a warning.
   */
  predicate Reported(rows: seq<Feature>, faults: set<(int, int)>, i: int, j: int) {
    Reportable(rows, i, j) && (i, j) !in faults
  }

  /**
   * What the spatial index returns for each row: row indices, each at most
   * once, that include every row whose geometry intersects it (a row with no
   * index candidates scans the whole table, which also satisfies this).
   */
  predicate CandidateLists(rows: seq<Feature>, cands: seq<seq<nat>>) {
    |cands| == |rows|
    && (forall i, k :: 0 <= i < |cands| && 0 <= k < |cands[i]| ==> cands[i][k] < |rows|)
    && (forall i, a, b :: 0 <= i < |cands| && 0 <= a < b < |cands[i]| ==> cands[i][a] != cands[i][b])
    && (forall i, j ::
          0 <= i < |rows| && 0 <= j < |rows| && Present(rows, i) && Present(rows, j)
          && Intersects(rows[i].geom.value, rows[j].geom.value)
          ==> j in cands[i])
  }

  /** A reported record: a reportable pair with its types and intersection. */
  predicate Record(rows: seq<Feature>, o: Overlap) {
    Reportable(rows, o.i, o.j)
    && o.typeI == Get(rows[o.i], TypeColumn) && o.typeJ == Get(rows[o.j], TypeColumn)
    && o.intersection == Intersection(rows[o.i].geom.value, rows[o.j].geom.value)
  }

  function PairsOf(found: seq<Overlap>): set<(nat, nat)> {
    set k | 0 <= k < |found| :: (found[k].i, found[k].j)
  }

  predicate DistinctPairs(found: seq<Overlap>) {
    forall p, q :: 0 <= p < q < |found| ==> (found[p].i, found[p].j) != (found[q].i, found[q].j)
  }

  lemma PairsOfSnoc(found: seq<Overlap>, o: Overlap)
    ensures PairsOf(found + [o]) == PairsOf(found) + {(o.i, o.j)}
  {
    var f := found + [o];
    assert forall k :: 0 <= k < |found| ==> f[k] == found[k];
    assert f[|found|] == o;
  }

  /**
   * The test of one candidate pair: the overlap record when the two rows
   * intersect without merely touching, the intersection does not raise and its
   * area exceeds the report threshold.
   */
  function CheckPair(rows: seq<Feature>, faults: set<(int, int)>, i: nat, j: nat): (r: Option<Overlap>)
    requires i < |rows| && j < |rows|
    ensures r.Some? <==> Reported(rows, faults, i, j)
    ensures r.Some? ==> r.value.i == i && r.value.j == j && Record(rows, r.value)
  {
    if i < j && Present(rows, i) && Present(rows, j) then
      var gi, gj := rows[i].geom.value, rows[j].geom.value;
      if Intersects(gi, gj) && !Touches(gi, gj) && (i, j) !in faults then
        var inter := Intersection(gi, gj);
        if Area(inter) > ReportThreshold then
          Some(Overlap(i, j, Get(rows[i], TypeColumn), Get(rows[j], TypeColumn), inter))
        else None
      else None
    else None
  }

  /** Appending the record of candidate `cs[p]`, if any, keeps the records in order, distinct and sound. */
  lemma ScanAppend(rows: seq<Feature>, i: nat, cs: seq<nat>, p: nat, found: seq<Overlap>, r: Option<Overlap>)
    requires p < |cs| && cs[p] !in cs[..p]
    requires r.Some? ==> r.value.i == i && r.value.j == cs[p] && Record(rows, r.value)
    requires forall k :: 0 <= k < |found| ==>
      (found[k].i < i || (found[k].i == i && found[k].j in cs[..p])) && Record(rows, found[k])
    requires DistinctPairs(found)
    ensures var next := if r.Some? then found + [r.value] else found;
      && (forall k :: 0 <= k < |next| ==>
            (next[k].i < i || (next[k].i == i && next[k].j in cs[..p + 1])) && Record(rows, next[k]))
      && DistinctPairs(next)
      && PairsOf(next) == if r.Some? then PairsOf(found) + {(i, cs[p])} else PairsOf(found)
  {
    assert cs[..p + 1] == cs[..p] + [cs[p]];
    if r.Some? {
      PairsOfSnoc(found, r.value);
      var next := found + [r.value];
      assert forall k :: 0 <= k < |found| ==> next[k] == found[k];
    }
  }

  /** The candidates of row `i` checked in turn, appending each reportable pair. */
  method ScanRow(rows: seq<Feature>, cands: seq<seq<nat>>, faults: set<(int, int)>, i: nat, found0: seq<Overlap>)
    returns (found: seq<Overlap>)
    requires CandidateLists(rows, cands) && Present(rows, i)
    requires forall a, b :: (a, b) in PairsOf(found0) <==> Reported(rows, faults, a, b) && a < i
    requires forall k :: 0 <= k < |found0| ==> found0[k].i < i && Record(rows, found0[k])
    requires DistinctPairs(found0)
    ensures forall a, b :: (a, b) in PairsOf(found) <==> Reported(rows, faults, a, b) && a <= i
    ensures forall k :: 0 <= k < |found| ==> found[k].i <= i && Record(rows, found[k])
    ensures DistinctPairs(found)
  {
    var cs := cands[i];
    found := found0;
    var p := 0;
    while p < |cs|
      invariant 0 <= p <= |cs|
      invariant forall a, b :: (a, b) in PairsOf(found) <==>
        Reported(rows, faults, a, b) && (a < i || (a == i && b in cs[..p]))
      invariant forall k :: 0 <= k < |found| ==>
        (found[k].i < i || (found[k].i == i && found[k].j in cs[..p])) && Record(rows, found[k])
      invariant DistinctPairs(found)
    {
      var r := CheckPair(rows, faults, i, cs[p]);
      ghost var before := found;
      ScanAppend(rows, i, cs, p, found, r);
      if r.Some? {
        found := found + [r.value];
      }
      ScanStep(rows, faults, i, cs, p, PairsOf(before), PairsOf(found));
      p := p + 1;
    }
    assert cs[..p] == cs;
  }

  /**
   * `identify_overlaps`: every pair i < j of present rows that intersect
   * without merely touching and share more than the report threshold, each
   * pair once, whatever candidates the index supplies; a pair whose
   * intersection raises in GEOS (one in `faults`) is skipped.
   */
  method IdentifyOverlaps(rows: seq<Feature>, cands: seq<seq<nat>>, faults: set<(int, int)>) returns (found: seq<Overlap>)
    requires CandidateLists(rows, cands)
    ensures forall a, b :: (a, b) in PairsOf(found) <==> Reported(rows, faults, a, b)
    ensures DistinctPairs(found)
    ensures forall k :: 0 <= k < |found| ==> Record(rows, found[k])
  {
    found := [];
    var i := 0;
    while i < |rows|
      invariant 0 <= i <= |rows|
      invariant forall a, b :: (a, b) in PairsOf(found) <==> Reported(rows, faults, a, b) && a < i
      invariant forall k :: 0 <= k < |found| ==> found[k].i < i && Record(rows, found[k])
      invariant DistinctPairs(found)
    {
      if Present(rows, i) {
        found := ScanRow(rows, cands, faults, i, found);
      } else {
        AbsentRowReportsNothing(rows, faults, i, PairsOf(found));
      }
      i := i + 1;
    }
  }

  /** Scanning candidate `cs[p]` of row `i` records the pair exactly when it is reportable. */
  lemma ScanStep(rows: seq<Feature>, faults: set<(int, int)>, i: nat, cs: seq<nat>, p: nat, before: set<(nat, nat)>, after: set<(nat, nat)>)
    requires p < |cs| && cs[p] !in cs[..p]
    requires forall a, b :: (a, b) in before <==> Reported(rows, faults, a, b) && (a < i || (a == i && b in cs[..p]))
    requires after == if Reported(rows, faults, i, cs[p]) then before + {(i, cs[p])} else before
    ensures forall a, b :: (a, b) in after <==> Reported(rows, faults, a, b) && (a < i || (a == i && b in cs[..p + 1]))
  {
    assert cs[..p + 1] == cs[..p] + [cs[p]];
  }

  /** A row without a non-empty geometry adds no reportable pair. */
  lemma AbsentRowReportsNothing(rows: seq<Feature>, faults: set<(int, int)>, i: nat, pairs: set<(nat, nat)>)
    requires !Present(rows, i)
    requires forall a, b :: (a, b) in pairs <==> Reported(rows, faults, a, b) && a < i
    ensures forall a, b :: (a, b) in pairs <==> Reported(rows, faults, a, b) && a < i + 1
  {
  }

  /**
   * The intersect and touch tests add nothing to the area test: a pair is
   * reported exactly when the two geometries share more than ten cells.
   */
  lemma ReportableIffSharedCells(rows: seq<Feature>, i: nat, j: nat)
    requires i < j < |rows| && rows[i].geom.Some? && rows[j].geom.Some?
    ensures Reportable(rows, i, j) <==> |Cells(rows[i].geom.value) * Cells(rows[j].geom.value)| > 10
  {
    var gi, gj := rows[i].geom.value, rows[j].geom.value;
    var shared := Cells(gi) * Cells(gj);
    if |shared| > 10 {
      assert shared != {};
      if IsEmpty(gi) { EmptyHasNoCells(gi); }
      if IsEmpty(gj) { EmptyHasNoCells(gj); }
      OverlapMeets(gi, gj);
    }
  }
}

=== FILE: clip_land.dfy ===
/**
 * Stages 08 and 10: clip land out of every feature. The coastline polygons
 * are repaired and dissolved; each feature geometry is repaired and replaced
 * by its difference with the coastline, and features left without area are
 * removed. The two versions of the stage share this logic.
 */
module ClipLand {

  import opened Wrappers
  import opened Geometry
  import opened Tables

  // ---------------------------------------------------------------------------
  // Coastline repair

  /** The number of invalid coastline geometries, the ones the repair replaces. */
  function InvalidCount(coast: seq<Geom>): (n: nat)
    ensures n <= |coast|
  {
    if |coast| == 0 then 0
    else InvalidCount(coast[..|coast| - 1]) + (if IsValid(coast[|coast| - 1]) then 0 else 1)
  }

  /** Every invalid coastline geometry replaced by its repair, in place. */
  function RepairCoast(coast: seq<Geom>): (r: seq<Geom>)
    ensures |r| == |coast|
    ensures forall i :: 0 <= i < |r| ==> IsValid(r[i]) && Cells(r[i]) == Cells(coast[i])
    ensures forall i :: 0 <= i < |r| ==> IsValid(coast[i]) ==> r[i] == coast[i]
  {
    if |coast| == 0 then []
    else RepairCoast(coast[..|coast| - 1]) + [MakeValid(coast[|coast| - 1])]
  }

  /** The repair count is zero exactly when the repair changes nothing. */
  lemma {:induction false} RepairCount(coast: seq<Geom>)
    ensures InvalidCount(coast) == 0 <==> RepairCoast(coast) == coast
  {
    if |coast| > 0 {
      var n := |coast| - 1;
      RepairCount(coast[..n]);
      assert RepairCoast(coast)[..n] == RepairCoast(coast[..n]);
      if RepairCoast(coast) == coast {
        assert RepairCoast(coast[..n]) == coast[..n];
      }
      if InvalidCount(coast) == 0 {
        assert coast == coast[..n] + [coast[n]];
      }
    }
  }

  /** Repair keeps the land: the coastline union covers the same cells. */
  lemma {:induction false} RepairKeepsLand(coast: seq<Geom>)
    ensures UnionCells(RepairCoast(coast)) == UnionCells(coast)
  {
    if |coast| > 0 {
      var n := |coast| - 1;
      RepairKeepsLand(coast[..n]);
      assert RepairCoast(coast)[..n] == RepairCoast(coast[..n]);
    }
  }

  /** The dissolved, repaired coastline. */
  function Land(coast: seq<Geom>): (land: Geom)
    ensures IsValid(land)
  {
    UnionAll(RepairCoast(coast))
  }

  lemma LandCells(coast: seq<Geom>)
    ensures Cells(Land(coast)) == UnionCells(coast)
  {
    RepairKeepsLand(coast);
  }

  // ---------------------------------------------------------------------------
  // Clipping one geometry

  /**
   * Where an overlay call raises on one feature: nowhere, or in the first
   * attempt (after the input was repaired or before) with the fallback
   * succeeding or raising in turn.
   */
  datatype ClipFault = Clean | Raises(afterRepair: bool, fallbackRaises: bool)

  /**
   * `clip_geometry`: repair, subtract the land, repair the result, and map an
   * empty result to None. After a fault the repaired input minus the land is
   * returned as is, and after a second fault the input itself (as repaired so
   * far) is returned.
   */
  function ClipGeometry(g: Option<Geom>, land: Geom, fault: ClipFault): (r: Option<Geom>)
    ensures g.None? ==> r.None?
    ensures g.Some? && !(fault.Raises? && fault.fallbackRaises) ==>
      (r.Some? ==> IsValid(r.value) && Cells(r.value) == Cells(g.value) - Cells(land))
    ensures g.Some? && fault.Clean? ==> (r.None? <==> Cells(g.value) <= Cells(land))
    ensures g.Some? && fault.Raises? ==> r.Some?
    ensures g.Some? && fault.Raises? && fault.fallbackRaises ==> Cells(r.value) == Cells(g.value)
  {
    if g.None? then None
    else
      var repaired := if IsValid(g.value) then g.value else MakeValid(g.value);
      match fault
      case Clean =>
        var d := Difference(repaired, land);
        var clipped := if !IsEmpty(d) && !IsValid(d) then MakeValid(d) else d;
        if IsEmpty(clipped) then
          DiffEmpty(Cells(g.value), Cells(land));
          None
        else
          Some(clipped)
      case Raises(afterRepair, fallbackRaises) =>
        var local := if afterRepair then repaired else g.value;
        if fallbackRaises then Some(local)
        else Some(Difference(MakeValid(local), land))
  }

  // ---------------------------------------------------------------------------
  // The stage

  /** A row survives with a geometry that is present and not empty. */
  predicate Kept(f: Feature) {
    f.geom.Some? && !IsEmpty(f.geom.value)
  }

  /** Every row with its geometry clipped, in order. */
  function ClipAll(rows: seq<Feature>, land: Geom, faults: seq<ClipFault>): (r: seq<Feature>)
    requires |faults| == |rows|
    ensures |r| == |rows|
    ensures forall i :: 0 <= i < |r| ==> r[i] == WithGeom(rows[i], ClipGeometry(rows[i].geom, land, faults[i]))
  {
    if |rows| == 0 then []
    else
      var n := |rows| - 1;
      ClipAll(rows[..n], land, faults[..n]) + [WithGeom(rows[n], ClipGeometry(rows[n].geom, land, faults[n]))]
  }

  /** The stage's result: surviving rows, repaired coastline count, removed count. */
  datatype Clipped = Clipped(rows: seq<Feature>, repairedCoast: nat, removed: nat)

  /**
   * `apply_coastline_clipping`, with the per-row faults of the overlay
   * library as an input.
   */
  function ClipLand(rows: seq<Feature>, coast: seq<Geom>, faults: seq<ClipFault>): (r: Clipped)
    requires |faults| == |rows|
    ensures r.rows == Where(ClipAll(rows, Land(coast), faults), Kept, true)
    ensures |r.rows| + r.removed == |rows|
    ensures r.repairedCoast == InvalidCount(coast)
    ensures forall x :: x in r.rows ==> x.geom.Some? && !IsEmpty(x.geom.value)
  {
    var clipped := ClipAll(rows, Land(coast), faults);
    var kept := Where(clipped, Kept, true);
    Clipped(kept, InvalidCount(coast), |rows| - |kept|)
  }

  /**
   * Unless both attempts raise, row i survives exactly when it has a geometry
   * with area off the land, and then it keeps its attributes and exactly the
   * part of its geometry off the land.
   */
  lemma ClipLandRow(rows: seq<Feature>, coast: seq<Geom>, faults: seq<ClipFault>, i: int)
    requires |faults| == |rows| && 0 <= i < |rows|
    requires !(faults[i].Raises? && faults[i].fallbackRaises)
    ensures var c := ClipAll(rows, Land(coast), faults)[i];
      c.attrs == rows[i].attrs
      && (Kept(c) <==> rows[i].geom.Some? && !(Cells(rows[i].geom.value) <= UnionCells(coast)))
      && (Kept(c) ==> c in ClipLand(rows, coast, faults).rows
                      && Cells(c.geom.value) == Cells(rows[i].geom.value) - UnionCells(coast))
  {
    var land := Land(coast);
    LandCells(coast);
    var c := ClipAll(rows, land, faults)[i];
    if rows[i].geom.Some? {
      var g := rows[i].geom.value;
      var d := Cells(g) - Cells(land);
      if c.geom.Some? {
        assert Cells(c.geom.value) == d;
        if IsEmpty(c.geom.value) {
          EmptyHasNoCells(c.geom.value);
          DiffEmpty(Cells(g), Cells(land));
        }
      } else {
        assert Cells(g) <= Cells(land);
      }
    }
  }

  /** No surviving row of a fault-free run covers any land. */
  lemma ClipLandAvoidsLand(rows: seq<Feature>, coast: seq<Geom>, faults: seq<ClipFault>, x: Feature)
    requires |faults| == |rows| && forall i :: 0 <= i < |faults| ==> faults[i].Clean?
    requires x in ClipLand(rows, coast, faults).rows
    ensures Cells(x.geom.value) * UnionCells(coast) == {}
  {
    var clipped := ClipAll(rows, Land(coast), faults);
    var i :| 0 <= i < |clipped| && clipped[i] == x;
    ClipLandRow(rows, coast, faults, i);
  }
}

=== FILE: clip_rocks.dfy ===
/**
 * Stage 05: cut every Rocky Reef out of all other features. Rocky reefs are
 * kept unchanged; a feature that loses all its area is dropped and counted.
 */
module ClipRocks {

  import opened Wrappers
  import opened Geometry
  import opened Tables

  const FeatColumn := "Feat_L3"
  const RockyReef := "Rocky Reef"

  /** `gdf['Feat_L3'] == 'Rocky Reef'`; a null class is not rocky. */
  predicate IsRocky(f: Feature) {
    HasText(f, FeatColumn, RockyReef)
  }

  /** `rocky_reefs[rocky_reefs.intersects(geom)]`, as geometries, in order. */
  function Hits(rocks: seq<Geom>, g: Geom): (hs: seq<Geom>)
    ensures forall h :: h in hs <==> h in rocks && Intersects(h, g)
  {
    if |rocks| == 0 then []
    else Hits(rocks[..|rocks| - 1], g) + (if Intersects(rocks[|rocks| - 1], g) then [rocks[|rocks| - 1]] else [])
  }

  /**
   * The clipping loop over the intersecting rocky reefs: each one that still
   * intersects the running geometry is subtracted and the result reduced to
   * its polygons; the loop stops as soon as nothing polygonal is left.
   */
  function ClipSeq(g: Geom, hits: seq<Geom>): (r: Option<Geom>)
    ensures r.Some? ==> Cells(r.value) == Cells(g) - UnionCells(hits)
    ensures r.None? ==> Cells(g) <= UnionCells(hits)
    decreases |hits|
  {
    if |hits| == 0 then Some(g)
    else
      UnionCellsCons(hits);
      if Intersects(g, hits[0]) then
        var p := ProcessGeometry(Difference(g, hits[0]));
        ProcessShape(Cells(g) - Cells(hits[0]));
        assert Difference(g, hits[0]) == Shape(Cells(g) - Cells(hits[0]));
        if p.None? then
          DiffEmpty(Cells(g), Cells(hits[0]));
          None
        else ClipSeq(p.value, hits[1..])
      else
        NoMeetNoShare(g, hits[0]);
        ClipSeq(g, hits[1..])
  }

  lemma {:induction false} UnionCellsCons(gs: seq<Geom>)
    requires |gs| > 0
    ensures UnionCells(gs) == Cells(gs[0]) + UnionCells(gs[1..])
    decreases |gs|
  {
    if |gs| > 1 {
      var n := |gs| - 1;
      UnionCellsCons(gs[..n]);
      assert gs[..n][1..] == gs[1..][..n - 1];
      assert gs[..n][0] == gs[0];
    } else {
      assert gs[1..] == [];
    }
  }

  lemma MeetSameWithExtra(g: Region, a: Region, h: Region, c: Region)
    requires g * a == g * h
    ensures g * (a + c) == g * (h + c)
  {
    forall x | x in g * (a + c)
      ensures x in g * (h + c)
    {
      if x !in c {
        assert x in g * a;
      }
    }
    forall x | x in g * (h + c)
      ensures x in g * (a + c)
    {
      if x !in c {
        assert x in g * h;
      }
    }
  }

  lemma MeetSameWithDisjoint(g: Region, a: Region, h: Region, c: Region)
    requires g * a == g * h && c * g == {}
    ensures g * (a + c) == g * h
  {
    forall x | x in g * (a + c)
      ensures x in g * h
    {
      assert x !in c * g;
      assert x in g * a;
    }
  }

  /** Geometries that do not intersect share no cell. */
  lemma NoMeetNoShare(g: Geom, h: Geom)
    requires !Intersects(g, h)
    ensures Cells(g) * Cells(h) == {}
  {
    if c :| c in Cells(g) * Cells(h) {
      assert Near(c, c);
    }
  }

  /** What becomes of one non-rocky row: kept (perhaps clipped), or dropped. */
  function ClipRow(f: Feature, rocks: seq<Geom>): (r: Option<Feature>)
    ensures r.Some? ==> r.value.attrs == f.attrs
    ensures f.geom.None? ==> r == Some(f)
    ensures f.geom.Some? && |Hits(rocks, f.geom.value)| == 0 ==> r == Some(f)
  {
    if f.geom.None? then Some(f)
    else
      var hits := Hits(rocks, f.geom.value);
      if |hits| == 0 then Some(f)
      else
        var clipped := ClipSeq(f.geom.value, hits);
        if clipped.Some? && !IsEmpty(clipped.value) then Some(WithGeom(f, clipped))
        else None
  }

  /** The rows kept by the loop, how many were dropped, and where each kept row came from. */
  datatype Clipped = Clipped(rows: seq<Feature>, skipped: nat, kept: seq<nat>)

  predicate Increasing(s: seq<nat>) {
    forall a, b :: 0 <= a < b < |s| ==> s[a] < s[b]
  }

  function ClipAll(rows: seq<Feature>, rocks: seq<Geom>): (r: Clipped)
    ensures |r.rows| == |r.kept| && |r.rows| + r.skipped == |rows|
    ensures Increasing(r.kept)
    ensures forall k :: 0 <= k < |r.kept| ==> r.kept[k] < |rows|
  {
    if |rows| == 0 then Clipped([], 0, [])
    else
      var n := |rows| - 1;
      var prev := ClipAll(rows[..n], rocks);
      match ClipRow(rows[n], rocks)
      case None => Clipped(prev.rows, prev.skipped + 1, prev.kept)
      case Some(x) => Clipped(prev.rows + [x], prev.skipped, prev.kept + [n])
  }

  /** Each kept row is what `ClipRow` made of the row it came from. */
  lemma {:induction false} ClipAllRows(rows: seq<Feature>, rocks: seq<Geom>, k: nat)
    requires k < |ClipAll(rows, rocks).kept|
    ensures Some(ClipAll(rows, rocks).rows[k]) == ClipRow(rows[ClipAll(rows, rocks).kept[k]], rocks)
    decreases |rows|
  {
    var n := |rows| - 1;
    var init := rows[..n];
    var prev := ClipAll(init, rocks);
    if k < |prev.kept| {
      ClipAllRows(init, rocks, k);
      assert init[prev.kept[k]] == rows[prev.kept[k]];
    }
  }

  /** A row is kept exactly when `ClipRow` keeps it. */
  lemma {:induction false} ClipAllKept(rows: seq<Feature>, rocks: seq<Geom>)
    ensures forall i :: 0 <= i < |rows| ==> (i in ClipAll(rows, rocks).kept <==> ClipRow(rows[i], rocks).Some?)
  {
    if |rows| > 0 {
      var n := |rows| - 1;
      var init := rows[..n];
      ClipAllKept(init, rocks);
      var prev := ClipAll(init, rocks);
      assert forall i :: 0 <= i < n ==> init[i] == rows[i];
      assert n !in prev.kept;
    }
  }

  /** `gdf[gdf['Feat_L3'] == 'Rocky Reef']`. */
  function Rocky(rows: seq<Feature>): seq<Feature> {
    Where(rows, IsRocky, true)
  }

  /** `gdf[gdf['Feat_L3'] != 'Rocky Reef']`: every other row, null classes included. */
  function Others(rows: seq<Feature>): seq<Feature> {
    Where(rows, IsRocky, false)
  }

  /** The clipping loop run over the other rows against the rocky reefs. */
  function Clip(rows: seq<Feature>): Clipped {
    ClipAll(Others(rows), Geoms(Rocky(rows)))
  }

  /** The stage: rocky reefs unchanged, followed by the clipped other features. */
  function ClipRocks(rows: seq<Feature>): (r: (seq<Feature>, nat))
    ensures |r.0| + r.1 == |rows|
    ensures |Rocky(rows)| <= |r.0| && r.0[..|Rocky(rows)|] == Rocky(rows)
  {
    WhereSizes(rows, IsRocky);
    (Rocky(rows) + Clip(rows).rows, Clip(rows).skipped)
  }

  /**
   * The stage as run: building the clipped frame from an empty list with the
   * input's CRS raises a ValueError under geopandas 1.0 and later, so a run
   * whose clipping keeps no row ends there (`None`). `crs` says whether the
   * input carries one; without it the empty frame is built and the run goes on.
   */
  function ClipRocksStage(rows: seq<Feature>, crs: bool): (r: Option<(seq<Feature>, nat)>)
    ensures r.None? <==> crs && forall i :: 0 <= i < |Others(rows)| ==> ClipRow(Others(rows)[i], Geoms(Rocky(rows))).None?
    ensures r.Some? ==> r.value == ClipRocks(rows)
  {
    var c := Clip(rows);
    ClipAllKept(Others(rows), Geoms(Rocky(rows)));
    if |c.rows| > 0 then
      assert c.kept[0] in c.kept;
      Some(ClipRocks(rows))
    else if crs then None
    else Some(ClipRocks(rows))
  }

  /** The union of every rocky reef. */
  function RockCells(rows: seq<Feature>): Region {
    UnionCells(Geoms(Rocky(rows)))
  }

  lemma {:induction false} HitsCover(rocks: seq<Geom>, g: Geom)
    ensures Cells(g) * UnionCells(rocks) == Cells(g) * UnionCells(Hits(rocks, g))
  {
    if |rocks| > 0 {
      var n := |rocks| - 1;
      HitsCover(rocks[..n], g);
      assert UnionCells(rocks) == UnionCells(rocks[..n]) + Cells(rocks[n]);
      if Intersects(rocks[n], g) {
        assert Hits(rocks, g) == Hits(rocks[..n], g) + [rocks[n]];
        UnionCellsSnoc(Hits(rocks[..n], g), rocks[n]);
        MeetSameWithExtra(Cells(g), UnionCells(rocks[..n]), UnionCells(Hits(rocks[..n], g)), Cells(rocks[n]));
      } else {
        assert Hits(rocks, g) == Hits(rocks[..n], g);
        NoMeetNoShare(rocks[n], g);
        MeetSameWithDisjoint(Cells(g), UnionCells(rocks[..n]), UnionCells(Hits(rocks[..n], g)), Cells(rocks[n]));
      }
    }
  }

  lemma ClipRowNoHits(f: Feature, rocks: seq<Geom>)
    requires f.geom.Some? && |Hits(rocks, f.geom.value)| == 0
    ensures Cells(f.geom.value) * UnionCells(rocks) == {}
  {
    HitsCover(rocks, f.geom.value);
  }

  /** Two regions that meet `g` in the same cells remove the same cells from it. */
  lemma SameMeet(g: Region, u: Region, h: Region)
    requires g * u == g * h
    ensures g - u == g - h
    ensures g <= h ==> g <= u
  {
    forall x | x in g
      ensures x in u <==> x in h
    {
      assert x in u <==> x in g * u;
      assert x in h <==> x in g * h;
    }
  }

  lemma ClipRowHits(f: Feature, rocks: seq<Geom>)
    requires f.geom.Some? && |Hits(rocks, f.geom.value)| > 0
    ensures var r := ClipRow(f, rocks);
      r.Some? ==>
        r.value.geom.Some? && Cells(r.value.geom.value) == Cells(f.geom.value) - UnionCells(rocks)
        && Cells(r.value.geom.value) != {}
    ensures ClipRow(f, rocks).None? ==> Cells(f.geom.value) != {} && Cells(f.geom.value) <= UnionCells(rocks)
  {
    var g := f.geom.value;
    var hits := Hits(rocks, g);
    HitsCover(rocks, g);
    SameMeet(Cells(g), UnionCells(rocks), UnionCells(hits));
    assert hits[0] in hits;
    IntersectsSymmetric(hits[0], g);
    var a, b :| a in Cells(g) && b in Cells(hits[0]) && Near(a, b);
    var c := ClipSeq(g, hits);
    if c.Some? {
      ClipSeqChanges(g, hits);
      if IsEmpty(c.value) {
        EmptyHasNoCells(c.value);
        DiffEmpty(Cells(g), UnionCells(rocks));
      }
    }
  }

  /**
   * A kept row keeps its attributes, its geometry is the original minus every
   * rocky reef, and a row is dropped exactly when rocky reefs cover all of
   * its (non-empty) area.
   */
  lemma ClipRowSpec(f: Feature, rocks: seq<Geom>)
    requires f.geom.Some?
    ensures var r := ClipRow(f, rocks);
      r.Some? ==>
        r.value.geom.Some? && Cells(r.value.geom.value) == Cells(f.geom.value) - UnionCells(rocks)
    ensures ClipRow(f, rocks).None? <==> Cells(f.geom.value) != {} && Cells(f.geom.value) <= UnionCells(rocks)
  {
    var g := f.geom.value;
    if |Hits(rocks, g)| == 0 {
      ClipRowNoHits(f, rocks);
      assert Cells(g) - UnionCells(rocks) == Cells(g);
    } else {
      ClipRowHits(f, rocks);
    }
  }

  /** Once the first rocky reef meets the geometry, any surviving result is a fresh overlay result. */
  lemma ClipSeqChanges(g: Geom, hits: seq<Geom>)
    requires |hits| > 0 && Intersects(hits[0], g)
    requires ClipSeq(g, hits).Some?
    ensures IsEmpty(ClipSeq(g, hits).value) <==> Cells(ClipSeq(g, hits).value) == {}
  {
    IntersectsSymmetric(hits[0], g);
    var h := ProcessGeometry(Difference(g, hits[0])).value;
    ClipSeqKeepsShape(h, hits[1..]);
  }

  lemma IntersectsSymmetric(g: Geom, h: Geom)
    requires Intersects(g, h)
    ensures Intersects(h, g)
  {
    var a, b :| a in Cells(g) && b in Cells(h) && Near(a, b);
    assert Near(b, a);
  }

  /** A canonical polygon stays canonical through the clipping loop. */
  lemma {:induction false} ClipSeqKeepsShape(g: Geom, hits: seq<Geom>)
    requires g == Shape(Cells(g))
    requires ClipSeq(g, hits).Some?
    ensures ClipSeq(g, hits).value == Shape(Cells(ClipSeq(g, hits).value))
    decreases |hits|
  {
    if |hits| > 0 {
      if Intersects(g, hits[0]) {
        var h := ProcessGeometry(Difference(g, hits[0])).value;
        ClipSeqKeepsShape(h, hits[1..]);
      } else {
        ClipSeqKeepsShape(g, hits[1..]);
      }
    }
  }

  /**
   * `x` is what clipping made of `src`: the same attributes, and the area of
   * `src` outside `rockCells` (a missing geometry passes through unchanged).
   */
  predicate ClippedFrom(x: Feature, src: Feature, rockCells: Region) {
    && x.attrs == src.attrs
    && (src.geom.None? ==> x == src)
    && (src.geom.Some? ==> x.geom.Some? && Cells(x.geom.value) == Cells(src.geom.value) - rockCells)
  }

  /**
   * After the rocky reefs, the output holds one row per kept non-rocky row,
   * in order, and the `k`-th of them is clipped from the row it came from.
   */
  lemma ClipRocksOutput(rows: seq<Feature>, k: nat)
    requires k < |Clip(rows).kept|
    ensures |ClipRocks(rows).0| == |Rocky(rows)| + |Clip(rows).kept|
    ensures ClippedFrom(ClipRocks(rows).0[|Rocky(rows)| + k], Others(rows)[Clip(rows).kept[k]], RockCells(rows))
  {
    KeptClipped(Others(rows), Geoms(Rocky(rows)), k);
    ClipRocksSplit(rows);
  }

  /** The `k`-th row the loop keeps is clipped from the row it came from. */
  lemma KeptClipped(rows: seq<Feature>, rocks: seq<Geom>, k: nat)
    requires k < |ClipAll(rows, rocks).kept|
    ensures ClippedFrom(ClipAll(rows, rocks).rows[k], rows[ClipAll(rows, rocks).kept[k]], UnionCells(rocks))
  {
    var c := ClipAll(rows, rocks);
    ClipAllRows(rows, rocks, k);
    KeptRow(rows[c.kept[k]], c.rows[k], rocks);
  }

  /** The output is the rocky reefs followed by the clipped other rows. */
  lemma ClipRocksSplit(rows: seq<Feature>)
    ensures ClipRocks(rows).0 == Rocky(rows) + Clip(rows).rows
  {
  }

  /** A row `ClipRow` keeps has the source's attributes and its area minus the rocky reefs. */
  lemma KeptRow(src: Feature, x: Feature, rocks: seq<Geom>)
    requires Some(x) == ClipRow(src, rocks)
    ensures ClippedFrom(x, src, UnionCells(rocks))
  {
    if src.geom.Some? {
      ClipRowSpec(src, rocks);
    }
  }

  /** A non-rocky row is dropped exactly when rocky reefs cover all of its area. */
  lemma ClipRocksDrops(rows: seq<Feature>, i: nat)
    requires i < |Others(rows)|
    ensures i !in Clip(rows).kept <==>
      Others(rows)[i].geom.Some? && Cells(Others(rows)[i].geom.value) != {}
      && Cells(Others(rows)[i].geom.value) <= RockCells(rows)
  {
    var others := Others(rows);
    var rocks := Geoms(Rocky(rows));
    ClipAllKept(others, rocks);
    if others[i].geom.Some? {
      ClipRowSpec(others[i], rocks);
    }
  }
}

=== FILE: correct_mask.dfy ===
/**
 * Stage 06: correct the shallow mask with hand-drawn polygons. The mask and
 * the 'Add' polygons are dissolved together, the 'Remove' polygons are cut
 * out, and the result is split into single valid polygons that all copy the
 * first mask row's attributes.
 */
module CorrectMask {

  import opened Wrappers
  import opened Geometry
  import opened Tables

  const OperationColumn := "Operation"

  predicate IsAdd(f: Feature) {
    HasText(f, OperationColumn, "Add")
  }

  predicate IsRemove(f: Feature) {
    HasText(f, OperationColumn, "Remove")
  }

  /** Only valid Polygon and MultiPolygon geometries take part. */
  predicate Usable(g: Option<Geom>) {
    g.Some? && IsPolygonal(g.value) && IsValid(g.value)
  }

  function UsableGeoms(rows: seq<Feature>): (gs: seq<Geom>)
    ensures forall g :: g in gs <==> exists f :: f in rows && Usable(f.geom) && f.geom.value == g
  {
    if |rows| == 0 then []
    else
      var init := rows[..|rows| - 1];
      var last := rows[|rows| - 1];
      assert forall f :: f in rows <==> f in init || f == last by {
        assert rows == init + [last];
      }
      UsableGeoms(init) + (if Usable(last.geom) then [last.geom.value] else [])
  }

  /** The corrected mask as one geometry. */
  function Corrected(mask: seq<Feature>, corrections: seq<Feature>): Geom {
    var adds := Where(corrections, IsAdd, true);
    var removes := Where(corrections, IsRemove, true);
    var dissolved := UnionAll(UsableGeoms(mask) + UsableGeoms(adds));
    if |removes| > 0 then Difference(dissolved, UnionAll(UsableGeoms(removes)))
    else dissolved
  }

  /** The cells of every usable geometry among `rows`. */
  function UsableCells(rows: seq<Feature>): Region {
    UnionCells(UsableGeoms(rows))
  }

  /**
   * The corrected mask is exactly the usable mask and 'Add' cells minus the
   * usable 'Remove' cells: so it lies inside mask ∪ add and misses every
   * usable 'Remove' polygon.
   */
  lemma CorrectedCells(mask: seq<Feature>, corrections: seq<Feature>)
    ensures Cells(Corrected(mask, corrections))
      == (UsableCells(mask) + UsableCells(Where(corrections, IsAdd, true)))
         - UsableCells(Where(corrections, IsRemove, true))
  {
    var adds := Where(corrections, IsAdd, true);
    var removes := Where(corrections, IsRemove, true);
    UnionCellsConcat(UsableGeoms(mask), UsableGeoms(adds));
    if |removes| == 0 {
      assert UsableGeoms(removes) == [];
    }
  }

  // ---------------------------------------------------------------------------
  // Single-part explode

  /** The parts of a Polygon or MultiPolygon that are valid and not empty. */
  function PolygonalParts(g: Geom): (r: seq<Polygon>)
    ensures forall p :: p in r ==> p.valid && p.cells != {}
  {
    match g
    case Poly(p) => if p.valid && p.cells != {} then [p] else []
    case Multi(ps) => ValidNonEmpty(ps)
    case _ => []
  }

  function MembersParts(ms: seq<Geom>): (r: seq<Polygon>)
    ensures forall p :: p in r ==> p.valid && p.cells != {}
  {
    if |ms| == 0 then [] else MembersParts(ms[..|ms| - 1]) + PolygonalParts(ms[|ms| - 1])
  }

  /**
   * The explode step: a polygonal result gives its valid non-empty parts; any
   * other kind gives those of its polygonal members, or nothing when it has no
   * members.
   */
  function SingleParts(g: Geom): (r: seq<Polygon>)
    ensures forall p :: p in r ==> p.valid && p.cells != {}
  {
    if IsPolygonal(g) then PolygonalParts(g)
    else if g.Coll? then MembersParts(g.members)
    else []
  }

  /** Exploding a valid Polygon or MultiPolygon loses no area. */
  lemma ExplodeKeepsCells(g: Geom)
    requires IsPolygonal(g) && IsValid(g)
    ensures PartsCells(SingleParts(g)) == Cells(g)
  {
    if g.Multi? {
      PartsCellsValidNonEmpty(g.parts);
    } else if g.poly.cells == {} {
      assert SingleParts(g) == [];
    } else {
      assert SingleParts(g) == [g.poly];
      assert [g.poly][..0] == [];
    }
  }

  // ---------------------------------------------------------------------------
  // The stage

  /** What the stage produces: no file, a crash, or the corrected rows. */
  datatype Outcome = NoParts | TemplateMissing | Written(rows: seq<Feature>)

  function Templated(template: Feature, parts: seq<Polygon>): (rows: seq<Feature>)
    ensures |rows| == |parts|
    ensures forall k :: 0 <= k < |rows| ==> rows[k] == WithGeom(template, Some(Poly(parts[k])))
  {
    if |parts| == 0 then []
    else Templated(template, parts[..|parts| - 1]) + [WithGeom(template, Some(Poly(parts[|parts| - 1])))]
  }

  /**
   * The stage. The correction layer must have an Operation column, as selecting
   * the 'Add' and 'Remove' rows on a missing one raises KeyError.
   */
  function CorrectShallowMask(mask: seq<Feature>, corrections: Table): (r: Outcome)
    requires OperationColumn in corrections.columns
    ensures r.Written? ==> |mask| > 0 && |r.rows| > 0
    ensures r.Written? ==> forall k :: 0 <= k < |r.rows| ==>
      r.rows[k].attrs == mask[0].attrs && r.rows[k].geom.Some? && r.rows[k].geom.value.Poly?
      && r.rows[k].geom.value.poly.valid && r.rows[k].geom.value.poly.cells != {}
    ensures r == NoParts <==> |SingleParts(Corrected(mask, corrections.rows))| == 0
    ensures r == TemplateMissing <==> |SingleParts(Corrected(mask, corrections.rows))| > 0 && |mask| == 0
  {
    var parts := SingleParts(Corrected(mask, corrections.rows));
    if |parts| == 0 then NoParts
    else if |mask| == 0 then TemplateMissing
    else
      var rows := Templated(mask[0], parts);
      assert forall k :: 0 <= k < |rows| ==> parts[k] in parts;
      Written(rows)
  }

  /** The written polygons together cover exactly the corrected mask. */
  lemma ExplodeCoversCorrected(mask: seq<Feature>, corrections: seq<Feature>)
    ensures PartsCells(SingleParts(Corrected(mask, corrections))) == Cells(Corrected(mask, corrections))
  {
    var g := Corrected(mask, corrections);
    if Cells(g) == {} {
      assert g == Empty;
    } else {
      ExplodeKeepsCells(g);
    }
  }

  /** A correction whose Operation is neither 'Add' nor 'Remove' changes nothing. */
  lemma OtherOperationsIgnored(mask: seq<Feature>, corrections: seq<Feature>, x: Feature)
    requires !IsAdd(x) && !IsRemove(x)
    ensures Corrected(mask, corrections + [x]) == Corrected(mask, corrections)
  {
    var c := corrections + [x];
    assert c[..|c| - 1] == corrections;
    assert Where(c, IsAdd, true) == Where(corrections, IsAdd, true);
    assert Where(c, IsRemove, true) == Where(corrections, IsRemove, true);
  }

  /** A mask row without a usable geometry changes nothing. */
  lemma UnusableMaskRowIgnored(mask: seq<Feature>, corrections: seq<Feature>, x: Feature)
    requires !Usable(x.geom)
    ensures Corrected(mask + [x], corrections) == Corrected(mask, corrections)
  {
    var m := mask + [x];
    assert m[..|m| - 1] == mask;
    assert UsableGeoms(m) == UsableGeoms(mask);
  }
}

=== FILE: crosswalk_v03.dfy ===
/**
 * Stage 03: translate the reef-boundary classification (`RB_Type_L3`) into
 * the v0-3 attribute set. Rows without a geometry are dropped, two columns are
 * renamed, the edge accuracy is parsed into an integer, six new attributes are
 * looked up from the class, only the schema's columns are kept and every row
 * is numbered with a DebugID.
 */
module CrossWalkV03 {

  import opened Wrappers
  import opened Geometry
  import opened Tables
  import opened Text

  // ---------------------------------------------------------------------------
  // The class table

  /** The six attributes a reef-boundary class maps to. */
  datatype Attrs = Attrs(feat: Value, geoAttach: Value, relief: Value, flowInflu: Value, so: Value, paleo: Value)

  function A(feat: string, geoAttach: string, relief: string, flowInflu: string, so: string, paleo: string): Attrs {
    Attrs(Str(feat), Str(geoAttach), Str(relief), Str(flowInflu), Str(so), Str(paleo))
  }

  /** `MAP`: the attribute set of each known `RB_Type_L3` class. */
  const ClassMap: map<string, Attrs> := map[
    "Platform Coral Reef" := A("Coral Reef Shallow", "Isolated", "High", "No", "Carbonate", "No"),
    "Deep Platform Coral Reef" := A("Coral Reef Deep", "Isolated", "", "No", "Carbonate", "No").(relief := Null),
    "Fringing Coral Reef" := A("Coral Reef Shallow", "Fringing", "High", "No", "Carbonate", "No"),
    "High Intertidal Coral Reef" := A("High Intertidal Coral Reef", "Fringing", "High", "No", "Carbonate", "No"),
    "Fringing Shallow Reef Flat" := A("Reef Flat Shallow", "Fringing", "Low", "No", "Carbonate", "No"),
    "Platform Shallow Reef Flat" := A("Reef Flat Shallow", "Isolated", "Low", "No", "Carbonate", "No"),
    "Stromatolite Reef" := A("Stromatolite Reef", "Fringing", "Low", "No", "Carbonate", "No"),
    "Platform Rocky Reef" := A("Rocky Reef", "Isolated", "High", "No", "Terrigenous", "No"),
    "Fringing Rocky Reef" := A("Rocky Reef", "Fringing", "High", "No", "Terrigenous", "No"),
    "Low Relief Rocky Reef" := A("Rocky Reef", "Isolated", "Low", "No", "Terrigenous", "No"),
    "Fringing Paleo Coast Rocky Reef" := A("Rocky Reef", "Isolated", "High", "No", "Terrigenous", "Yes"),
    "Paleo Coast Rocky Reef" := A("Rocky Reef", "Isolated", "High", "No", "Terrigenous", "Yes"),
    "Shallow Sediment" := A("Shallow Sediment", "Fringing", "NA", "No", "Terrigenous", "No"),
    "Sand Bank" := A("Sand Bank", "Isolated", "Medium", "No", "Terrigenous", "No"),
    "Atoll Shallow Patch Coral Reef" := A("Coral Reef Shallow", "Atoll Lagoon", "High", "No", "Carbonate", "No"),
    "Atoll Deep Patch Coral Reef" := A("Coral Reef Deep", "Atoll Lagoon", "Medium", "No", "Carbonate", "No"),
    "Atoll Shallow Rim Coral Reef" := A("Coral Reef Shallow", "Atoll Rim", "High", "No", "Carbonate", "No"),
    "Atoll Shallow Flow Coral Reef" := A("Coral Reef Shallow", "Atoll Rim", "Medium", "Yes", "Carbonate", "No"),
    "Atoll Deep Flow Coral Reef" := A("Coral Reef Deep", "Atoll Rim", "Medium", "Yes", "Carbonate", "No"),
    "Atoll Shallow Platform Coral Reef" := A("Coral Reef Shallow", "Atoll Platform", "High", "No", "Carbonate", "No"),
    "Atoll Deep Platform Coral Reef" := A("Coral Reef Deep", "Atoll Platform", "Medium", "No", "Carbonate", "No"),
    "Atoll Platform" := A("Atoll Platform", "Atoll Platform", "High", "No", "Carbonate", "No"),
    "Vegetated Cay" := A("Cay Vegetated", "Land", "Medium", "No", "Carbonate", "No"),
    "Unvegetated Cay" := A("Cay Unvegetated", "Land", "Medium", "No", "Carbonate", "No"),
    "Island" := A("Island", "Land", "High", "No", "Terrigenous", "No"),
    "Mainland" := A("Mainland", "Land", "High", "No", "Terrigenous", "No"),
    "Man Made" := A("Artificial Structure", "Isolated", "High", "No", "NA", "No")]

  /** What an unmapped class gets: 'Unknown' throughout, except Paleo 'N'. */
  const Fallback := A("Unknown", "Unknown", "Unknown", "Unknown", "Unknown", "N")

  /** `translate_row`: the class's attributes, or the fallback for a missing or unknown class. */
  function Translate(rb: Value): (a: Attrs)
    ensures rb.Str? && rb.s in ClassMap ==> a == ClassMap[rb.s]
    ensures !(rb.Str? && rb.s in ClassMap) ==> a == Fallback
  {
    if rb.Str? && rb.s in ClassMap then ClassMap[rb.s] else Fallback
  }

  /** The new columns, in order. */
  const NewColumns: seq<string> := ["Feat_L3", "GeoAttach", "Relief", "FlowInflu", "SO_L2", "Paleo"]

  function AttrOf(a: Attrs, c: string): Value
    requires c in NewColumns
  {
    if c == "Feat_L3" then a.feat
    else if c == "GeoAttach" then a.geoAttach
    else if c == "Relief" then a.relief
    else if c == "FlowInflu" then a.flowInflu
    else if c == "SO_L2" then a.so
    else a.paleo
  }

  /** No known class is unknown: 'Unknown' in Feat_L3 marks exactly the unmapped rows. */
  lemma UnknownIffUnmapped(rb: Value)
    ensures Translate(rb).feat == Str("Unknown") <==> !(rb.Str? && rb.s in ClassMap)
  {
  }

  /** The class table leaves one attribute null: the relief of deep platform coral reefs. */
  lemma OnlyDeepPlatformReliefNull(rb: Value)
    ensures Translate(rb).relief == Null <==> rb == Str("Deep Platform Coral Reef")
    ensures Translate(rb).feat != Null && Translate(rb).geoAttach != Null && Translate(rb).flowInflu != Null
      && Translate(rb).so != Null && Translate(rb).paleo != Null
  {
  }

  // ---------------------------------------------------------------------------
  // Edge accuracy

  /** `str(raw).strip().upper() == 'NA'`. */
  predicate IsNaText(t: string) {
    |t| == 2 && (t[0] == 'N' || t[0] == 'n') && (t[1] == 'A' || t[1] == 'a')
  }

  /**
   * The EdgeAcc_m conversion: null, 'NA' in any case and blank text become
   * null; anything else is read with `int`, and what `int` rejects becomes null.
   */
  function EdgeAcc(raw: Value): (r: Value)
    ensures !r.Str?
    ensures raw.Null? ==> r.Null?
    ensures raw.Int? ==> r == raw
  {
    match raw
    case Null => Null
    case Int(n) => Int(n)
    case Str(s) =>
      var t := Strip(s);
      if IsNaText(t) || t == "" then Null
      else
        match ParsePyInt(s)
        case Some(n) => Int(n)
        case None => Null
  }

  /**
   * The special cases are subsumed by `int`: text becomes a number exactly when
   * Python's `int` accepts it.
   */
  lemma EdgeAccText(s: string)
    ensures EdgeAcc(Str(s)) == if ParsePyInt(s).Some? then Int(ParsePyInt(s).value) else Null
  {
    var t := Strip(s);
    if IsNaText(t) || t == "" {
      NoNumberStart(s);
    }
  }

  /**
   * An accuracy written as Python prints an integer, padded or not, reads back
   * as that integer, as long as `int` accepts that many digits.
   */
  lemma EdgeAccRoundTrip(i: int, pad: string)
    requires AllBlank(IntSpacing, pad) && DigitCount(i) <= MaxStrDigits
    ensures EdgeAcc(Str(pad + ShowInt(i) + pad)) == Int(i)
  {
    EdgeAccText(pad + ShowInt(i) + pad);
    ParsePyIntIgnoresPadding(ShowInt(i), pad);
    ParseShowInt(i);
  }

  /**
   * An accuracy preceded by an information separator (U+001C..U+001F) is null:
   * `strip` would remove the separator, but `int` does not skip it.
   */
  lemma SeparatorPaddedNull(c: char, s: string)
    requires IsSeparator(c)
    ensures EdgeAcc(Str([c] + s)) == Null
  {
    EdgeAccText([c] + s);
    SeparatorRefused(c, s);
  }

  // ---------------------------------------------------------------------------
  // The stage

  /** The input columns the stage keeps, under their new names, in order. */
  const KeptColumns: seq<string> := [
    "EdgeSrc", "Notes", "FeatConf", "TypeConf", "EdgeAcc_m", "RB_Type_L3", "DepthCat", "DepthCatSr"]

  /** The output columns, in order: the kept ones, the new ones and the DebugID. */
  const OutputColumns: seq<string> := KeptColumns + NewColumns + ["DebugID"]

  /** Every kept column exists once the columns are renamed; the stage raises otherwise. */
  predicate HasSchema(columns: seq<string>) {
    forall c :: c in KeptColumns ==> SourceColumn(columns, c) in columns
  }

  /** A row survives the filter when its geometry is present and not empty. */
  predicate HasGeometry(f: Feature) {
    f.geom.Some? && !IsEmpty(f.geom.value)
  }

  /** The value output row `k` holds in column `c`, made from input row `f`. */
  function OutputValue(columns: seq<string>, f: Feature, k: nat, c: string): Value {
    if c in NewColumns then AttrOf(Translate(Get(f, SourceColumn(columns, "RB_Type_L3"))), c)
    else if c == "DebugID" then Str("NW_" + ShowNat(k))
    else if c == "EdgeAcc_m" then EdgeAcc(Get(f, SourceColumn(columns, c)))
    else Get(f, SourceColumn(columns, c))
  }

  /** Output row `k` made from input row `f`. */
  function CrossWalkRow(columns: seq<string>, f: Feature, k: nat): (r: Feature)
    ensures r.geom == f.geom
    ensures forall c :: c in r.attrs <==> c in OutputColumns
  {
    Feature(map c | c in OutputColumns :: OutputValue(columns, f, k, c), f.geom)
  }

  function CrossWalkRows(columns: seq<string>, rows: seq<Feature>): (r: seq<Feature>)
    ensures |r| == |rows|
    ensures forall k :: 0 <= k < |rows| ==> r[k] == CrossWalkRow(columns, rows[k], k)
  {
    seq(|rows|, k requires 0 <= k < |rows| => CrossWalkRow(columns, rows[k], k))
  }

  /** The range of pandas' nullable `Int64`; null always fits. */
  predicate FitsInt64(v: Value) {
    !v.Int? || -0x8000_0000_0000_0000 <= v.n < 0x8000_0000_0000_0000
  }

  /** Some row's converted accuracy lies outside `Int64`, so the cast to `Int64` raises. */
  predicate CastOverflows(columns: seq<string>, rows: seq<Feature>) {
    exists k :: 0 <= k < |rows| && !FitsInt64(EdgeAcc(Get(rows[k], SourceColumn(columns, "EdgeAcc_m"))))
  }

  /**
   * What the stage produces: nothing over an existing output, nothing without
   * input, nothing when the cast to `Int64` raises, or the table.
   */
  datatype Outcome = OutputExists | InputMissing | CastOverflow | Written(table: Table)

  /**
   * The stage, with the existence of its output file and its input as
   * parameters. An existing output is never overwritten.
   */
  function CrossWalk(outputExists: bool, input: Option<Table>): (r: Outcome)
    requires input.Some? ==> HasSchema(input.value.columns)
    ensures outputExists <==> r == OutputExists
    ensures r == InputMissing <==> !outputExists && input.None?
    ensures r == CastOverflow <==>
      !outputExists && input.Some? && CastOverflows(input.value.columns, Where(input.value.rows, HasGeometry, true))
    ensures r.Written? ==> (r.table.columns == OutputColumns
      && |r.table.rows| == |Where(input.value.rows, HasGeometry, true)|)
  {
    if outputExists then OutputExists
    else if input.None? then InputMissing
    else
      var t := input.value;
      var kept := Where(t.rows, HasGeometry, true);
      if CastOverflows(t.columns, kept) then CastOverflow
      else Written(Table(OutputColumns, CrossWalkRows(t.columns, kept)))
  }

  /**
   * An accuracy printed beyond the `Int64` range, but within the digits `int`
   * accepts, makes the cast raise.
   */
  lemma LargeAccuracyOverflows(i: int)
    requires i >= 0x8000_0000_0000_0000 || i < -0x8000_0000_0000_0000
    requires DigitCount(i) <= MaxStrDigits
    ensures !FitsInt64(EdgeAcc(Str(ShowInt(i))))
  {
    EdgeAccText(ShowInt(i));
    ParseShowInt(i);
  }

  /** An accuracy of more digits than `int` accepts is caught and becomes null. */
  lemma LongAccuracyNull(i: int)
    requires DigitCount(i) > MaxStrDigits
    ensures EdgeAcc(Str(ShowInt(i))) == Null
  {
    EdgeAccText(ShowInt(i));
    LongNumberRejected(i);
  }

  /** Every written accuracy fits `Int64`. */
  lemma WrittenFitsInt64(outputExists: bool, input: Option<Table>, k: nat)
    requires input.Some? ==> HasSchema(input.value.columns)
    requires CrossWalk(outputExists, input).Written?
    requires k < |CrossWalk(outputExists, input).table.rows|
    ensures FitsInt64(Get(CrossWalk(outputExists, input).table.rows[k], "EdgeAcc_m"))
  {
    var t := input.value;
    var kept := Where(t.rows, HasGeometry, true);
    assert CrossWalk(outputExists, input).table.rows[k] == CrossWalkRow(t.columns, kept[k], k);
    CrossWalkRowKept(t.columns, kept[k], k, "EdgeAcc_m");
  }

  /** An output row carries the input row's kept columns, the edge accuracy converted. */
  lemma CrossWalkRowKept(columns: seq<string>, f: Feature, k: nat, c: string)
    requires c in KeptColumns
    ensures Get(CrossWalkRow(columns, f, k), c)
      == if c == "EdgeAcc_m" then EdgeAcc(Get(f, SourceColumn(columns, c))) else Get(f, SourceColumn(columns, c))
  {
    assert c in OutputColumns && c !in NewColumns && c != "DebugID";
    assert Get(CrossWalkRow(columns, f, k), c) == OutputValue(columns, f, k, c);
  }

  /** An output row carries the attributes of its own class. */
  lemma CrossWalkRowClass(columns: seq<string>, f: Feature, k: nat, c: string)
    requires c in NewColumns
    ensures var r := CrossWalkRow(columns, f, k);
      Get(r, c) == AttrOf(Translate(Get(r, "RB_Type_L3")), c)
  {
    CrossWalkRowKept(columns, f, k, "RB_Type_L3");
  }

  /** Output row `k` is numbered 'NW_k'. */
  lemma CrossWalkRowId(columns: seq<string>, f: Feature, k: nat)
    ensures Get(CrossWalkRow(columns, f, k), "DebugID") == Str("NW_" + ShowNat(k))
  {
  }

  /** Written row `k` is numbered 'NW_k'. */
  lemma WrittenId(outputExists: bool, input: Option<Table>, k: nat)
    requires input.Some? ==> HasSchema(input.value.columns)
    requires CrossWalk(outputExists, input).Written?
    requires k < |CrossWalk(outputExists, input).table.rows|
    ensures Get(CrossWalk(outputExists, input).table.rows[k], "DebugID") == Str("NW_" + ShowNat(k))
  {
    var t := input.value;
    var kept := Where(t.rows, HasGeometry, true);
    assert CrossWalk(outputExists, input).table.rows[k] == CrossWalkRow(t.columns, kept[k], k);
    CrossWalkRowId(t.columns, kept[k], k);
  }

  /** No two written rows share a DebugID. */
  lemma CrossWalkIds(outputExists: bool, input: Option<Table>, a: nat, b: nat)
    requires input.Some? ==> HasSchema(input.value.columns)
    requires CrossWalk(outputExists, input).Written?
    requires a < b < |CrossWalk(outputExists, input).table.rows|
    ensures Get(CrossWalk(outputExists, input).table.rows[a], "DebugID")
      != Get(CrossWalk(outputExists, input).table.rows[b], "DebugID")
  {
    var p := "NW_";
    WrittenId(outputExists, input, a);
    WrittenId(outputExists, input, b);
    ShowNatInjective(a, b);
    assert (p + ShowNat(a))[|p|..] == ShowNat(a);
    assert (p + ShowNat(b))[|p|..] == ShowNat(b);
  }

  /** Every written row has a non-empty geometry, and every such input row is written. */
  lemma CrossWalkKeepsGeometries(outputExists: bool, input: Option<Table>, f: Feature)
    requires input.Some? ==> HasSchema(input.value.columns)
    requires CrossWalk(outputExists, input).Written?
    ensures f in CrossWalk(outputExists, input).table.rows ==> HasGeometry(f)
    ensures f in input.value.rows && HasGeometry(f) ==>
      exists k :: CrossWalkRow(input.value.columns, f, k) in CrossWalk(outputExists, input).table.rows
  {
    var t := input.value;
    var kept := Where(t.rows, HasGeometry, true);
    var rows := CrossWalk(outputExists, input).table.rows;
    if f in rows {
      var k :| 0 <= k < |rows| && rows[k] == f;
      assert kept[k] in kept;
    }
    if f in t.rows && HasGeometry(f) {
      var k :| 0 <= k < |kept| && kept[k] == f;
      assert rows[k] == CrossWalkRow(t.columns, f, k);
    }
  }
}

=== FILE: crosswalk_v04.dfy ===
/**
 * Stage 09: the v0-4 class cross-walk. Polygon rings are turned to the
 * standard winding and any exterior still not counter-clockwise is reported;
 * a lookup table maps each old RB_Type_L3 to the new class and its
 * Attachment, after splitting multi-valued keys; the features are left-joined
 * to it and reduced to the kept columns.
 */
module CrossWalkV04 {

  import opened Wrappers
  import opened Tables
  import opened Text

  // ---------------------------------------------------------------------------
  // Ring winding
  // ---------------------------------------------------------------------------

  /** A vertex: its x and y coordinates. */
  type Point = (real, real)

  /** The cross product of two position vectors. */
  function Cross(p: Point, q: Point): real {
    p.0 * q.1 - q.0 * p.1
  }

  /**
   * Twice the signed area of a ring given by its vertex sequence (closed, the
   * last vertex repeating the first): positive for counter-clockwise.
   */
  function Shoelace(ring: seq<Point>): real
    decreases |ring|
  {
    if |ring| < 2 then 0.0 else Cross(ring[0], ring[1]) + Shoelace(ring[1..])
  }

  /** The ring traversed backwards. */
  function Reverse(ring: seq<Point>): (r: seq<Point>)
    ensures |r| == |ring|
    ensures forall i :: 0 <= i < |r| ==> r[i] == ring[|ring| - 1 - i]
  {
    if |ring| == 0 then [] else Reverse(ring[1..]) + [ring[0]]
  }

  lemma {:induction false} ShoelaceSnoc(ring: seq<Point>, p: Point)
    requires |ring| >= 1
    ensures Shoelace(ring + [p]) == Shoelace(ring) + Cross(ring[|ring| - 1], p)
    decreases |ring|
  {
    if |ring| == 1 {
      assert (ring + [p])[1..] == [p];
    } else {
      assert (ring + [p])[1..] == ring[1..] + [p];
      ShoelaceSnoc(ring[1..], p);
    }
  }

  /** Reversing a ring negates its signed area: it then turns the other way. */
  lemma {:induction false} ReverseNegates(ring: seq<Point>)
    ensures Shoelace(Reverse(ring)) == -Shoelace(ring)
    decreases |ring|
  {
    if |ring| >= 2 {
      var rest := ring[1..];
      ReverseNegates(rest);
      ShoelaceSnoc(Reverse(rest), ring[0]);
    }
  }

  /** Reversing twice gives the ring back. */
  lemma ReverseReverse(ring: seq<Point>)
    ensures Reverse(Reverse(ring)) == ring
  {
  }

  /**
   * `ring.is_ccw`, by the sign of the enclosed area. GEOS decides by the turn
   * at the highest vertex instead; the two agree on simple rings.
   */
  predicate IsCcw(ring: seq<Point>) {
    Shoelace(ring) > 0.0
  }

  /** A polygon as rings: the exterior and the interiors (holes). */
  datatype RingPolygon = RingPolygon(exterior: seq<Point>, interiors: seq<seq<Point>>)

  /** A geometry as the scan sees it: a Polygon, a MultiPolygon, or anything else. */
  datatype Rings = RPoly(poly: RingPolygon) | RMulti(parts: seq<RingPolygon>) | ROther

  /** A ring turned so its signed area is not negative (`sign` = 1), or not positive (`sign` = -1). */
  function OrientRing(ring: seq<Point>, ccw: bool): (r: seq<Point>)
    ensures r == ring || r == Reverse(ring)
    ensures if ccw then Shoelace(r) >= 0.0 else Shoelace(r) <= 0.0
    ensures Shoelace(r) == Shoelace(ring) || Shoelace(r) == -Shoelace(ring)
  {
    ReverseNegates(ring);
    if (Shoelace(ring) >= 0.0) == ccw || Shoelace(ring) == 0.0 then ring else Reverse(ring)
  }

  /**
   * `orient(polygon, sign=1.0)`: the exterior turned counter-clockwise and
   * the interiors clockwise; a ring already turned right, or enclosing no
   * area, is kept as it is.
   */
  function Orient(p: RingPolygon): (r: RingPolygon)
    ensures Shoelace(r.exterior) >= 0.0
    ensures |r.interiors| == |p.interiors|
    ensures forall i :: 0 <= i < |r.interiors| ==> Shoelace(r.interiors[i]) <= 0.0
  {
    RingPolygon(OrientRing(p.exterior, true),
                seq(|p.interiors|, i requires 0 <= i < |p.interiors| => OrientRing(p.interiors[i], false)))
  }

  /** `fix_winding`: orient a Polygon, or each part of a MultiPolygon; anything else is kept. */
  function FixWinding(g: Rings): (r: Rings)
    ensures g.ROther? ==> r == g
    ensures g.RPoly? ==> r == RPoly(Orient(g.poly))
    ensures g.RMulti? ==> r.RMulti? && |r.parts| == |g.parts|
                          && forall i :: 0 <= i < |r.parts| ==> r.parts[i] == Orient(g.parts[i])
  {
    match g
    case RPoly(p) => RPoly(Orient(p))
    case RMulti(ps) => RMulti(seq(|ps|, i requires 0 <= i < |ps| => Orient(ps[i])))
    case ROther => g
  }

  /** The scan's test: a Polygon whose exterior is not counter-clockwise, or a MultiPolygon with such a part. */
  predicate WindingFlagged(g: Rings) {
    match g
    case RPoly(p) => !IsCcw(p.exterior)
    case RMulti(ps) => exists i :: 0 <= i < |ps| && !IsCcw(ps[i].exterior)
    case ROther => false
  }

  /** A Polygon exterior, or a MultiPolygon part's exterior, enclosing no area. */
  predicate HasFlatExterior(g: Rings) {
    match g
    case RPoly(p) => Shoelace(p.exterior) == 0.0
    case RMulti(ps) => exists i :: 0 <= i < |ps| && Shoelace(ps[i].exterior) == 0.0
    case ROther => false
  }

  /** After the fix, the scan reports exactly the geometries with an exterior enclosing no area. */
  lemma FixedFlagged(g: Rings)
    ensures WindingFlagged(FixWinding(g)) <==> HasFlatExterior(g)
  {
    ReverseNegatesAll(g);
  }

  lemma ReverseNegatesAll(g: Rings)
    ensures g.RPoly? ==> Shoelace(Reverse(g.poly.exterior)) == -Shoelace(g.poly.exterior)
    ensures g.RMulti? ==> forall i :: 0 <= i < |g.parts| ==>
      Shoelace(Reverse(g.parts[i].exterior)) == -Shoelace(g.parts[i].exterior)
  {
    if g.RPoly? {
      ReverseNegates(g.poly.exterior);
    } else if g.RMulti? {
      forall i | 0 <= i < |g.parts| {
        ReverseNegates(g.parts[i].exterior);
      }
    }
  }

  lemma OrientIdempotent(p: RingPolygon)
    ensures Orient(Orient(p)) == Orient(p)
  {
    var once := Orient(p);
    assert Orient(once).interiors == once.interiors;
  }

  /** Fixing the winding twice changes nothing more. */
  lemma FixWindingIdempotent(g: Rings)
    ensures FixWinding(FixWinding(g)) == FixWinding(g)
  {
    if g.RPoly? {
      OrientIdempotent(g.poly);
    } else if g.RMulti? {
      var once := FixWinding(g);
      forall i | 0 <= i < |once.parts| {
        OrientIdempotent(g.parts[i]);
      }
      assert FixWinding(once).parts == once.parts;
    }
  }

  /** The indices of the scanned geometries that are reported, in increasing order. */
  function WindingWarnings(gs: seq<Rings>): (r: seq<nat>)
    ensures forall i: nat :: i in r <==> i < |gs| && WindingFlagged(gs[i])
    ensures forall a, b :: 0 <= a < b < |r| ==> r[a] < r[b]
  {
    if |gs| == 0 then []
    else
      var n := |gs| - 1;
      var init := WindingWarnings(gs[..n]);
      assert forall i :: 0 <= i < n ==> gs[..n][i] == gs[i];
      forall a | 0 <= a < |init|
        ensures init[a] < n
      {
        var x: nat := init[a];
        assert x in init;
      }
      init + (if WindingFlagged(gs[n]) then [n] else [])
  }

  // ---------------------------------------------------------------------------
  // Lookup-table preparation
  // ---------------------------------------------------------------------------

  const ClassColumn := "RB_Type_L3"
  const OldClass := "RB_Type_L3_v0-3"
  const NewClass := "RB_Type_L3_v0-4"
  const AttachmentColumn := "Attachment"

  /** `astype(str)` on a cell. */
  function AsText(v: Value): string {
    match v
    case Str(s) => s
    case Int(n) => ShowInt(n)
    case Null => "nan"
  }

  /** A usable lookup key: not empty, free of semicolons and of surrounding whitespace. */
  predicate IsKey(k: string) {
    k != "" && ';' !in k && Strip(k) == k
  }

  /** The pieces stripped, the empty ones dropped, in order. */
  function StrippedPieces(ps: seq<string>): (ks: seq<string>)
    requires forall i :: 0 <= i < |ps| ==> ';' !in ps[i]
    ensures forall k :: k in ks ==> IsKey(k)
    ensures forall k :: k in ks <==> k != "" && exists p :: p in ps && Strip(p) == k
  {
    if |ps| == 0 then []
    else
      var n := |ps| - 1;
      var init := StrippedPieces(ps[..n]);
      var k := Strip(ps[n]);
      assert forall p :: p in ps <==> p in ps[..n] || p == ps[n] by {
        assert ps == ps[..n] + [ps[n]];
      }
      StripIdempotent(ps[n]);
      assert ';' !in k by {
        if ';' in k {
          StripWithin(ps[n], ';');
        }
      }
      init + (if k == "" then [] else [k])
  }

  /** The keys one lookup cell stands for: its text split at semicolons, stripped, empty pieces dropped. */
  function KeyParts(s: string): (ks: seq<string>)
    ensures forall k :: k in ks ==> IsKey(k)
    ensures forall k :: k in ks <==> k != "" && exists p :: p in Split(s, ';') && Strip(p) == k
  {
    StrippedPieces(Split(s, ';'))
  }

  /** A lookup row with its old-class cell replaced by one key. */
  function Keyed(f: Feature, k: string): Feature {
    f.(attrs := f.attrs[OldClass := Str(k)])
  }

  /** Lookup row `f` has a non-null old class that stands for key `k`. */
  predicate SplitsTo(f: Feature, k: string) {
    Get(f, OldClass) != Null && k in KeyParts(AsText(Get(f, OldClass)))
  }

  function Explode(f: Feature, ks: seq<string>): (r: seq<Feature>)
    ensures |r| == |ks|
    ensures forall i :: 0 <= i < |r| ==> r[i] == Keyed(f, ks[i])
  {
    seq(|ks|, i requires 0 <= i < |ks| => Keyed(f, ks[i]))
  }

  /** One lookup row after the null filter and the split: one row per key it stands for. */
  function ExpandRow(f: Feature): (r: seq<Feature>)
    ensures forall x :: x in r <==> exists k :: SplitsTo(f, k) && x == Keyed(f, k)
  {
    if Get(f, OldClass) == Null then []
    else
      var ks := KeyParts(AsText(Get(f, OldClass)));
      var r := Explode(f, ks);
      assert forall x :: x in r ==> exists i :: 0 <= i < |ks| && x == Keyed(f, ks[i]);
      r
  }

  /**
   * The lookup table as the stage prepares it: rows with a null old class
   * dropped, and every other row exploded into one row per key.
   */
  function PrepareLut(rows: seq<Feature>): (r: seq<Feature>)
    ensures forall x :: x in r <==> exists f, k :: f in rows && SplitsTo(f, k) && x == Keyed(f, k)
  {
    if |rows| == 0 then []
    else
      var n := |rows| - 1;
      assert forall f :: f in rows <==> f in rows[..n] || f == rows[n] by {
        assert rows == rows[..n] + [rows[n]];
      }
      PrepareLut(rows[..n]) + ExpandRow(rows[n])
  }

  /** Every prepared row carries a usable key, and only the key cell differs from its source row. */
  lemma PreparedKeys(rows: seq<Feature>, x: Feature)
    requires x in PrepareLut(rows)
    ensures Get(x, OldClass).Str? && IsKey(Get(x, OldClass).s)
    ensures exists f :: f in rows && Get(f, OldClass) != Null
                        && forall c :: c != OldClass ==> Get(x, c) == Get(f, c)
  {
    var f, k :| f in rows && SplitsTo(f, k) && x == Keyed(f, k);
    KeyedCells(f, k);
  }

  lemma KeyedCells(f: Feature, k: string)
    ensures Get(Keyed(f, k), OldClass) == Str(k)
    ensures forall c :: c != OldClass ==> Get(Keyed(f, k), c) == Get(f, c)
  {
  }

  /** The key cells of the lookup rows, in order. */
  function Keys(lut: seq<Feature>): (ks: seq<Value>)
    ensures |ks| == |lut|
    ensures forall i :: 0 <= i < |lut| ==> ks[i] == Get(lut[i], OldClass)
  {
    seq(|lut|, i requires 0 <= i < |lut| => Get(lut[i], OldClass))
  }

  /** No two positions hold the same value. */
  predicate DistinctValues(vs: seq<Value>) {
    forall i, j :: 0 <= i < j < |vs| ==> vs[i] != vs[j]
  }

  /**
   * `vs[vs.duplicated()]`: each value that repeats an earlier one, in order of
   * position.
   */
  function Duplicated(vs: seq<Value>): (d: seq<Value>)
    ensures forall v :: v in d <==> exists i, j :: 0 <= i < j < |vs| && vs[i] == v && vs[j] == v
    ensures |d| == 0 <==> DistinctValues(vs)
  {
    if |vs| == 0 then []
    else
      var n := |vs| - 1;
      var init := Duplicated(vs[..n]);
      var more := if vs[n] in vs[..n] then [vs[n]] else [];
      assert forall i, j :: 0 <= i < j < n ==> vs[..n][i] == vs[i] && vs[..n][j] == vs[j];
      init + more
  }

  // ---------------------------------------------------------------------------
  // The join
  // ---------------------------------------------------------------------------

  /** The first lookup row whose key cell equals `v`. */
  function Lookup(lut: seq<Feature>, v: Value): (m: Option<Feature>)
    ensures m.Some? ==> m.value in lut && Get(m.value, OldClass) == v
    ensures m.None? <==> forall x :: x in lut ==> Get(x, OldClass) != v
  {
    if |lut| == 0 then None
    else if Get(lut[0], OldClass) == v then Some(lut[0])
    else
      assert forall x :: x in lut ==> x == lut[0] || x in lut[1..];
      Lookup(lut[1..], v)
  }

  /** With distinct keys, the row found is the only one with that key. */
  lemma LookupUnique(lut: seq<Feature>, x: Feature)
    requires DistinctValues(Keys(lut))
    requires x in lut
    ensures Lookup(lut, Get(x, OldClass)) == Some(x)
  {
    var m := Lookup(lut, Get(x, OldClass));
    var i :| 0 <= i < |lut| && lut[i] == x;
    var j :| 0 <= j < |lut| && lut[j] == m.value;
    assert Keys(lut)[i] == Keys(lut)[j];
  }

  /** A lookup column's cell in the matched row; a feature without a match reads null there. */
  function LutValue(m: Option<Feature>, c: string): Value {
    if m.Some? then Get(m.value, c) else Null
  }

  /** The helper column the lookup preparation adds and drops again. */
  const SplitColumn := "RB_Type_L3_v0_3_split"

  /** The features' geometry column, which the join sees beside their attributes. */
  const GeometryColumn := "geometry"

  /**
   * The lookup table's columns that reach the join: all but the key (and the
   * split helper, which the preparation overwrites and drops).
   */
  function LutColumns(lutColumns: seq<string>): (r: seq<string>)
    ensures forall c :: c in r <==> c in lutColumns && c != OldClass && c != SplitColumn
  {
    if |lutColumns| == 0 then []
    else
      var n := |lutColumns| - 1;
      assert forall c :: c in lutColumns <==> c in lutColumns[..n] || c == lutColumns[n] by {
        assert lutColumns == lutColumns[..n] + [lutColumns[n]];
      }
      LutColumns(lutColumns[..n]) + (if lutColumns[n] == OldClass || lutColumns[n] == SplitColumn then [] else [lutColumns[n]])
  }

  /** The feature frame's columns as the join sees them: the attributes, then the geometry. */
  function LeftColumns(featureColumns: seq<string>): seq<string> {
    featureColumns + [GeometryColumn]
  }

  /** A column other than the key that both sides of the join carry: pandas suffixes both copies. */
  predicate Clashes(featureColumns: seq<string>, lutColumns: seq<string>, c: string) {
    c != ClassColumn && c in LeftColumns(featureColumns) && c in LutColumns(lutColumns)
  }

  /** A feature column's label in the merged table: `_x` is appended on a clash. */
  function LeftLabel(featureColumns: seq<string>, lutColumns: seq<string>, c: string): string {
    if Clashes(featureColumns, lutColumns, c) then c + "_x" else c
  }

  /** A lookup column's label in the merged table: `_y` is appended on a clash. */
  function RightLabel(featureColumns: seq<string>, lutColumns: seq<string>, c: string): string {
    if Clashes(featureColumns, lutColumns, c) then c + "_y" else c
  }

  /**
   * The merged table's columns: the feature frame's labels, then the labels of
   * the lookup table's other columns.
   */
  function JoinedColumns(featureColumns: seq<string>, lutColumns: seq<string>): (r: seq<string>)
    ensures forall c :: c in LeftColumns(featureColumns) ==> LeftLabel(featureColumns, lutColumns, c) in r
    ensures forall c :: c in LutColumns(lutColumns) ==> RightLabel(featureColumns, lutColumns, c) in r
    ensures forall x :: x in r ==>
      (exists c :: c in LeftColumns(featureColumns) && x == LeftLabel(featureColumns, lutColumns, c))
      || (exists c :: c in LutColumns(lutColumns) && x == RightLabel(featureColumns, lutColumns, c))
  {
    var left := LeftColumns(featureColumns);
    var right := LutColumns(lutColumns);
    var ls := seq(|left|, i requires 0 <= i < |left| => LeftLabel(featureColumns, lutColumns, left[i]));
    var rs := seq(|right|, i requires 0 <= i < |right| => RightLabel(featureColumns, lutColumns, right[i]));
    assert forall c :: c in left ==> LeftLabel(featureColumns, lutColumns, c) in ls by {
      forall c | c in left ensures LeftLabel(featureColumns, lutColumns, c) in ls {
        var i :| 0 <= i < |left| && left[i] == c;
        assert ls[i] == LeftLabel(featureColumns, lutColumns, c);
      }
    }
    assert forall c :: c in right ==> RightLabel(featureColumns, lutColumns, c) in rs by {
      forall c | c in right ensures RightLabel(featureColumns, lutColumns, c) in rs {
        var i :| 0 <= i < |right| && right[i] == c;
        assert rs[i] == RightLabel(featureColumns, lutColumns, c);
      }
    }
    ls + rs
  }

  /** A name that ends in one of the join's suffixes. */
  predicate Suffixed(c: string) {
    |c| >= 2 && c[|c| - 2] == '_' && (c[|c| - 1] == 'x' || c[|c| - 1] == 'y')
  }

  lemma SuffixedLabels(c: string)
    ensures Suffixed(c + "_x") && Suffixed(c + "_y")
  {
    assert (c + "_x")[|c|] == '_' && (c + "_y")[|c|] == '_';
  }

  /** No kept column, and no column a kept one is renamed from, ends in a join suffix. */
  lemma SourceUnsuffixed(joined: seq<string>, c: string)
    requires c in KeepList
    ensures !Suffixed(SourceColumn(joined, c))
  {
    var s := SourceColumn(joined, c);
    assert s in KeepList || s == "ImgSrc" || s == "Edg_acc";
    assert s[|s| - 1] in {'c', 'f', 'm', 't', 'r', '3'};
  }

  /**
   * A name without a suffix is a merged column exactly when one side carries
   * it and it does not clash.
   */
  lemma JoinedUnsuffixed(featureColumns: seq<string>, lutColumns: seq<string>, c: string)
    requires !Suffixed(c)
    ensures c in JoinedColumns(featureColumns, lutColumns) <==>
      (c in LeftColumns(featureColumns) || c in LutColumns(lutColumns)) && !Clashes(featureColumns, lutColumns, c)
  {
    var r := JoinedColumns(featureColumns, lutColumns);
    if c in r {
      if a :| a in LeftColumns(featureColumns) && c == LeftLabel(featureColumns, lutColumns, a) {
        SuffixedLabels(a);
      } else {
        var b :| b in LutColumns(lutColumns) && c == RightLabel(featureColumns, lutColumns, b);
        SuffixedLabels(b);
      }
    }
  }

  /**
   * The suffixes give two different columns of one side the same label, which
   * pandas (2.0 and later) refuses with a MergeError.
   */
  predicate SuffixCollision(featureColumns: seq<string>, lutColumns: seq<string>) {
    (exists a, b | a in LeftColumns(featureColumns) && b in LeftColumns(featureColumns) :: LeftPair(featureColumns, lutColumns, a, b))
    || (exists a, b | a in LutColumns(lutColumns) && b in LutColumns(lutColumns) :: RightPair(featureColumns, lutColumns, a, b))
  }

  /** Two different feature columns that end up with the same label. */
  predicate LeftPair(featureColumns: seq<string>, lutColumns: seq<string>, a: string, b: string) {
    a in LeftColumns(featureColumns) && b in LeftColumns(featureColumns) && a != b
    && LeftLabel(featureColumns, lutColumns, a) == LeftLabel(featureColumns, lutColumns, b)
  }

  /** Two different lookup columns that end up with the same label. */
  predicate RightPair(featureColumns: seq<string>, lutColumns: seq<string>, a: string, b: string) {
    a in LutColumns(lutColumns) && b in LutColumns(lutColumns) && a != b
    && RightLabel(featureColumns, lutColumns, a) == RightLabel(featureColumns, lutColumns, b)
  }

  /** Only a clash can cause a collision: unsuffixed labels are the distinct names themselves. */
  lemma CollisionNeedsClash(featureColumns: seq<string>, lutColumns: seq<string>)
    requires SuffixCollision(featureColumns, lutColumns)
    ensures exists c :: Clashes(featureColumns, lutColumns, c)
  {
    if exists a, b :: LeftPair(featureColumns, lutColumns, a, b) {
      var a, b :| LeftPair(featureColumns, lutColumns, a, b);
      assert Clashes(featureColumns, lutColumns, a) || Clashes(featureColumns, lutColumns, b);
    } else {
      var a, b :| RightPair(featureColumns, lutColumns, a, b);
      assert RightPair(featureColumns, lutColumns, a, b);
      assert Clashes(featureColumns, lutColumns, a) || Clashes(featureColumns, lutColumns, b);
    }
  }

  /** A feature column `Notes_x` beside a clashing `Notes` collides with its suffixed label. */
  lemma CollisionExample()
    ensures SuffixCollision(["Notes", "Notes_x", ClassColumn], [OldClass, NewClass, AttachmentColumn, "Notes"])
  {
    var fc := ["Notes", "Notes_x", ClassColumn];
    var lc := [OldClass, NewClass, AttachmentColumn, "Notes"];
    assert "Notes" in LutColumns(lc);
    assert Clashes(fc, lc, "Notes");
    assert "Notes_x" !in LutColumns(lc);
    assert LeftLabel(fc, lc, "Notes") == "Notes_x" == LeftLabel(fc, lc, "Notes_x");
    assert LeftPair(fc, lc, "Notes", "Notes_x");
  }

  // ---------------------------------------------------------------------------
  // Kept columns
  // ---------------------------------------------------------------------------

  /** The columns the stage keeps, in order, where they exist. */
  const KeepList: seq<string> := [
    "EdgeSrc", "FeatConf", "TypeConf", "EdgeAcc_m", "DepthCat", "DepthCatSr", ClassColumn, AttachmentColumn]

  /** The position of a column in the keep list. */
  function Rank(cs: seq<string>, c: string): (k: nat)
    requires c in cs
    ensures k < |cs| && cs[k] == c && c !in cs[..k]
  {
    if cs[0] == c then 0
    else
      var k := Rank(cs[1..], c);
      assert cs[1..][..k] == cs[1..k + 1];
      1 + k
  }

  predicate DistinctStrings(cs: seq<string>) {
    forall i, j :: 0 <= i < j < |cs| ==> cs[i] != cs[j]
  }

  /** `[c for c in cs if c in present]`. */
  function Present(cs: seq<string>, present: seq<string>): (r: seq<string>)
    requires DistinctStrings(cs)
    ensures forall c :: c in r <==> c in cs && c in present
    ensures forall a, b :: 0 <= a < b < |r| ==> Rank(cs, r[a]) < Rank(cs, r[b])
  {
    if |cs| == 0 then []
    else
      var n := |cs| - 1;
      var init := Present(cs[..n], present);
      assert forall c :: c in cs <==> c in cs[..n] || c == cs[n] by {
        assert cs == cs[..n] + [cs[n]];
      }
      RankPrefix(cs, n);
      init + (if cs[n] in present then [cs[n]] else [])
  }

  /** Ranks in a prefix are ranks in the whole list, below the rank of what follows. */
  lemma RankPrefix(cs: seq<string>, n: nat)
    requires DistinctStrings(cs) && n < |cs|
    ensures forall c :: c in cs[..n] ==> Rank(cs[..n], c) == Rank(cs, c) < n
    ensures Rank(cs, cs[n]) == n
  {
    forall c | c in cs[..n]
      ensures Rank(cs[..n], c) == Rank(cs, c) < n
    {
      var k := Rank(cs[..n], c);
      var m := Rank(cs, c);
      assert cs[..n][k] == cs[k];
      assert m <= k;
      assert cs[..n][..k] == cs[..k];
    }
    var m := Rank(cs, cs[n]);
    assert cs[m] == cs[n];
  }

  /** A column's name after the ImgSrc and Edg_acc renames. */
  function RenameColumn(c: string): string {
    if c == "ImgSrc" then "EdgeSrc" else if c == "Edg_acc" then "EdgeAcc_m" else c
  }

  /** The joined table's columns after the renames. */
  function RenamedColumns(joined: seq<string>): (r: seq<string>)
    ensures |r| == |joined|
    ensures forall i :: 0 <= i < |r| ==> r[i] == RenameColumn(joined[i])
  {
    seq(|joined|, i requires 0 <= i < |joined| => RenameColumn(joined[i]))
  }

  /** A kept column exists after the renames exactly when the column it comes from exists before them. */
  lemma RenamedHas(joined: seq<string>, c: string)
    requires c in KeepList
    ensures c in RenamedColumns(joined) <==> SourceColumn(joined, c) in joined
  {
    var r := RenamedColumns(joined);
    if c in r {
      var i :| 0 <= i < |r| && r[i] == c;
    }
    var s := SourceColumn(joined, c);
    if s in joined {
      var i :| 0 <= i < |joined| && joined[i] == s;
      assert r[i] == c;
    }
  }

  lemma KeepListDistinct()
    ensures DistinctStrings(KeepList)
  {
  }

  /** The output columns: the keep list, restricted to the columns present after the renames. */
  function OutputColumns(joined: seq<string>): (r: seq<string>)
    ensures forall c :: c in r <==> c in KeepList && c in RenamedColumns(joined)
  {
    KeepListDistinct();
    Present(KeepList, RenamedColumns(joined))
  }

  /**
   * The kept columns come in keep-list order, and each one is there exactly
   * when the column it is renamed from (or itself) exists.
   */
  lemma OutputColumnsOrdered(joined: seq<string>, a: nat, b: nat)
    requires a < b < |OutputColumns(joined)|
    ensures Rank(KeepList, OutputColumns(joined)[a]) < Rank(KeepList, OutputColumns(joined)[b])
  {
    KeepListDistinct();
  }

  // ---------------------------------------------------------------------------
  // The stage
  // ---------------------------------------------------------------------------

  /** The value output column `c` takes for feature `f`, whose lookup match is `m`. */
  function OutputValue(joined: seq<string>, featureColumns: seq<string>, f: Feature, m: Option<Feature>, c: string): Value {
    if c == ClassColumn then LutValue(m, NewClass)
    else if c == AttachmentColumn then LutValue(m, AttachmentColumn)
    else
      var s := SourceColumn(joined, c);
      if s in featureColumns then Get(f, s) else LutValue(m, s)
  }

  /** One feature, joined to its lookup row and reduced to the output columns. */
  function WalkRow(featureColumns: seq<string>, lutColumns: seq<string>, lut: seq<Feature>, f: Feature): (r: Feature)
    ensures r.geom == f.geom
    ensures forall c :: c in r.attrs <==> c in OutputColumns(JoinedColumns(featureColumns, lutColumns))
  {
    var joined := JoinedColumns(featureColumns, lutColumns);
    var m := Lookup(lut, Get(f, ClassColumn));
    Feature(map c | c in OutputColumns(joined) :: OutputValue(joined, featureColumns, f, m, c), f.geom)
  }

  function WalkRows(featureColumns: seq<string>, lutColumns: seq<string>, lut: seq<Feature>, rows: seq<Feature>): (r: seq<Feature>)
    ensures |r| == |rows|
    ensures forall i :: 0 <= i < |rows| ==> r[i] == WalkRow(featureColumns, lutColumns, lut, rows[i])
  {
    seq(|rows|, i requires 0 <= i < |rows| => WalkRow(featureColumns, lutColumns, lut, rows[i]))
  }

  function FixAll(gs: seq<Rings>): (r: seq<Rings>)
    ensures |r| == |gs|
    ensures forall i :: 0 <= i < |gs| ==> r[i] == FixWinding(gs[i])
  {
    seq(|gs|, i requires 0 <= i < |gs| => FixWinding(gs[i]))
  }

  /** Why the stage stops. */
  datatype Error =
    | KeyMissing(column: string)        // the lookup table has no column to drop null keys on
    | FeaturesMissing(column: string)   // a required feature column is absent
    | LutMissing(column: string)        // a required lookup column is absent
    | DuplicateMappings(values: seq<Value>)
    | KeyNotUnique                      // the lookup table already had a class column: the join key is doubled
    | SuffixClash                       // the join's suffixes give two columns one label
    | JoinedMissing(column: string)     // a column the stage reads was suffixed away by the join
    | GeometryLost                      // a lookup geometry column suffixed the features' geometry away

  /** A row the stage reports as unmapped: its new class is null. */
  predicate Unmapped(f: Feature) {
    Get(f, ClassColumn) == Null
  }

  /** The output table and the number of unmapped features it reports. */
  datatype Walked = Walked(table: Table, unmapped: nat)

  /** The winding warnings, reported before the lookup table is read, and the outcome. */
  datatype Run = Run(windingWarnings: seq<nat>, outcome: Result<Walked, Error>)

  /**
   * `crosswalk_classification`, with the features, the ring view of their
   * geometries and the lookup table as parameters. The checks run in the
   * source's order, and the first that fails ends the run.
   */
  function CrossWalk(features: Table, rings: seq<Rings>, lut: Table): (r: Run)
    requires |rings| == |features.rows|
    ensures r.windingWarnings == WindingWarnings(FixAll(rings))
    ensures OldClass !in lut.columns ==> r.outcome == Failure(KeyMissing(OldClass))
    ensures OldClass in lut.columns && ClassColumn !in features.columns ==>
      r.outcome == Failure(FeaturesMissing(ClassColumn))
    ensures r.outcome.Success? <==>
      (OldClass in lut.columns && ClassColumn in features.columns && NewClass in lut.columns
       && AttachmentColumn in lut.columns && DistinctValues(Keys(PrepareLut(lut.rows)))
       && ClassColumn !in lut.columns && !SuffixCollision(features.columns, lut.columns)
       && NewClass !in features.columns && AttachmentColumn !in features.columns
       && GeometryColumn !in lut.columns)
    ensures r.outcome == Failure(JoinedMissing(AttachmentColumn)) ==>
      Clashes(features.columns, lut.columns, AttachmentColumn)
    ensures r.outcome.Failure? && r.outcome.error.DuplicateMappings? ==>
      forall v :: v in r.outcome.error.values <==>
        exists i, j :: 0 <= i < j < |Keys(PrepareLut(lut.rows))|
                       && Keys(PrepareLut(lut.rows))[i] == v && Keys(PrepareLut(lut.rows))[j] == v
    ensures r.outcome.Success? ==>
      |r.outcome.value.table.rows| == |features.rows|
      && r.outcome.value.table.columns == OutputColumns(JoinedColumns(features.columns, lut.columns))
      && r.outcome.value.unmapped == |Where(r.outcome.value.table.rows, Unmapped, true)|
  {
    var warnings := WindingWarnings(FixAll(rings));
    if OldClass !in lut.columns then Run(warnings, Failure(KeyMissing(OldClass)))
    else
      var prepared := PrepareLut(lut.rows);
      var dups := Duplicated(Keys(prepared));
      if ClassColumn !in features.columns then Run(warnings, Failure(FeaturesMissing(ClassColumn)))
      else if OldClass !in lut.columns then Run(warnings, Failure(LutMissing(OldClass)))
      else if NewClass !in lut.columns then Run(warnings, Failure(LutMissing(NewClass)))
      else if AttachmentColumn !in lut.columns then Run(warnings, Failure(LutMissing(AttachmentColumn)))
      else if |dups| > 0 then Run(warnings, Failure(DuplicateMappings(dups)))
      else if ClassColumn in lut.columns then Run(warnings, Failure(KeyNotUnique))
      else if SuffixCollision(features.columns, lut.columns) then Run(warnings, Failure(SuffixClash))
      else if NewClass in features.columns then Run(warnings, Failure(JoinedMissing(NewClass)))
      else if AttachmentColumn in features.columns then Run(warnings, Failure(JoinedMissing(AttachmentColumn)))
      else if GeometryColumn in lut.columns then Run(warnings, Failure(GeometryLost))
      else
        var rows := WalkRows(features.columns, lut.columns, prepared, features.rows);
        var table := Table(OutputColumns(JoinedColumns(features.columns, lut.columns)), rows);
        Run(warnings, Success(Walked(table, |Where(rows, Unmapped, true)|)))
  }

  /**
   * The check for a missing old-class lookup column can never report: the
   * null filter before it has already failed on such a table.
   */
  lemma OldClassCheckUnreachable(features: Table, rings: seq<Rings>, lut: Table)
    requires |rings| == |features.rows|
    ensures CrossWalk(features, rings, lut).outcome != Failure(LutMissing(OldClass))
  {
  }

  /** The preconditions of the stage, and a successful run. */
  predicate Walks(features: Table, rings: seq<Rings>, lut: Table) {
    |rings| == |features.rows| && CrossWalk(features, rings, lut).outcome.Success?
  }

  /** Output row `i` of a successful run: feature `i` joined with the prepared lookup table. */
  function WalkedRow(features: Table, rings: seq<Rings>, lut: Table, i: nat): (out: Feature)
    requires Walks(features, rings, lut) && i < |features.rows|
    ensures out == WalkRow(features.columns, lut.columns, PrepareLut(lut.rows), features.rows[i])
  {
    CrossWalk(features, rings, lut).outcome.value.table.rows[i]
  }

  /** Only strings are ever keys: a null or numeric class finds no lookup row. */
  lemma OnlyTextMatches(lut: seq<Feature>, v: Value)
    requires !v.Str?
    ensures Lookup(PrepareLut(lut), v).None?
  {
    forall x | x in PrepareLut(lut)
      ensures Get(x, OldClass) != v
    {
      PreparedKeys(lut, x);
    }
  }

  /**
   * Output row `i` is the join of feature `i`: same geometry, and a new class
   * and Attachment taken from the lookup row carrying its old class, or null
   * when there is none.
   */
  lemma CrossWalkRow(features: Table, rings: seq<Rings>, lut: Table, i: nat)
    requires Walks(features, rings, lut) && i < |features.rows|
    ensures WalkedRow(features, rings, lut, i).geom == features.rows[i].geom
    ensures ClassColumn in WalkedRow(features, rings, lut, i).attrs
    ensures AttachmentColumn in WalkedRow(features, rings, lut, i).attrs
    ensures forall x :: x in PrepareLut(lut.rows) && Get(x, OldClass) == Get(features.rows[i], ClassColumn) ==>
      Get(WalkedRow(features, rings, lut, i), ClassColumn) == Get(x, NewClass)
      && Get(WalkedRow(features, rings, lut, i), AttachmentColumn) == Get(x, AttachmentColumn)
    ensures (forall x :: x in PrepareLut(lut.rows) ==> Get(x, OldClass) != Get(features.rows[i], ClassColumn)) ==>
      Get(WalkedRow(features, rings, lut, i), ClassColumn) == Null
      && Get(WalkedRow(features, rings, lut, i), AttachmentColumn) == Null
  {
    WalkRowJoins(features.columns, lut.columns, PrepareLut(lut.rows), features.rows[i]);
  }

  lemma WalkRowJoins(featureColumns: seq<string>, lutColumns: seq<string>, lut: seq<Feature>, f: Feature)
    requires DistinctValues(Keys(lut))
    requires ClassColumn in featureColumns && AttachmentColumn in lutColumns && AttachmentColumn !in featureColumns
    ensures ClassColumn in WalkRow(featureColumns, lutColumns, lut, f).attrs
    ensures AttachmentColumn in WalkRow(featureColumns, lutColumns, lut, f).attrs
    ensures forall x :: x in lut && Get(x, OldClass) == Get(f, ClassColumn) ==>
      Get(WalkRow(featureColumns, lutColumns, lut, f), ClassColumn) == Get(x, NewClass)
      && Get(WalkRow(featureColumns, lutColumns, lut, f), AttachmentColumn) == Get(x, AttachmentColumn)
    ensures (forall x :: x in lut ==> Get(x, OldClass) != Get(f, ClassColumn)) ==>
      Get(WalkRow(featureColumns, lutColumns, lut, f), ClassColumn) == Null
      && Get(WalkRow(featureColumns, lutColumns, lut, f), AttachmentColumn) == Null
  {
    KeyColumnsKept(featureColumns, lutColumns);
    forall x | x in lut && Get(x, OldClass) == Get(f, ClassColumn)
      ensures Lookup(lut, Get(f, ClassColumn)) == Some(x)
    {
      LookupUnique(lut, x);
    }
  }

  /**
   * The stage reports a feature as unmapped exactly when no lookup row carries
   * its old class with a non-null new class.
   */
  lemma UnmappedIff(features: Table, rings: seq<Rings>, lut: Table, i: nat)
    requires Walks(features, rings, lut) && i < |features.rows|
    ensures Unmapped(CrossWalk(features, rings, lut).outcome.value.table.rows[i]) <==>
      !exists x :: x in PrepareLut(lut.rows) && Get(x, OldClass) == Get(features.rows[i], ClassColumn)
                   && Get(x, NewClass) != Null
  {
    CrossWalkRow(features, rings, lut, i);
  }

  /**
   * Every other output column holds the feature's value from the column it is
   * renamed from.
   */
  lemma CrossWalkKeeps(features: Table, rings: seq<Rings>, lut: Table, i: nat, c: string)
    requires Walks(features, rings, lut) && i < |features.rows|
    requires c in KeepList && c != ClassColumn && c != AttachmentColumn
    requires SourceColumn(JoinedColumns(features.columns, lut.columns), c) in features.columns
    requires !Clashes(features.columns, lut.columns, SourceColumn(JoinedColumns(features.columns, lut.columns), c))
    ensures c in WalkedRow(features, rings, lut, i).attrs
    ensures Get(WalkedRow(features, rings, lut, i), c) ==
      Get(features.rows[i], SourceColumn(JoinedColumns(features.columns, lut.columns), c))
  {
    WalkRowKeeps(features.columns, lut.columns, PrepareLut(lut.rows), features.rows[i], c);
  }

  lemma WalkRowKeeps(featureColumns: seq<string>, lutColumns: seq<string>, lut: seq<Feature>, f: Feature, c: string)
    requires c in KeepList && c != ClassColumn && c != AttachmentColumn
    requires SourceColumn(JoinedColumns(featureColumns, lutColumns), c) in featureColumns
    requires !Clashes(featureColumns, lutColumns, SourceColumn(JoinedColumns(featureColumns, lutColumns), c))
    ensures c in WalkRow(featureColumns, lutColumns, lut, f).attrs
    ensures Get(WalkRow(featureColumns, lutColumns, lut, f), c) == Get(f, SourceColumn(JoinedColumns(featureColumns, lutColumns), c))
  {
    var joined := JoinedColumns(featureColumns, lutColumns);
    var s := SourceColumn(joined, c);
    SourceUnsuffixed(joined, c);
    JoinedUnsuffixed(featureColumns, lutColumns, s);
    RenamedHas(joined, c);
  }

  /**
   * A kept column that both sides carry, and that no rename feeds, is missing
   * from the output: only its suffixed copies reach the keep filter.
   */
  lemma ClashDropsColumn(featureColumns: seq<string>, lutColumns: seq<string>, c: string)
    requires c in KeepList && Clashes(featureColumns, lutColumns, c)
    requires SourceColumn(JoinedColumns(featureColumns, lutColumns), c) == c
    ensures c !in OutputColumns(JoinedColumns(featureColumns, lutColumns))
  {
    var joined := JoinedColumns(featureColumns, lutColumns);
    SourceUnsuffixed(joined, c);
    JoinedUnsuffixed(featureColumns, lutColumns, c);
    RenamedHas(joined, c);
  }

  /** The output always has the new class and Attachment columns. */
  lemma CrossWalkColumns(features: Table, rings: seq<Rings>, lut: Table)
    requires Walks(features, rings, lut)
    ensures ClassColumn in CrossWalk(features, rings, lut).outcome.value.table.columns
    ensures AttachmentColumn in CrossWalk(features, rings, lut).outcome.value.table.columns
  {
    KeyColumnsKept(features.columns, lut.columns);
  }

  /**
   * With the class column among the features and Attachment only in the lookup
   * table, the join keeps both under their own names.
   */
  lemma KeyColumnsKept(featureColumns: seq<string>, lutColumns: seq<string>)
    requires ClassColumn in featureColumns && AttachmentColumn in lutColumns && AttachmentColumn !in featureColumns
    ensures ClassColumn in OutputColumns(JoinedColumns(featureColumns, lutColumns))
    ensures AttachmentColumn in OutputColumns(JoinedColumns(featureColumns, lutColumns))
  {
    var joined := JoinedColumns(featureColumns, lutColumns);
    SourceUnsuffixed(joined, ClassColumn);
    SourceUnsuffixed(joined, AttachmentColumn);
    JoinedUnsuffixed(featureColumns, lutColumns, ClassColumn);
    JoinedUnsuffixed(featureColumns, lutColumns, AttachmentColumn);
    RenamedHas(joined, ClassColumn);
    RenamedHas(joined, AttachmentColumn);
  }
}

=== FILE: downloader.dfy ===
/**
 * The download cache of `DataDownloader`: file names taken from URLs, the
 * skip-if-present and write-then-rename discipline of downloads, the guard of
 * `unzip`, the flatten rule of `download_and_unzip`, and the arithmetic of the
 * progress hook. The file system is a map from path strings to entries; HTTP,
 * zip decoding and the clock are inputs.
 */
module Downloader {

  import opened Wrappers
  import opened Text
  import opened FileSystem

  // ---------------------------------------------------------------------------
  // File names from URLs
  // ---------------------------------------------------------------------------

  predicate IsSchemeChar(c: char) {
    ('a' <= c <= 'z') || ('A' <= c <= 'Z') || ('0' <= c <= '9') || c == '+' || c == '-' || c == '.'
  }

  predicate IsLetter(c: char) {
    ('a' <= c <= 'z') || ('A' <= c <= 'Z')
  }

  /** The first index of `s` holding a character of `cs`, or `|s|`. */
  function FirstOf(s: string, cs: set<char>): (k: nat)
    ensures k <= |s|
    ensures forall m :: 0 <= m < k ==> s[m] !in cs
    ensures k < |s| ==> s[k] in cs
  {
    if |s| == 0 || s[0] in cs then 0 else 1 + FirstOf(s[1..], cs)
  }

  /** What `urlsplit` strips from the front of a URL: C0 control characters and spaces. */
  predicate IsControlOrSpace(c: char) {
    c <= ' '
  }

  /** What `urlsplit` removes anywhere in a URL: tab, carriage return and line feed. */
  predicate IsUnsafe(c: char) {
    c == '\t' || c == '\r' || c == '\n'
  }

  predicate NoUnsafe(s: string) {
    forall m :: 0 <= m < |s| ==> !IsUnsafe(s[m])
  }

  /** `url.lstrip(_WHATWG_C0_CONTROL_OR_SPACE)`. */
  function LStripControls(url: string): (r: string)
    ensures |r| <= |url| && url[|url| - |r|..] == r
    ensures |r| > 0 ==> !IsControlOrSpace(r[0])
  {
    if |url| > 0 && IsControlOrSpace(url[0]) then LStripControls(url[1..]) else url
  }

  /** `url.replace(b, "")` for each of tab, carriage return and line feed. */
  function RemoveUnsafe(s: string): (r: string)
    ensures |r| <= |s| && NoUnsafe(r)
  {
    if |s| == 0 then "" else (if IsUnsafe(s[0]) then "" else [s[0]]) + RemoveUnsafe(s[1..])
  }

  /** The URL `urlsplit` goes on to split. */
  function Sanitized(url: string): string {
    RemoveUnsafe(LStripControls(url))
  }

  /**
   * `urlsplit` finds a scheme when the text before the first ':' is non-empty,
   * starts with a letter and holds scheme characters only.
   */
  predicate HasScheme(url: string) {
    var i := FirstOf(url, {':'});
    0 < i < |url| && IsLetter(url[0]) && forall m :: 0 <= m < i ==> IsSchemeChar(url[m])
  }

  /** What follows the scheme and its ':', or the whole URL when there is no scheme. */
  function AfterScheme(url: string): string {
    if HasScheme(url) then url[FirstOf(url, {':'}) + 1..] else url
  }

  function LowerChar(c: char): char {
    if 'A' <= c <= 'Z' then (c as int + 32) as char else c
  }

  /** ASCII lower case, which is all a scheme can hold. */
  function Lower(s: string): (r: string)
    ensures |r| == |s|
  {
    if |s| == 0 then "" else [LowerChar(s[0])] + Lower(s[1..])
  }

  /** The lower-cased scheme, or "" when there is none. */
  function SchemeOf(url: string): string {
    if HasScheme(url) then Lower(url[..FirstOf(url, {':'})]) else ""
  }

  /** `urllib.parse.uses_params`: the schemes whose last path segment may carry `;params`. */
  const ParamSchemes: set<string> := {"", "ftp", "hdl", "prospero", "http", "imap", "https", "shttp",
    "rtsp", "rtsps", "rtspu", "sip", "sips", "mms", "sftp", "tel"}

  /** `urlparse(url).path`. */
  function UrlPath(url: string): string {
    SplitPath(Sanitized(url))
  }

  /**
   * The path of a sanitized URL: after the scheme and the `//` authority, before
   * any query or fragment, and without the `;params` of its last segment when
   * the scheme allows them.
   */
  function SplitPath(u: string): string {
    var p := PathPart(AfterScheme(u));
    if SchemeOf(u) in ParamSchemes then WithoutParams(p) else p
  }

  /** The path of what follows the scheme: past a `//` authority, up to any query or fragment. */
  function PathPart(r: string): string {
    Unqueried(AfterNetloc(r))
  }

  /** What follows the network location `//host`, when there is one. */
  function AfterNetloc(r: string): string {
    if |r| >= 2 && r[..2] == "//" then r[2..][FirstOf(r[2..], {'/', '?', '#'})..] else r
  }

  /** The text before any query or fragment. */
  function Unqueried(s: string): string {
    s[..FirstOf(s, {'?', '#'})]
  }

  /** `_splitparams`: the path cut at the first ';' of its last segment. */
  function WithoutParams(p: string): (r: string)
    ensures |r| <= |p| && p[..|r|] == r
    ensures ';' !in LastSegment(r)
  {
    var seg := LastSegment(p);
    var head := p[..|p| - |seg|];
    var k := FirstOf(seg, {';'});
    LastSegmentUnique(head + seg[..k], head, seg[..k]);
    assert p == head + seg;
    head + seg[..k]
  }

  /** `_get_filename_from_url`. */
  function FileNameFromUrl(url: string): (name: string)
    ensures '/' !in name
    ensures var p := UrlPath(url); |name| <= |p| && p[|p| - |name|..] == name
    ensures SchemeOf(Sanitized(url)) in ParamSchemes ==> ';' !in name
  {
    LastSegment(UrlPath(url))
  }

  lemma {:induction false} FirstOfIs(s: string, cs: set<char>, k: nat)
    requires k <= |s| && (forall m :: 0 <= m < k ==> s[m] !in cs) && (k < |s| ==> s[k] in cs)
    ensures FirstOf(s, cs) == k
    decreases k
  {
    if k > 0 {
      FirstOfIs(s[1..], cs, k - 1);
    }
  }

  lemma AfterSchemeOf(scheme: string, tail: string)
    requires |scheme| > 0 && IsLetter(scheme[0]) && forall m :: 0 <= m < |scheme| ==> IsSchemeChar(scheme[m])
    ensures AfterScheme(scheme + ":" + tail) == tail
    ensures SchemeOf(scheme + ":" + tail) == Lower(scheme)
  {
    SchemeFound(scheme, tail);
  }

  lemma SchemeFound(scheme: string, tail: string)
    requires |scheme| > 0 && IsLetter(scheme[0]) && forall m :: 0 <= m < |scheme| ==> IsSchemeChar(scheme[m])
    ensures var url := scheme + ":" + tail;
      && FirstOf(url, {':'}) == |scheme| && HasScheme(url)
      && url[|scheme| + 1..] == tail && url[..|scheme|] == scheme
  {
    var url := scheme + ":" + tail;
    assert forall m :: 0 <= m < |scheme| ==> url[m] == scheme[m];
    FirstOfIs(url, {':'}, |scheme|);
    assert url[|scheme| + 1..] == tail;
    assert url[..|scheme|] == scheme;
  }

  lemma PathPartOf(host: string, path: string, query: string)
    requires forall m :: 0 <= m < |host| ==> host[m] !in {'/', '?', '#'}
    requires |path| > 0 && path[0] == '/' && forall m :: 0 <= m < |path| ==> path[m] !in {'?', '#'}
    requires |query| == 0 || query[0] == '?'
    ensures PathPart("//" + host + path + query) == path
  {
    assert "//" + host + path + query == "//" + host + (path + query);
    AfterNetlocOf(host, path + query);
    UnqueriedOf(path, query);
  }

  lemma AfterNetlocOf(host: string, rest: string)
    requires forall m :: 0 <= m < |host| ==> host[m] !in {'/', '?', '#'}
    requires |rest| > 0 && rest[0] == '/'
    ensures AfterNetloc("//" + host + rest) == rest
  {
    var r := "//" + host + rest;
    var r2 := host + rest;
    assert r[2..] == r2 && r[..2] == "//";
    FirstOfIs(r2, {'/', '?', '#'}, |host|);
    assert r2[|host|..] == rest;
  }

  lemma UnqueriedOf(path: string, query: string)
    requires forall m :: 0 <= m < |path| ==> path[m] !in {'?', '#'}
    requires |query| == 0 || query[0] == '?'
    ensures Unqueried(path + query) == path
  {
    var rest := path + query;
    FirstOfIs(rest, {'?', '#'}, |path|);
    assert rest[..|path|] == path;
  }

  /** `;params` after a path whose last segment has none are cut off again. */
  lemma WithoutParamsOf(path: string, params: string)
    requires |path| > 0 && path[0] == '/' && ';' !in LastSegment(path)
    requires |params| == 0 || params[0] == ';'
    requires '/' !in params
    ensures WithoutParams(path + params) == path
  {
    var seg := LastSegment(path);
    var p, s := path + params, seg + params;
    var n := |path| - |seg|;
    ParamsSplit(path, params);
    assert |p| - |s| == n;
    WithoutParamsIs(p, p[..n], s, |seg|);
    PrefixOfConcat(path, params, n);
    assert s[..|seg|] == seg;
    SegmentSplit(path);
  }

  /** How `path + params` cuts into head, last segment and parameters. */
  lemma ParamsSplit(path: string, params: string)
    requires ';' !in LastSegment(path)
    requires |params| == 0 || params[0] == ';'
    requires '/' !in params
    ensures LastSegment(path + params) == LastSegment(path) + params
    ensures FirstOf(LastSegment(path) + params, {';'}) == |LastSegment(path)|
  {
    var seg := LastSegment(path);
    LastSegmentExtend(path, params);
    SemicolonAfter(seg, params);
    FirstOfIs(seg + params, {';'}, |seg|);
  }

  lemma WithoutParamsIs(p: string, head: string, seg: string, k: nat)
    requires seg == LastSegment(p) && head == p[..|p| - |seg|] && k == FirstOf(seg, {';'})
    ensures WithoutParams(p) == head + seg[..k]
  {
  }

  lemma PrefixOfConcat(a: string, b: string, k: nat)
    requires k <= |a|
    ensures (a + b)[..k] == a[..k]
  {
  }

  lemma SemicolonAfter(seg: string, params: string)
    requires ';' !in seg && (|params| == 0 || params[0] == ';')
    ensures forall m :: 0 <= m < |seg| ==> (seg + params)[m] !in {';'}
    ensures |seg| < |seg + params| ==> (seg + params)[|seg|] in {';'}
  {
    forall m | 0 <= m < |seg|
      ensures (seg + params)[m] !in {';'}
    {
      assert (seg + params)[m] == seg[m];
    }
  }

  /** A URL without control characters, tabs or line breaks is split as it is. */
  lemma {:induction false} RemoveUnsafeNone(s: string)
    requires NoUnsafe(s)
    ensures RemoveUnsafe(s) == s
    decreases |s|
  {
    if |s| > 0 {
      RemoveUnsafeNone(s[1..]);
      assert s == [s[0]] + s[1..];
    }
  }

  lemma {:induction false} RemoveUnsafeConcat(x: string, y: string)
    ensures RemoveUnsafe(x + y) == RemoveUnsafe(x) + RemoveUnsafe(y)
    decreases |x|
  {
    if |x| > 0 {
      var h := if IsUnsafe(x[0]) then "" else [x[0]];
      assert (x + y)[0] == x[0];
      assert (x + y)[1..] == x[1..] + y;
      assert RemoveUnsafe(x + y) == h + RemoveUnsafe(x[1..] + y);
      assert RemoveUnsafe(x) == h + RemoveUnsafe(x[1..]);
      RemoveUnsafeConcat(x[1..], y);
    } else {
      assert x + y == y;
    }
  }

  lemma SanitizedPlain(url: string)
    requires |url| > 0 && !IsControlOrSpace(url[0]) && NoUnsafe(url)
    ensures Sanitized(url) == url
  {
    RemoveUnsafeNone(url);
  }

  /** Leading control characters and spaces do not change the path. */
  lemma LeadingControlIgnored(c: char, url: string)
    requires IsControlOrSpace(c)
    ensures UrlPath([c] + url) == UrlPath(url)
  {
    assert ([c] + url)[1..] == url;
  }

  /** A tab or line break inside the URL does not change the path. */
  lemma UnsafeIgnored(a: string, c: char, b: string)
    requires |a| > 0 && !IsControlOrSpace(a[0]) && IsUnsafe(c)
    ensures UrlPath(a + [c] + b) == UrlPath(a + b)
  {
    SanitizedUnsafeIgnored(a, c, b);
  }

  lemma SanitizedUnsafeIgnored(a: string, c: char, b: string)
    requires |a| > 0 && !IsControlOrSpace(a[0]) && IsUnsafe(c)
    ensures Sanitized(a + [c] + b) == Sanitized(a + b)
  {
    assert (a + [c] + b)[0] == a[0] && (a + b)[0] == a[0];
    assert LStripControls(a + [c] + b) == a + [c] + b;
    assert LStripControls(a + b) == a + b;
    RemoveUnsafeSkip(a, c, b);
  }

  lemma RemoveUnsafeSkip(a: string, c: char, b: string)
    requires IsUnsafe(c)
    ensures RemoveUnsafe(a + [c] + b) == RemoveUnsafe(a + b)
  {
    RemoveUnsafeConcat(a + [c], b);
    RemoveUnsafeConcat(a, [c]);
    RemoveUnsafeConcat(a, b);
    assert RemoveUnsafe([c]) == [];
  }

  /** A scheme `urlsplit` recognises and that allows `;params`. */
  predicate PlainScheme(scheme: string) {
    && |scheme| > 0 && IsLetter(scheme[0])
    && (forall m :: 0 <= m < |scheme| ==> IsSchemeChar(scheme[m]))
    && Lower(scheme) in ParamSchemes
  }

  /** A network location: no path, query or fragment delimiter, nothing `urlsplit` removes. */
  predicate PlainHost(host: string) {
    forall m :: 0 <= m < |host| ==> host[m] !in {'/', '?', '#'} && !IsUnsafe(host[m])
  }

  /** A rooted path without query or fragment delimiters, its last segment without `;params`. */
  predicate PlainPath(path: string) {
    && |path| > 0 && path[0] == '/'
    && (forall m :: 0 <= m < |path| ==> path[m] !in {'?', '#'} && !IsUnsafe(path[m]))
    && ';' !in LastSegment(path)
  }

  /** Empty, or `;params` holding no '/', query or fragment delimiter. */
  predicate PlainParams(params: string) {
    && (|params| == 0 || params[0] == ';')
    && forall m :: 0 <= m < |params| ==> params[m] !in {'/', '?', '#'} && !IsUnsafe(params[m])
  }

  /** Empty, or a query. */
  predicate PlainQuery(query: string) {
    (|query| == 0 || query[0] == '?') && NoUnsafe(query)
  }

  lemma NoUnsafeConcat(x: string, y: string)
    requires NoUnsafe(x) && NoUnsafe(y)
    ensures NoUnsafe(x + y)
  {
    assert forall m :: 0 <= m < |x + y| ==> (x + y)[m] == if m < |x| then x[m] else y[m - |x|];
  }

  lemma PlainUrl(scheme: string, host: string, path: string, params: string, query: string)
    requires PlainScheme(scheme) && PlainHost(host) && PlainPath(path) && PlainParams(params) && PlainQuery(query)
    ensures NoUnsafe(scheme + "://" + host + path + params + query)
  {
    assert NoUnsafe(scheme) && NoUnsafe("://") && NoUnsafe(host) && NoUnsafe(path) && NoUnsafe(params);
    NoUnsafeConcat(scheme, "://");
    NoUnsafeConcat(scheme + "://", host);
    NoUnsafeConcat(scheme + "://" + host, path);
    NoUnsafeConcat(scheme + "://" + host + path, params);
    NoUnsafeConcat(scheme + "://" + host + path + params, query);
  }

  /** A URL `scheme://host`, then `path`, optional `;params` and an optional query. */
  lemma UrlPathOf(scheme: string, host: string, path: string, params: string, query: string)
    requires PlainScheme(scheme) && PlainHost(host) && PlainPath(path) && PlainParams(params) && PlainQuery(query)
    ensures UrlPath(scheme + "://" + host + path + params + query) == path
  {
    var url := scheme + "://" + host + path + params + query;
    var pp := path + params;
    var tail := "//" + host + pp + query;
    ParamsGrouped(scheme + "://" + host, path, params, query);
    SchemeSplit(scheme, host, pp, query);
    PlainUrl(scheme, host, path, params, query);
    SanitizedPlain(url);
    AfterSchemeOf(scheme, tail);
    assert forall m :: 0 <= m < |pp| ==> pp[m] == if m < |path| then path[m] else params[m - |path|];
    PathPartOf(host, pp, query);
    WithoutParamsOf(path, params);
  }

  lemma ParamsGrouped(a: string, path: string, params: string, query: string)
    ensures a + path + params + query == a + (path + params) + query
  {
  }

  lemma SchemeSplit(scheme: string, host: string, pp: string, query: string)
    ensures scheme + "://" + host + pp + query == scheme + ":" + ("//" + host + pp + query)
  {
    assert "://" == ":" + "//";
  }

  /** The same for a URL that carries neither params nor a query. */
  lemma UrlPathNoQuery(scheme: string, host: string, path: string)
    requires PlainScheme(scheme) && PlainHost(host) && PlainPath(path)
    ensures UrlPath(scheme + "://" + host + path) == path
  {
    var u := scheme + "://" + host + path;
    assert u + "" + "" == u;
    UrlPathOf(scheme, host, path, "", "");
  }

  /** The first example of the docstring: the query is ignored. */
  lemma FileNameExample()
    ensures FileNameFromUrl("https://example.com/path/to/file.txt?param=value") == "file.txt"
  {
    ExamplePath();
    ExampleLastSegment();
  }

  lemma ExamplePath()
    ensures UrlPath("https://example.com/path/to/file.txt?param=value") == "/path/to/file.txt"
  {
    ExampleUrl();
    HttpsScheme();
    ExampleHost();
    ExamplePathPlain();
    ExampleQuery();
    UrlPathOf("https", "example.com", "/path/to/file.txt", "", "?param=value");
  }

  lemma ExampleLastSegment()
    ensures LastSegment("/path/to/file.txt") == "file.txt"
  {
    LastSegmentUnique("/path/to/file.txt", "/path/to/", "file.txt");
  }

  lemma ExampleUrl()
    ensures "https://example.com/path/to/file.txt?param=value" ==
      "https" + "://" + "example.com" + "/path/to/file.txt" + "" + "?param=value"
  {
  }

  lemma HttpsScheme()
    ensures PlainScheme("https")
  {
    assert Lower("https") == "https";
  }

  lemma ExampleHost()
    ensures PlainHost("example.com")
  {
  }

  lemma ExamplePathPlain()
    ensures PlainPath("/path/to/file.txt")
  {
    ExampleLastSegment();
  }

  lemma ExampleQuery()
    ensures PlainParams("") && PlainQuery("?param=value")
  {
  }

  /** The second example of the docstring: a path ending in '/' names no file. */
  lemma NoFileNameExample()
    ensures FileNameFromUrl("https://example.com/path/to/") == ""
  {
    NoFileNameUrl();
    HttpsScheme();
    ExampleHost();
    DirPathPlain();
    UrlPathNoQuery("https", "example.com", "/path/to/");
  }

  lemma NoFileNameUrl()
    ensures "https://example.com/path/to/" == "https" + "://" + "example.com" + "/path/to/"
  {
  }

  lemma DirPathPlain()
    ensures PlainPath("/path/to/") && LastSegment("/path/to/") == ""
  {
  }

  /** `;params` on the last segment are not part of the file name. */
  lemma ParamsExample()
    ensures FileNameFromUrl("https://example.com/d/file.zip;v=2") == "file.zip"
  {
    ParamsUrl();
    HttpsScheme();
    ExampleHost();
    ZipPathPlain();
    ZipParamsPlain();
    UrlPathOf("https", "example.com", "/d/file.zip", ";v=2", "");
  }

  lemma ParamsUrl()
    ensures "https://example.com/d/file.zip;v=2" == "https" + "://" + "example.com" + "/d/file.zip" + ";v=2" + ""
  {
  }

  lemma ZipPathPlain()
    ensures PlainPath("/d/file.zip") && LastSegment("/d/file.zip") == "file.zip"
  {
    ZipLastSegment();
  }

  lemma ZipLastSegment()
    ensures LastSegment("/d/file.zip") == "file.zip"
  {
    var head, tail := "/d/", "file.zip";
    assert head + tail == "/d/file.zip";
    assert forall m :: 0 <= m < |tail| ==> tail[m] != '/';
    LastSegmentUnique("/d/file.zip", head, tail);
  }

  lemma ZipParamsPlain()
    ensures PlainParams(";v=2") && PlainQuery("")
  {
  }

  // ---------------------------------------------------------------------------
  // _download: skip when present, otherwise write to a temporary name and rename
  // ---------------------------------------------------------------------------

  /** The size of the blocks read from the response. */
  const BlockSize: nat := 32768

  /** The name a download is written under until it is complete. */
  function Tmp(path: string): string {
    path + ".tmp"
  }

  /** The bytes of the chunks read one after another. */
  function Concat(chunks: seq<seq<Byte>>): seq<Byte> {
    if |chunks| == 0 then [] else Concat(chunks[..|chunks| - 1]) + chunks[|chunks| - 1]
  }

  /**
   * What writing `path` needs: a normal path below some directory, no file
   * where `makedirs` needs a directory, and no directory at the temporary name.
   */
  predicate CanWrite(fs: Fs, path: string) {
    && Normal(path) && Parent(path) != ""
    && DirsClear(fs, Parent(path))
    && (Tmp(path) in fs ==> fs[Tmp(path)].File?)
  }

  /** The directory `_download` writes into exists afterwards (`os.makedirs` when it is missing). */
  function MakeDestDir(fs: Fs, path: string): (r: Fs)
    requires CanWrite(fs, path)
    ensures Parent(path) in r && (path in r <==> path in fs)
    ensures forall k :: k in fs ==> k in r && r[k] == fs[k]
    ensures forall k :: k in r ==> k in fs || Under(Parent(path), k)
    ensures Tmp(path) in r ==> r[Tmp(path)].File?
  {
    var dir := Parent(path);
    KeySlash(dir);
    DirBelowNeither(path);
    if Exists(fs, dir) then fs else MakeDirs(fs, dir)
  }

  /** Neither the path nor its temporary name lies under its directory's lineage. */
  lemma DirBelowNeither(path: string)
    requires Normal(path) && Parent(path) != ""
    ensures !Under(Parent(path), path) && !Under(Parent(path), Tmp(path))
  {
  }

  /**
   * `_download(url, path)` where the response body arrives as `chunks`.
   * An existing path is left alone; otherwise the bytes go to `path.tmp`,
   * which is then renamed to `path`.
   */
  function Download(fs: Fs, path: string, chunks: seq<seq<Byte>>): (r: Fs)
    requires !Exists(fs, path) ==> CanWrite(fs, path)
    ensures Exists(fs, path) ==> r == fs
    ensures !Exists(fs, path) ==> path in r && r[path] == File(Concat(chunks)) && Tmp(path) !in r
    ensures !Exists(fs, path) ==> forall k :: k in fs && k != Tmp(path) ==> k in r && r[k] == fs[k]
    ensures !Exists(fs, path) ==> forall k :: k in r ==> k in fs || k == path || Under(Parent(path), k)
  {
    if Exists(fs, path) then fs
    else
      StoredFile(fs, path, chunks);
      StoredKeeps(fs, path, chunks);
      StoredOnly(fs, path, chunks);
      Stored(fs, path, chunks)
  }

  /** The temporary file written with the chunks, then renamed to `path`. */
  function Stored(fs: Fs, path: string, chunks: seq<seq<Byte>>): Fs
    requires !Exists(fs, path) && CanWrite(fs, path)
  {
    RenameFile(MakeDestDir(fs, path)[Tmp(path) := File(Concat(chunks))], Tmp(path), path)
  }

  lemma StoredFile(fs: Fs, path: string, chunks: seq<seq<Byte>>)
    requires !Exists(fs, path) && CanWrite(fs, path)
    ensures path in Stored(fs, path, chunks) && Stored(fs, path, chunks)[path] == File(Concat(chunks))
    ensures Tmp(path) !in Stored(fs, path, chunks)
  {
  }

  lemma StoredKeeps(fs: Fs, path: string, chunks: seq<seq<Byte>>)
    requires !Exists(fs, path) && CanWrite(fs, path)
    ensures forall k :: k in fs && k != Tmp(path) ==> k in Stored(fs, path, chunks) && Stored(fs, path, chunks)[k] == fs[k]
  {
    KeySlash(path);
    var made := MakeDestDir(fs, path);
    assert path !in fs;
    forall k | k in fs && k != Tmp(path)
      ensures k in Stored(fs, path, chunks) && Stored(fs, path, chunks)[k] == fs[k]
    {
      assert k in made && made[k] == fs[k] && k != path;
    }
  }

  lemma StoredOnly(fs: Fs, path: string, chunks: seq<seq<Byte>>)
    requires !Exists(fs, path) && CanWrite(fs, path)
    ensures forall k :: k in Stored(fs, path, chunks) ==> k in fs || k == path || Under(Parent(path), k)
  {
  }

  /** A second download of the same path keeps the first one's bytes: the file is a cache. */
  lemma DownloadIdempotent(fs: Fs, path: string, first: seq<seq<Byte>>, second: seq<seq<Byte>>)
    requires !Exists(fs, path) ==> CanWrite(fs, path)
    ensures Exists(Download(fs, path, first), path)
    ensures Download(Download(fs, path, first), path, second) == Download(fs, path, first)
  {
    if !Exists(fs, path) {
      KeySlash(path);
    }
  }

  /** The chunks read so far, one more. */
  lemma ConcatSnoc(chunks: seq<seq<Byte>>, i: nat)
    requires i < |chunks|
    ensures Concat(chunks[..i + 1]) == Concat(chunks[..i]) + chunks[i]
  {
    assert chunks[..i + 1][..i] == chunks[..i];
  }

  /** The file system while the copy loop runs: the temporary file holds `bytes`. */
  function Writing(fs: Fs, path: string, bytes: seq<Byte>): (w: Fs)
    requires !Exists(fs, path) && CanWrite(fs, path)
    ensures path !in w && Tmp(path) in w && w[Tmp(path)] == File(bytes)
  {
    KeySlash(path);
    MakeDestDir(fs, path)[Tmp(path) := File(bytes)]
  }

  /** Writing more to the temporary file replaces what it held. */
  lemma WritingMore(fs: Fs, path: string, a: seq<Byte>, b: seq<Byte>)
    requires !Exists(fs, path) && CanWrite(fs, path)
    ensures Writing(fs, path, a)[Tmp(path) := File(b)] == Writing(fs, path, b)
  {
  }

  /** Renaming the finished temporary file is the whole download. */
  lemma WritingDone(fs: Fs, path: string, chunks: seq<seq<Byte>>)
    requires !Exists(fs, path) && CanWrite(fs, path)
    ensures RenameFile(Writing(fs, path, Concat(chunks)), Tmp(path), path) == Download(fs, path, chunks)
  {
  }

  /** The states of the copy loop, one more. */
  lemma StatesSnoc(states: seq<Fs>, cur: Fs, path: string, chunks: seq<seq<Byte>>)
    requires |states| <= |chunks|
    requires forall j :: 0 <= j < |states| ==>
      path !in states[j] && Tmp(path) in states[j] && states[j][Tmp(path)] == File(Concat(chunks[..j]))
    requires path !in cur && Tmp(path) in cur && cur[Tmp(path)] == File(Concat(chunks[..|states|]))
    ensures forall j :: 0 <= j < |states + [cur]| ==>
      path !in (states + [cur])[j] && Tmp(path) in (states + [cur])[j]
      && (states + [cur])[j][Tmp(path)] == File(Concat(chunks[..j]))
  {
    var next := states + [cur];
    forall j | 0 <= j < |next|
      ensures path !in next[j] && Tmp(path) in next[j] && next[j][Tmp(path)] == File(Concat(chunks[..j]))
    {
      if j < |states| {
        assert next[j] == states[j];
      }
    }
  }

  /**
   * The copy loop of `_download`, step by step. `states[i]` is the file
   * system after `i` chunks: the temporary file holds exactly those chunks
   * and the final path is absent until the rename after the loop.
   */
  method Fetch(fs: Fs, path: string, chunks: seq<seq<Byte>>) returns (r: Fs, states: seq<Fs>)
    requires !Exists(fs, path) && CanWrite(fs, path)
    ensures r == Download(fs, path, chunks)
    ensures |states| == |chunks| + 1
    ensures forall i :: 0 <= i < |states| ==> path !in states[i]
    ensures forall i :: 0 <= i < |states| ==> Tmp(path) in states[i] && states[i][Tmp(path)] == File(Concat(chunks[..i]))
  {
    var tmp := Tmp(path);
    var cur := Writing(fs, path, []);
    states := [cur];
    var i := 0;
    assert chunks[..0] == [];
    while i < |chunks|
      invariant 0 <= i <= |chunks| && |states| == i + 1
      invariant cur == Writing(fs, path, Concat(chunks[..i]))
      invariant forall j :: 0 <= j < |states| ==>
        path !in states[j] && tmp in states[j] && states[j][tmp] == File(Concat(chunks[..j]))
    {
      ConcatSnoc(chunks, i);
      WritingMore(fs, path, Concat(chunks[..i]), Concat(chunks[..i + 1]));
      cur := cur[tmp := File(cur[tmp].data + chunks[i])];
      assert path !in cur && cur[tmp] == File(Concat(chunks[..i + 1]));
      StatesSnoc(states, cur, path, chunks);
      i := i + 1;
      states := states + [cur];
    }
    assert chunks[..i] == chunks;
    WritingDone(fs, path, chunks);
    r := RenameFile(cur, tmp, path);
  }

  /**
   * `download(url, dataset_name, saved_filename)`: the file goes to
   * `download_path/dataset_name/<name>`, the name being `saved_filename`
   * when one is given and the last segment of the URL's path otherwise.
   */
  function DestPath(downloadPath: string, dataset: string, url: string, savedName: string): string {
    var name := if savedName != "" then savedName else FileNameFromUrl(url);
    PathJoin(PathJoin(downloadPath, dataset), name)
  }

  function DownloadFile(fs: Fs, downloadPath: string, dataset: string, url: string, savedName: string,
                        chunks: seq<seq<Byte>>): (r: Fs)
    requires var dest := DestPath(downloadPath, dataset, url, savedName); !Exists(fs, dest) ==> CanWrite(fs, dest)
    ensures var dest := DestPath(downloadPath, dataset, url, savedName);
      && (Exists(fs, dest) ==> r == fs)
      && (!Exists(fs, dest) ==> dest in r && r[dest] == File(Concat(chunks)))
  {
    var dest := DestPath(downloadPath, dataset, url, savedName);
    if Exists(fs, dest) then fs else Download(fs, dest, chunks)
  }

  /** With a plain download directory, dataset and name, the file lands at `dir/dataset/name`. */
  lemma DestPathLayout(downloadPath: string, dataset: string, url: string, savedName: string)
    requires Normal(downloadPath) && |dataset| > 0 && dataset[0] != '/' && dataset[|dataset| - 1] != '/'
    ensures savedName != "" && savedName[0] != '/' ==>
      DestPath(downloadPath, dataset, url, savedName) == downloadPath + "/" + dataset + "/" + savedName
    ensures savedName == "" && FileNameFromUrl(url) != "" ==>
      DestPath(downloadPath, dataset, url, savedName) == downloadPath + "/" + dataset + "/" + FileNameFromUrl(url)
  {
  }

  // ---------------------------------------------------------------------------
  // unzip: skip when unpacked, refuse over-long paths, extract aside and rename
  // ---------------------------------------------------------------------------

  /** The longest extraction path the code accepts: the Windows limit. */
  const MaxPath: nat := 260

  /**
   * A member of a zip archive: the path it extracts to, whether it is a
   * directory, and its bytes.
   */
  datatype Member = Member(path: string, isDir: bool, data: seq<Byte>)

  /** The member's name as `namelist` gives it: directories end in '/', as `ZipInfo.is_dir` expects. */
  function Name(m: Member): string {
    if m.isDir then m.path + "/" else m.path
  }

  /** What a member extracts to. */
  function EntryOf(m: Member): Entry {
    if m.isDir then Dir else File(m.data)
  }

  /**
   * An archive whose names are plain relative paths, each naming one entry,
   * with no file member standing where another member needs a directory.
   */
  predicate ArchiveOk(ms: seq<Member>) {
    && (forall i :: 0 <= i < |ms| ==> Normal(ms[i].path) && ms[i].path[0] != '/')
    && Distinct(ms)
    && (forall i, j :: 0 <= i < |ms| && 0 <= j < |ms| && AncestorOf(ms[i].path, ms[j].path) ==> EntryOf(ms[i]).Dir?)
  }

  /** No two members extract to the same path. */
  predicate Distinct(ms: seq<Member>) {
    forall i, j :: 0 <= i < j < |ms| ==> ms[i].path != ms[j].path
  }

  /**
   * The relative paths the archive unpacks to: each member's path with its
   * entry, and the directories above it.
   */
  function Tree(ms: seq<Member>): (t: Fs)
    requires Distinct(ms)
    ensures forall s :: s in t <==> s in UpperDirs(ms)
  {
    var own := OwnEntries(ms);
    map s | s in UpperDirs(ms) :: if s in own then own[s] else Dir
  }

  /** Every member is in the tree at its path, with its entry. */
  lemma TreeMember(ms: seq<Member>, i: int)
    requires Distinct(ms) && 0 <= i < |ms|
    ensures ms[i].path in Tree(ms) && Tree(ms)[ms[i].path] == EntryOf(ms[i])
  {
    assert ms[i].path in UpperDirs(ms);
  }

  /** Each member's path with its entry. */
  function OwnEntries(ms: seq<Member>): (m: Fs)
    requires Distinct(ms)
    ensures forall i :: 0 <= i < |ms| ==> ms[i].path in m && m[ms[i].path] == EntryOf(ms[i])
    ensures forall s :: s in m ==> exists i :: 0 <= i < |ms| && s == ms[i].path
  {
    assert forall i, j :: 0 <= i < |ms| && 0 <= j < |ms| && ms[i].path == ms[j].path ==> i == j;
    map i | 0 <= i < |ms| :: ms[i].path := EntryOf(ms[i])
  }

  /** The member paths and the directories above them. */
  function UpperDirs(ms: seq<Member>): (ps: set<string>)
    ensures forall s :: s in ps <==> exists i :: 0 <= i < |ms| && Under(ms[i].path, s)
  {
    var ps := set i, p | 0 <= i < |ms| && p in Lineage(ms[i].path) :: p;
    forall s | exists i :: 0 <= i < |ms| && Under(ms[i].path, s)
      ensures s in ps
    {
      var i :| 0 <= i < |ms| && Under(ms[i].path, s);
      assert s in Lineage(ms[i].path);
    }
    ps
  }

  /** `os.path.abspath` of a normal path, given the absolute working directory. */
  function AbsPath(p: string, cwd: string): string {
    if |p| > 0 && p[0] == '/' then p else cwd + "/" + p
  }

  /** The member's extraction path below `abs` is over the limit. */
  predicate TooLong(abs: string, m: Member) {
    |PathJoin(abs, Name(m))| > MaxPath
  }

  /** The first member that is too long, or `|ms|` when none is. */
  function FirstTooLong(abs: string, ms: seq<Member>): (i: nat)
    ensures i <= |ms|
    ensures forall j :: 0 <= j < i ==> !TooLong(abs, ms[j])
    ensures i < |ms| ==> TooLong(abs, ms[i])
  {
    if |ms| == 0 || TooLong(abs, ms[0]) then 0 else 1 + FirstTooLong(abs, ms[1..])
  }

  /** Why `unzip` or `download_and_unzip` raise `ValueError`. */
  datatype Failure =
    | PathTooLong(path: string)
    | CannotFlatten(unzipPath: string, contents: set<string>, url: string)

  /** The file system after a call, and the error it raised, if any. */
  datatype Outcome = Outcome(fs: Fs, failure: Option<Failure>)

  /** The directory `unzip` extracts into before renaming it to `u`. */
  function Aside(u: string): string {
    u + "_tmp"
  }

  /** A path and its `_tmp` sibling are not nested, so nothing lies under both. */
  lemma AsideApart(u: string, k: string)
    requires Normal(u)
    ensures !Under(Aside(u), u) && !Under(u, Aside(u))
    ensures !(Under(k, u) && Under(k, Aside(u)))
  {
    assert Aside(u)[|u|] == '_';
    if Under(k, u) && Under(k, Aside(u)) {
      UnderBoth(k, u, Aside(u));
    }
  }

  /** After a refusal: nothing at or below `u` changed and the `_tmp` directory is left empty. */
  predicate Unextracted(before: Fs, after: Fs, u: string) {
    && (forall k :: k in after && Under(k, u) ==> k in before)
    && (forall k :: k in before && Under(k, u) ==> k in after && after[k] == before[k])
    && Aside(u) in after && Childless(after, Aside(u))
  }

  /** After an extraction: every member below `u` and nothing left under the `_tmp` directory. */
  predicate Extracted(fs: Fs, ms: seq<Member>, u: string)
    requires ArchiveOk(ms)
  {
    && u in fs && fs[u] == Dir
    && Holds(fs, u, Tree(ms))
    && (forall k :: k in fs ==> !Under(k, Aside(u)))
  }

  /** Making the `_tmp` directory touches nothing at or below `u` and puts nothing inside it. */
  lemma MakeAsideUnextracted(fs: Fs, u: string)
    requires Normal(u) && Childless(fs, Aside(u))
    ensures Unextracted(fs, MakeDirs(fs, Aside(u)), u)
  {
    var made := MakeDirs(fs, Aside(u));
    forall k | Under(k, u) && k in made
      ensures k in fs
    {
      if k !in fs {
        AsideApart(u, k);
        UnderTrans(Aside(u), k, u);
      }
    }
  }

  /** The path `unzip` tests for: `path_test` below the normalised unzip path. */
  function Unpacked(unzipPath: string, pathTest: string): string {
    PathJoin(Key(unzipPath), pathTest)
  }

  /**
   * What extracting into `u` needs: plain paths and archive names, room for
   * the `_tmp` directory, which must not hold anything yet, and nothing at
   * `u` that the final rename could not replace (only an empty directory).
   */
  predicate CanUnzip(fs: Fs, ms: seq<Member>, u: string, cwd: string) {
    && Normal(u) && Normal(cwd) && cwd[0] == '/'
    && ArchiveOk(ms)
    && DirsClear(fs, Aside(u)) && Childless(fs, Aside(u))
    && Childless(fs, u) && (u in fs ==> fs[u].Dir?)
  }

  /**
   * `unzip(zip_file_path, unzip_path, path_test)` for an archive whose
   * members are `ms`; `cwd` is the working directory `abspath` resolves
   * against.
   */
  function Unzip(fs: Fs, ms: seq<Member>, unzipPath: string, pathTest: string, cwd: string): (r: Outcome)
    requires !Exists(fs, Unpacked(unzipPath, pathTest)) ==> CanUnzip(fs, ms, Key(unzipPath), cwd)
    ensures Exists(fs, Unpacked(unzipPath, pathTest)) ==> r == Outcome(fs, None)
    ensures var u := Key(unzipPath); !Exists(fs, Unpacked(unzipPath, pathTest)) ==>
      && (r.failure.Some? <==> exists i :: 0 <= i < |ms| && TooLong(AbsPath(Aside(u), cwd), ms[i]))
      && (r.failure.Some? ==> r.failure.value.PathTooLong?)
      && (forall k :: k in fs && !Under(k, u) && !Under(k, Aside(u)) ==> k in r.fs && r.fs[k] == fs[k])
      && (r.failure.Some? ==> Unextracted(fs, r.fs, u))
      && (r.failure.None? ==> Extracted(r.fs, ms, u))
  {
    var u := Key(unzipPath);
    if Exists(fs, PathJoin(u, pathTest)) then Outcome(fs, None)
    else
      var made := MakeDirs(fs, Aside(u));
      var abs := AbsPath(Aside(u), cwd);
      var i := FirstTooLong(abs, ms);
      MakeAsideUnextracted(fs, u);
      if i < |ms| then Outcome(made, Some(PathTooLong(PathJoin(abs, Name(ms[i])))))
      else Outcome(Placed(made, ms, u), None)
  }

  /** The archive tree extracted into the empty `_tmp` directory of `u`, with `u` itself gone. */
  function Staged(made: Fs, ms: seq<Member>, u: string): (r: Fs)
    requires Normal(u) && ArchiveOk(ms) && Aside(u) in made && made[Aside(u)] == Dir && Childless(made, Aside(u))
    requires forall k :: k in made && k != u ==> !Under(k, u)
    ensures Aside(u) in r && r[Aside(u)] == Dir
    ensures Holds(r, Aside(u), Tree(ms))
    ensures forall k :: k in r ==> !Under(k, u)
    ensures forall k :: k in made && k != u ==> k in r && r[k] == made[k]
  {
    var tmp := Aside(u);
    var grafted := Graft(made, tmp, Tree(ms));
    AsideApart(u, u);
    var extracted := grafted - {u};
    forall k | k in extracted
      ensures !Under(k, u)
    {
      AsideApart(u, k);
    }
    HoldsWithout(grafted, tmp, Tree(ms), u);
    extracted
  }

  /** The extraction into the `_tmp` directory followed by its rename to `u`. */
  function Placed(made: Fs, ms: seq<Member>, u: string): (r: Fs)
    requires Normal(u) && ArchiveOk(ms) && Aside(u) in made && made[Aside(u)] == Dir && Childless(made, Aside(u))
    requires forall k :: k in made && k != u ==> !Under(k, u)
    ensures u in r && r[u] == Dir
    ensures Holds(r, u, Tree(ms))
    ensures forall k :: k in made && !Under(k, u) && !Under(k, Aside(u)) ==> k in r && r[k] == made[k]
    ensures forall k :: k in r ==> !Under(k, Aside(u))
  {
    var staged := Staged(made, ms, u);
    AsideApart(u, u);
    MoveHolds(staged, Aside(u), u, Tree(ms));
    MoveRoot(staged, Aside(u), u);
    Move(staged, Aside(u), u)
  }

  // ---------------------------------------------------------------------------
  // download_and_unzip: flattening a single top-level directory
  // ---------------------------------------------------------------------------

  /** The single entry `u` lists, as a path. */
  function Inner(fs: Fs, u: string): string
    requires |Children(fs, u)| == 1
  {
    u + "/" + Only(Children(fs, u))
  }

  /** Flattening applies: `u` lists one entry, and it is a directory. */
  predicate Flattenable(fs: Fs, u: string) {
    |Children(fs, u)| == 1 && Inner(fs, u) in fs && fs[Inner(fs, u)].Dir?
  }

  /**
   * The flatten step of `download_and_unzip(..., flatten_directory=True)`
   * on the unzip path `unzipPath`: lift the single directory, or fail
   * listing what is there.
   */
  function Flatten(fs: Fs, unzipPath: string, url: string): (r: Outcome)
    requires Normal(Key(unzipPath)) && (forall k :: k in fs && AncestorOf(Key(unzipPath), k) ==> Normal(k))
    requires Flattenable(fs, Key(unzipPath)) ==>
      forall k :: k in fs ==> !Under(k, Inner(fs, Key(unzipPath)) + "/" + Only(Children(fs, Key(unzipPath))))
    ensures r.failure.None? <==> Flattenable(fs, Key(unzipPath))
    ensures !Flattenable(fs, Key(unzipPath)) ==>
      r == Outcome(fs, Some(CannotFlatten(unzipPath, Children(fs, Key(unzipPath)), url)))
    ensures Flattenable(fs, Key(unzipPath)) ==> Inner(fs, Key(unzipPath)) !in r.fs
    ensures Flattenable(fs, Key(unzipPath)) ==>
      forall k :: k in fs && !AncestorOf(Key(unzipPath), k) ==> k in r.fs && r.fs[k] == fs[k]
    ensures Flattenable(fs, Key(unzipPath)) ==>
      forall k :: k in r.fs && !AncestorOf(Key(unzipPath), k) ==> k in fs && r.fs[k] == fs[k]
    ensures Flattenable(fs, Key(unzipPath)) ==>
      forall k :: k in fs && AncestorOf(Inner(fs, Key(unzipPath)), k) ==>
        Key(unzipPath) + k[|Inner(fs, Key(unzipPath))|..] in r.fs
        && r.fs[Key(unzipPath) + k[|Inner(fs, Key(unzipPath))|..]] == fs[k]
    ensures Flattenable(fs, Key(unzipPath)) ==>
      forall k :: k in r.fs && AncestorOf(Key(unzipPath), k) ==> Inner(fs, Key(unzipPath)) + k[|Key(unzipPath)|..] in fs
  {
    var u := Key(unzipPath);
    if Flattenable(fs, u) then
      var c := Only(Children(fs, u));
      var k :| k in fs && AncestorOf(u, k) && c == Head(k[|u| + 1..]);
      HeadNonEmpty(k, u);
      ChildrenSingle(fs, u, c);
      Outcome(Lift(fs, u, c), None)
    else Outcome(fs, Some(CannotFlatten(unzipPath, Children(fs, u), url)))
  }

  // ---------------------------------------------------------------------------
  // The shape of an archive's tree
  // ---------------------------------------------------------------------------

  /** What a well-formed archive unpacks to is a relative tree. */
  lemma TreeRel(ms: seq<Member>)
    requires ArchiveOk(ms)
    ensures RelTree(Tree(ms))
  {
    var t := Tree(ms);
    forall s | s in t
      ensures && Normal(s) && s[0] != '/'
              && forall p :: AncestorOf(p, s) ==> p in t && t[p].Dir?
    {
      TreePath(ms, s);
      forall p | AncestorOf(p, s)
        ensures p in t && t[p].Dir?
      {
        TreeAncestor(ms, p);
      }
    }
  }

  /** A path above some member is a plain relative path, and so are the paths above it. */
  lemma TreePath(ms: seq<Member>, s: string)
    requires ArchiveOk(ms) && exists i :: 0 <= i < |ms| && Under(ms[i].path, s)
    ensures Normal(s) && s[0] != '/'
    ensures forall p :: AncestorOf(p, s) ==> exists j :: 0 <= j < |ms| && AncestorOf(p, ms[j].path)
  {
    var i :| 0 <= i < |ms| && Under(ms[i].path, s);
    var k := ms[i].path;
    if s != k {
      AncestorNormal(s, k);
    }
    assert s[0] == k[0] == ms[i].path[0];
    forall p | AncestorOf(p, s)
      ensures AncestorOf(p, k)
    {
      UnderTrans(k, s, p);
    }
  }

  /** A strict ancestor of a member's path is a directory of the archive's tree. */
  lemma TreeAncestor(ms: seq<Member>, p: string)
    requires ArchiveOk(ms) && exists i :: 0 <= i < |ms| && AncestorOf(p, ms[i].path)
    ensures p in Tree(ms) && Tree(ms)[p].Dir?
  {
    assert p in UpperDirs(ms);
    if p in OwnEntries(ms) {
      OwnAncestor(ms, p);
    }
  }

  /** A member whose path is above another member's is a directory. */
  lemma OwnAncestor(ms: seq<Member>, p: string)
    requires ArchiveOk(ms) && p in OwnEntries(ms)
    requires exists i :: 0 <= i < |ms| && AncestorOf(p, ms[i].path)
    ensures OwnEntries(ms)[p] == Dir
  {
    var i :| 0 <= i < |ms| && AncestorOf(p, ms[i].path);
    var j :| 0 <= j < |ms| && p == ms[j].path;
  }

  /**
   * After a successful extraction, `u` can be flattened exactly when the
   * archive's tree has a single top-level entry and it is a directory;
   * and then the lifting has what it needs when the tree has no `c/c`.
   */
  lemma FlattenableTree(fs: Fs, ms: seq<Member>, u: string)
    requires Normal(u) && ArchiveOk(ms) && Holds(fs, u, Tree(ms))
    ensures Children(fs, u) == Tops(Tree(ms))
    ensures Flattenable(fs, u) <==> SingleDir(Tree(ms))
    ensures forall k :: k in fs && AncestorOf(u, k) ==> Normal(k)
  {
    var t := Tree(ms);
    TreeRel(ms);
    HoldsChildren(fs, u, t);
    HoldsNormal(fs, u, t);
    FlattenableIff(fs, u, t);
  }

  lemma FlattenableIff(fs: Fs, u: string, t: Fs)
    requires |u| > 0 && RelTree(t) && Holds(fs, u, t) && Children(fs, u) == Tops(t)
    ensures Flattenable(fs, u) <==> SingleDir(t)
  {
    if |Tops(t)| == 1 {
      var c := Only(Tops(t));
      var s :| s in t && Head(s) == c;
      TopInTree(t, s);
      assert Inner(fs, u) == u + "/" + c;
      assert Inner(fs, u) in fs && fs[Inner(fs, u)] == t[c];
    }
  }

  // ---------------------------------------------------------------------------
  // download_and_unzip
  // ---------------------------------------------------------------------------

  /** `os.path.join(download_path, dataset_name, subfolder_name or "")`. */
  function UnzipPath(downloadPath: string, dataset: string, subfolder: string): string {
    PathJoin(PathJoin(downloadPath, dataset), subfolder)
  }

  /** Where the archive is downloaded: `<dataset_name>.zip` in the temporary directory. */
  function ZipPath(tempDir: string, dataset: string): string {
    PathJoin(tempDir, dataset + ".zip")
  }

  /**
   * A fresh temporary directory as `tempfile.TemporaryDirectory` makes it:
   * not there yet, nothing below it, and every directory above it present.
   */
  predicate FreshTemp(fs: Fs, tempDir: string) {
    && Normal(tempDir) && tempDir !in fs && Childless(fs, tempDir)
    && (forall p :: p in Lineage(tempDir) && p != tempDir ==> p in fs && fs[p] == Dir)
  }

  /**
   * Creating the temporary directory and downloading the archive into it:
   * the archive is there in full and nothing outside the directory changed.
   */
  function Fetched(fs: Fs, tempDir: string, dataset: string, chunks: seq<seq<Byte>>): (r: Fs)
    requires FreshTemp(fs, tempDir) && |dataset| > 0 && '/' !in dataset
    ensures SameOutside(fs, r, tempDir)
    ensures ZipPath(tempDir, dataset) in r && r[ZipPath(tempDir, dataset)] == File(Concat(chunks))
  {
    var made := fs[tempDir := Dir];
    FetchReady(fs, tempDir, dataset);
    var r := Download(made, ZipPath(tempDir, dataset), chunks);
    FetchOutside(fs, r, tempDir, dataset, chunks);
    r
  }

  /** In the fresh directory the archive's path is free and writable. */
  lemma FetchReady(fs: Fs, tempDir: string, dataset: string)
    requires FreshTemp(fs, tempDir) && |dataset| > 0 && '/' !in dataset
    ensures var zip := ZipPath(tempDir, dataset);
      && Parent(zip) == tempDir && AncestorOf(tempDir, zip) && AncestorOf(tempDir, Tmp(zip))
      && !Exists(fs[tempDir := Dir], zip) && CanWrite(fs[tempDir := Dir], zip)
  {
    var zip := ZipPath(tempDir, dataset);
    ZipInTemp(tempDir, dataset);
    var made := fs[tempDir := Dir];
    assert zip !in made && Tmp(zip) !in made;
    assert DirsClear(made, tempDir) by {
      forall p | p in made && Under(tempDir, p)
        ensures made[p].Dir?
      {
        assert p in Lineage(tempDir);
      }
    }
  }

  /** The archive and its temporary name lie directly in the temporary directory. */
  lemma ZipInTemp(tempDir: string, dataset: string)
    requires Normal(tempDir) && |dataset| > 0 && '/' !in dataset
    ensures var zip := ZipPath(tempDir, dataset);
      && Normal(zip) && Key(zip) == zip
      && Parent(zip) == tempDir && AncestorOf(tempDir, zip) && AncestorOf(tempDir, Tmp(zip))
  {
    var zip := ZipPath(tempDir, dataset);
    assert '/' !in dataset + ".zip";
    ParentOfChild(tempDir, dataset + ".zip");
    KeySlash(zip);
    assert Tmp(zip)[..|tempDir|] == zip[..|tempDir|];
  }

  /** The download into the fresh directory changes nothing outside it. */
  lemma FetchOutside(fs: Fs, r: Fs, tempDir: string, dataset: string, chunks: seq<seq<Byte>>)
    requires FreshTemp(fs, tempDir) && |dataset| > 0 && '/' !in dataset
    requires var zip := ZipPath(tempDir, dataset);
      && Parent(zip) == tempDir && AncestorOf(tempDir, zip) && AncestorOf(tempDir, Tmp(zip))
      && !Exists(fs[tempDir := Dir], zip) && CanWrite(fs[tempDir := Dir], zip)
      && r == Download(fs[tempDir := Dir], zip, chunks)
    ensures SameOutside(fs, r, tempDir)
  {
    var made := fs[tempDir := Dir];
    forall k | k in r && !Under(k, tempDir)
      ensures k in fs
    {
      assert Under(tempDir, k) ==> k in Lineage(tempDir);
    }
  }

  /** The conditions for extracting do not depend on what lies in a directory apart from `u` and its `_tmp` sibling. */
  lemma CanUnzipApart(a: Fs, b: Fs, d: string, ms: seq<Member>, u: string, cwd: string)
    requires CanUnzip(a, ms, u, cwd) && SameOutside(a, b, d) && Apart(d, u) && Apart(d, Aside(u))
    ensures CanUnzip(b, ms, u, cwd)
  {
    forall k | k in b && Under(k, d)
      ensures !Under(k, u) && !Under(k, Aside(u)) && !Under(u, k) && !Under(Aside(u), k)
    {
      ApartBelow(k, d, u);
      ApartBelow(k, d, Aside(u));
      if Under(u, k) {
        UnderTrans(u, k, d);
      }
      if Under(Aside(u), k) {
        UnderTrans(Aside(u), k, d);
      }
    }
  }

  /** Flattening cannot be done by moving: the single top-level directory holds an entry of its own name. */
  predicate RepeatsTop(t: Fs) {
    SingleDir(t) && Only(Tops(t)) + "/" + Only(Tops(t)) in t
  }

  /**
   * After flattening: `u` is a directory holding what the archive's single
   * top-level directory held, and nothing is left under the `_tmp` directory.
   */
  predicate Flattened(fs: Fs, ms: seq<Member>, u: string)
    requires ArchiveOk(ms) && SingleDir(Tree(ms))
  {
    && u in fs && fs[u] == Dir
    && Holds(fs, u, Sub(Tree(ms), Only(Tops(Tree(ms)))))
    && (forall k :: k in fs ==> !Under(k, Aside(u)))
  }

  /**
   * The flatten step of `download_and_unzip` right after an extraction: it
   * succeeds exactly when the archive has a single top-level directory, and
   * otherwise reports the archive's top-level names.
   */
  function FlattenExtracted(fs: Fs, ms: seq<Member>, unzipPath: string, url: string): (r: Outcome)
    requires var u := Key(unzipPath); Normal(u) && ArchiveOk(ms) && Extracted(fs, ms, u) && !RepeatsTop(Tree(ms))
    ensures r.failure.None? <==> SingleDir(Tree(ms))
    ensures !SingleDir(Tree(ms)) ==> r == Outcome(fs, Some(CannotFlatten(unzipPath, Tops(Tree(ms)), url)))
    ensures SingleDir(Tree(ms)) ==> Flattened(r.fs, ms, Key(unzipPath))
    ensures forall k :: k in fs && !AncestorOf(Key(unzipPath), k) ==> k in r.fs && r.fs[k] == fs[k]
    ensures forall k :: k in r.fs && !AncestorOf(Key(unzipPath), k) ==> k in fs
  {
    var u := Key(unzipPath);
    var t := Tree(ms);
    FlattenableTree(fs, ms, u);
    TreeRel(ms);
    if SingleDir(t) then
      LiftReady(fs, u, t);
      LiftHolds(fs, u, t);
      var r := Flatten(fs, unzipPath, url);
      forall k | k in r.fs
        ensures !Under(k, Aside(u))
      {
        AsideApart(u, k);
      }
      r
    else Flatten(fs, unzipPath, url)
  }

  /** Some member's extraction path below the `_tmp` directory of `u` is over the limit. */
  predicate AnyTooLong(ms: seq<Member>, u: string, cwd: string) {
    exists i :: 0 <= i < |ms| && TooLong(AbsPath(Aside(u), cwd), ms[i])
  }

  /**
   * What a first `download_and_unzip` needs: a fresh temporary directory
   * apart from the unzip path and its `_tmp` sibling, a plain dataset name,
   * what `unzip` needs, and, when flattening, no entry inside the single
   * top-level directory with that directory's own name.
   */
  predicate CanInstall(fs: Fs, u: string, dataset: string, tempDir: string, ms: seq<Member>, cwd: string, flatten: bool) {
    && FreshTemp(fs, tempDir) && |dataset| > 0 && '/' !in dataset
    && CanUnzip(fs, ms, u, cwd)
    && Apart(tempDir, u) && Apart(tempDir, Aside(u))
    && (flatten ==> !RepeatsTop(Tree(ms)))
  }

  /**
   * `download_and_unzip(url, dataset_name, subfolder_name, flatten_directory)`:
   * `tempDir` is the directory `tempfile` provides, `chunks` the response
   * body, `ms` the members of the downloaded archive and `cwd` the working
   * directory. An existing unzip path skips everything.
   */
  function DownloadAndUnzip(fs: Fs, downloadPath: string, dataset: string, subfolder: string, flatten: bool,
                            url: string, tempDir: string, chunks: seq<seq<Byte>>, ms: seq<Member>, cwd: string): (r: Outcome)
    requires !Exists(fs, UnzipPath(downloadPath, dataset, subfolder)) ==>
      CanInstall(fs, Key(UnzipPath(downloadPath, dataset, subfolder)), dataset, tempDir, ms, cwd, flatten)
    ensures Exists(fs, UnzipPath(downloadPath, dataset, subfolder)) ==> r == Outcome(fs, None)
    ensures !Exists(fs, UnzipPath(downloadPath, dataset, subfolder)) ==>
      r == Install(fs, UnzipPath(downloadPath, dataset, subfolder), dataset, flatten, url, tempDir, chunks, ms, cwd)
  {
    var uRaw := UnzipPath(downloadPath, dataset, subfolder);
    if Exists(fs, uRaw) then Outcome(fs, None)
    else Install(fs, uRaw, dataset, flatten, url, tempDir, chunks, ms, cwd)
  }

  /**
   * The body of `download_and_unzip` once the unzip path `uRaw` is found
   * missing: download into the temporary directory, extract, remove the
   * temporary directory and flatten when asked to.
   */
  function Install(fs: Fs, uRaw: string, dataset: string, flatten: bool,
                   url: string, tempDir: string, chunks: seq<seq<Byte>>, ms: seq<Member>, cwd: string): (r: Outcome)
    requires !Exists(fs, uRaw) && CanInstall(fs, Key(uRaw), dataset, tempDir, ms, cwd, flatten)
    ensures forall k :: k in r.fs ==> !Under(k, tempDir)
    ensures forall k :: k in fs && !Under(k, Key(uRaw)) && !Under(k, Aside(Key(uRaw))) ==> k in r.fs && r.fs[k] == fs[k]
    ensures r.failure.Some? && r.failure.value.PathTooLong? <==> AnyTooLong(ms, Key(uRaw), cwd)
    ensures AnyTooLong(ms, Key(uRaw), cwd) ==> Unextracted(fs, r.fs, Key(uRaw))
    ensures !AnyTooLong(ms, Key(uRaw), cwd) && !flatten ==> r.failure.None? && Extracted(r.fs, ms, Key(uRaw))
    ensures !AnyTooLong(ms, Key(uRaw), cwd) && flatten ==> (r.failure.None? <==> SingleDir(Tree(ms)))
    ensures !AnyTooLong(ms, Key(uRaw), cwd) && flatten && !SingleDir(Tree(ms)) ==>
      r.failure == Some(CannotFlatten(uRaw, Tops(Tree(ms)), url)) && Extracted(r.fs, ms, Key(uRaw))
    ensures !AnyTooLong(ms, Key(uRaw), cwd) && flatten && SingleDir(Tree(ms)) ==> Flattened(r.fs, ms, Key(uRaw))
  {
    var u := Key(uRaw);
    var fetched := Fetched(fs, tempDir, dataset, chunks);
    UnzipReady(fs, fetched, uRaw, tempDir, ms, cwd);
    var unzipped := Unzip(fetched, ms, uRaw, "", cwd);
    var cleaned := Cleaned(fs, fetched, unzipped, tempDir, ms, u, cwd);
    CleanedApart(fs, tempDir, u);
    if unzipped.failure.Some? then Outcome(cleaned, unzipped.failure)
    else if flatten then FlattenExtracted(cleaned, ms, uRaw, url)
    else Outcome(cleaned, None)
  }

  /** After fetching, the unzip path is still missing and extracting into it is possible. */
  lemma UnzipReady(fs: Fs, fetched: Fs, uRaw: string, tempDir: string, ms: seq<Member>, cwd: string)
    requires !Exists(fs, uRaw) && CanUnzip(fs, ms, Key(uRaw), cwd) && SameOutside(fs, fetched, tempDir)
    requires Apart(tempDir, Key(uRaw)) && Apart(tempDir, Aside(Key(uRaw)))
    ensures !Exists(fetched, Unpacked(uRaw, "")) && CanUnzip(fetched, ms, Key(uRaw), cwd)
  {
    var u := Key(uRaw);
    KeySlash(u);
    assert Unpacked(uRaw, "") == u + "/";
    assert Under(u, u);
    CanUnzipApart(fs, fetched, tempDir, ms, u, cwd);
  }

  /**
   * Removing the temporary directory after `unzip`: everything else stays
   * as `unzip` left it, which relates to the state before the download as
   * `unzip` promises.
   */
  function Cleaned(fs: Fs, fetched: Fs, unzipped: Outcome, tempDir: string, ms: seq<Member>, u: string, cwd: string): (r: Fs)
    requires Normal(u) && ArchiveOk(ms) && SameOutside(fs, fetched, tempDir) && Apart(tempDir, u) && Apart(tempDir, Aside(u))
    requires Childless(fs, tempDir) && tempDir !in fs
    requires forall k :: k in fetched && !Under(k, u) && !Under(k, Aside(u)) ==> k in unzipped.fs && unzipped.fs[k] == fetched[k]
    requires unzipped.failure.Some? ==> Unextracted(fetched, unzipped.fs, u)
    requires unzipped.failure.None? ==> Extracted(unzipped.fs, ms, u)
    ensures forall k :: k in r ==> !Under(k, tempDir)
    ensures forall k :: k in fs && !Under(k, u) && !Under(k, Aside(u)) ==> k in r && r[k] == fs[k]
    ensures unzipped.failure.Some? ==> Unextracted(fs, r, u)
    ensures unzipped.failure.None? ==> Extracted(r, ms, u)
  {
    CleanedApart(fs, tempDir, u);
    if unzipped.failure.None? then
      RemoveApart(unzipped.fs, tempDir, u, Tree(ms));
      RemoveTree(unzipped.fs, tempDir)
    else RemoveTree(unzipped.fs, tempDir)
  }

  /** Nothing before the download, and nothing at or below `u` or its `_tmp` sibling, is in the temporary directory. */
  lemma CleanedApart(fs: Fs, tempDir: string, u: string)
    requires Normal(u) && Apart(tempDir, u) && Apart(tempDir, Aside(u))
    requires Childless(fs, tempDir) && tempDir !in fs
    ensures forall k :: k in fs ==> !Under(k, tempDir)
    ensures forall k :: Under(k, u) || Under(k, Aside(u)) ==> !Under(k, tempDir)
  {
    forall k | Under(k, u) || Under(k, Aside(u))
      ensures !Under(k, tempDir)
    {
      if Under(k, u) {
        ApartBelow(k, u, tempDir);
      } else {
        ApartBelow(k, Aside(u), tempDir);
      }
    }
  }

  /** A first successful call leaves the unzip path in place, so calling again does nothing. */
  lemma DownloadAndUnzipRerun(fs: Fs, downloadPath: string, dataset: string, subfolder: string, flatten: bool,
                              url: string, tempDir: string, chunks: seq<seq<Byte>>, ms: seq<Member>, cwd: string,
                              tempDir2: string, chunks2: seq<seq<Byte>>, ms2: seq<Member>)
    requires !Exists(fs, UnzipPath(downloadPath, dataset, subfolder))
    requires CanInstall(fs, Key(UnzipPath(downloadPath, dataset, subfolder)), dataset, tempDir, ms, cwd, flatten)
    requires !AnyTooLong(ms, Key(UnzipPath(downloadPath, dataset, subfolder)), cwd)
    ensures Exists(DownloadAndUnzip(fs, downloadPath, dataset, subfolder, flatten, url, tempDir, chunks, ms, cwd).fs,
                   UnzipPath(downloadPath, dataset, subfolder))
    ensures DownloadAndUnzip(DownloadAndUnzip(fs, downloadPath, dataset, subfolder, flatten, url, tempDir, chunks, ms, cwd).fs,
                             downloadPath, dataset, subfolder, flatten, url, tempDir2, chunks2, ms2, cwd)
      == Outcome(DownloadAndUnzip(fs, downloadPath, dataset, subfolder, flatten, url, tempDir, chunks, ms, cwd).fs, None)
  {
    var r := DownloadAndUnzip(fs, downloadPath, dataset, subfolder, flatten, url, tempDir, chunks, ms, cwd);
    if flatten && SingleDir(Tree(ms)) {
      assert Flattened(r.fs, ms, Key(UnzipPath(downloadPath, dataset, subfolder)));
    } else {
      assert Extracted(r.fs, ms, Key(UnzipPath(downloadPath, dataset, subfolder)));
    }
  }

  // ---------------------------------------------------------------------------
  // _reporthook: the progress line
  // ---------------------------------------------------------------------------

  /** At least a second, in milliseconds, between two progress lines. */
  const ReportGap: int := 1000

  /** `start_time` and `last_report_time`, in milliseconds. */
  datatype HookState = HookState(start: int, last: int)

  /**
   * One progress line: when it was written, the percentage (absent when the
   * size is unknown), the megabytes, kilobytes per second and seconds shown.
   */
  datatype Report = Report(at: int, percent: Option<int>, megabytes: int, speed: int, seconds: int)

  /** The size reported by `Content-Length`, or -1 when there is none. */
  predicate KnownOrUnknown(totalSize: int) {
    totalSize == -1 || totalSize > 0
  }

  /** The percentage as the hook computes it: blocks read times block size, over the total. */
  function PercentAsWritten(count: nat, blockSize: nat, totalSize: int): int
    requires totalSize > 0
  {
    count * blockSize * 100 / totalSize
  }

  /**
   * The last block of a download is usually short, but the hook counts it
   * as a full block: 40000 bytes read as 32768 + 7232 show 163%.
   */
  lemma PercentOvershoots()
    ensures PercentAsWritten(2, BlockSize, 40000) == 163
  {
  }

  /** The bytes received so far, as far as the hook can tell: never more than the total. */
  function Received(count: nat, blockSize: nat, totalSize: int): (b: nat)
    requires totalSize > 0
    ensures b <= totalSize && b <= count * blockSize
    ensures b == count * blockSize || b == totalSize
  {
    if count * blockSize < totalSize then count * blockSize else totalSize
  }

  /** The percentage the line means to show: capped at the total. */
  function Percent(count: nat, blockSize: nat, totalSize: int): (p: int)
    requires totalSize > 0
    ensures 0 <= p <= 100
    ensures p == 100 <==> count * blockSize >= totalSize
    ensures count * blockSize <= totalSize ==> p == PercentAsWritten(count, blockSize, totalSize)
  {
    var b := Received(count, blockSize, totalSize);
    PercentBounds(b, totalSize);
    b * 100 / totalSize
  }

  lemma PercentBounds(b: nat, total: int)
    requires 0 < total && b <= total
    ensures 0 <= b * 100 / total <= 100
    ensures b * 100 / total == 100 <==> b == total
  {
    if b == total {
      PercentFull(total);
    } else {
      PercentBelow(b, total);
    }
  }

  lemma PercentFull(total: int)
    requires 0 < total
    ensures total * 100 / total == 100
  {
  }

  lemma PercentBelow(b: nat, total: int)
    requires 0 < total && b < total
    ensures 0 <= b * 100 / total < 100
  {
    var q := b * 100 / total;
    assert q * total <= b * 100;
    assert b * 100 <= total * 100 - 100;
    Scale(q, 100, total);
  }

  /** Multiplying by a positive number keeps a strict order in both directions. */
  lemma Scale(a: int, b: int, c: int)
    requires c > 0
    ensures a < b <==> a * c < b * c
  {
    if a < b {
      assert (b - a) * c > 0;
    } else {
      assert (a - b) * c >= 0;
    }
  }

  /**
   * `_reporthook(count, block_size, total_size)` at time `now`: a count of
   * 0 restarts the clock; otherwise a line is written when more than a
   * second has passed since the last one.
   */
  function ReportHook(st: HookState, count: nat, blockSize: nat, totalSize: int, now: int): (r: (HookState, Option<Report>))
    requires st.start <= st.last && KnownOrUnknown(totalSize)
    ensures r.0.start <= r.0.last
    ensures count == 0 ==> r == (HookState(now, now), None)
    ensures count > 0 ==> (r.1.Some? <==> now - st.last > ReportGap)
    ensures count > 0 && r.1.None? ==> r.0 == st
    ensures r.1.Some? ==> r.0 == HookState(st.start, now) && r.1.value.at == now
    ensures r.1.Some? ==> (r.1.value.percent.Some? <==> totalSize != -1)
    ensures r.1.Some? && totalSize != -1 ==> 0 <= r.1.value.percent.value <= 100
  {
    if count == 0 then (HookState(now, now), None)
    else if now - st.last > ReportGap then (HookState(st.start, now), Some(Line(st.start, count, blockSize, totalSize, now)))
    else (st, None)
  }

  /** `q` is `a / b` rounded down: the whole number of `b`s in `a`. */
  predicate Between(q: int, a: int, b: int) {
    q * b <= a < (q + 1) * b
  }

  lemma FloorDiv(a: int, b: int)
    requires b > 0
    ensures Between(a / b, a, b)
  {
    var q, r := a / b, a % b;
    assert a == q * b + r && 0 <= r < b;
    assert (q + 1) * b == q * b + b;
  }

  /**
   * The line written at `now` for a download that started at `start`: the
   * percentage, then the megabytes received, the speed in KB/s and the
   * seconds elapsed, each rounded down as `%d` prints them.
   */
  function Line(start: int, count: nat, blockSize: nat, totalSize: int, now: int): (l: Report)
    requires start < now && KnownOrUnknown(totalSize)
    ensures l.at == now
    ensures l.percent.Some? <==> totalSize != -1
    ensures totalSize != -1 ==> 0 <= l.percent.value <= 100
    ensures totalSize != -1 && count * blockSize <= totalSize ==>
      l.percent == Some(PercentAsWritten(count, blockSize, totalSize))
    ensures Between(l.megabytes, count * blockSize, 1024 * 1024)
    ensures Between(l.speed, count * blockSize * 1000, 1024 * (now - start))
    ensures Between(l.seconds, now - start, 1000)
  {
    var duration := now - start;
    FloorDiv(count * blockSize, 1024 * 1024);
    FloorDiv(count * blockSize * 1000, 1024 * duration);
    FloorDiv(duration, 1000);
    var progress := count * blockSize;
    var percent := if totalSize != -1 then Some(Percent(count, blockSize, totalSize)) else None;
    Report(now, percent, progress / (1024 * 1024), progress * 1000 / (1024 * duration), duration / 1000)
  }

  /**
   * The hook called for blocks `count0 + 1, count0 + 2, ...` at the times
   * in `times`, as the download loop calls it: the final state and the
   * lines written.
   */
  function Progress(st: HookState, count0: nat, blockSize: nat, totalSize: int, times: seq<int>): (r: (HookState, seq<Report>))
    requires st.start <= st.last && KnownOrUnknown(totalSize)
    ensures r.0.start <= r.0.last
    decreases |times|
  {
    if |times| == 0 then (st, [])
    else
      var hook := ReportHook(st, count0 + 1, blockSize, totalSize, times[0]);
      var rest := Progress(hook.0, count0 + 1, blockSize, totalSize, times[1..]);
      (rest.0, (if hook.1.Some? then [hook.1.value] else []) + rest.1)
  }

  /** The times never go backwards and start no earlier than `after`. */
  predicate Ascending(times: seq<int>, after: int) {
    && (forall i :: 0 <= i < |times| ==> after <= times[i])
    && (forall i, j :: 0 <= i <= j < |times| ==> times[i] <= times[j])
  }

  /** Each line comes more than a second after the one before, the first more than a second after `after`. */
  predicate Spaced(lines: seq<Report>, after: int) {
    && (|lines| > 0 ==> lines[0].at - after > ReportGap)
    && (forall i :: 0 < i < |lines| ==> lines[i].at - lines[i - 1].at > ReportGap)
  }

  lemma SpacedCons(l: Report, rest: seq<Report>, after: int)
    requires l.at - after > ReportGap && Spaced(rest, l.at)
    ensures Spaced([l] + rest, after)
  {
    var lines := [l] + rest;
    forall i | 0 < i < |lines|
      ensures lines[i].at - lines[i - 1].at > ReportGap
    {
      if i > 1 {
        assert lines[i] == rest[i - 1] && lines[i - 1] == rest[i - 2];
      }
    }
  }

  /**
   * With a clock that does not go backwards, progress lines are more than a
   * second apart, and the first comes more than a second after the last
   * report time the loop started with.
   */
  lemma {:induction false} ProgressSpaced(st: HookState, count0: nat, blockSize: nat, totalSize: int, times: seq<int>)
    requires st.start <= st.last && KnownOrUnknown(totalSize) && Ascending(times, st.last)
    ensures Spaced(Progress(st, count0, blockSize, totalSize, times).1, st.last)
    ensures Progress(st, count0, blockSize, totalSize, times).0.last
      == LastAt(Progress(st, count0, blockSize, totalSize, times).1, st.last)
    decreases |times|
  {
    if |times| > 0 {
      var hook := ReportHook(st, count0 + 1, blockSize, totalSize, times[0]);
      var st1, line := hook.0, hook.1;
      assert Ascending(times[1..], st1.last);
      ProgressSpaced(st1, count0 + 1, blockSize, totalSize, times[1..]);
      var rest := Progress(st1, count0 + 1, blockSize, totalSize, times[1..]);
      if line.Some? {
        SpacedCons(line.value, rest.1, st.last);
        LastAtCons(line.value, rest.1, st.last);
      } else {
        assert st1 == st;
        assert [] + rest.1 == rest.1;
      }
    }
  }

  /** When the last of `lines` was written, or `after` when there is none. */
  function LastAt(lines: seq<Report>, after: int): int {
    if |lines| == 0 then after else lines[|lines| - 1].at
  }

  lemma LastAtCons(l: Report, rest: seq<Report>, after: int)
    ensures LastAt([l] + rest, after) == LastAt(rest, l.at)
  {
    assert ([l] + rest)[|rest|] == if |rest| > 0 then rest[|rest| - 1] else l;
  }
}

=== FILE: file_system.dfy ===
/**
 * A file system as a map from path strings to entries, with the operations
 * the download cache uses: `os.path.exists`, `os.path.dirname`,
 * `os.makedirs`, `os.rename`, `os.listdir` and removing a tree. Paths are
 * compared as strings; a path is "normal" when it has no trailing and no
 * doubled separator.
 */
module FileSystem {

  import opened Text

  type Byte = b: int | 0 <= b < 256

  datatype Entry = File(data: seq<Byte>) | Dir

  type Fs = map<string, Entry>

  // ---------------------------------------------------------------------------
  // Paths
  // ---------------------------------------------------------------------------

  /** `p` is a proper ancestor of `k`: a non-empty prefix of `k` ending just before a '/'. */
  predicate AncestorOf(p: string, k: string) {
    0 < |p| < |k| && k[..|p|] == p && k[|p|] == '/'
  }

  /** `k` is `p` or lies below it. */
  predicate Under(k: string, p: string) {
    k == p || AncestorOf(p, k)
  }

  /** A normalised path: non-empty, no trailing '/', no empty component. */
  predicate Normal(k: string) {
    && |k| > 0 && k[|k| - 1] != '/'
    && (forall i :: 1 <= i < |k| && k[i] == '/' ==> k[i - 1] != '/')
  }

  /** Two paths that a third lies under are nested one in the other. */
  lemma UnderBoth(k: string, a: string, b: string)
    requires Under(k, a) && Under(k, b)
    ensures Under(a, b) || Under(b, a)
  {
    if |a| < |b| {
      assert b[..|a|] == k[..|a|];
    } else if |b| < |a| {
      assert a[..|b|] == k[..|b|];
    } else {
      assert a == k[..|a|];
    }
  }

  /** Lying under is transitive. */
  lemma UnderTrans(k: string, p: string, q: string)
    requires Under(k, p) && Under(p, q)
    ensures Under(k, q)
  {
    if k != p && p != q {
      assert k[..|q|] == k[..|p|][..|q|];
    }
  }

  /** A path with its trailing separators removed, as `os.path.exists` and `normpath` see it. */
  function Key(p: string): (k: string)
    ensures |k| <= |p| && k == p[..|k|]
    ensures |k| > 0 ==> k[|k| - 1] != '/'
    ensures forall i :: |k| <= i < |p| ==> p[i] == '/'
  {
    if |p| > 0 && p[|p| - 1] == '/' then Key(p[..|p| - 1]) else p
  }

  /** A path with a single trailing separator names the same entry. */
  lemma KeySlash(k: string)
    requires Normal(k)
    ensures Key(k + "/") == k && Key(k) == k
  {
    assert (k + "/")[..|k|] == k;
  }

  /** `path.rsplit('/', 1)[-1]`, which is also `os.path.basename`: the text after the last '/'. */
  function LastSegment(path: string): (name: string)
    ensures '/' !in name
    ensures |name| <= |path| && path[|path| - |name|..] == name
    ensures |name| < |path| ==> path[|path| - |name| - 1] == '/'
  {
    if |path| == 0 || path[|path| - 1] == '/' then []
    else LastSegment(path[..|path| - 1]) + [path[|path| - 1]]
  }

  /** Text without '/' extends the last segment. */
  lemma LastSegmentExtend(path: string, more: string)
    requires '/' !in more
    ensures LastSegment(path + more) == LastSegment(path) + more
  {
    var seg := LastSegment(path);
    var head := path[..|path| - |seg|];
    SegmentSplit(path);
    Regroup(path, head, seg, more);
    NoSlashConcat(seg, more);
    LastSegmentUnique(path + more, head, seg + more);
  }

  lemma Regroup(path: string, head: string, seg: string, more: string)
    requires path == head + seg
    ensures path + more == head + (seg + more)
  {
  }

  lemma NoSlashConcat(a: string, b: string)
    requires '/' !in a && '/' !in b
    ensures '/' !in a + b
  {
  }

  /** A path is the text up to its last '/' followed by its last segment. */
  lemma SegmentSplit(path: string)
    ensures var head := path[..|path| - |LastSegment(path)|];
      path == head + LastSegment(path) && (|head| == 0 || head[|head| - 1] == '/')
  {
  }

  /**
   * The last segment is the only way to cut `path` into a head that is empty
   * or ends in '/' and a tail without '/'.
   */
  lemma {:induction false} LastSegmentUnique(path: string, head: string, tail: string)
    requires path == head + tail && '/' !in tail
    requires |head| == 0 || head[|head| - 1] == '/'
    ensures LastSegment(path) == tail
    decreases |path|
  {
    if |tail| > 0 {
      var n := |path| - 1;
      assert path[n] == tail[|tail| - 1];
      assert path[..n] == head + tail[..|tail| - 1];
      LastSegmentUnique(path[..n], head, tail[..|tail| - 1]);
    } else {
      assert path == head;
    }
  }

  /**
   * `os.path.dirname` of a normal path: the text before its last '/'. It is
   * "" both for a single component and for a child of the root, the two
   * cases in which the download code would ask `makedirs` for "" or "/".
   */
  function Parent(k: string): (d: string)
    ensures Normal(k) && d != "" ==> AncestorOf(d, k) && Normal(d) && LastSegment(k) == k[|d| + 1..]
  {
    var n := |LastSegment(k)|;
    if n < |k| then
      var d := k[..|k| - n - 1];
      assert Normal(k) && d != "" ==> forall i :: 1 <= i < |d| ==> d[i] == k[i];
      d
    else ""
  }

  /** The ancestors of a normal path are its parent and the parent's ancestors. */
  lemma ParentLineage(k: string, p: string)
    requires Normal(k) && AncestorOf(p, k)
    ensures Parent(k) != "" && Under(Parent(k), p)
  {
    var name := LastSegment(k);
    assert k[|p|] == '/';
    assert |p| < |k| - |name|;
    var d := Parent(k);
    if |p| < |d| {
      assert d[..|p|] == k[..|p|];
    }
  }

  /** The parent of `dir/name` for a single component `name`. */
  lemma ParentOfChild(dir: string, name: string)
    requires Normal(dir) && |name| > 0 && '/' !in name
    ensures Parent(dir + "/" + name) == dir && Normal(dir + "/" + name)
  {
    var k := dir + "/" + name;
    LastSegmentUnique(k, dir + "/", name);
    assert k[..|dir|] == dir;
    assert forall i :: |dir| < i < |k| ==> k[i] == name[i - |dir| - 1];
  }

  /**
   * `os.path.exists`: the entry is there, and a path written with a trailing
   * separator names a directory (POSIX resolves `file/` to ENOTDIR).
   */
  predicate Exists(fs: Fs, p: string) {
    Key(p) in fs && (Key(p) != p ==> fs[Key(p)].Dir?)
  }

  /** A file exists under its own name but not with a separator after it. */
  lemma FileWithSlash(fs: Fs, k: string)
    requires Normal(k) && k in fs && fs[k].File?
    ensures Exists(fs, k) && !Exists(fs, k + "/")
  {
    KeySlash(k);
  }

  /** Nothing lies strictly below `p`. */
  predicate Childless(fs: Fs, p: string) {
    forall k :: k in fs ==> !AncestorOf(p, k)
  }

  /** What a tree promises about `p`: either it exists or nothing lies below it. */
  predicate Rooted(fs: Fs, p: string) {
    p in fs || Childless(fs, p)
  }

  /** The first component of a relative path. */
  function Head(s: string): (h: string)
    ensures '/' !in h
    ensures s == h || (|h| < |s| && s[..|h|] == h && s[|h|] == '/')
  {
    var parts := Split(s, '/');
    if |parts| == 1 then parts[0]
    else
      assert s == parts[0] + ['/'] + Join(parts[1..], '/');
      parts[0]
  }

  /** A component followed by the end or by a separator is the first component. */
  lemma HeadUnique(s: string, c: string)
    requires '/' !in c
    requires s == c || (|c| < |s| && s[..|c|] == c && s[|c|] == '/')
    ensures Head(s) == c
  {
  }

  /** Below a directory, a normal path starts with a non-empty component. */
  lemma HeadNonEmpty(k: string, u: string)
    requires Normal(k) && AncestorOf(u, k)
    ensures |Head(k[|u| + 1..])| > 0
  {
    assert k[|u| + 1] == k[|u| + 1..][0];
  }

  /** `os.listdir(u)`: the first components of everything strictly below `u`. */
  function Children(fs: Fs, u: string): set<string> {
    set k | k in fs && AncestorOf(u, k) :: Head(k[|u| + 1..])
  }

  /** The element of a one-element set. */
  function Only(s: set<string>): (x: string)
    requires |s| == 1
    ensures s == {x}
  {
    var x :| x in s;
    assert |s - {x}| == 0;
    assert s == {x} by {
      assert s - {x} == {};
    }
    x
  }

  /** The child of `u` that a path strictly below it lies in. */
  lemma ChildOf(k: string, u: string, c: string)
    requires AncestorOf(u, k) && |c| > 0 && '/' !in c
    ensures Head(k[|u| + 1..]) == c <==> Under(k, u + "/" + c)
  {
    var inner := u + "/" + c;
    var s := k[|u| + 1..];
    assert k == u + "/" + s;
    if Under(k, inner) {
      if k != inner {
        assert s[..|c|] == k[..|inner|][|u| + 1..];
      }
      HeadUnique(s, c);
    }
    if Head(s) == c && s != c {
      assert k[..|inner|] == u + "/" + s[..|c|];
    }
  }

  /** `u` lists only `c` exactly when everything strictly below `u` lies under `u/c`. */
  lemma ChildrenSingle(fs: Fs, u: string, c: string)
    requires |u| > 0 && |c| > 0 && '/' !in c && u + "/" + c in fs
    ensures Children(fs, u) == {c} <==> forall k :: k in fs && AncestorOf(u, k) ==> Under(k, u + "/" + c)
  {
    var inner := u + "/" + c;
    assert inner[..|u|] == u && inner[|u| + 1..] == c;
    ChildOf(inner, u, c);
    assert c in Children(fs, u);
    if Children(fs, u) == {c} {
      forall k | k in fs && AncestorOf(u, k)
        ensures Under(k, inner)
      {
        assert Head(k[|u| + 1..]) in Children(fs, u);
        ChildOf(k, u, c);
      }
    }
    if forall k :: k in fs && AncestorOf(u, k) ==> Under(k, inner) {
      forall x | x in Children(fs, u)
        ensures x == c
      {
        var k :| k in fs && AncestorOf(u, k) && x == Head(k[|u| + 1..]);
        ChildOf(k, u, c);
      }
    }
  }

  // ---------------------------------------------------------------------------
  // Operations
  // ---------------------------------------------------------------------------

  /** The ancestors of `d` together with `d` itself. */
  function Lineage(d: string): (ps: set<string>)
    ensures forall p :: p in ps <==> Under(d, p)
  {
    var ps := set i | 0 < i <= |d| && (i == |d| || d[i] == '/') :: d[..i];
    assert forall p :: AncestorOf(p, d) ==> p in ps by {
      forall p | AncestorOf(p, d)
        ensures p in ps
      {
        assert d[..|p|] == p;
      }
    }
    assert |d| > 0 ==> d[..|d|] in ps;
    ps + {d}
  }

  /** No file stands where `os.makedirs(d)` needs a directory. */
  predicate DirsClear(fs: Fs, d: string) {
    forall p :: p in fs && Under(d, p) ==> fs[p].Dir?
  }

  /**
   * `os.makedirs(d, exist_ok=True)`: `d` and its missing ancestors become
   * directories and whatever exists is kept.
   */
  function MakeDirs(fs: Fs, d: string): (r: Fs)
    ensures forall k :: k in fs ==> k in r && r[k] == fs[k]
    ensures forall k :: k in r ==> k in fs || (Under(d, k) && r[k] == Dir)
    ensures forall k :: Under(d, k) ==> k in r
    ensures DirsClear(fs, d) ==> DirsClear(r, d)
  {
    var missing := set p | p in Lineage(d) && p !in fs;
    fs + map p | p in missing :: Dir
  }

  /** `os.rename` of a file. */
  function RenameFile(fs: Fs, src: string, dst: string): (r: Fs)
    requires src in fs && src != dst
    ensures dst in r && r[dst] == fs[src] && src !in r
    ensures forall k :: k in fs && k != src && k != dst ==> k in r && r[k] == fs[k]
    ensures forall k :: k in r ==> k in fs || k == dst
  {
    (fs - {src})[dst := fs[src]]
  }

  /** Where `k`, lying under `src`, goes when `src` is renamed to `dst`. */
  function Rebase(k: string, src: string, dst: string): (r: string)
    requires Under(k, src) && |dst| > 0
    ensures Under(r, dst) && src + r[|dst|..] == k
    ensures AncestorOf(src, k) ==> AncestorOf(dst, r)
  {
    var r := dst + k[|src|..];
    assert k == src + k[|src|..];
    assert r[|dst|..] == k[|src|..];
    r
  }

  /** Rebasing is one-to-one. */
  lemma RebaseInjective(j: string, k: string, src: string, dst: string)
    requires Under(j, src) && Under(k, src) && |dst| > 0
    requires Rebase(j, src, dst) == Rebase(k, src, dst)
    ensures j == k
  {
  }

  /** The entries a rename of `src` leaves where they are. */
  function Unmoved(fs: Fs, src: string): Fs {
    map k | k in fs && !Under(k, src) :: fs[k]
  }

  /** The entries at or below `src`, each at its place below `dst`. */
  function Rebased(fs: Fs, src: string, dst: string): (m: Fs)
    requires |dst| > 0
    ensures forall k :: k in m ==> Under(k, dst)
  {
    assert forall j, k :: j in fs && Under(j, src) && k in fs && Under(k, src) && Rebase(j, src, dst) == Rebase(k, src, dst) ==> j == k by {
      forall j, k | j in fs && Under(j, src) && k in fs && Under(k, src) && Rebase(j, src, dst) == Rebase(k, src, dst)
        ensures j == k
      {
        RebaseInjective(j, k, src, dst);
      }
    }
    map k | k in fs && Under(k, src) :: Rebase(k, src, dst) := fs[k]
  }

  /** Each rebased entry came from the path it is rebased from. */
  lemma RebasedFrom(fs: Fs, src: string, dst: string, k: string)
    requires |dst| > 0 && k in Rebased(fs, src, dst)
    ensures Under(k, dst) && src + k[|dst|..] in fs && Under(src + k[|dst|..], src)
    ensures Rebased(fs, src, dst)[k] == fs[src + k[|dst|..]]
  {
    var j :| j in fs && Under(j, src) && Rebase(j, src, dst) == k;
    assert src + k[|dst|..] == j;
  }

  /** Each entry at or below `src` has its rebased place. */
  lemma RebasedTo(fs: Fs, src: string, dst: string, k: string)
    requires |dst| > 0 && k in fs && Under(k, src)
    ensures Rebase(k, src, dst) in Rebased(fs, src, dst) && Rebased(fs, src, dst)[Rebase(k, src, dst)] == fs[k]
  {
    var m := Rebased(fs, src, dst);
    assert Rebase(k, src, dst) in m;
    RebasedFrom(fs, src, dst, Rebase(k, src, dst));
  }

  /**
   * `os.rename` of a directory `src` to a path `dst` with nothing at or below
   * it: the whole tree under `src` moves under `dst`.
   */
  function Move(fs: Fs, src: string, dst: string): (r: Fs)
    requires src in fs && |dst| > 0 && !Under(dst, src)
    requires forall k :: k in fs ==> !Under(k, dst)
    ensures forall k :: k in fs && !Under(k, src) ==> k in r && r[k] == fs[k]
    ensures forall k :: k in fs && Under(k, src) ==> Rebase(k, src, dst) in r && r[Rebase(k, src, dst)] == fs[k]
    ensures forall k :: k in r ==> !Under(k, src)
    ensures forall k :: k in r && !Under(k, dst) ==> k in fs && r[k] == fs[k]
    ensures forall k :: k in r && Under(k, dst) ==> src + k[|dst|..] in fs && r[k] == fs[src + k[|dst|..]]
  {
    var kept := Unmoved(fs, src);
    var moved := Rebased(fs, src, dst);
    var r := kept + moved;
    forall k | k in fs && !Under(k, src)
      ensures k in r && r[k] == fs[k]
    {
      assert k in kept && k !in moved;
    }
    forall k | k in fs && Under(k, src)
      ensures Rebase(k, src, dst) in r && r[Rebase(k, src, dst)] == fs[k]
    {
      RebasedTo(fs, src, dst, k);
    }
    forall k | k in r
      ensures !Under(k, src)
    {
      if k in moved && Under(k, src) {
        UnderBoth(k, src, dst);
      }
    }
    forall k | k in r && !Under(k, dst)
      ensures k in fs && r[k] == fs[k]
    {
      assert k in kept && k !in moved;
    }
    forall k | k in r && Under(k, dst)
      ensures src + k[|dst|..] in fs && r[k] == fs[src + k[|dst|..]]
    {
      assert k !in kept;
      RebasedFrom(fs, src, dst, k);
    }
    r
  }

  /**
   * `fs` holds exactly the relative tree `t` strictly below `dir`: each
   * relative path of `t` at `dir/path`, and nothing else below `dir`.
   */
  predicate Holds(fs: Fs, dir: string, t: Fs) {
    && (forall s :: s in t ==> dir + "/" + s in fs && fs[dir + "/" + s] == t[s])
    && (forall k :: k in fs && AncestorOf(dir, k) ==> k[|dir| + 1..] in t && fs[k] == t[k[|dir| + 1..]])
  }

  /** Removing a path that is not below `dir` keeps what `dir` holds. */
  lemma HoldsWithout(fs: Fs, dir: string, t: Fs, p: string)
    requires |dir| > 0 && Holds(fs, dir, t) && !AncestorOf(dir, p)
    ensures Holds(fs - {p}, dir, t)
  {
    forall s | s in t
      ensures dir + "/" + s != p
    {
      Below(dir, s);
    }
  }

  /** The path below `dir` for a relative path. */
  lemma Below(dir: string, s: string)
    requires |dir| > 0
    ensures AncestorOf(dir, dir + "/" + s) && (dir + "/" + s)[|dir| + 1..] == s
  {
    assert (dir + "/" + s)[..|dir|] == dir;
  }

  /** The relative tree `t` placed below `dir`. */
  function Placement(dir: string, t: Fs): (m: Fs)
    requires |dir| > 0
    ensures forall s :: s in t ==> dir + "/" + s in m && m[dir + "/" + s] == t[s]
    ensures forall k :: k in m ==> AncestorOf(dir, k) && k[|dir| + 1..] in t && m[k] == t[k[|dir| + 1..]]
  {
    forall a, b | a in t && b in t && dir + "/" + a == dir + "/" + b
      ensures a == b
    {
      Below(dir, a);
      Below(dir, b);
    }
    var m := map s | s in t :: dir + "/" + s := t[s];
    forall k | k in m
      ensures AncestorOf(dir, k) && k[|dir| + 1..] in t && m[k] == t[k[|dir| + 1..]]
    {
      var s :| s in t && k == dir + "/" + s;
      Below(dir, s);
    }
    m
  }

  /** Adding the relative tree `t` below the directory `dir`, which held nothing. */
  function Graft(fs: Fs, dir: string, t: Fs): (r: Fs)
    requires |dir| > 0 && Childless(fs, dir)
    ensures Holds(r, dir, t)
    ensures forall k :: k in fs ==> k in r && r[k] == fs[k]
    ensures forall k :: k in r && !AncestorOf(dir, k) ==> k in fs
  {
    fs + Placement(dir, t)
  }

  /** Renaming a directory that holds `t` to an empty place: the new place holds `t`. */
  lemma MoveHolds(fs: Fs, src: string, dst: string, t: Fs)
    requires src in fs && |src| > 0 && |dst| > 0 && !Under(dst, src)
    requires forall k :: k in fs ==> !Under(k, dst)
    requires Holds(fs, src, t)
    ensures Holds(Move(fs, src, dst), dst, t)
  {
    MoveHoldsAll(fs, src, dst, t);
    MoveHoldsOnly(fs, src, dst, t);
  }

  lemma MoveHoldsAll(fs: Fs, src: string, dst: string, t: Fs)
    requires src in fs && |src| > 0 && |dst| > 0 && !Under(dst, src)
    requires forall k :: k in fs ==> !Under(k, dst)
    requires Holds(fs, src, t)
    ensures forall s :: s in t ==> dst + "/" + s in Move(fs, src, dst) && Move(fs, src, dst)[dst + "/" + s] == t[s]
  {
    var r := Move(fs, src, dst);
    forall s | s in t
      ensures dst + "/" + s in r && r[dst + "/" + s] == t[s]
    {
      RebaseChild(src, dst, s);
    }
  }

  /** Renaming `src` to `dst` takes `src/s` to `dst/s`. */
  lemma RebaseChild(src: string, dst: string, s: string)
    requires |src| > 0 && |dst| > 0
    ensures Under(src + "/" + s, src) && Rebase(src + "/" + s, src, dst) == dst + "/" + s
  {
    Below(src, s);
    var k := src + "/" + s;
    assert k[|src|..] == "/" + s;
    assert dst + k[|src|..] == dst + "/" + s;
  }

  lemma MoveHoldsOnly(fs: Fs, src: string, dst: string, t: Fs)
    requires src in fs && |src| > 0 && |dst| > 0 && !Under(dst, src)
    requires forall k :: k in fs ==> !Under(k, dst)
    requires Holds(fs, src, t)
    ensures forall k :: k in Move(fs, src, dst) && AncestorOf(dst, k) ==>
      k[|dst| + 1..] in t && Move(fs, src, dst)[k] == t[k[|dst| + 1..]]
  {
    var r := Move(fs, src, dst);
    forall k | k in r && AncestorOf(dst, k)
      ensures k[|dst| + 1..] in t && r[k] == t[k[|dst| + 1..]]
    {
      var j := src + k[|dst|..];
      assert j in fs && r[k] == fs[j];
      MovedFrom(src, dst, k);
    }
  }

  /** A path strictly below `dst` came from the same relative path below `src`. */
  lemma MovedFrom(src: string, dst: string, k: string)
    requires |src| > 0 && AncestorOf(dst, k)
    ensures var j := src + k[|dst|..]; AncestorOf(src, j) && j[|src| + 1..] == k[|dst| + 1..]
  {
    assert k[|dst|..] == "/" + k[|dst| + 1..];
    Below(src, k[|dst| + 1..]);
  }

  /** The moved directory itself arrives at the destination. */
  lemma MoveRoot(fs: Fs, src: string, dst: string)
    requires src in fs && |dst| > 0 && !Under(dst, src)
    requires forall k :: k in fs ==> !Under(k, dst)
    ensures dst in Move(fs, src, dst) && Move(fs, src, dst)[dst] == fs[src]
  {
    assert Rebase(src, src, dst) == dst;
  }

  /** Removing `p` and everything below it, as a temporary directory is cleaned up. */
  function RemoveTree(fs: Fs, p: string): (r: Fs)
    ensures forall k :: k in r <==> k in fs && !Under(k, p)
    ensures forall k :: k in r ==> r[k] == fs[k]
  {
    map k | k in fs && !Under(k, p) :: fs[k]
  }

  // ---------------------------------------------------------------------------
  // Moving the contents of a directory up
  // ---------------------------------------------------------------------------

  /** Everything strictly below `inner`, rebased below `u`. */
  function LiftedEntries(fs: Fs, inner: string, u: string): (r: Fs)
    requires AncestorOf(u, inner)
    ensures forall k :: k in fs && AncestorOf(inner, k) ==> Rebase(k, inner, u) in r && r[Rebase(k, inner, u)] == fs[k]
    ensures forall k :: k in r ==> AncestorOf(u, k) && inner + k[|u|..] in fs && r[k] == fs[inner + k[|u|..]]
  {
    forall j, k | j in fs && AncestorOf(inner, j) && k in fs && AncestorOf(inner, k) && Rebase(j, inner, u) == Rebase(k, inner, u)
      ensures j == k
    {
      RebaseInjective(j, k, inner, u);
    }
    map k | k in fs && AncestorOf(inner, k) :: Rebase(k, inner, u) := fs[k]
  }

  lemma ChildBelow(u: string, c: string)
    requires |u| > 0
    ensures AncestorOf(u, u + "/" + c)
  {
    assert (u + "/" + c)[..|u|] == u;
  }

  /** What is left after removing `u/c`, together with what was below it, rebased below `u`. */
  function LiftMap(fs: Fs, u: string, c: string): Fs
    requires |u| > 0
  {
    ChildBelow(u, c);
    RemoveTree(fs, u + "/" + c) + LiftedEntries(fs, u + "/" + c, u)
  }

  /** Lifting leaves every entry not strictly below `u` alone. */
  lemma LiftKeeps(fs: Fs, u: string, c: string)
    requires |u| > 0 && |c| > 0 && '/' !in c
    requires forall k :: k in fs && AncestorOf(u, k) ==> Under(k, u + "/" + c)
    ensures forall k :: k in fs && !AncestorOf(u, k) ==> k in LiftMap(fs, u, c) && LiftMap(fs, u, c)[k] == fs[k]
    ensures forall k :: k in LiftMap(fs, u, c) && !AncestorOf(u, k) ==> k in fs && LiftMap(fs, u, c)[k] == fs[k]
  {
    var inner := u + "/" + c;
    ChildBelow(u, c);
    var kept := RemoveTree(fs, inner);
    var lifted := LiftedEntries(fs, inner, u);
    var r := LiftMap(fs, u, c);
    forall k | k in fs && !AncestorOf(u, k)
      ensures k in r && r[k] == fs[k]
    {
      if Under(k, inner) {
        UnderTrans(k, inner, u);
      }
      assert k in kept && k !in lifted;
    }
    forall k | k in r && !AncestorOf(u, k)
      ensures k in fs && r[k] == fs[k]
    {
      assert k in kept && k !in lifted;
    }
  }

  /** Lifting moves everything below `u/c` up one level and nothing else is left below `u`. */
  lemma LiftMoves(fs: Fs, u: string, c: string)
    requires |u| > 0 && |c| > 0 && '/' !in c
    requires forall k :: k in fs && AncestorOf(u, k) ==> Under(k, u + "/" + c)
    requires forall k :: k in fs ==> !Under(k, u + "/" + c + "/" + c)
    ensures forall k :: k in fs && AncestorOf(u + "/" + c, k) ==>
      Rebase(k, u + "/" + c, u) in LiftMap(fs, u, c) && LiftMap(fs, u, c)[Rebase(k, u + "/" + c, u)] == fs[k]
    ensures forall k :: k in LiftMap(fs, u, c) && AncestorOf(u, k) ==>
      u + "/" + c + k[|u|..] in fs && LiftMap(fs, u, c)[k] == fs[u + "/" + c + k[|u|..]]
    ensures u + "/" + c !in LiftMap(fs, u, c)
  {
    var inner := u + "/" + c;
    ChildBelow(u, c);
    var kept := RemoveTree(fs, inner);
    var lifted := LiftedEntries(fs, inner, u);
    var r := LiftMap(fs, u, c);
    var clash := inner + inner[|u|..];
    assert clash == inner + "/" + c && Under(clash, clash);
    assert clash !in fs;
    forall k | k in fs && AncestorOf(inner, k)
      ensures Rebase(k, inner, u) in r && r[Rebase(k, inner, u)] == fs[k]
    {
      assert Rebase(k, inner, u) in lifted;
    }
    forall k | k in r && AncestorOf(u, k)
      ensures inner + k[|u|..] in fs && r[k] == fs[inner + k[|u|..]]
    {
      assert k !in kept;
    }
  }

  /**
   * Moving every entry of `u/c` up into `u` and removing `u/c`, when `c` is
   * the only entry of `u` and does not itself hold an entry named `c`.
   */
  function Lift(fs: Fs, u: string, c: string): (r: Fs)
    requires |u| > 0 && |c| > 0 && '/' !in c
    requires forall k :: k in fs && AncestorOf(u, k) ==> Under(k, u + "/" + c)
    requires forall k :: k in fs ==> !Under(k, u + "/" + c + "/" + c)
    ensures forall k :: k in fs && !AncestorOf(u, k) ==> k in r && r[k] == fs[k]
    ensures forall k :: k in r && !AncestorOf(u, k) ==> k in fs && r[k] == fs[k]
    ensures forall k :: k in fs && AncestorOf(u + "/" + c, k) ==>
      Rebase(k, u + "/" + c, u) in r && r[Rebase(k, u + "/" + c, u)] == fs[k]
    ensures forall k :: k in r && AncestorOf(u, k) ==> u + "/" + c + k[|u|..] in fs && r[k] == fs[u + "/" + c + k[|u|..]]
    ensures u + "/" + c !in r
  {
    LiftKeeps(fs, u, c);
    LiftMoves(fs, u, c);
    LiftMap(fs, u, c)
  }

  // ---------------------------------------------------------------------------
  // Relative trees
  // ---------------------------------------------------------------------------

  /** A prefix of a normal path that ends before a separator is normal. */
  lemma AncestorNormal(p: string, k: string)
    requires Normal(k) && AncestorOf(p, k)
    ensures Normal(p)
  {
    assert forall i :: 1 <= i < |p| ==> p[i] == k[i];
  }

  /** A normal directory joined with a normal relative path is normal. */
  lemma JoinNormal(dir: string, s: string)
    requires Normal(dir) && Normal(s) && s[0] != '/'
    ensures Normal(dir + "/" + s)
  {
    var k := dir + "/" + s;
    assert forall i :: |dir| < i < |k| ==> k[i] == s[i - |dir| - 1];
  }

  /**
   * A tree of relative paths: each normal, none starting at the root, and
   * every ancestor of a path in the tree is a directory in it.
   */
  ghost predicate RelTree(t: Fs) {
    forall s :: s in t ==> && Normal(s) && s[0] != '/'
                           && forall p :: AncestorOf(p, s) ==> p in t && t[p].Dir?
  }

  /** The top-level names of a relative tree. */
  function Tops(t: Fs): set<string> {
    set s | s in t :: Head(s)
  }

  /** The top-level name of a path in a tree is itself in the tree. */
  lemma TopInTree(t: Fs, s: string)
    requires RelTree(t) && s in t
    ensures Head(s) in t && (Head(s) != s ==> t[Head(s)].Dir?)
  {
    var h := Head(s);
    if h != s {
      assert AncestorOf(h, s);
    }
  }

  /** A directory holding a relative tree lists the tree's top-level names. */
  lemma HoldsChildren(fs: Fs, u: string, t: Fs)
    requires |u| > 0 && Holds(fs, u, t)
    ensures Children(fs, u) == Tops(t)
  {
    forall x | x in Tops(t)
      ensures x in Children(fs, u)
    {
      var s :| s in t && x == Head(s);
      Below(u, s);
    }
  }

  /** Below a directory holding a relative tree, every path is normal. */
  lemma HoldsNormal(fs: Fs, u: string, t: Fs)
    requires Normal(u) && Holds(fs, u, t) && RelTree(t)
    ensures forall k :: k in fs && AncestorOf(u, k) ==> Normal(k)
  {
    forall k | k in fs && AncestorOf(u, k)
      ensures Normal(k)
    {
      var s := k[|u| + 1..];
      assert k == u + "/" + s;
      JoinNormal(u, s);
    }
  }

  /** The part of a relative tree below its top-level name `c`, relative to `c`. */
  function Sub(t: Fs, c: string): (r: Fs)
    requires |c| > 0
    ensures forall s :: s in r <==> c + "/" + s in t
    ensures forall s :: s in r ==> r[s] == t[c + "/" + s]
  {
    SubDomain(t, c);
    map s | s in (set x | x in t && AncestorOf(c, x) :: x[|c| + 1..]) :: t[c + "/" + s]
  }

  lemma SubDomain(t: Fs, c: string)
    requires |c| > 0
    ensures forall s :: s in (set x | x in t && AncestorOf(c, x) :: x[|c| + 1..]) <==> c + "/" + s in t
  {
    forall s ensures s in (set x | x in t && AncestorOf(c, x) :: x[|c| + 1..]) <==> c + "/" + s in t {
      if c + "/" + s in t {
        var x := c + "/" + s;
        assert AncestorOf(c, x) && x[|c| + 1..] == s;
      }
      if s in (set x | x in t && AncestorOf(c, x) :: x[|c| + 1..]) {
        var x :| x in t && AncestorOf(c, x) && x[|c| + 1..] == s;
        assert x == c + "/" + s;
      }
    }
  }

  /** A tree whose one top-level entry is a directory. */
  predicate SingleDir(t: Fs) {
    |Tops(t)| == 1 && Only(Tops(t)) in t && t[Only(Tops(t))].Dir?
  }

  /** A path below `u/x` is, relative to `u`, below `x`. */
  lemma UnderRelative(k: string, u: string, x: string)
    requires |u| > 0 && |x| > 0 && Under(k, u + "/" + x)
    ensures AncestorOf(u, k) && Under(k[|u| + 1..], x)
  {
    var inner := u + "/" + x;
    assert inner[..|u|] == u;
    UnderTrans(k, inner, u);
    assert k[..|inner|] == inner;
    var s := k[|u| + 1..];
    assert s[..|x|] == x;
    if k != inner {
      assert s[|x|] == k[|inner|];
    }
  }

  /** A held tree with one top-level directory `c` and no `c/c` meets what lifting `c` needs. */
  lemma LiftReady(fs: Fs, u: string, t: Fs)
    requires |u| > 0 && Holds(fs, u, t) && RelTree(t) && SingleDir(t)
    requires Only(Tops(t)) + "/" + Only(Tops(t)) !in t
    ensures |Only(Tops(t))| > 0 && '/' !in Only(Tops(t))
    ensures forall k :: k in fs && AncestorOf(u, k) ==> Under(k, u + "/" + Only(Tops(t)))
    ensures forall k :: k in fs ==> !Under(k, u + "/" + Only(Tops(t)) + "/" + Only(Tops(t)))
  {
    var c := Only(Tops(t));
    var s0 :| s0 in t && Head(s0) == c;
    assert |c| > 0 && '/' !in c;
    HeldBelowTop(fs, u, t, c);
    HeldNoRepeat(fs, u, t, c);
  }

  /** Everything held below `u` lies under `u/c` when `c` is the tree's only top-level name. */
  lemma HeldBelowTop(fs: Fs, u: string, t: Fs, c: string)
    requires |u| > 0 && Holds(fs, u, t) && Tops(t) == {c} && |c| > 0 && '/' !in c
    ensures forall k :: k in fs && AncestorOf(u, k) ==> Under(k, u + "/" + c)
  {
    forall k | k in fs && AncestorOf(u, k)
      ensures Under(k, u + "/" + c)
    {
      var s := k[|u| + 1..];
      assert s in t && Head(s) in Tops(t);
      ChildOf(k, u, c);
    }
  }

  /** Nothing held below `u` lies under `u/c/c` when the tree has no `c/c`. */
  lemma HeldNoRepeat(fs: Fs, u: string, t: Fs, c: string)
    requires |u| > 0 && Holds(fs, u, t) && RelTree(t) && |c| > 0 && c + "/" + c !in t
    ensures forall k :: k in fs ==> !Under(k, u + "/" + c + "/" + c)
  {
    assert forall s :: s in t ==> !Under(s, c + "/" + c);
    forall k | k in fs
      ensures !Under(k, u + "/" + c + "/" + c)
    {
      assert u + "/" + c + "/" + c == u + "/" + (c + "/" + c);
      if Under(k, u + "/" + (c + "/" + c)) {
        UnderRelative(k, u, c + "/" + c);
      }
    }
  }

  /**
   * Lifting the single top-level directory `c` of a held tree leaves `u`
   * holding the part of the tree below `c`, provided the tree has no `c/c`.
   */
  lemma LiftHolds(fs: Fs, u: string, t: Fs)
    requires |u| > 0 && Holds(fs, u, t) && RelTree(t) && SingleDir(t)
    requires Only(Tops(t)) + "/" + Only(Tops(t)) !in t
    ensures |Only(Tops(t))| > 0 && '/' !in Only(Tops(t))
    ensures forall k :: k in fs && AncestorOf(u, k) ==> Under(k, u + "/" + Only(Tops(t)))
    ensures forall k :: k in fs ==> !Under(k, u + "/" + Only(Tops(t)) + "/" + Only(Tops(t)))
    ensures Holds(Lift(fs, u, Only(Tops(t))), u, Sub(t, Only(Tops(t))))
  {
    LiftReady(fs, u, t);
    var c := Only(Tops(t));
    LiftHoldsOnto(fs, u, t, c);
    LiftHoldsFrom(fs, u, t, c);
  }

  lemma LiftHoldsOnto(fs: Fs, u: string, t: Fs, c: string)
    requires |u| > 0 && |c| > 0 && '/' !in c && Holds(fs, u, t)
    requires forall k :: k in fs && AncestorOf(u, k) ==> Under(k, u + "/" + c)
    requires forall k :: k in fs ==> !Under(k, u + "/" + c + "/" + c)
    ensures forall s :: s in Sub(t, c) ==> u + "/" + s in Lift(fs, u, c) && Lift(fs, u, c)[u + "/" + s] == Sub(t, c)[s]
  {
    var r := Lift(fs, u, c);
    var st := Sub(t, c);
    forall s | s in st
      ensures u + "/" + s in r && r[u + "/" + s] == st[s]
    {
      LiftedPath(u, c, s);
    }
  }

  /** The path `u/c/s`, moved from below `u/c` to below `u`, is `u/s`. */
  lemma LiftedPath(u: string, c: string, s: string)
    requires |u| > 0 && |c| > 0
    ensures var k := u + "/" + c + "/" + s;
      && k == u + "/" + (c + "/" + s)
      && AncestorOf(u + "/" + c, k)
      && Rebase(k, u + "/" + c, u) == u + "/" + s
  {
    Below(u + "/" + c, s);
  }

  lemma LiftHoldsFrom(fs: Fs, u: string, t: Fs, c: string)
    requires |u| > 0 && |c| > 0 && '/' !in c && Holds(fs, u, t)
    requires forall k :: k in fs && AncestorOf(u, k) ==> Under(k, u + "/" + c)
    requires forall k :: k in fs ==> !Under(k, u + "/" + c + "/" + c)
    ensures forall k :: k in Lift(fs, u, c) && AncestorOf(u, k) ==> k[|u| + 1..] in Sub(t, c) && Lift(fs, u, c)[k] == Sub(t, c)[k[|u| + 1..]]
  {
    var r := Lift(fs, u, c);
    var st := Sub(t, c);
    forall k | k in r && AncestorOf(u, k)
      ensures k[|u| + 1..] in st && r[k] == st[k[|u| + 1..]]
    {
      var s := k[|u| + 1..];
      LiftedSource(u, c, k);
      Below(u, c + "/" + s);
    }
  }

  /** A path `k` strictly below `u` came from `u/c` followed by what follows `u` in `k`. */
  lemma LiftedSource(u: string, c: string, k: string)
    requires |c| > 0 && AncestorOf(u, k)
    ensures u + "/" + c + k[|u|..] == u + "/" + (c + "/" + k[|u| + 1..])
  {
    assert k[|u|..] == "/" + k[|u| + 1..];
  }

  // ---------------------------------------------------------------------------
  // Changes confined to one directory
  // ---------------------------------------------------------------------------

  /** `a` and `b` agree on everything that is not at or below `d`. */
  predicate SameOutside(a: Fs, b: Fs, d: string) {
    && (forall k :: k in a && !Under(k, d) ==> k in b && b[k] == a[k])
    && (forall k :: k in b && !Under(k, d) ==> k in a)
  }

  /** Agreeing outside `d` is transitive. */
  lemma SameOutsideTrans(a: Fs, b: Fs, c: Fs, d: string)
    requires SameOutside(a, b, d) && SameOutside(b, c, d)
    ensures SameOutside(a, c, d)
  {
  }

  /** Two paths neither of which is at or below the other. */
  predicate Apart(p: string, q: string) {
    !Under(p, q) && !Under(q, p)
  }

  /** Nothing lies at or below two paths that are apart. */
  lemma ApartBelow(k: string, p: string, q: string)
    requires Apart(p, q) && Under(k, p)
    ensures !Under(k, q)
  {
    if Under(k, q) {
      UnderBoth(k, p, q);
    }
  }

  /** Removing a tree apart from `u` leaves what `u` holds. */
  lemma RemoveApart(fs: Fs, d: string, u: string, t: Fs)
    requires |u| > 0 && Holds(fs, u, t) && Apart(u, d)
    ensures Holds(RemoveTree(fs, d), u, t)
  {
    forall s | s in t
      ensures !Under(u + "/" + s, d)
    {
      Below(u, s);
      ApartBelow(u + "/" + s, u, d);
    }
    forall k | AncestorOf(u, k)
      ensures !Under(k, d)
    {
      ApartBelow(k, u, d);
    }
  }
}

=== FILE: geometry.dfy ===
/**
 * Planar geometry over a grid of unit cells.
 *
 * A region is a finite set of cells; a polygon is a region with a validity
 * flag (an invalid polygon is one GEOS would reject, e.g. a self-touching
 * ring). With this abstraction difference, intersection and union are exact
 * set operations and area is proportional to the cell count, so the overlay
 * rules of the pipeline stages can be stated and proved exactly.
 */
module Geometry {

  import opened Wrappers

  type Cell = (int, int)
  type Region = set<Cell>

  /** Area of one cell, in square degrees (the unit every area threshold uses). */
  const CellArea: real := 0.00001

  function RegionArea(r: Region): real {
    |r| as real * CellArea
  }

  /** Two closed unit squares meet (share at least a corner). */
  predicate Near(a: Cell, b: Cell) {
    -1 <= a.0 - b.0 <= 1 && -1 <= a.1 - b.1 <= 1
  }

  predicate RegionsMeet(r: Region, s: Region) {
    exists a, b :: a in r && b in s && Near(a, b)
  }

  /** A simple polygon: its cells, and whether its rings are well formed. */
  datatype Polygon = Polygon(cells: Region, valid: bool)

  /**
   * The geometry kinds the stages distinguish: the empty geometry, a Polygon,
   * a MultiPolygon, a GeometryCollection, and every lower-dimensional kind
   * (points and lines), which carries no area and is never empty here.
   */
  datatype Geom =
    | Empty
    | Poly(poly: Polygon)
    | Multi(parts: seq<Polygon>)
    | Coll(members: seq<Geom>)
    | Lineal

  function PartsCells(ps: seq<Polygon>): Region {
    if |ps| == 0 then {} else PartsCells(ps[..|ps| - 1]) + ps[|ps| - 1].cells
  }

  /** The point set of a geometry, as cells. */
  function Cells(g: Geom): Region
    decreases g, 1
  {
    match g
    case Empty => {}
    case Poly(p) => p.cells
    case Multi(ps) => PartsCells(ps)
    case Coll(ms) => MembersCells(g, ms)
    case Lineal => {}
  }

  function MembersCells(ghost parent: Geom, ms: seq<Geom>): Region
    requires forall i :: 0 <= i < |ms| ==> ms[i] < parent
    decreases parent, 0, |ms|
  {
    if |ms| == 0 then {} else MembersCells(parent, ms[..|ms| - 1]) + Cells(ms[|ms| - 1])
  }

  predicate IsEmpty(g: Geom) {
    match g
    case Empty => true
    case Poly(p) => p.cells == {}
    case Multi(ps) => PartsCells(ps) == {}
    case Coll(ms) => forall i :: 0 <= i < |ms| ==> IsEmpty(ms[i])
    case Lineal => false
  }

  predicate IsValid(g: Geom) {
    match g
    case Empty => true
    case Poly(p) => p.valid
    case Multi(ps) => forall i :: 0 <= i < |ps| ==> ps[i].valid
    case Coll(ms) => forall i :: 0 <= i < |ms| ==> IsValid(ms[i])
    case Lineal => true
  }

  /** Polygon or MultiPolygon, the kinds a feature layer may hold. */
  predicate IsPolygonal(g: Geom) {
    g.Poly? || g.Multi?
  }

  function Area(g: Geom): real {
    RegionArea(Cells(g))
  }

  predicate Intersects(g: Geom, h: Geom) {
    RegionsMeet(Cells(g), Cells(h))
  }

  /** The boundaries meet but the interiors do not. */
  predicate Touches(g: Geom, h: Geom) {
    Intersects(g, h) && Cells(g) * Cells(h) == {}
  }

  /** The canonical geometry of a region, as an overlay operation returns it. */
  function Shape(r: Region): (g: Geom)
    ensures Cells(g) == r && IsValid(g)
    ensures IsEmpty(g) <==> r == {}
    ensures r != {} ==> g.Poly?
  {
    if r == {} then Empty else Poly(Polygon(r, true))
  }

  function Difference(g: Geom, h: Geom): (d: Geom)
    ensures Cells(d) == Cells(g) - Cells(h) && IsValid(d)
  {
    Shape(Cells(g) - Cells(h))
  }

  function Intersection(g: Geom, h: Geom): (d: Geom)
    ensures Cells(d) == Cells(g) * Cells(h) && IsValid(d)
  {
    Shape(Cells(g) * Cells(h))
  }

  function UnionCells(gs: seq<Geom>): Region {
    if |gs| == 0 then {} else UnionCells(gs[..|gs| - 1]) + Cells(gs[|gs| - 1])
  }

  /** `unary_union` of a list of geometries. */
  function UnionAll(gs: seq<Geom>): (u: Geom)
    ensures Cells(u) == UnionCells(gs) && IsValid(u)
  {
    Shape(UnionCells(gs))
  }

  /** `make_valid`: a valid geometry with the same point set. */
  function MakeValid(g: Geom): (v: Geom)
    ensures IsValid(v)
    ensures Cells(v) == Cells(g)
    ensures IsValid(g) ==> v == g
  {
    if IsValid(g) then g else Shape(Cells(g))
  }

  /** The polygonal members of a collection, in order. */
  function PolygonalMembers(ms: seq<Geom>): (ps: seq<Geom>)
    ensures forall i :: 0 <= i < |ps| ==> IsPolygonal(ps[i])
    ensures forall g :: g in ps <==> g in ms && IsPolygonal(g)
    ensures |ps| <= |ms|
  {
    if |ms| == 0 then []
    else
      var init := ms[..|ms| - 1];
      var last := ms[|ms| - 1];
      assert forall g :: g in ms <==> g in init || g == last by {
        assert ms == init + [last];
      }
      PolygonalMembers(init) + (if IsPolygonal(last) then [last] else [])
  }

  function PolygonsOf(g: Geom): seq<Polygon> {
    match g
    case Poly(p) => [p]
    case Multi(ps) => ps
    case _ => []
  }

  /** The parts that are valid and not empty, in order. */
  function ValidNonEmpty(ps: seq<Polygon>): (r: seq<Polygon>)
    ensures forall p :: p in r <==> p in ps && p.valid && p.cells != {}
  {
    if |ps| == 0 then []
    else
      var init := ps[..|ps| - 1];
      var last := ps[|ps| - 1];
      assert forall p :: p in ps <==> p in init || p == last by {
        assert ps == init + [last];
      }
      ValidNonEmpty(init) + (if last.valid && last.cells != {} then [last] else [])
  }

  /**
   * What shapely's `MultiPolygon(polygons)` accepts: Polygons, and empty
   * geometries, which it drops. A non-empty MultiPolygon member raises, as the
   * constructor does not flatten.
   */
  predicate MultiPolygonArgs(gs: seq<Geom>) {
    forall i :: 0 <= i < |gs| ==> gs[i].Poly? || IsEmpty(gs[i])
  }

  /** `MultiPolygon(polygons)`: one part per non-empty Polygon member, in order. */
  function MultiOf(gs: seq<Geom>): (m: Geom)
    requires MultiPolygonArgs(gs)
    ensures m.Multi?
    ensures forall p :: p in m.parts <==> Poly(p) in gs && p.cells != {}
  {
    if |gs| == 0 then Multi([])
    else
      var init := gs[..|gs| - 1];
      var last := gs[|gs| - 1];
      assert forall g :: g in gs <==> g in init || g == last by {
        assert gs == init + [last];
      }
      Multi(MultiOf(init).parts + (if last.Poly? && last.poly.cells != {} then [last.poly] else []))
  }

  /**
   * `process_geometry` reaches `MultiPolygon(polygons)` only for a non-empty
   * collection with two or more polygonal members; none of them may then be a
   * non-empty MultiPolygon.
   */
  predicate Processable(g: Geom) {
    g.Coll? && !IsEmpty(g) && |PolygonalMembers(g.members)| >= 2 ==> MultiPolygonArgs(PolygonalMembers(g.members))
  }

  /**
   * Reduce the result of an overlay to a polygonal geometry: an empty result
   * is dropped, a Polygon or MultiPolygon is kept, a collection keeps its
   * polygonal members (one alone as it is, several as a MultiPolygon of their
   * non-empty Polygons), and any other kind is dropped.
   */
  function ProcessGeometry(g: Geom): (r: Option<Geom>)
    requires Processable(g)
    ensures r.Some? ==> IsPolygonal(r.value)
    ensures IsEmpty(g) ==> r.None?
    ensures IsPolygonal(g) && !IsEmpty(g) ==> r == Some(g)
    ensures g.Lineal? ==> r.None?
    ensures g.Coll? && !IsEmpty(g) ==> (r.None? <==> forall m :: m in g.members ==> !IsPolygonal(m))
    ensures g.Coll? && r.Some? ==> r.value in g.members || (r.value.Multi? && forall p :: p in r.value.parts ==> Poly(p) in g.members)
  {
    if IsEmpty(g) then None
    else if IsPolygonal(g) then Some(g)
    else if g.Coll? then
      var ps := PolygonalMembers(g.members);
      if |ps| == 0 then None
      else if |ps| == 1 then Some(ps[0])
      else Some(MultiOf(ps))
    else None
  }

  /**
   * A collection holding a Polygon and a non-empty MultiPolygon is outside what
   * `process_geometry` can handle: it would pass both to `MultiPolygon`.
   */
  lemma MultiMemberRefused(a: Polygon, b: Polygon)
    requires b.cells != {}
    ensures !Processable(Coll([Poly(a), Multi([b])]))
  {
    var ms := [Poly(a), Multi([b])];
    assert PartsCells([b]) == b.cells by {
      assert [b][..0] == [];
    }
    assert PolygonalMembers(ms) == ms by {
      assert ms[..1] == [Poly(a)] && ms[..1][..0] == [];
    }
    assert !IsEmpty(ms[1]);
    assert !MultiPolygonArgs(ms);
  }

  lemma {:induction false} MembersEmptyHaveNoCells(parent: Geom, ms: seq<Geom>)
    requires forall i :: 0 <= i < |ms| ==> ms[i] < parent
    requires forall i :: 0 <= i < |ms| ==> IsEmpty(ms[i])
    ensures MembersCells(parent, ms) == {}
    decreases parent, 0, |ms|
  {
    if |ms| > 0 {
      MembersEmptyHaveNoCells(parent, ms[..|ms| - 1]);
      EmptyHasNoCells(ms[|ms| - 1]);
    }
  }

  /** An empty geometry covers no cells (the converse fails for lines). */
  lemma {:induction false} EmptyHasNoCells(g: Geom)
    requires IsEmpty(g)
    ensures Cells(g) == {}
    decreases g, 1
  {
    if g.Coll? {
      MembersEmptyHaveNoCells(g, g.members);
    }
  }

  /** Reducing an overlay result keeps it unless it is empty. */
  lemma ProcessShape(r: Region)
    ensures ProcessGeometry(Shape(r)) == if r == {} then None else Some(Shape(r))
  {
  }

  lemma UnionCellsSnoc(gs: seq<Geom>, g: Geom)
    ensures UnionCells(gs + [g]) == UnionCells(gs) + Cells(g)
  {
    assert (gs + [g])[..|gs|] == gs;
  }

  lemma DiffEmpty(a: Region, b: Region)
    requires a - b == {}
    ensures a <= b
  {
    forall x | x in a
      ensures x in b
    {
      assert x !in a - b;
    }
  }

  lemma {:induction false} UnionCellsConcat(a: seq<Geom>, b: seq<Geom>)
    ensures UnionCells(a + b) == UnionCells(a) + UnionCells(b)
    decreases |b|
  {
    if |b| > 0 {
      var n := |b| - 1;
      UnionCellsConcat(a, b[..n]);
      assert (a + b)[..|a| + n] == a + b[..n];
    } else {
      assert a + b == a;
    }
  }

  /** Every member of a list lies inside the union of the list. */
  lemma {:induction false} CellsInUnion(gs: seq<Geom>, g: Geom)
    requires g in gs
    ensures Cells(g) <= UnionCells(gs)
  {
    var n := |gs| - 1;
    if gs[n] != g {
      assert g in gs[..n] by {
        assert gs == gs[..n] + [gs[n]];
      }
      CellsInUnion(gs[..n], g);
    }
  }

  /** A list whose members all occur in another covers no more than it. */
  lemma {:induction false} UnionCellsSub(gs: seq<Geom>, hs: seq<Geom>)
    requires forall g :: g in gs ==> g in hs
    ensures UnionCells(gs) <= UnionCells(hs)
  {
    if |gs| > 0 {
      var n := |gs| - 1;
      assert forall g :: g in gs[..n] ==> g in gs;
      UnionCellsSub(gs[..n], hs);
      CellsInUnion(hs, gs[n]);
    }
  }

  /** A cell of a union lies in one of the united geometries. */
  lemma {:induction false} UnionCellsWitness(gs: seq<Geom>, x: Cell) returns (i: nat)
    requires x in UnionCells(gs)
    ensures i < |gs| && x in Cells(gs[i])
  {
    var n := |gs| - 1;
    if x in Cells(gs[n]) {
      i := n;
    } else {
      i := UnionCellsWitness(gs[..n], x);
    }
  }

  /**
   * Dropping the invalid and empty parts loses at most the invalid parts'
   * cells, and nothing when every part is valid.
   */
  lemma {:induction false} PartsCellsValidNonEmpty(ps: seq<Polygon>)
    ensures PartsCells(ValidNonEmpty(ps)) <= PartsCells(ps)
    ensures (forall i :: 0 <= i < |ps| ==> ps[i].valid) ==> PartsCells(ValidNonEmpty(ps)) == PartsCells(ps)
  {
    if |ps| > 0 {
      var init := ps[..|ps| - 1];
      var last := ps[|ps| - 1];
      PartsCellsValidNonEmpty(init);
      if forall i :: 0 <= i < |ps| ==> ps[i].valid {
        assert forall i :: 0 <= i < |init| ==> init[i].valid;
      }
      var v := ValidNonEmpty(init);
      assert PartsCells(ps) == PartsCells(init) + last.cells;
      if last.valid && last.cells != {} {
        assert ValidNonEmpty(ps) == v + [last];
        PartsCellsPush(v, last);
      } else {
        assert ValidNonEmpty(ps) == v;
      }
    }
  }

  lemma PartsCellsPush(v: seq<Polygon>, p: Polygon)
    ensures PartsCells(v + [p]) == PartsCells(v) + p.cells
  {
    assert (v + [p])[..|v|] == v;
  }
}

=== FILE: merge_rocky.dfy ===
/**
 * Stage 04: merge the AIMS rocky-reef polygons into the NW features. An AIMS
 * polygon that touches NW rocky reefs is dissolved into them, and NW rocky
 * reefs joined through one AIMS polygon are dissolved into the first of their
 * connected component; the other AIMS polygons are appended as new features.
 */
module MergeRocky {

  import opened Wrappers
  import opened Geometry
  import opened Tables
  import opened Text
  import opened RockyGraph

  const FeatColumn := "Feat_L3"
  const RockyReef := "Rocky Reef"
  const IdColumn := "DebugID"
  const StatusColumn := "debug_status"

  // ---------------------------------------------------------------------------
  // Tracking columns of the NW features

  /** The NW row at position `k` with its tracking cells set. */
  function Tracked(f: Feature, k: nat, hasIds: bool): (r: Feature)
    ensures r.geom == f.geom
    ensures Get(r, StatusColumn) == Str("original")
    ensures Get(r, IdColumn) == if hasIds then Get(f, IdColumn) else Str("NW_" + ShowNat(k))
    ensures forall c :: c != IdColumn && c != StatusColumn ==> Get(r, c) == Get(f, c)
  {
    var attrs := if hasIds then f.attrs else f.attrs[IdColumn := Str("NW_" + ShowNat(k))];
    f.(attrs := attrs[StatusColumn := Str("original")])
  }

  /** Step 1.5: number the features when they have no DebugID column, and mark every one 'original'. */
  /** The NW columns followed by the tracking columns they lack. */
  function TrackedColumns(columns: seq<string>): (cs: seq<string>)
    ensures forall c :: c in cs <==> c in columns || c == IdColumn || c == StatusColumn
    ensures |columns| <= |cs| && cs[..|columns|] == columns
  {
    ConcatColumns(columns, [IdColumn, StatusColumn])
  }

  function TrackNw(t: Table): (r: Table)
    ensures |r.rows| == |t.rows|
    ensures forall k :: 0 <= k < |t.rows| ==> r.rows[k] == Tracked(t.rows[k], k, IdColumn in t.columns)
    ensures r.columns == TrackedColumns(t.columns)
  {
    var hasIds := IdColumn in t.columns;
    var rows := seq(|t.rows|, k requires 0 <= k < |t.rows| => Tracked(t.rows[k], k, hasIds));
    Table(TrackedColumns(t.columns), rows)
  }

  /** Numbered features have distinct DebugIDs. */
  lemma NumberedIdsDistinct(t: Table, a: nat, b: nat)
    requires IdColumn !in t.columns
    requires a < |t.rows| && b < |t.rows| && a != b
    ensures Get(TrackNw(t).rows[a], IdColumn) != Get(TrackNw(t).rows[b], IdColumn)
  {
    ShowNatInjective(a, b);
    var p := "NW_";
    assert (p + ShowNat(a))[|p|..] == ShowNat(a);
    assert (p + ShowNat(b))[|p|..] == ShowNat(b);
  }

  // ---------------------------------------------------------------------------
  // AIMS defaults

  /** The attributes an AIMS polygon falls back on where its own cell is null. */
  const AimsDefaults: map<string, Value> := map[
    "EdgeSrc" := Str("Semi-auto rocky reef"),
    "Notes" := Null,
    "EdgeAcc_m" := Int(40),
    "RB_Type_L3" := Str("Fringing Rocky Reef"),
    "Feat_L3" := Str("Rocky Reef"),
    "GeoAttach" := Str("Fringing"),
    "Relief" := Str("Low"),
    "FlowInflu" := Str("None"),
    "SO_L2" := Str("Terrigenous"),
    "Paleo" := Str("No"),
    "FeatConf" := Str("Medium"),
    "TypeConf" := Str("Medium"),
    "DepthCat" := Str("Very Shallow"),
    "DepthCatSr" := Str("S2 Infrared")]

  const AimsDefaultColumns: seq<string> := [
    "EdgeSrc", "Notes", "EdgeAcc_m", "RB_Type_L3", "Feat_L3", "GeoAttach", "Relief",
    "FlowInflu", "SO_L2", "Paleo", "FeatConf", "TypeConf", "DepthCat", "DepthCatSr"]

  /** `fillna(v)` for every default that is not None. */
  function FillDefaults(f: Feature): (r: Feature)
    ensures r.geom == f.geom
    ensures forall c :: Get(r, c) == if c in AimsDefaults && Get(f, c) == Null then AimsDefaults[c] else Get(f, c)
  {
    var fill := map c | c in AimsDefaults && AimsDefaults[c] != Null && Get(f, c) == Null :: AimsDefaults[c];
    f.(attrs := f.attrs + fill)
  }

  /** Step 2: the AIMS table with every NW column and every default column, defaults filled. */
  /** The AIMS columns, then the NW columns and the defaulted ones they lack. */
  function AimsColumns(columns: seq<string>, nwColumns: seq<string>): (cs: seq<string>)
    ensures forall c :: c in cs <==> c in columns || c in nwColumns || c in AimsDefaultColumns
  {
    ConcatColumns(ConcatColumns(columns, nwColumns), AimsDefaultColumns)
  }

  function PrepareAims(aims: Table, nwColumns: seq<string>): (r: Table)
    ensures |r.rows| == |aims.rows|
    ensures forall i :: 0 <= i < |aims.rows| ==> r.rows[i] == FillDefaults(aims.rows[i])
    ensures r.columns == AimsColumns(aims.columns, nwColumns)
  {
    var rows := seq(|aims.rows|, i requires 0 <= i < |aims.rows| => FillDefaults(aims.rows[i]));
    Table(AimsColumns(aims.columns, nwColumns), rows)
  }

  // ---------------------------------------------------------------------------
  // NW rocky reefs and the AIMS polygons touching them

  /** `Feat_L3` fully matches 'Rocky Reef'; a null class does not. */
  predicate IsRockyReef(f: Feature) {
    HasText(f, FeatColumn, RockyReef)
  }

  /** The positions of the NW rocky reefs, in order: `idx_mapping`. */
  function RockRows(rows: seq<Feature>): (ri: seq<nat>)
    ensures forall j :: 0 <= j < |ri| ==> ri[j] < |rows| && IsRockyReef(rows[ri[j]])
    ensures forall a, b :: 0 <= a < b < |ri| ==> ri[a] < ri[b]
    ensures forall k :: 0 <= k < |rows| && IsRockyReef(rows[k]) ==> k in ri
  {
    if |rows| == 0 then []
    else
      var n := |rows| - 1;
      var init := RockRows(rows[..n]);
      assert forall j :: 0 <= j < |init| ==> rows[..n][init[j]] == rows[init[j]];
      init + (if IsRockyReef(rows[n]) then [n] else [])
  }

  /** The rocky-reef geometries, indexed like `gdf_nw_rock`. */
  function RockGeoms(rows: seq<Feature>, ri: seq<nat>): (gs: seq<Geom>)
    requires forall j :: 0 <= j < |ri| ==> ri[j] < |rows|
    ensures |gs| == |ri|
    ensures forall j :: 0 <= j < |ri| ==> gs[j] == GeomOf(rows[ri[j]])
  {
    seq(|ri|, j requires 0 <= j < |ri| => GeomOf(rows[ri[j]]))
  }

  /**
   * The spatial index's candidates for each AIMS polygon: rocky-reef indices
   * without repeats and with no false negatives.
   */
  predicate CandidatesComplete(aims: seq<Geom>, rocks: seq<Geom>, cands: seq<seq<nat>>) {
    && |cands| == |aims|
    && (forall i :: 0 <= i < |cands| ==> Distinct(cands[i]))
    && (forall i, k :: 0 <= i < |cands| && 0 <= k < |cands[i]| ==> cands[i][k] < |rocks|)
    && (forall i, j :: 0 <= i < |aims| && 0 <= j < |rocks| && Intersects(aims[i], rocks[j]) ==> j in cands[i])
  }

  /** `touched_nws`: the candidates the AIMS polygon touches or intersects, in candidate order. */
  function Touched(a: Geom, rocks: seq<Geom>, cand: seq<nat>): (t: seq<nat>)
    requires forall k :: 0 <= k < |cand| ==> cand[k] < |rocks|
    requires Distinct(cand)
    ensures Distinct(t)
    ensures forall j :: j in t <==> j in cand && (Touches(a, rocks[j]) || Intersects(a, rocks[j]))
  {
    if |cand| == 0 then []
    else
      var n := |cand| - 1;
      var init := Touched(a, rocks, cand[..n]);
      assert forall j :: j in cand <==> j in cand[..n] || j == cand[n] by {
        assert cand == cand[..n] + [cand[n]];
      }
      var j := cand[n];
      if Touches(a, rocks[j]) || Intersects(a, rocks[j]) then
        DistinctConcat(init, [j]);
        init + [j]
      else init
  }

  /** One touched list per AIMS polygon. */
  function TouchedLists(aims: seq<Geom>, rocks: seq<Geom>, cands: seq<seq<nat>>): (ls: seq<seq<nat>>)
    requires CandidatesComplete(aims, rocks, cands)
    ensures |ls| == |aims| && AllDistinct(ls)
    ensures forall i :: 0 <= i < |ls| ==> ls[i] == Touched(aims[i], rocks, cands[i])
  {
    seq(|aims|, i requires 0 <= i < |aims| => Touched(aims[i], rocks, cands[i]))
  }

  /**
   * Step 4's split: an AIMS polygon is in `aims_touch` exactly when it touches
   * some NW rocky reef, and otherwise in `aims_new`.
   */
  lemma TouchSplit(aims: seq<Geom>, rocks: seq<Geom>, cands: seq<seq<nat>>, i: nat)
    requires CandidatesComplete(aims, rocks, cands) && i < |aims|
    ensures |TouchedLists(aims, rocks, cands)[i]| > 0
      <==> exists j :: 0 <= j < |rocks| && Intersects(aims[i], rocks[j])
  {
    var t := TouchedLists(aims, rocks, cands)[i];
    if |t| > 0 {
      assert t[0] in t;
    }
  }

  /** `nw_groups[j]`: the AIMS geometries touching rocky reef `j`, in AIMS order. */
  function Group(aims: seq<Geom>, ls: seq<seq<nat>>, j: nat): (gs: seq<Geom>)
    requires |ls| == |aims|
    ensures forall g :: g in gs <==> exists i :: 0 <= i < |aims| && j in ls[i] && aims[i] == g
    ensures |gs| > 0 <==> exists i :: 0 <= i < |aims| && j in ls[i]
  {
    if |aims| == 0 then []
    else
      var n := |aims| - 1;
      var init := Group(aims[..n], ls[..n], j);
      assert forall i :: 0 <= i < n ==> aims[..n][i] == aims[i] && ls[..n][i] == ls[i];
      var gs := init + (if j in ls[n] then [aims[n]] else []);
      assert forall g :: g in gs <==> g in init || (j in ls[n] && g == aims[n]);
      gs
  }

  // ---------------------------------------------------------------------------
  // Dissolving

  /**
   * What the dissolve step works from: the rocky-reef geometries, the AIMS
   * geometries, each AIMS polygon's touched list and the connected components
   * of the connection graph.
   */
  datatype Merge = Merge(rocks: seq<Geom>, aims: seq<Geom>, lists: seq<seq<nat>>, comps: seq<seq<nat>>)

  ghost predicate Planned(m: Merge) {
    && |m.lists| == |m.aims|
    && AllDistinct(m.lists)
    && (forall i, k :: 0 <= i < |m.lists| && 0 <= k < |m.lists[i]| ==> m.lists[i][k] < |m.rocks|)
    && Partitioned(Connections(m.lists), m.comps, KeySet(Connections(m.lists)))
  }

  /** The area rocky reef `j` brings into a dissolve: itself and the AIMS polygons touching it. */
  function Footprint(m: Merge, j: nat): Region
    requires |m.lists| == |m.aims| && j < |m.rocks|
  {
    Cells(m.rocks[j]) + UnionCells(Group(m.aims, m.lists, j))
  }

  /** Every member of a component is a rocky reef that some AIMS polygon touches. */
  lemma ComponentMember(m: Merge, k: nat, x: nat)
    requires Planned(m) && k < |m.comps| && x in m.comps[k]
    ensures x < |m.rocks| && |Group(m.aims, m.lists, x)| > 0
  {
    var g := Connections(m.lists);
    assert x in AllMembers(m.comps);
    assert x in g.keys;
    ConnectionsKeys(m.lists, x);
    var y :| Linked(m.lists, x, y);
    var i :| 0 <= i < |m.lists| && x in m.lists[i] && y in m.lists[i] && x != y;
    var p :| 0 <= p < |m.lists[i]| && m.lists[i][p] == x;
  }

  lemma ComponentInRange(m: Merge, k: nat)
    requires Planned(m) && k < |m.comps|
    ensures forall x :: x in m.comps[k] ==> x < |m.rocks| && |Group(m.aims, m.lists, x)| > 0
  {
    forall x | x in m.comps[k]
      ensures x < |m.rocks| && |Group(m.aims, m.lists, x)| > 0
    {
      ComponentMember(m, k, x);
    }
  }

  /** The component a rocky reef belongs to, if any. */
  function ComponentOf(comps: seq<seq<nat>>, j: nat): (k: Option<nat>)
    ensures k.Some? ==> k.value < |comps| && j in comps[k.value]
    ensures k.None? ==> forall l :: 0 <= l < |comps| ==> j !in comps[l]
  {
    if |comps| == 0 then None
    else if j in comps[|comps| - 1] then Some(|comps| - 1)
    else ComponentOf(comps[..|comps| - 1], j)
  }

  /** Components share no member, so the component of a member is the one it is in. */
  lemma ComponentOfMember(m: Merge, k: nat, j: nat)
    requires Planned(m) && k < |m.comps| && j in m.comps[k]
    ensures ComponentOf(m.comps, j) == Some(k)
  {
    var l := ComponentOf(m.comps, j).value;
  }

  /**
   * The geometries a component dissolves: for each member in order, its own
   * geometry followed by the AIMS polygons touching it.
   */
  function MemberGeoms(m: Merge, c: seq<nat>): (gs: seq<Geom>)
    requires |m.lists| == |m.aims|
    requires forall x :: x in c ==> x < |m.rocks|
  {
    if |c| == 0 then []
    else
      var n := |c| - 1;
      assert c[n] in c && forall x :: x in c[..n] ==> x in c;
      MemberGeoms(m, c[..n]) + ([m.rocks[c[n]]] + Group(m.aims, m.lists, c[n]))
  }

  /** A component's dissolve covers exactly its members' footprints. */
  lemma {:induction false} MemberGeomsCells(m: Merge, c: seq<nat>, x: Cell)
    requires |m.lists| == |m.aims|
    requires forall y :: y in c ==> y < |m.rocks|
    ensures x in UnionCells(MemberGeoms(m, c)) <==> exists y :: y in c && x in Footprint(m, y)
  {
    if |c| > 0 {
      var n := |c| - 1;
      assert c[n] in c && forall y :: y in c[..n] ==> y in c;
      var last := [m.rocks[c[n]]] + Group(m.aims, m.lists, c[n]);
      MemberGeomsCells(m, c[..n], x);
      UnionCellsConcat(MemberGeoms(m, c[..n]), last);
      UnionCellsConcat([m.rocks[c[n]]], Group(m.aims, m.lists, c[n]));
      UnionCellsSnoc([], m.rocks[c[n]]);
      assert forall y :: y in c <==> y in c[..n] || y == c[n] by {
        assert c == c[..n] + [c[n]];
      }
    }
  }

  /** What happens to one NW rocky reef. */
  datatype Update = Keep | Dissolve(geom: Geom, status: string) | Remove

  function PrimaryStatus(others: nat): string {
    "primary_with_" + ShowNat(others) + "_others"
  }

  /**
   * Step 6 for rocky reef `j`: the first member of a component takes the
   * dissolve of the whole component and the others are removed; a reef in no
   * component that AIMS polygons touch is dissolved with them; any other reef
   * is kept as it is.
   */
  function RockUpdate(m: Merge, j: nat): (u: Update)
    requires Planned(m) && j < |m.rocks|
  {
    match ComponentOf(m.comps, j)
    case Some(k) =>
      var c := m.comps[k];
      ComponentInRange(m, k);
      if c[0] == j then Dissolve(UnionAll(MemberGeoms(m, c)), PrimaryStatus(|c| - 1)) else Remove
    case None =>
      var gs := Group(m.aims, m.lists, j);
      if |gs| > 0 then Dissolve(UnionAll([m.rocks[j]] + gs), "modified_isolated") else Keep
  }

  /** Reef `j` is a member of a component other than its first. */
  predicate Follower(comps: seq<seq<nat>>, j: nat) {
    exists k :: 0 <= k < |comps| && j in comps[k] && comps[k][0] != j
  }

  /** A reef is removed exactly when it follows another in its component. */
  lemma RemovedIffFollower(m: Merge, j: nat)
    requires Planned(m) && j < |m.rocks|
    ensures RockUpdate(m, j).Remove? <==> Follower(m.comps, j)
  {
    if Follower(m.comps, j) {
      var k :| 0 <= k < |m.comps| && j in m.comps[k] && m.comps[k][0] != j;
      ComponentOfMember(m, k, j);
    }
  }

  /** A reef is kept untouched exactly when no AIMS polygon touches it. */
  lemma KeptIffUntouched(m: Merge, j: nat)
    requires Planned(m) && j < |m.rocks|
    ensures RockUpdate(m, j).Keep? <==> forall i :: 0 <= i < |m.lists| ==> j !in m.lists[i]
  {
    var k := ComponentOf(m.comps, j);
    if k.Some? {
      ComponentMember(m, k.value, j);
    }
  }

  /**
   * A dissolved reef covers its own footprint, and the first member of a
   * component covers the footprint of every member; nothing else is added.
   */
  lemma DissolveCells(m: Merge, j: nat, x: Cell)
    requires Planned(m) && j < |m.rocks| && RockUpdate(m, j).Dissolve?
    ensures ComponentOf(m.comps, j).None? ==>
      RockUpdate(m, j).status == "modified_isolated"
      && (x in Cells(RockUpdate(m, j).geom) <==> x in Footprint(m, j))
    ensures ComponentOf(m.comps, j).Some? ==>
      var c := m.comps[ComponentOf(m.comps, j).value];
      c[0] == j && (forall y :: y in c ==> y < |m.rocks|)
      && RockUpdate(m, j).status == PrimaryStatus(|c| - 1)
      && (x in Cells(RockUpdate(m, j).geom) <==> exists y :: y in c && x in Footprint(m, y))
  {
    match ComponentOf(m.comps, j)
    case Some(k) =>
      ComponentInRange(m, k);
      MemberGeomsCells(m, m.comps[k], x);
    case None =>
      var gs := Group(m.aims, m.lists, j);
      UnionCellsConcat([m.rocks[j]], gs);
      UnionCellsSnoc([], m.rocks[j]);
  }

  // ---------------------------------------------------------------------------
  // Applying the updates

  /** The rocky-reef index of NW row `k`, if it is one. */
  function RockIndex(ri: seq<nat>, k: nat): (r: Option<nat>)
    ensures r.Some? ==> r.value < |ri| && ri[r.value] == k
    ensures r.None? ==> k !in ri
  {
    if |ri| == 0 then None
    else if ri[|ri| - 1] == k then Some(|ri| - 1)
    else
      var r := RockIndex(ri[..|ri| - 1], k);
      assert k in ri ==> k in ri[..|ri| - 1] by {
        assert ri == ri[..|ri| - 1] + [ri[|ri| - 1]];
      }
      r
  }

  /** One NW row after its update: None once it is removed. */
  function Apply(f: Feature, u: Update): (r: Option<Feature>)
    ensures r.None? <==> u.Remove?
    ensures r.Some? ==> forall c :: c != StatusColumn ==> Get(r.value, c) == Get(f, c)
  {
    match u
    case Keep => Some(f)
    case Remove => None
    case Dissolve(g, s) => Some(Feature(f.attrs[StatusColumn := Str(s)], Some(g)))
  }

  /** NW row `k` after step 6, None once it is removed. */
  function MarkedAt(rows: seq<Feature>, m: Merge, k: nat): Option<Feature>
    requires Planned(m) && |m.rocks| == |RockRows(rows)| && k < |rows|
  {
    match RockIndex(RockRows(rows), k)
    case None => Some(rows[k])
    case Some(j) => Apply(rows[k], RockUpdate(m, j))
  }

  /** Every NW row after step 6. */
  function Marked(rows: seq<Feature>, m: Merge): (r: seq<Option<Feature>>)
    requires Planned(m) && m.rocks == RockGeoms(rows, RockRows(rows))
    ensures |r| == |rows|
    ensures forall k :: 0 <= k < |rows| ==> r[k] == MarkedAt(rows, m, k)
  {
    seq(|rows|, k requires 0 <= k < |rows| => MarkedAt(rows, m, k))
  }

  /** The rows left after the removal, in order. */
  function Survivors(marked: seq<Option<Feature>>): (r: seq<Feature>)
    ensures |r| <= |marked|
    ensures forall x :: x in r <==> Some(x) in marked
  {
    if |marked| == 0 then []
    else
      var n := |marked| - 1;
      assert forall o :: o in marked <==> o in marked[..n] || o == marked[n] by {
        assert marked == marked[..n] + [marked[n]];
      }
      Survivors(marked[..n]) + (if marked[n].Some? then [marked[n].value] else [])
  }

  // ---------------------------------------------------------------------------
  // The stage

  function Rocks(t: Table): seq<Geom> {
    RockGeoms(t.rows, RockRows(t.rows))
  }

  /** Steps 3 to 5: the touched lists and the components of their graph. */
  function PlanOf(t: Table, aims: Table, cands: seq<seq<nat>>): (m: Merge)
    requires CandidatesComplete(Geoms(aims.rows), Rocks(t), cands)
    ensures Planned(m) && m.rocks == Rocks(t) && m.aims == Geoms(aims.rows)
    ensures m.lists == TouchedLists(Geoms(aims.rows), Rocks(t), cands)
  {
    var ls := TouchedLists(Geoms(aims.rows), Rocks(t), cands);
    assert forall i, k :: 0 <= i < |ls| && 0 <= k < |ls[i]| ==> ls[i][k] in ls[i];
    ConnectionsWellFormed(ls);
    Merge(Rocks(t), Geoms(aims.rows), ls, FindComponents(Connections(ls)))
  }

  /** An AIMS polygon kept as a new feature. */
  function NewFeature(f: Feature): Feature {
    f.(attrs := f.attrs[StatusColumn := Str("new_feature")])
  }

  /** `aims_new`: the AIMS rows that touch no rocky reef, in order. */
  function NewRows(rows: seq<Feature>, lists: seq<seq<nat>>): (r: seq<Feature>)
    requires |lists| == |rows|
    ensures |r| <= |rows|
    ensures forall x :: x in r <==> exists i :: 0 <= i < |rows| && |lists[i]| == 0 && x == NewFeature(rows[i])
  {
    if |rows| == 0 then []
    else
      var n := |rows| - 1;
      var init := NewRows(rows[..n], lists[..n]);
      assert forall i :: 0 <= i < n ==> rows[..n][i] == rows[i] && lists[..n][i] == lists[i];
      init + (if |lists[n]| == 0 then [NewFeature(rows[n])] else [])
  }

  /** The output columns: the tracked NW columns, then the AIMS ones they lack. */
  function MergedColumns(nw: Table, aims: Table): (cs: seq<string>)
    ensures |nw.columns| <= |cs| && cs[..|nw.columns|] == nw.columns
    ensures forall c :: c in cs <==>
      (c in nw.columns || c in aims.columns || c in AimsDefaultColumns || c == IdColumn || c == StatusColumn)
  {
    var tc := TrackedColumns(nw.columns);
    var cs := ConcatColumns(tc, AimsColumns(aims.columns, tc));
    assert cs[..|nw.columns|] == cs[..|tc|][..|nw.columns|];
    cs
  }

  /**
   * Step 4 joins the DebugIDs of the rocky reefs an AIMS polygon touches with
   * `"_and_".join`, which raises TypeError on anything but text.
   */
  predicate TouchedIdsText(t: Table, aims: Table, cands: seq<seq<nat>>)
    requires CandidatesComplete(Geoms(aims.rows), Rocks(t), cands)
  {
    var ri := RockRows(t.rows);
    var ls := TouchedLists(Geoms(aims.rows), Rocks(t), cands);
    forall i, k :: 0 <= i < |ls| && 0 <= k < |ls[i]| ==>
      ls[i][k] < |ri| && Get(t.rows[ri[ls[i][k]]], IdColumn).Str?
  }

  /**
   * The stage. `cands` stands for the spatial index's bounding-box query of
   * each AIMS polygon against the rocky reefs; every AIMS geometry must be
   * present, as the query reads its bounds. The NW layer must have a Feat_L3
   * column (selecting the rocky reefs on a missing one raises KeyError), and
   * every rocky reef an AIMS polygon touches must carry a text DebugID. The NW
   * rows that survive step 6 come first, in order, then `aims_new`.
   */
  function MergeRockyReefs(nw: Table, aims: Table, cands: seq<seq<nat>>): (r: Table)
    requires FeatColumn in nw.columns
    requires forall i :: 0 <= i < |aims.rows| ==> aims.rows[i].geom.Some?
    requires CandidatesComplete(Geoms(aims.rows), Rocks(TrackNw(nw)), cands)
    requires TouchedIdsText(TrackNw(nw), aims, cands)
    ensures |r.rows| <= |nw.rows| + |aims.rows|
    ensures r.columns == MergedColumns(nw, aims)
  {
    var t := TrackNw(nw);
    var m := PlanOf(t, aims, cands);
    var prepared := PrepareAims(aims, t.columns);
    Table(MergedColumns(nw, aims), Survivors(Marked(t.rows, m)) + NewRows(prepared.rows, m.lists))
  }

  // ---------------------------------------------------------------------------
  // What the stage promises

  /** Tracking changes no class, so the tracked table has the same rocky reefs. */
  lemma {:induction false} TrackKeepsRocks(nw: Table)
    ensures RockRows(TrackNw(nw).rows) == RockRows(nw.rows)
    ensures Geoms(TrackNw(nw).rows) == Geoms(nw.rows)
  {
    var t := TrackNw(nw);
    TrackKeepsRockRows(nw.rows, t.rows);
  }

  lemma {:induction false} TrackKeepsRockRows(a: seq<Feature>, b: seq<Feature>)
    requires |a| == |b| && forall k :: 0 <= k < |a| ==> Get(a[k], FeatColumn) == Get(b[k], FeatColumn)
    ensures RockRows(a) == RockRows(b)
  {
    if |a| > 0 {
      TrackKeepsRockRows(a[..|a| - 1], b[..|b| - 1]);
    }
  }

  /** Rocky-reef positions increase, so each has one index. */
  lemma RockIndexOf(rows: seq<Feature>, j: nat)
    requires j < |RockRows(rows)|
    ensures RockIndex(RockRows(rows), RockRows(rows)[j]) == Some(j)
  {
    var ri := RockRows(rows);
    var l := RockIndex(ri, ri[j]).value;
  }

  /** A row that is not a rocky reef passes step 6 untouched. */
  lemma MarkedOther(rows: seq<Feature>, m: Merge, k: nat)
    requires Planned(m) && |m.rocks| == |RockRows(rows)|
    requires k < |rows| && !IsRockyReef(rows[k])
    ensures MarkedAt(rows, m, k) == Some(rows[k])
  {
    assert k !in RockRows(rows);
  }

  /** Rocky reef `j` gets its update. */
  lemma MarkedRock(rows: seq<Feature>, m: Merge, j: nat)
    requires Planned(m) && |m.rocks| == |RockRows(rows)|
    requires j < |RockRows(rows)|
    ensures MarkedAt(rows, m, RockRows(rows)[j]) == Apply(rows[RockRows(rows)[j]], RockUpdate(m, j))
  {
    RockIndexOf(rows, j);
  }

  /** The area row `j`'s update leaves on it. */
  function UpdatedCells(m: Merge, j: nat): Region
    requires Planned(m) && j < |m.rocks|
  {
    match RockUpdate(m, j)
    case Dissolve(g, _) => Cells(g)
    case _ => Cells(m.rocks[j])
  }

  /**
   * Every reef's footprint ends up on a reef that is not removed: the first
   * member of its component, or the reef itself.
   */
  lemma Home(m: Merge, j: nat) returns (h: nat)
    requires Planned(m) && j < |m.rocks|
    ensures h < |m.rocks| && !RockUpdate(m, h).Remove?
    ensures Footprint(m, j) <= UpdatedCells(m, h)
  {
    match ComponentOf(m.comps, j)
    case Some(k) =>
      var c := m.comps[k];
      ComponentInRange(m, k);
      h := c[0];
      assert h in c;
      ComponentOfMember(m, k, h);
      forall x | x in Footprint(m, j)
        ensures x in UpdatedCells(m, h)
      {
        DissolveCells(m, h, x);
      }
    case None =>
      h := j;
      if RockUpdate(m, j).Dissolve? {
        forall x | x in Footprint(m, j)
          ensures x in UpdatedCells(m, h)
        {
          DissolveCells(m, j, x);
        }
      }
  }

  /** A reef's footprint lies inside the stage's input. */
  lemma FootprintInInput(rows: seq<Feature>, m: Merge, y: nat)
    requires |m.lists| == |m.aims| && m.rocks == RockGeoms(rows, RockRows(rows)) && y < |m.rocks|
    ensures Footprint(m, y) <= UnionCells(Geoms(rows)) + UnionCells(m.aims)
  {
    RowInUnion(rows, rows[RockRows(rows)[y]]);
    UnionCellsSub(Group(m.aims, m.lists, y), m.aims);
  }

  /** A cell of a reef's updated area comes from the stage's input. */
  lemma UpdatedInInput(rows: seq<Feature>, m: Merge, j: nat, x: Cell)
    requires Planned(m) && m.rocks == RockGeoms(rows, RockRows(rows)) && j < |m.rocks|
    requires x in UpdatedCells(m, j)
    ensures x in UnionCells(Geoms(rows)) + UnionCells(m.aims)
  {
    if RockUpdate(m, j).Dissolve? {
      DissolveCells(m, j, x);
      if ComponentOf(m.comps, j).None? {
        FootprintInInput(rows, m, j);
      } else {
        var c := m.comps[ComponentOf(m.comps, j).value];
        var y :| y in c && x in Footprint(m, y);
        FootprintInInput(rows, m, y);
      }
    } else {
      FootprintInInput(rows, m, j);
    }
  }

  /** What step 6 leaves on a row lies inside the stage's input. */
  lemma MarkedInInput(rows: seq<Feature>, m: Merge, p: nat, x: Cell)
    requires Planned(m) && m.rocks == RockGeoms(rows, RockRows(rows)) && p < |rows|
    requires MarkedAt(rows, m, p).Some? && x in Cells(GeomOf(MarkedAt(rows, m, p).value))
    ensures x in UnionCells(Geoms(rows)) + UnionCells(m.aims)
  {
    var o := RockIndex(RockRows(rows), p);
    if o.None? {
      assert MarkedAt(rows, m, p) == Some(rows[p]);
      RowInUnion(rows, rows[p]);
    } else {
      var j := o.value;
      assert RockRows(rows)[j] == p;
      RockRowCells(rows, m, j);
      UpdatedInInput(rows, m, j, x);
    }
  }

  /** A reef that is not removed keeps a row carrying its updated area. */
  lemma RockRowCells(rows: seq<Feature>, m: Merge, h: nat)
    requires Planned(m) && m.rocks == RockGeoms(rows, RockRows(rows)) && h < |m.rocks|
    requires !RockUpdate(m, h).Remove?
    ensures MarkedAt(rows, m, RockRows(rows)[h]).Some?
    ensures Cells(GeomOf(MarkedAt(rows, m, RockRows(rows)[h]).value)) == UpdatedCells(m, h)
  {
    MarkedRock(rows, m, h);
  }

  /** The requirements of the stage, for the lemmas about it. */
  ghost predicate Mergeable(nw: Table, aims: Table, cands: seq<seq<nat>>) {
    && FeatColumn in nw.columns
    && (forall i :: 0 <= i < |aims.rows| ==> aims.rows[i].geom.Some?)
    && CandidatesComplete(Geoms(aims.rows), Rocks(TrackNw(nw)), cands)
    && TouchedIdsText(TrackNw(nw), aims, cands)
  }

  /** `f` is NW row `p` after step 6. */
  ghost predicate FromMarked(rows: seq<Feature>, m: Merge, f: Feature)
    requires Planned(m) && |m.rocks| == |RockRows(rows)|
  {
    exists p :: 0 <= p < |rows| && MarkedAt(rows, m, p) == Some(f)
  }

  /** `f` is the new feature made from an AIMS polygon that touches no rocky reef. */
  ghost predicate FromNew(aims: Table, lists: seq<seq<nat>>, f: Feature)
    requires |lists| == |aims.rows|
  {
    exists i :: 0 <= i < |aims.rows| && |lists[i]| == 0 && f == NewFeature(FillDefaults(aims.rows[i]))
  }

  /** The stage's output splits into the surviving NW rows and `aims_new`. */
  lemma OutputRows(nw: Table, aims: Table, cands: seq<seq<nat>>, f: Feature)
    requires Mergeable(nw, aims, cands) && f in MergeRockyReefs(nw, aims, cands).rows
    ensures FromMarked(TrackNw(nw).rows, PlanOf(TrackNw(nw), aims, cands), f)
      || FromNew(aims, PlanOf(TrackNw(nw), aims, cands).lists, f)
  {
    var t := TrackNw(nw);
    var m := PlanOf(t, aims, cands);
    var prepared := PrepareAims(aims, t.columns);
    if f in Survivors(Marked(t.rows, m)) {
      SurvivorMarked(t.rows, m, f);
    } else {
      assert f in NewRows(prepared.rows, m.lists);
      NewRowFromAims(aims, t.columns, m.lists, f);
    }
  }

  lemma SurvivorMarked(rows: seq<Feature>, m: Merge, f: Feature)
    requires Planned(m) && m.rocks == RockGeoms(rows, RockRows(rows))
    requires f in Survivors(Marked(rows, m))
    ensures FromMarked(rows, m, f)
  {
    var marked := Marked(rows, m);
    var p :| 0 <= p < |marked| && marked[p] == Some(f);
    assert MarkedAt(rows, m, p) == Some(f);
  }

  lemma NewRowFromAims(aims: Table, nwColumns: seq<string>, lists: seq<seq<nat>>, f: Feature)
    requires |lists| == |aims.rows|
    requires f in NewRows(PrepareAims(aims, nwColumns).rows, lists)
    ensures FromNew(aims, lists, f)
  {
    var rows := PrepareAims(aims, nwColumns).rows;
    var i :| 0 <= i < |rows| && |lists[i]| == 0 && f == NewFeature(rows[i]);
    assert rows[i] == FillDefaults(aims.rows[i]);
  }

  /** A surviving NW row is in the output. */
  lemma MarkedInOutput(nw: Table, aims: Table, cands: seq<seq<nat>>, p: nat)
    requires Mergeable(nw, aims, cands)
    requires p < |nw.rows| && MarkedAt(TrackNw(nw).rows, PlanOf(TrackNw(nw), aims, cands), p).Some?
    ensures MarkedAt(TrackNw(nw).rows, PlanOf(TrackNw(nw), aims, cands), p).value
      in MergeRockyReefs(nw, aims, cands).rows
  {
    var t := TrackNw(nw);
    var m := PlanOf(t, aims, cands);
    assert Marked(t.rows, m)[p] == MarkedAt(t.rows, m, p);
  }

  /** An AIMS polygon that touches no rocky reef is in the output as a new feature. */
  lemma NewInOutput(nw: Table, aims: Table, cands: seq<seq<nat>>, i: nat)
    requires Mergeable(nw, aims, cands)
    requires i < |aims.rows| && |PlanOf(TrackNw(nw), aims, cands).lists[i]| == 0
    ensures NewFeature(FillDefaults(aims.rows[i])) in MergeRockyReefs(nw, aims, cands).rows
  {
    var t := TrackNw(nw);
    var m := PlanOf(t, aims, cands);
    var prepared := PrepareAims(aims, t.columns);
    assert NewFeature(FillDefaults(aims.rows[i])) in NewRows(prepared.rows, m.lists);
  }

  /** Every cell of the output comes from an NW or an AIMS geometry. */
  lemma AreaFromInput(nw: Table, aims: Table, cands: seq<seq<nat>>, x: Cell)
    requires Mergeable(nw, aims, cands)
    requires x in UnionCells(Geoms(MergeRockyReefs(nw, aims, cands).rows))
    ensures x in UnionCells(Geoms(nw.rows)) + UnionCells(Geoms(aims.rows))
  {
    var t := TrackNw(nw);
    TrackKeepsRocks(nw);
    var m := PlanOf(t, aims, cands);
    var r := MergeRockyReefs(nw, aims, cands);
    var q := UnionCellsWitness(Geoms(r.rows), x);
    var f := r.rows[q];
    OutputRows(nw, aims, cands, f);
    if FromMarked(t.rows, m, f) {
      MarkedCellsFromInput(t.rows, m, f, x);
    } else {
      NewCellsFromInput(aims, m.lists, f, x);
    }
  }

  lemma MarkedCellsFromInput(rows: seq<Feature>, m: Merge, f: Feature, x: Cell)
    requires Planned(m) && m.rocks == RockGeoms(rows, RockRows(rows))
    requires FromMarked(rows, m, f) && x in Cells(GeomOf(f))
    ensures x in UnionCells(Geoms(rows)) + UnionCells(m.aims)
  {
    var p :| 0 <= p < |rows| && MarkedAt(rows, m, p) == Some(f);
    MarkedInInput(rows, m, p, x);
  }

  lemma NewCellsFromInput(aims: Table, lists: seq<seq<nat>>, f: Feature, x: Cell)
    requires |lists| == |aims.rows| && FromNew(aims, lists, f) && x in Cells(GeomOf(f))
    ensures x in UnionCells(Geoms(aims.rows))
  {
    var i :| 0 <= i < |aims.rows| && |lists[i]| == 0 && f == NewFeature(FillDefaults(aims.rows[i]));
    assert GeomOf(f) == Geoms(aims.rows)[i];
    CellsInUnion(Geoms(aims.rows), GeomOf(f));
  }

  /** A reef's footprint is in the output. */
  lemma FootprintInOutput(nw: Table, aims: Table, cands: seq<seq<nat>>, j: nat, x: Cell)
    requires Mergeable(nw, aims, cands)
    requires j < |Rocks(TrackNw(nw))| && x in Footprint(PlanOf(TrackNw(nw), aims, cands), j)
    ensures x in UnionCells(Geoms(MergeRockyReefs(nw, aims, cands).rows))
  {
    var t := TrackNw(nw);
    var m := PlanOf(t, aims, cands);
    var h := Home(m, j);
    RockRowCells(t.rows, m, h);
    var p := RockRows(t.rows)[h];
    MarkedInOutput(nw, aims, cands, p);
    RowInUnion(MergeRockyReefs(nw, aims, cands).rows, MarkedAt(t.rows, m, p).value);
  }

  /** Every cell of an NW or AIMS geometry is in the output. */
  lemma AreaInOutput(nw: Table, aims: Table, cands: seq<seq<nat>>, x: Cell)
    requires Mergeable(nw, aims, cands)
    requires x in UnionCells(Geoms(nw.rows)) + UnionCells(Geoms(aims.rows))
    ensures x in UnionCells(Geoms(MergeRockyReefs(nw, aims, cands).rows))
  {
    var t := TrackNw(nw);
    TrackKeepsRocks(nw);
    var m := PlanOf(t, aims, cands);
    var r := MergeRockyReefs(nw, aims, cands);
    var ri := RockRows(t.rows);
    if x in UnionCells(Geoms(t.rows)) {
      var p := UnionCellsWitness(Geoms(t.rows), x);
      if IsRockyReef(t.rows[p]) {
        var j :| 0 <= j < |ri| && ri[j] == p;
        FootprintInOutput(nw, aims, cands, j, x);
      } else {
        MarkedOther(t.rows, m, p);
        MarkedInOutput(nw, aims, cands, p);
        RowInUnion(r.rows, t.rows[p]);
      }
    } else {
      var i := UnionCellsWitness(Geoms(aims.rows), x);
      if |m.lists[i]| == 0 {
        NewInOutput(nw, aims, cands, i);
        RowInUnion(r.rows, NewFeature(FillDefaults(aims.rows[i])));
      } else {
        var j := m.lists[i][0];
        assert j in m.lists[i];
        CellsInUnion(Group(m.aims, m.lists, j), m.aims[i]);
        FootprintInOutput(nw, aims, cands, j, x);
      }
    }
  }

  /**
   * The merge loses and invents no area: the output covers exactly the NW
   * features and the AIMS polygons together.
   */
  lemma MergeKeepsArea(nw: Table, aims: Table, cands: seq<seq<nat>>, x: Cell)
    requires Mergeable(nw, aims, cands)
    ensures x in UnionCells(Geoms(MergeRockyReefs(nw, aims, cands).rows))
      <==> x in UnionCells(Geoms(nw.rows)) + UnionCells(Geoms(aims.rows))
  {
    if x in UnionCells(Geoms(MergeRockyReefs(nw, aims, cands).rows)) {
      AreaFromInput(nw, aims, cands, x);
    }
    if x in UnionCells(Geoms(nw.rows)) + UnionCells(Geoms(aims.rows)) {
      AreaInOutput(nw, aims, cands, x);
    }
  }

  // ---------------------------------------------------------------------------
  // Rows and IDs

  /** Step 6 changes no attribute of a row but its status. */
  lemma MarkedKeepsAttrs(rows: seq<Feature>, m: Merge, p: nat, c: string)
    requires Planned(m) && |m.rocks| == |RockRows(rows)| && p < |rows|
    requires MarkedAt(rows, m, p).Some? && c != StatusColumn
    ensures Get(MarkedAt(rows, m, p).value, c) == Get(rows[p], c)
  {
  }

  /** Features other than rocky reefs are copied across unchanged. */
  lemma OtherFeaturesUnchanged(nw: Table, aims: Table, cands: seq<seq<nat>>, p: nat)
    requires Mergeable(nw, aims, cands) && p < |nw.rows| && !IsRockyReef(nw.rows[p])
    ensures TrackNw(nw).rows[p] in MergeRockyReefs(nw, aims, cands).rows
  {
    var t := TrackNw(nw);
    TrackKeepsRocks(nw);
    MarkedOther(t.rows, PlanOf(t, aims, cands), p);
    MarkedInOutput(nw, aims, cands, p);
  }

  /**
   * A rocky reef that is not removed is in the output with all its NW
   * attributes, the status of its update and its updated area.
   */
  /** `f` is reef `j`'s row `f0` after its update: the updated area, the same attributes, the new status. */
  ghost predicate UpdatedRock(m: Merge, j: nat, f0: Feature, f: Feature)
    requires Planned(m) && j < |m.rocks|
  {
    && Cells(GeomOf(f)) == UpdatedCells(m, j)
    && (forall c :: c != StatusColumn ==> Get(f, c) == Get(f0, c))
    && Get(f, StatusColumn) == (if RockUpdate(m, j).Dissolve? then Str(RockUpdate(m, j).status) else Get(f0, StatusColumn))
  }

  /** The row step 6 leaves for a reef that is not removed is that reef's updated row. */
  lemma MarkedRockUpdated(rows: seq<Feature>, m: Merge, j: nat)
    requires Planned(m) && m.rocks == RockGeoms(rows, RockRows(rows)) && j < |m.rocks|
    requires !RockUpdate(m, j).Remove?
    ensures MarkedAt(rows, m, RockRows(rows)[j]).Some?
    ensures UpdatedRock(m, j, rows[RockRows(rows)[j]], MarkedAt(rows, m, RockRows(rows)[j]).value)
  {
    RockRowCells(rows, m, j);
    MarkedRock(rows, m, j);
  }

  lemma RockyReefInOutput(nw: Table, aims: Table, cands: seq<seq<nat>>, j: nat)
    requires Mergeable(nw, aims, cands) && j < |Rocks(TrackNw(nw))|
    requires !RockUpdate(PlanOf(TrackNw(nw), aims, cands), j).Remove?
    ensures exists f :: (f in MergeRockyReefs(nw, aims, cands).rows
      && UpdatedRock(PlanOf(TrackNw(nw), aims, cands), j, TrackNw(nw).rows[RockRows(TrackNw(nw).rows)[j]], f))
  {
    var t := TrackNw(nw);
    TrackKeepsRocks(nw);
    var m := PlanOf(t, aims, cands);
    var p := RockRows(t.rows)[j];
    MarkedRockUpdated(t.rows, m, j);
    MarkedInOutput(nw, aims, cands, p);
  }

  /** An AIMS polygon kept as a new feature keeps its DebugID. */
  lemma NewFeatureId(f: Feature)
    ensures Get(NewFeature(FillDefaults(f)), IdColumn) == Get(f, IdColumn)
  {
    assert IdColumn !in AimsDefaults;
  }

  /** NW row `p` is dropped: its reef is dissolved into another member of its component. */
  ghost predicate Dropped(nw: Table, aims: Table, cands: seq<seq<nat>>, p: nat)
    requires Mergeable(nw, aims, cands)
  {
    var t := TrackNw(nw);
    var m := PlanOf(t, aims, cands);
    var ri := RockRows(t.rows);
    exists j :: 0 <= j < |ri| && ri[j] == p && Follower(m.comps, j)
  }

  /** Step 6 drops the row of rocky reef `j` exactly when the reef follows another in its component. */
  lemma RemovedRow(rows: seq<Feature>, m: Merge, p: nat)
    requires Planned(m) && |m.rocks| == |RockRows(rows)| && p < |rows|
    ensures var ri := RockRows(rows);
      MarkedAt(rows, m, p).None? <==> exists j :: 0 <= j < |ri| && ri[j] == p && Follower(m.comps, j)
  {
    var ri := RockRows(rows);
    var o := RockIndex(ri, p);
    if o.Some? {
      var j := o.value;
      RemovedIffFollower(m, j);
      forall j' | 0 <= j' < |ri| && ri[j'] == p
        ensures j' == j
      {
        RockIndexOf(rows, j');
      }
    }
  }

  lemma DroppedIffRemoved(nw: Table, aims: Table, cands: seq<seq<nat>>, p: nat)
    requires Mergeable(nw, aims, cands) && p < |nw.rows|
    ensures MarkedAt(TrackNw(nw).rows, PlanOf(TrackNw(nw), aims, cands), p).None? <==> Dropped(nw, aims, cands, p)
  {
    RemovedRow(TrackNw(nw).rows, PlanOf(TrackNw(nw), aims, cands), p);
  }

  /** No two NW rows share a DebugID. */
  predicate UniqueIds(rows: seq<Feature>) {
    forall a, b :: 0 <= a < b < |rows| ==> Get(rows[a], IdColumn) != Get(rows[b], IdColumn)
  }

  /**
   * Step 7.5's check: with unique NW DebugIDs, none of them carried by an AIMS
   * polygon, an NW DebugID is missing from the output exactly when its row was
   * dissolved into another reef. Numbered IDs are unique by NumberedIdsDistinct.
   */
  lemma MissingIds(nw: Table, aims: Table, cands: seq<seq<nat>>, p: nat)
    requires Mergeable(nw, aims, cands) && p < |nw.rows|
    requires UniqueIds(TrackNw(nw).rows)
    requires forall i :: 0 <= i < |aims.rows| ==> Get(aims.rows[i], IdColumn) != Get(TrackNw(nw).rows[p], IdColumn)
    ensures (exists f :: f in MergeRockyReefs(nw, aims, cands).rows && Get(f, IdColumn) == Get(TrackNw(nw).rows[p], IdColumn))
      <==> !Dropped(nw, aims, cands, p)
  {
    var t := TrackNw(nw);
    var m := PlanOf(t, aims, cands);
    var r := MergeRockyReefs(nw, aims, cands);
    var id := Get(t.rows[p], IdColumn);
    DroppedIffRemoved(nw, aims, cands, p);
    if !Dropped(nw, aims, cands, p) {
      MarkedKeepsAttrs(t.rows, m, p, IdColumn);
      MarkedInOutput(nw, aims, cands, p);
    } else {
      forall f | f in r.rows
        ensures Get(f, IdColumn) != id
      {
        OutputRows(nw, aims, cands, f);
        if FromMarked(t.rows, m, f) {
          var q :| 0 <= q < |t.rows| && MarkedAt(t.rows, m, q) == Some(f);
          MarkedKeepsAttrs(t.rows, m, q, IdColumn);
          assert q != p;
        } else {
          var i :| 0 <= i < |aims.rows| && |m.lists[i]| == 0 && f == NewFeature(FillDefaults(aims.rows[i]));
          NewFeatureId(aims.rows[i]);
        }
      }
    }
  }
}

=== FILE: rocky_graph.dfy ===
/**
 * The connection graph of stage 04 and its connected components.
 *
 * Nodes are indices of NW rocky-reef features; two of them are joined when
 * one AIMS polygon touches both. Keys are kept in the order they were first
 * recorded (the order a Python dict iterates in), and each neighbour list in
 * the order its edges were first recorded.
 */
module RockyGraph {

  import opened SetFacts

  /** No element occurs twice. */
  predicate Distinct(s: seq<nat>) {
    forall a, b :: 0 <= a < b < |s| ==> s[a] != s[b]
  }

  datatype Graph = Graph(keys: seq<nat>, adj: map<nat, seq<nat>>)

  /** `graph.get(node, [])`. */
  function Adj(g: Graph, x: nat): seq<nat> {
    if x in g.adj then g.adj[x] else []
  }

  function KeySet(g: Graph): set<nat> {
    Members(g.keys)
  }

  /** The entries of a list, as a set. */
  function Members(c: seq<nat>): set<nat> {
    set x | x in c
  }

  /** Keys recorded once, exactly the nodes with an adjacency entry. */
  ghost predicate KeysMatch(g: Graph) {
    Distinct(g.keys) && forall x :: x in g.adj <==> x in g.keys
  }

  /** Every recorded node has a neighbour. */
  ghost predicate NonEmpty(g: Graph) {
    forall x :: x in g.adj ==> |Adj(g, x)| > 0
  }

  /** Edges join distinct recorded nodes and go both ways. */
  ghost predicate Symmetric(g: Graph) {
    forall x, y :: y in Adj(g, x) ==> y != x && y in g.adj && x in Adj(g, y)
  }

  /** Every neighbour is itself a recorded node: what a search needs. */
  ghost predicate Searchable(g: Graph) {
    KeysMatch(g) && forall x, y :: y in Adj(g, x) ==> y in g.adj
  }

  /** The shape the construction keeps. */
  ghost predicate WellFormed(g: Graph) {
    KeysMatch(g) && NonEmpty(g) && Symmetric(g)
  }

  const EmptyGraph := Graph([], map[])

  // ---------------------------------------------------------------------------
  // Construction

  /** `setdefault(a, set()).add(b)`: record `b` as a neighbour of `a`. */
  function Link(g: Graph, a: nat, b: nat): Graph {
    var nbs := Adj(g, a);
    Graph(if a in g.adj then g.keys else g.keys + [a], g.adj[a := if b in nbs then nbs else nbs + [b]])
  }

  /** Recording `b` for `a` adds exactly that one neighbour. */
  lemma LinkAdj(g: Graph, a: nat, b: nat, x: nat, y: nat)
    ensures y in Adj(Link(g, a, b), x) <==> y in Adj(g, x) || (x == a && y == b)
  {
  }

  /** Recording an edge keeps the keys matched and every adjacency non-empty. */
  lemma LinkKeeps(g: Graph, a: nat, b: nat)
    requires KeysMatch(g) && NonEmpty(g)
    ensures KeysMatch(Link(g, a, b)) && NonEmpty(Link(g, a, b))
  {
    var h := Link(g, a, b);
    assert forall x :: x in h.keys <==> x in g.keys || x == a;
    forall x | x in h.adj
      ensures |Adj(h, x)| > 0
    {
      if x == a {
        LinkAdj(g, a, b, a, b);
      } else {
        LinkAdj(g, a, b, x, Adj(g, x)[0]);
      }
    }
  }

  /** Both `setdefault(...).add(...)` calls for one pair of nodes. */
  function AddEdge(g: Graph, a: nat, b: nat): Graph {
    Link(Link(g, a, b), b, a)
  }

  /** `x`–`y` is one of the edges from `l[t]` to `l[s..t]`, either way round. */
  predicate Joined(l: seq<nat>, s: nat, t: nat, x: nat, y: nat)
    requires s <= t < |l|
  {
    (x == l[t] && y in l[s..t]) || (y == l[t] && x in l[s..t])
  }

  /** Join `l[t]` to each of `l[s..t]`. */
  function ConnectPairs(g: Graph, l: seq<nat>, s: nat, t: nat): Graph
    requires s <= t < |l|
    decreases t - s
  {
    if s == t then g
    else ConnectPairs(AddEdge(g, l[s], l[t]), l, s + 1, t)
  }

  /** Both links of one edge keep the keys matched and every adjacency non-empty. */
  lemma AddEdgeKeeps(g: Graph, a: nat, b: nat)
    requires KeysMatch(g) && NonEmpty(g)
    ensures KeysMatch(AddEdge(g, a, b)) && NonEmpty(AddEdge(g, a, b))
  {
    LinkKeeps(g, a, b);
    LinkKeeps(Link(g, a, b), b, a);
  }

  /** Joining `l[t]` to each of `l[s..t]` keeps the keys matched and every adjacency non-empty. */
  lemma {:induction false} ConnectPairsKeeps(g: Graph, l: seq<nat>, s: nat, t: nat)
    requires KeysMatch(g) && NonEmpty(g) && s <= t < |l|
    ensures KeysMatch(ConnectPairs(g, l, s, t)) && NonEmpty(ConnectPairs(g, l, s, t))
    decreases t - s
  {
    if s < t {
      var h := AddEdge(g, l[s], l[t]);
      AddEdgeKeeps(g, l[s], l[t]);
      ConnectPairsKeeps(h, l, s + 1, t);
      ConnectPairsStep(g, h, l, s, t);
    }
  }

  lemma ConnectPairsStep(g: Graph, h: Graph, l: seq<nat>, s: nat, t: nat)
    requires s < t < |l| && h == AddEdge(g, l[s], l[t])
    ensures ConnectPairs(g, l, s, t) == ConnectPairs(h, l, s + 1, t)
  {
  }

  lemma {:induction false} ConnectPairsEdges(g: Graph, l: seq<nat>, s: nat, t: nat, x: nat, y: nat)
    requires s <= t < |l|
    ensures y in Adj(ConnectPairs(g, l, s, t), x) <==> y in Adj(g, x) || Joined(l, s, t, x, y)
    decreases t - s
  {
    if s < t {
      ConnectPairsEdges(AddEdge(g, l[s], l[t]), l, s + 1, t, x, y);
      LinkAdj(g, l[s], l[t], x, y);
      LinkAdj(Link(g, l[s], l[t]), l[t], l[s], x, y);
      SliceFront(l, s, t, x);
      SliceFront(l, s, t, y);
    }
  }

  lemma SliceFront(l: seq<nat>, s: nat, t: nat, z: nat)
    requires s < t <= |l|
    ensures z in l[s..t] <==> z == l[s] || z in l[s + 1..t]
  {
    assert l[s..t] == [l[s]] + l[s + 1..t];
  }

  /** `x` and `y` are two different entries of `l[..t]`. */
  predicate Paired(l: seq<nat>, t: nat, x: nat, y: nat)
    requires t <= |l|
  {
    x in l[..t] && y in l[..t] && x != y
  }

  /** The edges one AIMS polygon adds: every pair of NW features it touches. */
  function ConnectList(g: Graph, l: seq<nat>, t: nat): Graph
    requires t <= |l|
    decreases t
  {
    if t <= 1 then g
    else ConnectPairs(ConnectList(g, l, t - 1), l, 0, t - 1)
  }

  lemma {:induction false} ConnectListKeeps(g: Graph, l: seq<nat>, t: nat)
    requires KeysMatch(g) && NonEmpty(g) && t <= |l|
    ensures KeysMatch(ConnectList(g, l, t)) && NonEmpty(ConnectList(g, l, t))
    decreases t
  {
    if t > 1 {
      ConnectListKeeps(g, l, t - 1);
      ConnectPairsKeeps(ConnectList(g, l, t - 1), l, 0, t - 1);
    }
  }

  /** The pairs among `l[..t]` are those among `l[..t - 1]` and those with `l[t - 1]`. */
  lemma PairedStep(l: seq<nat>, t: nat, x: nat, y: nat)
    requires Distinct(l) && 0 < t <= |l|
    ensures Paired(l, t, x, y) <==> Paired(l, t - 1, x, y) || Joined(l, 0, t - 1, x, y)
  {
    assert l[..t] == l[..t - 1] + [l[t - 1]];
    assert l[0..t - 1] == l[..t - 1];
    assert l[t - 1] !in l[..t - 1];
  }

  lemma {:induction false} ConnectListEdges(g: Graph, l: seq<nat>, t: nat, x: nat, y: nat)
    requires Distinct(l) && t <= |l|
    ensures y in Adj(ConnectList(g, l, t), x) <==> y in Adj(g, x) || Paired(l, t, x, y)
    decreases t
  {
    if t == 1 {
      PairedStep(l, 1, x, y);
    } else if t > 1 {
      ConnectListEdges(g, l, t - 1, x, y);
      ConnectPairsEdges(ConnectList(g, l, t - 1), l, 0, t - 1, x, y);
      PairedStep(l, t, x, y);
    }
  }

  predicate AllDistinct(ls: seq<seq<nat>>) {
    forall i :: 0 <= i < |ls| ==> Distinct(ls[i])
  }

  /** `x` and `y` are two different entries of one touched list. */
  predicate Linked(ls: seq<seq<nat>>, x: nat, y: nat) {
    exists i :: 0 <= i < |ls| && x in ls[i] && y in ls[i] && x != y
  }

  /** `nw_connections` from the touched lists, one list per AIMS polygon in order. */
  function Connections(ls: seq<seq<nat>>): Graph {
    if |ls| == 0 then EmptyGraph
    else
      var l := ls[|ls| - 1];
      ConnectList(Connections(ls[..|ls| - 1]), l, |l|)
  }

  /**
   * Two features are neighbours exactly when some AIMS polygon touches both;
   * with well-formedness this makes the graph symmetric and irreflexive.
   */
  lemma LinkedSnoc(ls: seq<seq<nat>>, x: nat, y: nat)
    requires |ls| > 0
    ensures AllDistinct(ls) ==> AllDistinct(ls[..|ls| - 1])
    ensures Linked(ls, x, y) <==> Linked(ls[..|ls| - 1], x, y) || Paired(ls[|ls| - 1], |ls[|ls| - 1]|, x, y)
  {
    var n := |ls| - 1;
    assert forall i :: 0 <= i < n ==> ls[..n][i] == ls[i];
    assert ls[n][..|ls[n]|] == ls[n];
    if Linked(ls, x, y) {
      var i :| 0 <= i < |ls| && x in ls[i] && y in ls[i] && x != y;
      if i < n {
        assert ls[..n][i] == ls[i];
      }
    }
  }

  lemma {:induction false} ConnectionsEdges(ls: seq<seq<nat>>, x: nat, y: nat)
    requires AllDistinct(ls)
    ensures y in Adj(Connections(ls), x) <==> Linked(ls, x, y)
  {
    if |ls| > 0 {
      var n := |ls| - 1;
      LinkedSnoc(ls, x, y);
      ConnectionsEdges(ls[..n], x, y);
      ConnectListEdges(Connections(ls[..n]), ls[n], |ls[n]|, x, y);
    }
  }

  lemma {:induction false} ConnectionsKeeps(ls: seq<seq<nat>>)
    ensures KeysMatch(Connections(ls)) && NonEmpty(Connections(ls))
  {
    if |ls| > 0 {
      var l := ls[|ls| - 1];
      ConnectionsKeeps(ls[..|ls| - 1]);
      ConnectListKeeps(Connections(ls[..|ls| - 1]), l, |l|);
    }
  }

  /** A graph whose edges are exactly the linked pairs is symmetric and irreflexive. */
  lemma LinksWellFormed(g: Graph, ls: seq<seq<nat>>)
    requires KeysMatch(g) && NonEmpty(g)
    requires forall x, y :: y in Adj(g, x) <==> Linked(ls, x, y)
    ensures WellFormed(g)
  {
    forall x, y | y in Adj(g, x)
      ensures y != x && y in g.adj && x in Adj(g, y)
    {
      var i :| 0 <= i < |ls| && x in ls[i] && y in ls[i] && x != y;
      assert Linked(ls, y, x);
    }
  }

  /** The connection graph is well formed when no touched list repeats a feature. */
  lemma ConnectionsWellFormed(ls: seq<seq<nat>>)
    requires AllDistinct(ls)
    ensures WellFormed(Connections(ls))
  {
    var g := Connections(ls);
    ConnectionsKeeps(ls);
    forall x, y
      ensures y in Adj(g, x) <==> Linked(ls, x, y)
    {
      ConnectionsEdges(ls, x, y);
    }
    LinksWellFormed(g, ls);
  }

  /** Every recorded node shares an AIMS polygon with another one. */
  lemma ConnectionsKeys(ls: seq<seq<nat>>, x: nat)
    requires AllDistinct(ls)
    ensures x in Connections(ls).keys <==> exists y :: Linked(ls, x, y)
  {
    var g := Connections(ls);
    ConnectionsKeeps(ls);
    if x in g.keys {
      var y := Adj(g, x)[0];
      ConnectionsEdges(ls, x, y);
    }
    if exists y :: Linked(ls, x, y) {
      var y :| Linked(ls, x, y);
      ConnectionsEdges(ls, x, y);
    }
  }

  // ---------------------------------------------------------------------------
  // Depth-first search

  lemma RemainingShrinks(k: set<nat>, v: set<nat>, w: set<nat>)
    requires v <= w
    ensures |k - w| <= |k - v|
  {
    SubsetCard(k - w, k - v);
  }

  lemma RemainingDrops(k: set<nat>, v: set<nat>, x: nat)
    requires x in k && x !in v
    ensures |k - (v + {x})| < |k - v|
  {
    assert (k - (v + {x})) + {x} == k - v;
  }

  lemma DistinctConcat(a: seq<nat>, b: seq<nat>)
    requires Distinct(a) && Distinct(b) && forall x :: x in a ==> x !in b
    ensures Distinct(a + b)
  {
    forall i, j | 0 <= i < j < |a + b|
      ensures (a + b)[i] != (a + b)[j]
    {
      if j < |a| {
      } else if i >= |a| {
        assert (a + b)[i] == b[i - |a|] && (a + b)[j] == b[j - |a|];
      } else {
        assert (a + b)[i] in a && (a + b)[j] == b[j - |a|];
      }
    }
  }

  /**
   * `dfs(node, component)` with `visited` as a parameter: the nodes it visits,
   * in visiting order. They were unvisited, start with `node`, and every
   * neighbour of one of them was either visited before or is among them.
   */
  function Dfs(g: Graph, node: nat, visited: set<nat>): (r: seq<nat>)
    requires Searchable(g) && node in g.adj && node !in visited
    ensures |r| > 0 && r[0] == node && Distinct(r)
    ensures forall x :: x in r ==> x in g.adj && x !in visited
    ensures forall x, y :: x in r && y in Adj(g, x) ==> y in visited || y in r
    decreases |KeySet(g) - visited|, 0, 0
  {
    RemainingDrops(KeySet(g), visited, node);
    var rest := DfsList(g, Adj(g, node), visited + {node});
    DistinctConcat([node], rest);
    var r := [node] + rest;
    assert forall x :: x in r <==> x == node || x in rest;
    r
  }

  /** The loop of `dfs` over one neighbour list. */
  function DfsList(g: Graph, nbs: seq<nat>, visited: set<nat>): (r: seq<nat>)
    requires Searchable(g) && forall y :: y in nbs ==> y in g.adj
    ensures Distinct(r)
    ensures forall x :: x in r ==> x in g.adj && x !in visited
    ensures forall y :: y in nbs ==> y in visited || y in r
    ensures forall x, y :: x in r && y in Adj(g, x) ==> y in visited || y in r
    decreases |KeySet(g) - visited|, 1, |nbs|
  {
    if |nbs| == 0 then []
    else if nbs[0] in visited then
      var r := DfsList(g, nbs[1..], visited);
      assert forall y :: y in nbs ==> y == nbs[0] || y in nbs[1..];
      r
    else
      var first := Dfs(g, nbs[0], visited);
      var seen := visited + Members(first);
      RemainingShrinks(KeySet(g), visited, seen);
      var more := DfsList(g, nbs[1..], seen);
      DistinctConcat(first, more);
      var r := first + more;
      assert forall x :: x in r <==> x in first || x in more;
      assert forall y :: y in seen <==> y in visited || y in first;
      forall y | y in nbs
        ensures y in visited || y in r
      {
        if y != nbs[0] {
          assert y in nbs[1..];
        }
      }
      r
  }

  // ---------------------------------------------------------------------------
  // Components

  /** No neighbour leaves the set. */
  predicate Closed(g: Graph, c: set<nat>) {
    forall x, y :: x in c && y in Adj(g, x) ==> y in c
  }

  predicate DisjointSeqs(a: seq<nat>, b: seq<nat>) {
    forall x :: x in a ==> x !in b
  }

  function AllMembers(cs: seq<seq<nat>>): (m: set<nat>)
    ensures forall x :: x in m <==> exists k :: 0 <= k < |cs| && x in cs[k]
  {
    if |cs| == 0 then {}
    else
      var n := |cs| - 1;
      var r := AllMembers(cs[..n]) + Members(cs[n]);
      assert forall k :: 0 <= k < n ==> cs[..n][k] == cs[k];
      r
  }

  /**
   * The components are what a correct connected-components pass promises:
   * each has at least two members (its start node and a neighbour) with the
   * start node first in key order, none shares a member with another, none
   * has a neighbour outside itself, and together they cover `covered`.
   */
  predicate Partitioned(g: Graph, cs: seq<seq<nat>>, covered: set<nat>) {
    && (forall k :: 0 <= k < |cs| ==> |cs[k]| >= 2 && Distinct(cs[k]))
    && (forall k :: 0 <= k < |cs| ==> Closed(g, Members(cs[k])))
    && (forall k, l :: 0 <= k < l < |cs| ==> DisjointSeqs(cs[k], cs[l]))
    && AllMembers(cs) == covered
  }

  /** The start node is the first member in key order. */
  predicate StartsFirst(g: Graph, c: seq<nat>) {
    |c| > 0 && forall m, k :: 0 <= m < |g.keys| && 0 <= k < |g.keys| && g.keys[m] == c[0] && g.keys[k] in c ==> m <= k
  }

  /** Each new component lies outside the closed set already visited. */
  lemma FreshComponent(g: Graph, visited: set<nat>, node: nat)
    requires WellFormed(g) && node in g.adj && node !in visited && Closed(g, visited)
    ensures Closed(g, Members(Dfs(g, node, visited)))
    ensures |Dfs(g, node, visited)| >= 2
  {
    var r := Dfs(g, node, visited);
    forall x, y | x in Members(r) && y in Adj(g, x)
      ensures y in Members(r)
    {
      assert x in Adj(g, y);
    }
    var y := Adj(g, node)[0];
    assert y in Adj(g, node);
    assert node in Adj(g, y);
    assert r == [r[0]] + r[1..];
    assert y in r[1..];
  }

  /** The start node comes before every other member in key order. */
  lemma StartFirst(g: Graph, i: nat, visited: set<nat>)
    requires WellFormed(g) && i < |g.keys| && g.keys[i] !in visited
    requires forall j :: 0 <= j < i ==> g.keys[j] in visited
    ensures StartsFirst(g, Dfs(g, g.keys[i], visited))
  {
    var c := Dfs(g, g.keys[i], visited);
    forall m, k | 0 <= m < |g.keys| && 0 <= k < |g.keys| && g.keys[m] == c[0] && g.keys[k] in c
      ensures m <= k
    {
      assert g.keys[k] !in visited;
      assert m == i;
    }
  }

  /** A fresh closed component in front of a partition of the rest. */
  lemma PrependComponent(g: Graph, c: seq<nat>, rest: seq<seq<nat>>, visited: set<nat>)
    requires |c| >= 2 && Distinct(c) && Closed(g, Members(c))
    requires Members(c) <= KeySet(g) - visited
    requires Partitioned(g, rest, KeySet(g) - (visited + Members(c)))
    ensures Partitioned(g, [c] + rest, KeySet(g) - visited)
  {
    var cs := [c] + rest;
    assert forall k :: 0 < k < |cs| ==> cs[k] == rest[k - 1];
    forall k, l | 0 <= k < l < |cs|
      ensures DisjointSeqs(cs[k], cs[l])
    {
      if k == 0 {
        forall x | x in cs[l]
          ensures x !in c
        {
          assert x in AllMembers(rest);
        }
      }
    }
    assert AllMembers(cs) == Members(c) + AllMembers(rest) by {
      forall x
        ensures x in AllMembers(cs) <==> x in Members(c) || x in AllMembers(rest)
      {
        if x in AllMembers(cs) {
          var k :| 0 <= k < |cs| && x in cs[k];
          if k > 0 {
            assert x in rest[k - 1];
          }
        }
        if x in AllMembers(rest) {
          var k :| 0 <= k < |rest| && x in rest[k];
          assert x in cs[k + 1];
        }
        if x in Members(c) {
          assert x in cs[0];
        }
      }
    }
  }

  /** After a search from key `i`, keys up to `i` are visited and the visited set stays closed. */
  lemma NextVisited(g: Graph, i: nat, visited: set<nat>)
    requires WellFormed(g) && i < |g.keys| && g.keys[i] !in visited
    requires visited <= KeySet(g) && Closed(g, visited)
    requires forall j :: 0 <= j < i ==> g.keys[j] in visited
    ensures visited + Members(Dfs(g, g.keys[i], visited)) <= KeySet(g)
    ensures Closed(g, visited + Members(Dfs(g, g.keys[i], visited)))
    ensures forall j :: 0 <= j <= i ==> g.keys[j] in visited + Members(Dfs(g, g.keys[i], visited))
  {
    FreshComponent(g, visited, g.keys[i]);
  }

  /** The loop of `find_connected_components` from key position `i` on. */
  function ComponentsFrom(g: Graph, i: nat, visited: set<nat>): (cs: seq<seq<nat>>)
    requires WellFormed(g) && i <= |g.keys|
    requires visited <= KeySet(g) && Closed(g, visited)
    requires forall j :: 0 <= j < i ==> g.keys[j] in visited
    ensures Partitioned(g, cs, KeySet(g) - visited)
    ensures forall k :: 0 <= k < |cs| ==> StartsFirst(g, cs[k])
    decreases |g.keys| - i
  {
    if i == |g.keys| then
      assert KeySet(g) - visited == {};
      []
    else if g.keys[i] in visited then ComponentsFrom(g, i + 1, visited)
    else
      var c := Dfs(g, g.keys[i], visited);
      FreshComponent(g, visited, g.keys[i]);
      StartFirst(g, i, visited);
      NextVisited(g, i, visited);
      var rest := ComponentsFrom(g, i + 1, visited + Members(c));
      PrependComponent(g, c, rest, visited);
      PrependStarts(g, c, rest);
      [c] + rest
  }

  lemma PrependStarts(g: Graph, c: seq<nat>, rest: seq<seq<nat>>)
    requires StartsFirst(g, c) && forall k :: 0 <= k < |rest| ==> StartsFirst(g, rest[k])
    ensures forall k :: 0 <= k < |[c] + rest| ==> StartsFirst(g, ([c] + rest)[k])
  {
    var cs := [c] + rest;
    assert forall k :: 0 < k < |cs| ==> cs[k] == rest[k - 1];
  }

  /** `find_connected_components`. */
  function FindComponents(g: Graph): (cs: seq<seq<nat>>)
    requires WellFormed(g)
    ensures Partitioned(g, cs, KeySet(g))
    ensures forall k :: 0 <= k < |cs| ==> StartsFirst(g, cs[k])
  {
    ComponentsFrom(g, 0, {})
  }
}

=== FILE: sets.dfy ===
/** Facts about finite sets that Dafny does not supply on its own. */
module SetFacts {

  /** A subset is no larger than its superset. */
  lemma {:induction false} SubsetCard<T>(a: set<T>, b: set<T>)
    requires a <= b
    ensures |a| <= |b|
  {
    if a != {} {
      var x :| x in a;
      SubsetCard(a - {x}, b - {x});
    }
  }
}

=== FILE: shallow_sediment.dfy ===
/**
 * Stage 07: fill the gaps of the feature layer with shallow sediment. Each
 * valid shallow-mask polygon minus the union of all features becomes one new
 * feature per polygon part, carrying fixed default attributes; the new
 * features follow the original ones.
 */
module ShallowSediment {

  import opened Wrappers
  import opened Geometry
  import opened Tables

  /** The attribute columns of a new sediment feature, in order. */
  const DefaultColumns: seq<string> := [
    "EdgeSrc", "Notes", "FeatConf", "TypeConf", "EdgeAcc_m", "RB_Type_L3", "DepthCat",
    "DepthCatSr", "Feat_L3", "GeoAttach", "Relief", "FlowInflu", "SO_L2", "Paleo"]

  /** The attributes every new sediment feature starts from. */
  const DefaultAttrs: map<string, Value> := map[
    "EdgeSrc" := Str("Semi-auto shallow mask"),
    "Notes" := Null,
    "FeatConf" := Str("Medium"),
    "TypeConf" := Str("Medium"),
    "EdgeAcc_m" := Int(250),
    "RB_Type_L3" := Str("Shallow sediment"),
    "DepthCat" := Null,
    "DepthCatSr" := Null,
    "Feat_L3" := Str("Shallow Sediment"),
    "GeoAttach" := Str("Fringing"),
    "Relief" := Str("Low"),
    "FlowInflu" := Str("Unknown"),
    "SO_L2" := Str("Terrigenous"),
    "Paleo" := Str("No")]

  /** The geometries of the features, skipping missing ones. */
  function PresentGeoms(rows: seq<Feature>): (gs: seq<Geom>)
    ensures forall g :: g in gs <==> exists f :: f in rows && f.geom == Some(g)
  {
    if |rows| == 0 then []
    else
      var init := rows[..|rows| - 1];
      var last := rows[|rows| - 1];
      assert forall f :: f in rows <==> f in init || f == last by {
        assert rows == init + [last];
      }
      PresentGeoms(init) + (if last.geom.Some? then [last.geom.value] else [])
  }

  lemma {:induction false} PresentGeomsConcat(a: seq<Feature>, b: seq<Feature>)
    ensures PresentGeoms(a + b) == PresentGeoms(a) + PresentGeoms(b)
    decreases |b|
  {
    if |b| == 0 {
      assert a + b == a;
    } else {
      var n := |b| - 1;
      PresentGeomsConcat(a, b[..n]);
      assert b == b[..n] + [b[n]];
      PresentGeomsConcatPush(a, b[..n], b[n]);
    }
  }

  lemma PresentGeomsConcatPush(a: seq<Feature>, b: seq<Feature>, f: Feature)
    requires PresentGeoms(a + b) == PresentGeoms(a) + PresentGeoms(b)
    ensures PresentGeoms(a + (b + [f])) == PresentGeoms(a) + PresentGeoms(b + [f])
  {
    var x := if f.geom.Some? then [f.geom.value] else [];
    assert a + (b + [f]) == (a + b) + [f];
    calc {
      PresentGeoms(a + (b + [f]));
      { PresentGeomsPush(a + b, f); }
      PresentGeoms(a + b) + x;
      (PresentGeoms(a) + PresentGeoms(b)) + x;
      PresentGeoms(a) + (PresentGeoms(b) + x);
      { PresentGeomsPush(b, f); }
      PresentGeoms(a) + PresentGeoms(b + [f]);
    }
  }

  lemma PresentGeomsPush(rows: seq<Feature>, f: Feature)
    ensures PresentGeoms(rows + [f]) == PresentGeoms(rows) + (if f.geom.Some? then [f.geom.value] else [])
  {
    assert (rows + [f])[..|rows|] == rows;
  }

  /** Skipped: the shallow polygon is invalid or empty. */
  predicate Skipped(shallow: Geom) {
    !IsValid(shallow) || IsEmpty(shallow)
  }

  function Polys(ps: seq<Polygon>): (gs: seq<Geom>)
    ensures |gs| == |ps|
    ensures forall k :: 0 <= k < |gs| ==> gs[k] == Poly(ps[k])
  {
    if |ps| == 0 then [] else Polys(ps[..|ps| - 1]) + [Poly(ps[|ps| - 1])]
  }

  lemma {:induction false} PolysCells(ps: seq<Polygon>)
    ensures UnionCells(Polys(ps)) == PartsCells(ps)
  {
    if |ps| > 0 {
      var n := |ps| - 1;
      PolysCells(ps[..n]);
      assert Polys(ps)[..n] == Polys(ps[..n]);
    }
  }

  /**
   * The split of a processed geometry into new features: a MultiPolygon gives
   * one Polygon per valid non-empty part, anything else is kept whole.
   */
  function SplitParts(g: Geom): (r: seq<Geom>)
    ensures !g.Multi? ==> r == [g]
    ensures g.Multi? ==> forall h :: h in r ==> h.Poly? && h.poly.valid && h.poly.cells != {} && h.poly in g.parts
  {
    if g.Multi? then
      var ps := ValidNonEmpty(g.parts);
      var r := Polys(ps);
      assert forall h :: h in r ==> exists k :: 0 <= k < |ps| && h == Poly(ps[k]);
      r
    else [g]
  }

  /** Splitting loses the invalid parts of a MultiPolygon and nothing else. */
  lemma SplitKeepsCells(g: Geom)
    ensures UnionCells(SplitParts(g)) <= Cells(g)
    ensures IsValid(g) ==> UnionCells(SplitParts(g)) == Cells(g)
  {
    if g.Multi? {
      PolysCells(ValidNonEmpty(g.parts));
      PartsCellsValidNonEmpty(g.parts);
    } else {
      assert [g][..0] == [];
    }
  }

  /**
   * The new geometries made from one shallow polygon: nothing for a skipped
   * polygon or an empty remainder, otherwise the split of the remainder.
   */
  function NewGeoms(shallow: Geom, features: Geom): (r: seq<Geom>)
    ensures Skipped(shallow) ==> r == []
    ensures forall h :: h in r ==> Cells(h) <= Cells(shallow) - Cells(features) && !IsEmpty(h)
  {
    if Skipped(shallow) then []
    else
      var processed := ProcessGeometry(Difference(shallow, features));
      if processed.None? || IsEmpty(processed.value) then []
      else
        ProcessShape(Cells(shallow) - Cells(features));
        SplitParts(processed.value)
  }

  /** What one shallow polygon contributes is exactly its part outside the features. */
  lemma NewGeomsCells(shallow: Geom, features: Geom)
    ensures UnionCells(NewGeoms(shallow, features))
      == if Skipped(shallow) then {} else Cells(shallow) - Cells(features)
  {
    var d := Cells(shallow) - Cells(features);
    ProcessShape(d);
    if !Skipped(shallow) && d != {} {
      SplitKeepsCells(Shape(d));
    }
  }

  function AsFeatures(gs: seq<Geom>): (r: seq<Feature>)
    ensures |r| == |gs|
    ensures forall k :: 0 <= k < |r| ==> r[k] == Feature(DefaultAttrs, Some(gs[k]))
  {
    if |gs| == 0 then []
    else AsFeatures(gs[..|gs| - 1]) + [Feature(DefaultAttrs, Some(gs[|gs| - 1]))]
  }

  lemma {:induction false} AsFeaturesGeoms(gs: seq<Geom>)
    ensures PresentGeoms(AsFeatures(gs)) == gs
  {
    if |gs| > 0 {
      var n := |gs| - 1;
      AsFeaturesGeoms(gs[..n]);
      assert AsFeatures(gs)[..n] == AsFeatures(gs[..n]);
      assert gs == gs[..n] + [gs[n]];
    }
  }

  /** The sediment features, in shallow-mask order. */
  function SedimentRows(shallow: seq<Feature>, features: Geom): (r: seq<Feature>)
    requires forall i :: 0 <= i < |shallow| ==> shallow[i].geom.Some?
    ensures forall x :: x in r ==>
      (x.attrs == DefaultAttrs && x.geom.Some? && !IsEmpty(x.geom.value)
       && Cells(x.geom.value) * Cells(features) == {})
  {
    if |shallow| == 0 then []
    else
      var n := |shallow| - 1;
      var gs := NewGeoms(shallow[n].geom.value, features);
      var more := AsFeatures(gs);
      assert forall x :: x in more ==> exists k :: 0 <= k < |gs| && x.geom == Some(gs[k]);
      SedimentRows(shallow[..n], features) + more
  }

  /** The cells of the shallow polygons that are not skipped. */
  function KeptShallowCells(shallow: seq<Feature>): Region
    requires forall i :: 0 <= i < |shallow| ==> shallow[i].geom.Some?
  {
    if |shallow| == 0 then {}
    else
      var g := shallow[|shallow| - 1].geom.value;
      KeptShallowCells(shallow[..|shallow| - 1]) + (if Skipped(g) then {} else Cells(g))
  }

  /** The sediment features cover exactly the kept shallow mask outside the features. */
  lemma {:induction false} SedimentCells(shallow: seq<Feature>, features: Geom)
    requires forall i :: 0 <= i < |shallow| ==> shallow[i].geom.Some?
    ensures UnionCells(PresentGeoms(SedimentRows(shallow, features)))
      == KeptShallowCells(shallow) - Cells(features)
  {
    if |shallow| > 0 {
      var n := |shallow| - 1;
      var g := shallow[n].geom.value;
      var prev := SedimentRows(shallow[..n], features);
      var gs := NewGeoms(g, features);
      SedimentCells(shallow[..n], features);
      PresentGeomsConcat(prev, AsFeatures(gs));
      AsFeaturesGeoms(gs);
      UnionCellsConcat(PresentGeoms(prev), gs);
      NewGeomsCells(g, features);
    }
  }

  function SkippedCount(shallow: seq<Feature>): (n: nat)
    requires forall i :: 0 <= i < |shallow| ==> shallow[i].geom.Some?
    ensures n <= |shallow|
    ensures n == 0 <==> forall i :: 0 <= i < |shallow| ==> !Skipped(shallow[i].geom.value)
  {
    if |shallow| == 0 then 0
    else
      var m := |shallow| - 1;
      assert forall i :: 0 <= i < m ==> shallow[..m][i] == shallow[i];
      SkippedCount(shallow[..m]) + (if Skipped(shallow[m].geom.value) then 1 else 0)
  }

  /** The features' union, as the stage dissolves it. */
  function Dissolved(features: Table): Geom {
    UnionAll(PresentGeoms(features.rows))
  }

  /**
   * The stage: the features unchanged, then the new sediment features; the
   * columns are the features' columns followed by the default ones when any
   * sediment feature was made. Also returns the skipped count.
   */
  function ShallowSediment(features: Table, shallow: seq<Feature>): (r: (Table, nat))
    requires forall i :: 0 <= i < |shallow| ==> shallow[i].geom.Some?
    ensures |features.rows| <= |r.0.rows| && r.0.rows[..|features.rows|] == features.rows
    ensures r.0.rows[|features.rows|..] == SedimentRows(shallow, Dissolved(features))
    ensures |features.columns| <= |r.0.columns| && r.0.columns[..|features.columns|] == features.columns
    ensures |r.0.rows| > |features.rows| ==> forall c :: c in DefaultColumns ==> c in r.0.columns
    ensures r.1 == SkippedCount(shallow)
  {
    var created := SedimentRows(shallow, Dissolved(features));
    var columns := if |created| == 0 then features.columns else ConcatColumns(features.columns, DefaultColumns);
    var rows := features.rows + created;
    assert rows[..|features.rows|] == features.rows;
    assert rows[|features.rows|..] == created;
    (Table(columns, rows), SkippedCount(shallow))
  }

  /**
   * The stage as written: when no sediment feature is made, the source builds
   * the empty frame with `GeoDataFrame([], crs=...)`, which geopandas 1.0 and
   * later refuse with a ValueError when the CRS is set (`crs`); the run then
   * ends there (`None`).
   */
  function ShallowSedimentAsWritten(features: Table, shallow: seq<Feature>, crs: bool): (r: Option<(Table, nat)>)
    requires forall i :: 0 <= i < |shallow| ==> shallow[i].geom.Some?
    ensures r.None? <==> crs && |SedimentRows(shallow, Dissolved(features))| == 0
    ensures r.Some? ==> r.value == ShallowSediment(features, shallow)
  {
    if crs && |SedimentRows(shallow, Dissolved(features))| == 0 then None
    else Some(ShallowSediment(features, shallow))
  }

  /** With no shallow polygon at all, the run as written stops on the empty frame. */
  lemma EmptyBranchRaises(features: Table)
    ensures ShallowSedimentAsWritten(features, [], true).None?
  {
  }

  /**
   * What the empty branch is for: when no sediment feature is made the stage
   * hands back its input table, rows and columns alike.
   */
  lemma NoSedimentKeepsFeatures(features: Table, shallow: seq<Feature>)
    requires forall i :: 0 <= i < |shallow| ==> shallow[i].geom.Some?
    requires |SedimentRows(shallow, Dissolved(features))| == 0
    ensures ShallowSediment(features, shallow).0 == features
  {
    var r := ShallowSediment(features, shallow).0;
    assert r.rows == r.rows[..|features.rows|] + r.rows[|features.rows|..];
  }

  /** Every new feature carries the defaults and overlaps no original feature. */
  lemma NewFeaturesAvoidFeatures(features: Table, shallow: seq<Feature>, k: int, f: Feature)
    requires forall i :: 0 <= i < |shallow| ==> shallow[i].geom.Some?
    requires |features.rows| <= k < |ShallowSediment(features, shallow).0.rows|
    requires f in features.rows && f.geom.Some?
    ensures ShallowSediment(features, shallow).0.rows[k].attrs == DefaultAttrs
    ensures Cells(ShallowSediment(features, shallow).0.rows[k].geom.value) * Cells(f.geom.value) == {}
  {
    var rows := ShallowSediment(features, shallow).0.rows;
    var created := SedimentRows(shallow, Dissolved(features));
    assert rows[k] == created[k - |features.rows|];
    assert rows[k] in created;
    CellsInUnion(PresentGeoms(features.rows), f.geom.value);
  }
}

=== FILE: tables.dfy ===
/**
 * Feature tables: rows of named attribute values plus an optional geometry,
 * the shape of every GeoDataFrame the stages read and write.
 */
module Tables {

  import opened Wrappers
  import opened Geometry

  /** A cell value; `Null` stands for None, NaN and pandas' NA alike. */
  datatype Value = Null | Str(s: string) | Int(n: int)

  /** One row: attribute cells by column name, and the geometry cell. */
  datatype Feature = Feature(attrs: map<string, Value>, geom: Option<Geom>)

  /** A table: its attribute columns in order, and its rows. */
  datatype Table = Table(columns: seq<string>, rows: seq<Feature>)

  /** The value in a column; a column the row lacks reads as null. */
  function Get(f: Feature, col: string): Value {
    if col in f.attrs then f.attrs[col] else Null
  }

  /** `df[df[col] == s]`: a null cell never equals a string. */
  predicate HasText(f: Feature, col: string, s: string) {
    Get(f, col) == Str(s)
  }

  /** Boolean-mask selection: the rows whose `test` is `want`, in order. */
  function Where(rows: seq<Feature>, test: Feature -> bool, want: bool): (r: seq<Feature>)
    ensures |r| <= |rows|
    ensures forall x :: x in r <==> x in rows && test(x) == want
  {
    if |rows| == 0 then []
    else Where(rows[..|rows| - 1], test, want) + (if test(rows[|rows| - 1]) == want then [rows[|rows| - 1]] else [])
  }

  lemma WhereStep(rows: seq<Feature>, test: Feature -> bool, want: bool)
    requires |rows| > 0
    ensures multiset(Where(rows, test, want)) == multiset(Where(rows[..|rows| - 1], test, want))
      + (if test(rows[|rows| - 1]) == want then multiset{rows[|rows| - 1]} else multiset{})
  {
  }

  /** A mask and its negation together select as many rows as there are. */
  lemma {:induction false} WhereSizes(rows: seq<Feature>, test: Feature -> bool)
    ensures |Where(rows, test, true)| + |Where(rows, test, false)| == |rows|
  {
    if |rows| > 0 {
      WhereSizes(rows[..|rows| - 1], test);
    }
  }

  /** A mask and its negation split the rows between them. */
  lemma {:induction false} WherePartition(rows: seq<Feature>, test: Feature -> bool)
    ensures multiset(Where(rows, test, true)) + multiset(Where(rows, test, false)) == multiset(rows)
    ensures |Where(rows, test, true)| + |Where(rows, test, false)| == |rows|
  {
    if |rows| > 0 {
      var init := rows[..|rows| - 1];
      WherePartition(init, test);
      assert multiset(rows) == multiset(init) + multiset{rows[|rows| - 1]} by {
        assert rows == init + [rows[|rows| - 1]];
      }
      WhereStep(rows, test, true);
      WhereStep(rows, test, false);
    }
    assert |multiset(rows)| == |rows|;
  }

  /** The geometry of a row; a missing one takes part in overlays as the empty geometry. */
  function GeomOf(f: Feature): Geom {
    if f.geom.Some? then f.geom.value else Empty
  }

  function Geoms(rows: seq<Feature>): (gs: seq<Geom>)
    ensures |gs| == |rows|
    ensures forall i :: 0 <= i < |rows| ==> gs[i] == GeomOf(rows[i])
  {
    if |rows| == 0 then [] else Geoms(rows[..|rows| - 1]) + [GeomOf(rows[|rows| - 1])]
  }

  /** A row's geometry lies inside the union of its table's geometries. */
  lemma RowInUnion(rows: seq<Feature>, f: Feature)
    requires f in rows
    ensures Cells(GeomOf(f)) <= UnionCells(Geoms(rows))
  {
    var i :| 0 <= i < |rows| && rows[i] == f;
    CellsInUnion(Geoms(rows), GeomOf(f));
  }

  /** `row.copy()` with only the geometry replaced. */
  function WithGeom(f: Feature, g: Option<Geom>): (r: Feature)
    ensures r.attrs == f.attrs && r.geom == g
  {
    f.(geom := g)
  }

  /** The columns of `pd.concat([a, b])`: those of `a`, then the new ones of `b`. */
  function ConcatColumns(a: seq<string>, b: seq<string>): (c: seq<string>)
    ensures |a| <= |c| && c[..|a|] == a
    ensures forall x :: x in c <==> x in a || x in b
  {
    if |b| == 0 then a
    else
      var init := ConcatColumns(a, b[..|b| - 1]);
      var last := b[|b| - 1];
      assert forall x :: x in b <==> x in b[..|b| - 1] || x == last by {
        assert b == b[..|b| - 1] + [last];
      }
      if last in init then init
      else assert (init + [last])[..|a|] == init[..|a|]; init + [last]
  }

  /**
   * The column that ends up under name `c` once the cross-walk stages rename
   * ImgSrc to EdgeSrc and Edg_acc to EdgeAcc_m.
   */
  function SourceColumn(columns: seq<string>, c: string): string {
    if c == "EdgeSrc" && "ImgSrc" in columns then "ImgSrc"
    else if c == "EdgeAcc_m" && "Edg_acc" in columns then "Edg_acc"
    else c
  }
}

=== FILE: text.dfy ===
/** Character-level string helpers that the stages rely on: decimal rendering and
    parsing (Python `str(int)` and `int(str)`), `str.strip()` and `str.split(sep)`. */
module Text {
  import opened Wrappers

  // ---------------------------------------------------------------------------
  // Decimal digits
  // ---------------------------------------------------------------------------

  predicate IsDigit(c: char) {
    '0' <= c <= '9'
  }

  predicate AllDigits(s: string) {
    forall i :: 0 <= i < |s| ==> IsDigit(s[i])
  }

  function DigitValue(c: char): nat
    requires IsDigit(c)
  {
    c as int - '0' as int
  }

  function DigitChar(d: nat): (c: char)
    requires d < 10
    ensures IsDigit(c) && DigitValue(c) == d
  {
    ('0' as int + d) as char
  }

  /** The number a string of decimal digits denotes (the empty string denotes 0). */
  function DigitsValue(s: string): nat
    requires AllDigits(s)
    decreases |s|
  {
    if |s| == 0 then 0 else DigitsValue(s[..|s| - 1]) * 10 + DigitValue(s[|s| - 1])
  }

  /** Python's `str(n)` for a non-negative integer: decimal, no leading zeros. */
  function ShowNat(n: nat): (s: string)
    ensures 1 <= |s| && AllDigits(s)
    ensures s[0] == '0' ==> n == 0
    decreases n
  {
    if n < 10 then [DigitChar(n)] else ShowNat(n / 10) + [DigitChar(n % 10)]
  }

  /** Python's `str(i)` for any integer. */
  function ShowInt(i: int): string {
    if i < 0 then "-" + ShowNat(-i) else ShowNat(i)
  }

  /** How many digits `str(i)` prints, the sign not counted. */
  function DigitCount(i: int): nat {
    |ShowNat(if i < 0 then -i else i)|
  }

  /** A non-empty run of decimal digits, read as a number; anything else is rejected. */
  function ParseNat(s: string): (r: Option<nat>)
    ensures r.Some? <==> 1 <= |s| && AllDigits(s)
  {
    if 1 <= |s| && AllDigits(s) then Some(DigitsValue(s)) else None
  }

  lemma {:induction false} DigitsValueOfShowNat(n: nat)
    ensures DigitsValue(ShowNat(n)) == n
    decreases n
  {
    if n >= 10 {
      DigitsValueOfShowNat(n / 10);
      var s := ShowNat(n / 10) + [DigitChar(n % 10)];
      assert s[..|s| - 1] == ShowNat(n / 10);
    }
  }

  /** Rendering and parsing a natural number are inverse. */
  lemma ShowParseNat(n: nat)
    ensures ParseNat(ShowNat(n)) == Some(n)
  {
    DigitsValueOfShowNat(n);
  }

  /** Distinct numbers render as distinct strings. */
  lemma ShowNatInjective(a: nat, b: nat)
    ensures ShowNat(a) == ShowNat(b) ==> a == b
  {
    ShowParseNat(a);
    ShowParseNat(b);
  }

  /** A leading zero does not change the value of a digit string. */
  lemma {:induction false} LeadingZeroValue(s: string)
    requires AllDigits(s)
    ensures AllDigits("0" + s) && DigitsValue("0" + s) == DigitsValue(s)
    decreases |s|
  {
    if |s| > 0 {
      var t := "0" + s;
      assert t[..|t| - 1] == "0" + s[..|s| - 1];
      LeadingZeroValue(s[..|s| - 1]);
    }
  }

  // ---------------------------------------------------------------------------
  // Whitespace, str.strip() and the whitespace int() skips
  // ---------------------------------------------------------------------------

  /** Python's `str.isspace()`: the characters `str.strip()` removes. */
  predicate IsSpace(c: char) {
    var n := c as int;
    (9 <= n <= 13) || (28 <= n <= 32) || n == 0x85 || n == 0xA0 || n == 0x1680
    || (0x2000 <= n <= 0x200A) || n == 0x2028 || n == 0x2029 || n == 0x202F || n == 0x205F || n == 0x3000
  }

  /** The ASCII information separators U+001C..U+001F: `isspace` accepts them. */
  predicate IsSeparator(c: char) {
    28 <= c as int <= 31
  }

  /**
   * The whitespace `int(text)` skips around a number. CPython first turns every
   * non-ASCII `isspace` character into a plain space and then skips only the ASCII
   * whitespace of C's `isspace`, so the information separators are not skipped.
   */
  predicate IsIntSpace(c: char) {
    IsSpace(c) && !IsSeparator(c)
  }

  /** Which whitespace a trim removes: that of `str.strip()` or that of `int()`. */
  datatype Spacing = StrSpacing | IntSpacing

  predicate Blank(w: Spacing, c: char) {
    match w
    case StrSpacing => IsSpace(c)
    case IntSpacing => IsIntSpace(c)
  }

  predicate AllBlank(w: Spacing, s: string) {
    forall i :: 0 <= i < |s| ==> Blank(w, s[i])
  }

  /** Text of `str.isspace()` characters only. */
  predicate AllSpace(s: string) {
    AllBlank(StrSpacing, s)
  }

  predicate IsTrimmed(w: Spacing, s: string) {
    |s| == 0 || (!Blank(w, s[0]) && !Blank(w, s[|s| - 1]))
  }

  /** The first index at or after `i` that does not hold whitespace (or `|s|`). */
  function LeadEnd(w: Spacing, s: string, i: nat): (k: nat)
    requires i <= |s|
    ensures i <= k <= |s|
    ensures forall m :: i <= m < k ==> Blank(w, s[m])
    ensures k < |s| ==> !Blank(w, s[k])
    decreases |s| - i
  {
    if i < |s| && Blank(w, s[i]) then LeadEnd(w, s, i + 1) else i
  }

  /** The start of the whitespace run that ends `s[lo..j]`. */
  function TrailStart(w: Spacing, s: string, lo: nat, j: nat): (k: nat)
    requires lo <= j <= |s|
    ensures lo <= k <= j
    ensures forall m :: k <= m < j ==> Blank(w, s[m])
    ensures k > lo ==> !Blank(w, s[k - 1])
    decreases j - lo
  {
    if j > lo && Blank(w, s[j - 1]) then TrailStart(w, s, lo, j - 1) else j
  }

  /** The text with leading and trailing whitespace of kind `w` removed. */
  function Trim(w: Spacing, s: string): (r: string)
    ensures IsTrimmed(w, r)
  {
    var a := LeadEnd(w, s, 0);
    var b := TrailStart(w, s, a, |s|);
    assert b > a ==> s[a..b][0] == s[a] && s[a..b][b - a - 1] == s[b - 1];
    s[a..b]
  }

  /** Python's `str.strip()`: the text with leading and trailing whitespace removed. */
  function Strip(s: string): (r: string)
    ensures IsTrimmed(StrSpacing, r)
  {
    Trim(StrSpacing, s)
  }

  lemma {:induction false} LeadEndIs(w: Spacing, s: string, i: nat, k: nat)
    requires i <= k <= |s|
    requires forall m :: i <= m < k ==> Blank(w, s[m])
    requires k < |s| ==> !Blank(w, s[k])
    ensures LeadEnd(w, s, i) == k
    decreases k - i
  {
    if i < k {
      LeadEndIs(w, s, i + 1, k);
    }
  }

  lemma {:induction false} TrailStartIs(w: Spacing, s: string, lo: nat, j: nat, k: nat)
    requires lo <= k <= j <= |s|
    requires forall m :: k <= m < j ==> Blank(w, s[m])
    requires k > lo ==> !Blank(w, s[k - 1])
    ensures TrailStart(w, s, lo, j) == k
    decreases j - k
  {
    if k < j {
      TrailStartIs(w, s, lo, j - 1, k);
    }
  }

  /** A trim is characterised by its result: whenever `s` is whitespace, then a
      trimmed core `s[a..b]`, then whitespace, `Trim(w, s)` is that core. */
  lemma TrimCut(w: Spacing, s: string, a: nat, b: nat)
    requires a <= b <= |s|
    requires AllBlank(w, s[..a]) && AllBlank(w, s[b..]) && IsTrimmed(w, s[a..b])
    ensures Trim(w, s) == s[a..b]
  {
    assert forall m :: 0 <= m < a ==> Blank(w, s[m]) by {
      forall m | 0 <= m < a ensures Blank(w, s[m]) { assert s[..a][m] == s[m]; }
    }
    assert forall m :: b <= m < |s| ==> Blank(w, s[m]) by {
      forall m | b <= m < |s| ensures Blank(w, s[m]) { assert s[b..][m - b] == s[m]; }
    }
    if a < b {
      assert s[a..b][0] == s[a];
      assert s[a..b][b - a - 1] == s[b - 1];
      LeadEndIs(w, s, 0, a);
      TrailStartIs(w, s, a, |s|, b);
    } else {
      LeadEndIs(w, s, 0, |s|);
      TrailStartIs(w, s, |s|, |s|, |s|);
    }
  }

  /** `strip` is characterised by its result: whenever `s` is whitespace, then a
      stripped core `s[a..b]`, then whitespace, `Strip(s)` is that core. */
  lemma StripCut(s: string, a: nat, b: nat)
    requires a <= b <= |s|
    requires AllSpace(s[..a]) && AllSpace(s[b..]) && IsTrimmed(StrSpacing, s[a..b])
    ensures Strip(s) == s[a..b]
  {
    TrimCut(StrSpacing, s, a, b);
  }

  /** `strip` is idempotent. */
  lemma StripIdempotent(s: string)
    ensures Strip(Strip(s)) == Strip(s)
  {
    var r := Strip(s);
    assert r[..0] == [] && r[|r|..] == [] && r[0..|r|] == r;
    StripCut(r, 0, |r|);
  }

  /** `strip` only removes characters: whatever it leaves was in the input. */
  lemma StripWithin(s: string, c: char)
    requires c in Strip(s)
    ensures c in s
  {
    var a := LeadEnd(StrSpacing, s, 0);
    var b := TrailStart(StrSpacing, s, a, |s|);
    var k :| 0 <= k < |Strip(s)| && Strip(s)[k] == c;
    assert s[a + k] == c;
  }

  /** Text holding no `isspace` character is unchanged by either trim. */
  lemma TrimNoSpace(w: Spacing, s: string)
    requires forall k :: 0 <= k < |s| ==> !IsSpace(s[k])
    ensures Trim(w, s) == s
  {
    assert s[..0] == [] && s[|s|..] == [] && s[0..|s|] == s;
    TrimCut(w, s, 0, |s|);
  }

  /**
   * Where the whitespace `int` skips ends on a character `isspace` rejects, that
   * character is also where `strip` stops: the two trims then start alike.
   */
  lemma IntTrimHead(s: string)
    requires Trim(IntSpacing, s) != "" && !IsSpace(Trim(IntSpacing, s)[0])
    ensures Strip(s) != "" && Strip(s)[0] == Trim(IntSpacing, s)[0]
  {
    var a := LeadEnd(IntSpacing, s, 0);
    assert s[a] == Trim(IntSpacing, s)[0];
    LeadEndIs(StrSpacing, s, 0, a);
    var b := TrailStart(StrSpacing, s, a, |s|);
    assert b > a;
  }

  // ---------------------------------------------------------------------------
  // Python int(str)
  // ---------------------------------------------------------------------------

  /** Python's `int(text)` on a string: the whitespace `int` skips is ignored around
      an optional sign and decimal digits grouped by single underscores, at most
      `MaxStrDigits` of them; `None` where Python raises ValueError. Only the
      ASCII digits are digits here. */
  function ParsePyInt(s: string): Option<int> {
    ParseSigned(Trim(IntSpacing, s))
  }

  /** An optional sign followed by a grouped run of decimal digits. */
  function ParseSigned(t: string): Option<int> {
    var signed := 1 <= |t| && (t[0] == '+' || t[0] == '-');
    var digits := ParseGrouped(if signed then t[1..] else t);
    if digits.None? then None else
      var n: int := digits.value;
      Some(if signed && t[0] == '-' then -n else n)
  }

  predicate DigitOrUnderscore(c: char) {
    IsDigit(c) || c == '_'
  }

  /** Digits, with single underscores allowed between two of them (PEP 515). */
  predicate IsGrouped(d: string) {
    && 1 <= |d| && IsDigit(d[0]) && IsDigit(d[|d| - 1])
    && (forall i :: 0 <= i < |d| ==> DigitOrUnderscore(d[i]))
    && (forall i :: 0 <= i < |d| - 1 ==> IsDigit(d[i]) || IsDigit(d[i + 1]))
  }

  /** The digits of `d`, its underscores dropped. */
  function Ungrouped(d: string): (r: string)
    ensures (forall i :: 0 <= i < |d| ==> DigitOrUnderscore(d[i])) ==> AllDigits(r)
    decreases |d|
  {
    if |d| == 0 then "" else Ungrouped(d[..|d| - 1]) + (if d[|d| - 1] == '_' then "" else [d[|d| - 1]])
  }

  /**
   * Python's default `int_max_str_digits`: `int` refuses decimal text with
   * more digits than this (underscores are not counted).
   */
  const MaxStrDigits := 4300

  /** A grouped digit run of at most `MaxStrDigits` digits, read as a number; anything else is rejected. */
  function ParseGrouped(d: string): (r: Option<nat>)
    ensures r.Some? <==> IsGrouped(d) && |Ungrouped(d)| <= MaxStrDigits
  {
    if IsGrouped(d) && |Ungrouped(d)| <= MaxStrDigits then Some(DigitsValue(Ungrouped(d))) else None
  }

  lemma {:induction false} UngroupedConcat(x: string, y: string)
    ensures Ungrouped(x + y) == Ungrouped(x) + Ungrouped(y)
    decreases |y|
  {
    if |y| > 0 {
      var z := x + y;
      assert z[..|z| - 1] == x + y[..|y| - 1];
      UngroupedConcat(x, y[..|y| - 1]);
    } else {
      assert x + y == x;
    }
  }

  lemma {:induction false} UngroupedDigits(d: string)
    requires AllDigits(d)
    ensures Ungrouped(d) == d
    decreases |d|
  {
    if |d| > 0 {
      UngroupedDigits(d[..|d| - 1]);
      assert d == d[..|d| - 1] + [d[|d| - 1]];
    }
  }

  /** Without underscores, a grouped run is a plain digit run, up to the digit limit. */
  lemma ParseGroupedDigits(d: string)
    ensures AllDigits(d) ==> ParseGrouped(d) == if |d| <= MaxStrDigits then ParseNat(d) else None
  {
    if AllDigits(d) {
      UngroupedDigits(d);
    }
  }

  /** An underscore between two digit runs does not change the number `int` reads. */
  lemma UnderscoreIgnored(a: string, b: string)
    requires 1 <= |a| && AllDigits(a) && 1 <= |b| && AllDigits(b)
    ensures ParseGrouped(a + "_" + b) == ParseGrouped(a + b)
    ensures |a| + |b| <= MaxStrDigits ==> ParseGrouped(a + "_" + b) == ParseNat(a + b)
  {
    JoinedGrouped(a, b);
    JoinedUngrouped(a, b);
    AllDigitsConcat(a, b);
    ParseGroupedDigits(a + b);
  }

  lemma JoinedGrouped(a: string, b: string)
    requires 1 <= |a| && AllDigits(a) && 1 <= |b| && AllDigits(b)
    ensures IsGrouped(a + "_" + b)
  {
    var d := a + "_" + b;
    forall i | 0 <= i < |d|
      ensures DigitOrUnderscore(d[i]) && (d[i] == '_' <==> i == |a|)
    {
      if i < |a| {
        assert d[i] == a[i];
      } else if i > |a| {
        assert d[i] == b[i - |a| - 1];
      }
    }
  }

  lemma JoinedUngrouped(a: string, b: string)
    requires AllDigits(a) && AllDigits(b)
    ensures Ungrouped(a + "_" + b) == a + b
  {
    var u := a + "_";
    UngroupedConcat(a, "_");
    UngroupedUnderscore();
    UngroupedDigits(a);
    assert Ungrouped(u) == a;
    UngroupedConcat(u, b);
    UngroupedDigits(b);
  }

  lemma UngroupedUnderscore()
    ensures Ungrouped("_") == ""
  {
    assert "_"[..0] == "";
  }

  lemma AllDigitsConcat(a: string, b: string)
    requires AllDigits(a) && AllDigits(b)
    ensures AllDigits(a + b)
  {
    assert forall i :: 0 <= i < |a + b| ==> (a + b)[i] == if i < |a| then a[i] else b[i - |a|];
  }

  /** "1_000" reads as one thousand. */
  lemma GroupedExample()
    ensures ParsePyInt("1_000") == Some(1000)
  {
    var s := "1_000";
    GroupedThousand();
    TrimNoSpace(IntSpacing, s);
    assert ParseSigned(s) == Some(1000);
  }

  /** "1_000" between ideographic spaces (U+3000) reads as one thousand too. */
  lemma IdeographicPadding()
    ensures ParsePyInt("\U{3000}" + "1_000" + "\U{3000}") == Some(1000)
  {
    var pad := "\U{3000}";
    assert AllBlank(IntSpacing, pad) by { assert pad[0] as int == 0x3000; }
    ParsePyIntIgnoresPadding("1_000", pad);
    GroupedExample();
  }

  lemma GroupedThousand()
    ensures ParseGrouped("1_000") == Some(1000)
  {
    assert "1_000" == "1" + "_" + "000";
    UnderscoreIgnored("1", "000");
    assert "1" + "000" == "1000";
    Thousand();
  }

  lemma Thousand()
    ensures ParseNat("1000") == Some(1000)
  {
    assert DigitsValue("1000") == 1000 by {
      assert "1000"[..3] == "100" && "100"[..2] == "10" && "10"[..1] == "1";
    }
  }

  /** `int(str(i)) == i`: parsing what Python prints gives the number back, within the digit limit. */
  lemma ParseShowInt(i: int)
    requires DigitCount(i) <= MaxStrDigits
    ensures ParsePyInt(ShowInt(i)) == Some(i)
  {
    NoSpaceShowInt(i);
    TrimNoSpace(IntSpacing, ShowInt(i));
    ParseSignedShowInt(i);
  }

  /** The sign and digits Python prints are read back as the same number. */
  lemma ParseSignedShowInt(i: int)
    requires DigitCount(i) <= MaxStrDigits
    ensures ParseSigned(ShowInt(i)) == Some(i)
  {
    if i < 0 {
      ParseSignedNegative(-i);
    } else {
      ShowParseNat(i);
      ParseSignedDigits(ShowNat(i), "", i);
      assert ShowInt(i) == "" + ShowNat(i);
    }
  }

  lemma ParseSignedNegative(n: nat)
    requires |ShowNat(n)| <= MaxStrDigits
    ensures ParseSigned("-" + ShowNat(n)) == Some(-(n as int))
  {
    ShowParseNat(n);
    ParseSignedDigits(ShowNat(n), "-", n);
  }

  /** `int` refuses what `str` prints for an integer of more than `MaxStrDigits` digits. */
  lemma LongNumberRejected(i: int)
    requires DigitCount(i) > MaxStrDigits
    ensures ParsePyInt(ShowInt(i)) == None
  {
    var t := ShowInt(i);
    NoSpaceShowInt(i);
    TrimNoSpace(IntSpacing, t);
    var d := ShowNat(if i < 0 then -i else i);
    UngroupedDigits(d);
    assert ParseGrouped(d) == None;
    if i < 0 {
      assert t[0] == '-' && t[1..] == d;
    } else {
      assert t == d && IsDigit(t[0]);
    }
  }

  /** A printed number holds no whitespace. */
  lemma NoSpaceShowInt(i: int)
    ensures forall k :: 0 <= k < |ShowInt(i)| ==> !IsSpace(ShowInt(i)[k])
  {
    var s := ShowInt(i);
    if i < 0 {
      var d := ShowNat(-i);
      assert s == "-" + d;
      forall k | 0 <= k < |s|
        ensures !IsSpace(s[k])
      {
        if k > 0 {
          assert s[k] == d[k - 1];
        }
      }
    }
  }

  /** A digit string, with or without a minus sign in front, is read with that sign. */
  lemma ParseSignedDigits(d: string, sign: string, n: nat)
    requires ParseNat(d) == Some(n) && |d| <= MaxStrDigits && (sign == "" || sign == "-")
    ensures ParseSigned(sign + d) == Some(if sign == "-" then -(n as int) else n)
  {
    var t := sign + d;
    ParseGroupedDigits(d);
    assert ParseGrouped(d) == Some(n);
    if sign == "-" {
      assert t[0] == '-' && t[1..] == d;
    } else {
      assert t == d;
      assert !(t[0] == '+' || t[0] == '-') by {
        assert IsDigit(d[0]);
      }
    }
  }

  /** `int` ignores the whitespace it skips around the number. */
  lemma ParsePyIntIgnoresPadding(s: string, pad: string)
    requires AllBlank(IntSpacing, pad)
    ensures ParsePyInt(pad + s + pad) == ParsePyInt(s)
  {
    TrimPadded(IntSpacing, s, pad);
  }

  /**
   * `int` does not skip an information separator although `strip` would: text
   * starting with one is refused, whatever follows.
   */
  lemma SeparatorRefused(c: char, s: string)
    requires IsSeparator(c)
    ensures ParsePyInt([c] + s) == None
  {
    var t := [c] + s;
    LeadEndIs(IntSpacing, t, 0, 0);
    var u := Trim(IntSpacing, t);
    assert u[0] == c;
  }

  /**
   * Text that does not strip to a sign or a digit is refused by `int`, even
   * though `int` skips less whitespace than `strip` removes.
   */
  lemma NoNumberStart(s: string)
    requires var t := Strip(s); t == "" || !(IsDigit(t[0]) || t[0] == '+' || t[0] == '-')
    ensures ParsePyInt(s) == None
  {
    var u := Trim(IntSpacing, s);
    if u != "" && (IsDigit(u[0]) || u[0] == '+' || u[0] == '-') {
      IntTrimHead(s);
      assert false;
    }
    assert u == "" || !IsDigit(u[0]);
  }

  /** Whitespace added around a string is removed again by the trim of that kind. */
  lemma TrimPadded(w: Spacing, s: string, pad: string)
    requires AllBlank(w, pad)
    ensures Trim(w, pad + s + pad) == Trim(w, s)
  {
    var a := LeadEnd(w, s, 0);
    var b := TrailStart(w, s, a, |s|);
    TrimPaddedCut(w, s, pad, a, b);
  }

  lemma TrimPaddedCut(w: Spacing, s: string, pad: string, a: nat, b: nat)
    requires AllBlank(w, pad) && a <= b <= |s|
    requires forall m :: 0 <= m < a ==> Blank(w, s[m])
    requires forall m :: b <= m < |s| ==> Blank(w, s[m])
    requires IsTrimmed(w, s[a..b])
    ensures Trim(w, pad + s + pad) == s[a..b]
  {
    PaddedHeadSpace(w, s, pad, a);
    PaddedTailSpace(w, s, pad, b);
    PaddedMiddle(s, pad, a, b);
    TrimCut(w, pad + s + pad, |pad| + a, |pad| + b);
  }

  lemma PaddedMiddle(s: string, pad: string, a: nat, b: nat)
    requires a <= b <= |s|
    ensures (pad + s + pad)[|pad| + a..|pad| + b] == s[a..b]
  {
  }

  lemma PaddedHeadSpace(w: Spacing, s: string, pad: string, a: nat)
    requires AllBlank(w, pad) && a <= |s|
    requires forall m :: 0 <= m < a ==> Blank(w, s[m])
    ensures AllBlank(w, (pad + s + pad)[..|pad| + a])
  {
    var t := (pad + s + pad)[..|pad| + a];
    forall m | 0 <= m < |t|
      ensures Blank(w, t[m])
    {
      if m < |pad| {
        assert t[m] == pad[m];
      } else {
        assert t[m] == s[m - |pad|];
      }
    }
  }

  lemma PaddedTailSpace(w: Spacing, s: string, pad: string, b: nat)
    requires AllBlank(w, pad) && b <= |s|
    requires forall m :: b <= m < |s| ==> Blank(w, s[m])
    ensures AllBlank(w, (pad + s + pad)[|pad| + b..])
  {
    var u := pad + s + pad;
    var t := u[|pad| + b..];
    forall m | 0 <= m < |t|
      ensures Blank(w, t[m])
    {
      if b + m < |s| {
        assert t[m] == s[b + m];
      } else {
        assert t[m] == pad[b + m - |s|];
      }
    }
  }

  // ---------------------------------------------------------------------------
  // str.split(sep) and sep.join(parts)
  // ---------------------------------------------------------------------------

  /** Index of the first occurrence of `c` in `s`. */
  function IndexOf(s: string, c: char): (k: nat)
    requires c in s
    ensures k < |s| && s[k] == c && c !in s[..k]
  {
    if s[0] == c then 0 else
      var k := IndexOf(s[1..], c);
      assert s[1..][..k] == s[1..k + 1];
      1 + k
  }

  /** `sep.join(parts)`. */
  function Join(parts: seq<string>, sep: char): string
    requires |parts| >= 1
    decreases |parts|
  {
    if |parts| == 1 then parts[0] else parts[0] + [sep] + Join(parts[1..], sep)
  }

  /** Python's `s.split(sep)` for a one-character separator: every piece between
      separators, including empty ones; joining them back gives `s`. */
  function Split(s: string, sep: char): (parts: seq<string>)
    ensures |parts| >= 1
    ensures forall i :: 0 <= i < |parts| ==> sep !in parts[i]
    ensures Join(parts, sep) == s
    decreases |s|
  {
    if sep !in s then [s] else
      var k := IndexOf(s, sep);
      var rest := Split(s[k + 1..], sep);
      assert s == s[..k] + [sep] + s[k + 1..];
      [s[..k]] + rest
  }

  /** Splitting a join of separator-free pieces gives the pieces back. */
  lemma {:induction false} SplitJoin(parts: seq<string>, sep: char)
    requires |parts| >= 1
    requires forall i :: 0 <= i < |parts| ==> sep !in parts[i]
    ensures Split(Join(parts, sep), sep) == parts
    decreases |parts|
  {
    var s := Join(parts, sep);
    if |parts| == 1 {
      assert sep !in s;
    } else {
      var tail := Join(parts[1..], sep);
      assert s == parts[0] + [sep] + tail;
      assert s[|parts[0]|] == sep;
      assert sep in s;
      var k := IndexOf(s, sep);
      var p0 := |parts[0]|;
      assert s[..p0] == parts[0];
      assert k == p0;
      assert s[k + 1..] == tail;
      SplitJoin(parts[1..], sep);
      assert Split(s, sep) == [parts[0]] + parts[1..];
    }
  }

  // ---------------------------------------------------------------------------
  // os.path.join
  // ---------------------------------------------------------------------------

  /** `os.path.join` of two components. */
  function PathJoin(a: string, b: string): (r: string)
    ensures |b| > 0 && b[0] == '/' ==> r == b
    ensures (|b| == 0 || b[0] != '/') && |a| > 0 && a[|a| - 1] != '/' ==> r == a + "/" + b
  {
    if |b| > 0 && b[0] == '/' then b
    else if |a| == 0 || a[|a| - 1] == '/' then a + b
    else a + "/" + b
  }
}

=== FILE: validation_locations.dfy ===
/**
 * Stage 20: validation locations. Per batch and region a few features not
 * used before are drawn; each yields a centroid record, an extent (the
 * bounding box of its simplified, fuzzed outline) and boundary points sampled
 * along that extent away from land, all sharing one ValidID. The geometry
 * operations (simplify, centroid, boundary, interpolate) and the random draws
 * are inputs; what is modelled is the arithmetic and the bookkeeping.
 */
module ValidationLocations {

  import opened Wrappers
  import opened Text
  import opened CrossWalkV04

  const FeaturesPerRegion: nat := 2
  const FuzzDistance: real := 100.0
  const SmallBoundaryPoints: nat := 1
  const LargeBoundaryPoints: nat := 1
  const SmallSizeThreshold: real := 2000.0
  const MaxAttemptsPerPoint: nat := 10
  const UseBoundingBox: bool := true

  /** The approximate length of one degree at the equator, in metres. */
  const MetresPerDegree: real := 111000.0

  // ---------------------------------------------------------------------------
  // Units
  // ---------------------------------------------------------------------------

  /** `convert_to_crs_units`: metres into degrees for a geographic CRS, unchanged otherwise. */
  function ToCrsUnits(metres: real, geographic: bool): (r: real)
    ensures geographic ==> r * MetresPerDegree == metres
    ensures !geographic ==> r == metres
  {
    if geographic then metres / MetresPerDegree else metres
  }

  /** A perimeter in CRS units, as metres (the conversion the point count uses). */
  function ToMetres(units: real, geographic: bool): real {
    if geographic then units * MetresPerDegree else units
  }

  /** Converting to CRS units and back gives the distance in metres again. */
  lemma UnitsRoundTrip(metres: real, geographic: bool)
    ensures ToMetres(ToCrsUnits(metres, geographic), geographic) == metres
  {
  }

  // ---------------------------------------------------------------------------
  // Extents
  // ---------------------------------------------------------------------------

  /** A simplified feature outline: a Polygon, a MultiPolygon, or another geometry's vertices. */
  datatype Outline = OPoly(poly: RingPolygon) | OMulti(parts: seq<RingPolygon>) | OOther(vertices: seq<Point>)

  /** Each vertex moved by its offset. */
  function Shift(coords: seq<Point>, offsets: seq<Point>): (r: seq<Point>)
    requires |offsets| == |coords|
    ensures |r| == |coords|
    ensures forall i :: 0 <= i < |r| ==> r[i].0 - coords[i].0 == offsets[i].0 && r[i].1 - coords[i].1 == offsets[i].1
  {
    seq(|coords|, i requires 0 <= i < |coords| => (coords[i].0 + offsets[i].0, coords[i].1 + offsets[i].1))
  }

  /** An offset whose coordinates both lie within `d` of zero, as `random.uniform(-d, d)` draws them. */
  predicate Within(p: Point, d: real) {
    -d <= p.0 <= d && -d <= p.1 <= d
  }

  /** One offset per exterior vertex of each polygon, each within `d`. */
  predicate OffsetsFit(o: Outline, offsets: seq<seq<Point>>, d: real) {
    match o
    case OPoly(p) => |offsets| == 1 && |offsets[0]| == |p.exterior|
                     && forall i :: 0 <= i < |offsets[0]| ==> Within(offsets[0][i], d)
    case OMulti(ps) =>
      && |offsets| == |ps|
      && (forall k :: 0 <= k < |ps| ==> |offsets[k]| == |ps[k].exterior|)
      && (forall k, i :: 0 <= k < |ps| && 0 <= i < |offsets[k]| ==> Within(offsets[k][i], d))
    case OOther(_) => true
  }

  /**
   * The fuzzed outline: every polygon rebuilt from its exterior with each
   * vertex moved by its offset (the interiors are dropped); anything else is
   * kept as it is.
   */
  function Fuzz(o: Outline, offsets: seq<seq<Point>>, d: real): (r: Outline)
    requires OffsetsFit(o, offsets, d)
    ensures o.OPoly? ==> r.OPoly? && r.poly.interiors == [] && |r.poly.exterior| == |o.poly.exterior|
    ensures o.OMulti? ==>
      && r.OMulti? && |r.parts| == |o.parts|
      && (forall k :: 0 <= k < |r.parts| ==> r.parts[k].interiors == [] && |r.parts[k].exterior| == |o.parts[k].exterior|)
    ensures o.OOther? ==> r == o
  {
    match o
    case OPoly(p) => OPoly(RingPolygon(Shift(p.exterior, offsets[0]), []))
    case OMulti(ps) =>
      OMulti(seq(|ps|, k requires 0 <= k < |ps| => RingPolygon(Shift(ps[k].exterior, offsets[k]), [])))
    case OOther(_) => o
  }

  /** Every fuzzed vertex lies within the fuzz distance of the vertex it comes from, on both axes. */
  lemma FuzzNear(o: Outline, offsets: seq<seq<Point>>, d: real)
    requires OffsetsFit(o, offsets, d)
    ensures o.OPoly? ==> forall i :: 0 <= i < |o.poly.exterior| ==>
      Within((Fuzz(o, offsets, d).poly.exterior[i].0 - o.poly.exterior[i].0,
              Fuzz(o, offsets, d).poly.exterior[i].1 - o.poly.exterior[i].1), d)
    ensures o.OMulti? ==> forall k, i :: 0 <= k < |o.parts| && 0 <= i < |o.parts[k].exterior| ==>
      Within((Fuzz(o, offsets, d).parts[k].exterior[i].0 - o.parts[k].exterior[i].0,
              Fuzz(o, offsets, d).parts[k].exterior[i].1 - o.parts[k].exterior[i].1), d)
  {
  }

  /** All the vertices of an outline. */
  function Vertices(o: Outline): seq<Point> {
    match o
    case OPoly(p) => RingVertices(p)
    case OMulti(ps) => PartsVertices(ps)
    case OOther(vs) => vs
  }

  function RingVertices(p: RingPolygon): seq<Point> {
    p.exterior + Flatten(p.interiors)
  }

  function Flatten(rings: seq<seq<Point>>): seq<Point> {
    if |rings| == 0 then [] else Flatten(rings[..|rings| - 1]) + rings[|rings| - 1]
  }

  function PartsVertices(ps: seq<RingPolygon>): seq<Point> {
    if |ps| == 0 then [] else PartsVertices(ps[..|ps| - 1]) + RingVertices(ps[|ps| - 1])
  }

  /** An axis-aligned box: minimum x, minimum y, maximum x, maximum y. */
  datatype Box = Box(minX: real, minY: real, maxX: real, maxY: real)

  predicate InBox(p: Point, b: Box) {
    b.minX <= p.0 <= b.maxX && b.minY <= p.1 <= b.maxY
  }

  /** `bounds`: the smallest box holding every vertex. */
  function Bounds(pts: seq<Point>): (b: Box)
    requires |pts| > 0
    ensures forall i :: 0 <= i < |pts| ==> InBox(pts[i], b)
    ensures exists i :: 0 <= i < |pts| && pts[i].0 == b.minX
    ensures exists i :: 0 <= i < |pts| && pts[i].1 == b.minY
    ensures exists i :: 0 <= i < |pts| && pts[i].0 == b.maxX
    ensures exists i :: 0 <= i < |pts| && pts[i].1 == b.maxY
  {
    if |pts| == 1 then Box(pts[0].0, pts[0].1, pts[0].0, pts[0].1)
    else
      var n := |pts| - 1;
      var b := Bounds(pts[..n]);
      var p := pts[n];
      assert forall i :: 0 <= i < n ==> pts[..n][i] == pts[i];
      Box(if p.0 < b.minX then p.0 else b.minX, if p.1 < b.minY then p.1 else b.minY,
          if p.0 > b.maxX then p.0 else b.maxX, if p.1 > b.maxY then p.1 else b.maxY)
  }

  /** The closed ring around a box, as the stage writes it: from the lower-left corner up the left side. */
  function BoxRing(b: Box): (r: seq<Point>)
    ensures |r| == 5 && r[0] == r[4]
    ensures forall i :: 0 <= i < 5 ==> r[i].0 in {b.minX, b.maxX} && r[i].1 in {b.minY, b.maxY}
  {
    [(b.minX, b.minY), (b.minX, b.maxY), (b.maxX, b.maxY), (b.maxX, b.minY), (b.minX, b.minY)]
  }

  /**
   * The box ring runs clockwise: its signed area is minus the box's area
   * (twice, as the shoelace sum counts it), so a box with area is not
   * counter-clockwise.
   */
  lemma BoxRingClockwise(b: Box)
    ensures Shoelace(BoxRing(b)) == -2.0 * (b.maxX - b.minX) * (b.maxY - b.minY)
    ensures b.minX < b.maxX && b.minY < b.maxY ==> !IsCcw(BoxRing(b))
  {
    var r := BoxRing(b);
    assert Shoelace(r[4..]) == 0.0;
    assert Shoelace(r[3..]) == Cross(r[3], r[4]) by { assert r[3..][1..] == r[4..]; }
    assert Shoelace(r[2..]) == Cross(r[2], r[3]) + Shoelace(r[3..]) by { assert r[2..][1..] == r[3..]; }
    assert Shoelace(r[1..]) == Cross(r[1], r[2]) + Shoelace(r[2..]) by { assert r[1..][1..] == r[2..]; }
    var w := b.maxX - b.minX;
    var h := b.maxY - b.minY;
    assert w * h > 0.0 <== w > 0.0 && h > 0.0;
  }

  /**
   * `simplify_and_fuzz_polygon`, from the simplified outline: the fuzzed
   * outline, or (the setting in force) the box around it.
   */
  function Extent(simplified: Outline, offsets: seq<seq<Point>>, geographic: bool): (r: Outline)
    requires OffsetsFit(simplified, offsets, ToCrsUnits(FuzzDistance, geographic))
    requires |Vertices(Fuzz(simplified, offsets, ToCrsUnits(FuzzDistance, geographic)))| > 0
    ensures UseBoundingBox ==> r.OPoly? && r.poly.interiors == [] && |r.poly.exterior| == 5
  {
    var fuzzed := Fuzz(simplified, offsets, ToCrsUnits(FuzzDistance, geographic));
    if UseBoundingBox then OPoly(RingPolygon(BoxRing(Bounds(Vertices(fuzzed))), [])) else fuzzed
  }

  /** The extent box holds every vertex of the fuzzed outline, and is the smallest that does. */
  lemma ExtentHoldsOutline(simplified: Outline, offsets: seq<seq<Point>>, geographic: bool)
    requires OffsetsFit(simplified, offsets, ToCrsUnits(FuzzDistance, geographic))
    requires |Vertices(Fuzz(simplified, offsets, ToCrsUnits(FuzzDistance, geographic)))| > 0
    ensures var vs := Vertices(Fuzz(simplified, offsets, ToCrsUnits(FuzzDistance, geographic)));
      var ring := Extent(simplified, offsets, geographic).poly.exterior;
      (forall i :: 0 <= i < |vs| ==> ring[0].0 <= vs[i].0 <= ring[2].0 && ring[0].1 <= vs[i].1 <= ring[2].1)
      && (exists i :: 0 <= i < |vs| && vs[i].0 == ring[0].0)
      && (exists i :: 0 <= i < |vs| && vs[i].0 == ring[2].0)
      && (exists i :: 0 <= i < |vs| && vs[i].1 == ring[0].1)
      && (exists i :: 0 <= i < |vs| && vs[i].1 == ring[2].1)
  {
  }

  // ---------------------------------------------------------------------------
  // Boundary points
  // ---------------------------------------------------------------------------

  /** How many boundary points a feature gets, from its perimeter in CRS units. */
  function PointCount(perimeter: real, geographic: bool): nat {
    if ToMetres(perimeter, geographic) < SmallSizeThreshold then SmallBoundaryPoints else LargeBoundaryPoints
  }

  /**
   * A geographic perimeter counts as its length in metres would in a projected
   * CRS; and with both counts set to one, every feature gets one point.
   */
  lemma PointCountFacts(perimeter: real)
    ensures PointCount(perimeter, true) == PointCount(perimeter * MetresPerDegree, false)
    ensures PointCount(perimeter, true) == 1 && PointCount(perimeter, false) == 1
  {
  }

  /** The boundary of an extent: one line, several lines, or something unexpected. */
  datatype Boundary = Line(length: real) | MultiLine(lengths: seq<real>) | OtherBoundary

  /** The line lengths to sample along; nothing for an unexpected boundary. */
  function LineLengths(b: Boundary): Option<seq<real>> {
    match b
    case Line(l) => Some([l])
    case MultiLine(ls) => Some(ls)
    case OtherBoundary => None
  }

  predicate NonNegative(lens: seq<real>) {
    forall i :: 0 <= i < |lens| ==> lens[i] >= 0.0
  }

  /** The total length of the lines. */
  function Total(lens: seq<real>): real
    decreases |lens|
  {
    if |lens| == 0 then 0.0 else lens[0] + Total(lens[1..])
  }

  lemma {:induction false} TotalNonNegative(lens: seq<real>)
    requires NonNegative(lens)
    ensures Total(lens) >= 0.0
    decreases |lens|
  {
    if |lens| > 0 {
      TotalNonNegative(lens[1..]);
    }
  }

  /** Where line `i` starts along the boundary: the total length of the lines before it. */
  function Start(lens: seq<real>, i: nat): real
    requires i <= |lens|
  {
    Total(lens[..i])
  }

  /** A sampled boundary point: the line it lies on and its distance along that line. */
  datatype SamplePoint = SamplePoint(line: nat, offset: real)

  /**
   * The segment lookup: the first line whose end, counted along the whole
   * boundary, is at or beyond `pos`, and the position's offset on it.
   */
  function Locate(lens: seq<real>, pos: real): (r: Option<SamplePoint>)
    requires NonNegative(lens)
    ensures r.Some? ==> r.value.line < |lens| && pos == Start(lens, r.value.line) + r.value.offset
    ensures r.Some? ==> r.value.offset <= lens[r.value.line]
    ensures r.Some? ==> forall j :: 1 <= j <= r.value.line ==> pos > Start(lens, j)
    ensures r.Some? && pos >= 0.0 ==> r.value.offset >= 0.0
    ensures r.None? <==> |lens| == 0 || pos > Total(lens)
    decreases |lens|
  {
    if |lens| == 0 then None
    else if pos <= lens[0] then
      assert lens[..0] == [];
      TotalNonNegative(lens[1..]);
      Some(SamplePoint(0, pos))
    else
      var rest := Locate(lens[1..], pos - lens[0]);
      if rest.None? then None
      else
        var i := rest.value.line;
        StartStep(lens, i);
        forall j | 1 <= j <= i + 1
          ensures pos > Start(lens, j)
        {
          StartStep(lens, j - 1);
        }
        Some(SamplePoint(i + 1, rest.value.offset))
  }

  lemma StartStep(lens: seq<real>, i: nat)
    requires i < |lens|
    ensures Start(lens, i + 1) == lens[0] + Start(lens[1..], i)
  {
    assert lens[..i + 1][1..] == lens[1..][..i];
  }

  /** One attempt: the point drawn at `pos`, when it is located and not on land. */
  function Attempt(lens: seq<real>, pos: real, onLand: SamplePoint -> bool): (ps: seq<SamplePoint>)
    requires NonNegative(lens)
    ensures |ps| <= 1
    ensures forall p :: p in ps ==> !onLand(p)
  {
    var pt := Locate(lens, pos);
    if pt.Some? && !onLand(pt.value) then [pt.value] else []
  }

  /** The boundary points the first `n` draws give: located, and not on land, in order. */
  function Accepted(lens: seq<real>, draws: seq<real>, n: nat, onLand: SamplePoint -> bool): (ps: seq<SamplePoint>)
    requires NonNegative(lens) && n <= |draws|
    ensures |ps| <= n
    ensures forall p :: p in ps ==> !onLand(p)
  {
    if n == 0 then [] else Accepted(lens, draws, n - 1, onLand) + Attempt(lens, draws[n - 1], onLand)
  }

  /**
   * `generate_boundary_points` past the boundary-type check: draw positions
   * until `count` points off the land are found or the attempts run out. The
   * draws of `random.uniform(0, total)` and the coastline test are inputs.
   */
  method SamplePoints(count: nat, lens: seq<real>, draws: seq<real>, onLand: SamplePoint -> bool)
    returns (points: seq<SamplePoint>, attempts: nat)
    requires NonNegative(lens)
    requires |draws| >= count * MaxAttemptsPerPoint
    ensures attempts <= count * MaxAttemptsPerPoint
    ensures points == Accepted(lens, draws, attempts, onLand)
    ensures |points| <= count
    ensures |points| < count ==> attempts == count * MaxAttemptsPerPoint
    ensures forall a :: 0 <= a < attempts ==> |Accepted(lens, draws, a, onLand)| < count
  {
    points := [];
    attempts := 0;
    var most := count * MaxAttemptsPerPoint;
    while |points| < count && attempts < most
      invariant attempts <= most
      invariant points == Accepted(lens, draws, attempts, onLand)
      invariant |points| <= count
      invariant forall a :: 0 <= a < attempts ==> |Accepted(lens, draws, a, onLand)| < count
      decreases most - attempts
    {
      ghost var before := attempts;
      assert |Accepted(lens, draws, before, onLand)| < count;
      points := points + Attempt(lens, draws[attempts], onLand);
      attempts := attempts + 1;
      assert points == Accepted(lens, draws, attempts, onLand);
    }
  }

  /** More draws accept at least as many points. */
  lemma {:induction false} AcceptedGrows(lens: seq<real>, draws: seq<real>, a: nat, b: nat, onLand: SamplePoint -> bool)
    requires NonNegative(lens) && a <= b <= |draws|
    ensures |Accepted(lens, draws, a, onLand)| <= |Accepted(lens, draws, b, onLand)|
    decreases b - a
  {
    if a < b {
      AcceptedGrows(lens, draws, a, b - 1, onLand);
    }
  }

  /** Every returned point lies on a line of the boundary, within its length and off the land. */
  lemma {:induction false} AcceptedOnBoundary(lens: seq<real>, draws: seq<real>, n: nat, onLand: SamplePoint -> bool, p: SamplePoint)
    requires NonNegative(lens) && n <= |draws|
    requires forall k :: 0 <= k < |draws| ==> 0.0 <= draws[k] <= Total(lens)
    requires p in Accepted(lens, draws, n, onLand)
    ensures p.line < |lens| && 0.0 <= p.offset <= lens[p.line] && !onLand(p)
    decreases n
  {
    if p !in Accepted(lens, draws, n - 1, onLand) {
      assert Locate(lens, draws[n - 1]) == Some(p);
    } else {
      AcceptedOnBoundary(lens, draws, n - 1, onLand, p);
    }
  }

  /**
   * `generate_boundary_points`: the extent's boundary is measured, the point
   * count fixed, and points sampled; an unexpected boundary gives none.
   */
  method BoundaryPoints(b: Boundary, geographic: bool, draws: seq<real>, onLand: SamplePoint -> bool)
    returns (points: seq<SamplePoint>)
    requires LineLengths(b).Some? ==> NonNegative(LineLengths(b).value)
    requires |draws| >= MaxAttemptsPerPoint
    ensures b.OtherBoundary? ==> points == []
    ensures |points| <= 1
    ensures forall p :: p in points ==> !onLand(p)
  {
    var lens := LineLengths(b);
    if lens.None? {
      return [];
    }
    var count := PointCount(Total(lens.value), geographic);
    PointCountFacts(Total(lens.value));
    var attempts;
    points, attempts := SamplePoints(count, lens.value, draws, onLand);
  }

  // ---------------------------------------------------------------------------
  // Feature selection
  // ---------------------------------------------------------------------------

  predicate DistinctNats(xs: seq<nat>) {
    forall i, j :: 0 <= i < j < |xs| ==> xs[i] != xs[j]
  }

  /** The sequence without position `i`. */
  function Without(xs: seq<nat>, i: nat): (r: seq<nat>)
    requires i < |xs| && DistinctNats(xs)
    ensures |r| == |xs| - 1 && DistinctNats(r)
    ensures forall x :: x in r <==> x in xs && x != xs[i]
  {
    var r := xs[..i] + xs[i + 1..];
    assert forall k :: 0 <= k < |r| ==> r[k] == if k < i then xs[k] else xs[k + 1];
    assert forall x :: x in xs ==> x in r || x == xs[i] by {
      forall x | x in xs
        ensures x in r || x == xs[i]
      {
        var k :| 0 <= k < |xs| && xs[k] == x;
        if k < i {
          assert r[k] == x;
        } else if k > i {
          assert r[k - 1] == x;
        }
      }
    }
    r
  }

  /**
   * `np.random.choice(available, size=k, replace=False)`: `k` distinct values
   * drawn one at a time, the random draws given as input (any draw is taken
   * modulo the values left).
   */
  function Choose(available: seq<nat>, k: nat, draws: seq<nat>): (r: seq<nat>)
    requires k <= |available| && DistinctNats(available)
    ensures |r| == k && DistinctNats(r)
    ensures forall x :: x in r ==> x in available
    decreases k
  {
    if k == 0 then []
    else
      var i := (if |draws| > 0 then draws[0] else 0) % |available|;
      var rest := Choose(Without(available, i), k - 1, if |draws| > 0 then draws[1..] else []);
      assert available[i] !in rest;
      assert forall a :: 1 <= a < |rest| + 1 ==> ([available[i]] + rest)[a] == rest[a - 1];
      [available[i]] + rest
  }

  /** A validation region: its id and the features whose centroid lies in it. */
  datatype Region = Region(id: int, features: seq<nat>)

  /** The features used so far in a region; none before its first selection. */
  function UsedIn(used: map<int, set<nat>>, id: int): set<nat> {
    if id in used then used[id] else {}
  }

  /** The region's features not used yet, in order. */
  function Available(features: seq<nat>, used: set<nat>): (a: seq<nat>)
    ensures forall x :: x in a <==> x in features && x !in used
    ensures DistinctNats(features) ==> DistinctNats(a)
  {
    if |features| == 0 then []
    else
      var n := |features| - 1;
      var init := Available(features[..n], used);
      assert forall x :: x in features <==> x in features[..n] || x == features[n] by {
        assert features == features[..n] + [features[n]];
      }
      assert DistinctNats(features) ==> features[n] !in features[..n];
      init + (if features[n] in used then [] else [features[n]])
  }

  function Min(a: nat, b: nat): nat {
    if a < b then a else b
  }

  /** The features a region contributes to a batch. */
  function Selection(r: Region, used: map<int, set<nat>>, draws: seq<nat>): (sel: seq<nat>)
    requires DistinctNats(r.features)
    ensures |sel| == Min(FeaturesPerRegion, |Available(r.features, UsedIn(used, r.id))|)
    ensures DistinctNats(sel)
    ensures forall x :: x in sel ==> x in r.features && x !in UsedIn(used, r.id)
  {
    var a := Available(r.features, UsedIn(used, r.id));
    Choose(a, Min(FeaturesPerRegion, |a|), draws)
  }

  // ---------------------------------------------------------------------------
  // Batches
  // ---------------------------------------------------------------------------

  /** A record of a validation layer: its ValidID, and the region and feature it was made from. */
  datatype Record = Record(validId: nat, region: int, feature: nat)

  /** One batch: the Feature-centroid, Polygon-extent and Boundary-error records. */
  datatype Batch = Batch(centroids: seq<Record>, extents: seq<Record>, boundary: seq<Record>)

  /** The records of one region's selection, and the used features after it. */
  datatype Step = Step(recs: seq<Record>, used: map<int, set<nat>>)

  /** The records of features `sel` of region `id`, numbered on from `firstId`. */
  function Number(sel: seq<nat>, firstId: nat, id: int): (recs: seq<Record>)
    ensures |recs| == |sel|
    ensures forall k :: 0 <= k < |recs| ==> recs[k] == Record(firstId + k, id, sel[k])
  {
    if |sel| == 0 then [] else [Record(firstId, id, sel[0])] + Number(sel[1..], firstId + 1, id)
  }

  /** The used sets with `xs` added to region `id`'s. */
  function MarkUsed(used: map<int, set<nat>>, id: int, xs: seq<nat>): (u: map<int, set<nat>>)
    ensures forall x :: x in UsedIn(u, id) <==> x in UsedIn(used, id) || x in xs
    ensures forall other :: other != id ==> UsedIn(u, other) == UsedIn(used, other)
  {
    used[id := UsedIn(used, id) + (set x | x in xs)]
  }

  /**
   * One region's turn: draw the selection, number its records on from
   * `firstId`, and add the selected features to the region's used set; no
   * other region's set changes.
   */
  function RegionStep(r: Region, used: map<int, set<nat>>, draws: seq<nat>, firstId: nat): (s: Step)
    requires DistinctNats(r.features)
    ensures |s.recs| == Min(FeaturesPerRegion, |Available(r.features, UsedIn(used, r.id))|)
    ensures forall k :: 0 <= k < |s.recs| ==> s.recs[k].validId == firstId + k && s.recs[k].region == r.id
    ensures forall k :: 0 <= k < |s.recs| ==>
      s.recs[k].feature in r.features && s.recs[k].feature !in UsedIn(used, r.id)
    ensures forall a, b :: 0 <= a < b < |s.recs| ==> s.recs[a].feature != s.recs[b].feature
    ensures forall x :: x in UsedIn(s.used, r.id) <==>
      x in UsedIn(used, r.id) || exists k :: 0 <= k < |s.recs| && s.recs[k].feature == x
    ensures forall other :: other != r.id ==> UsedIn(s.used, other) == UsedIn(used, other)
  {
    var sel := Selection(r, used, draws);
    var recs := Number(sel, firstId, r.id);
    var u := MarkUsed(used, r.id, sel);
    forall x
      ensures x in sel <==> exists k :: 0 <= k < |recs| && recs[k].feature == x
    {
      NumberedFeature(sel, firstId, r.id, x);
    }
    forall a, b | 0 <= a < b < |recs|
      ensures recs[a].feature != recs[b].feature
    {
      assert recs[a].feature == sel[a] && recs[b].feature == sel[b];
    }
    Step(recs, u)
  }

  /** A feature is selected exactly when one of the numbered records carries it. */
  lemma NumberedFeature(sel: seq<nat>, firstId: nat, id: int, x: nat)
    ensures x in sel <==> exists k :: 0 <= k < |Number(sel, firstId, id)| && Number(sel, firstId, id)[k].feature == x
  {
    var recs := Number(sel, firstId, id);
    if x in sel {
      var k :| 0 <= k < |sel| && sel[k] == x;
      assert recs[k].feature == x;
    }
  }

  /** One boundary record per sampled point of each feature, in record order. */
  function PointRecords(rs: seq<Record>, pointsOf: Record -> nat): (ps: seq<Record>)
    ensures forall p :: p in ps ==> p in rs
  {
    if |rs| == 0 then []
    else PointRecords(rs[..|rs| - 1], pointsOf) + seq(pointsOf(rs[|rs| - 1]), _ => rs[|rs| - 1])
  }

  lemma {:induction false} PointRecordsConcat(a: seq<Record>, b: seq<Record>, pointsOf: Record -> nat)
    ensures PointRecords(a + b, pointsOf) == PointRecords(a, pointsOf) + PointRecords(b, pointsOf)
    decreases |b|
  {
    if |b| == 0 {
      assert a + b == a;
    } else {
      var n := |b| - 1;
      PointRecordsConcat(a, b[..n], pointsOf);
      assert b == b[..n] + [b[n]];
      PointRecordsConcatPush(a, b[..n], b[n], pointsOf);
    }
  }

  lemma PointRecordsPush(rs: seq<Record>, r: Record, pointsOf: Record -> nat)
    ensures PointRecords(rs + [r], pointsOf) == PointRecords(rs, pointsOf) + seq(pointsOf(r), _ => r)
  {
    assert (rs + [r])[..|rs|] == rs;
  }

  lemma PointRecordsConcatPush(a: seq<Record>, b: seq<Record>, r: Record, pointsOf: Record -> nat)
    requires PointRecords(a + b, pointsOf) == PointRecords(a, pointsOf) + PointRecords(b, pointsOf)
    ensures PointRecords(a + (b + [r]), pointsOf) == PointRecords(a, pointsOf) + PointRecords(b + [r], pointsOf)
  {
    var x := seq(pointsOf(r), _ => r);
    assert a + (b + [r]) == (a + b) + [r];
    calc {
      PointRecords(a + (b + [r]), pointsOf);
      { PointRecordsPush(a + b, r, pointsOf); }
      PointRecords(a + b, pointsOf) + x;
      (PointRecords(a, pointsOf) + PointRecords(b, pointsOf)) + x;
      PointRecords(a, pointsOf) + (PointRecords(b, pointsOf) + x);
      { PointRecordsPush(b, r, pointsOf); }
      PointRecords(a, pointsOf) + PointRecords(b + [r], pointsOf);
    }
  }

  /** A pick with at most one boundary point adds at most one boundary record. */
  lemma {:induction false} PointRecordsAtMost(rs: seq<Record>, pointsOf: Record -> nat)
    requires forall x :: pointsOf(x) <= 1
    ensures |PointRecords(rs, pointsOf)| <= |rs|
    decreases |rs|
  {
    if |rs| > 0 {
      PointRecordsAtMost(rs[..|rs| - 1], pointsOf);
    }
  }

  /** With distinct records, each record appears in the point records exactly as often as it has points. */
  lemma {:induction false} PointRecordsCount(rs: seq<Record>, pointsOf: Record -> nat, x: Record)
    requires forall i, j :: 0 <= i < j < |rs| ==> rs[i] != rs[j]
    ensures multiset(PointRecords(rs, pointsOf))[x] == if x in rs then pointsOf(x) else 0
    decreases |rs|
  {
    if |rs| > 0 {
      var n := |rs| - 1;
      var last := rs[n];
      PointRecordsCount(rs[..n], pointsOf, x);
      assert forall y :: y in rs <==> y in rs[..n] || y == last by {
        assert rs == rs[..n] + [last];
      }
      assert last !in rs[..n];
      RepeatCount(last, pointsOf(last), x);
    }
  }

  lemma {:induction false} RepeatCount(r: Record, n: nat, x: Record)
    ensures multiset(seq(n, _ => r))[x] == if x == r then n else 0
    decreases n
  {
    if n > 0 {
      assert seq(n, _ => r) == seq(n - 1, _ => r) + [r];
      RepeatCount(r, n - 1, x);
    }
  }

  predicate RegionsOk(regions: seq<Region>) {
    forall i :: 0 <= i < |regions| ==> DistinctNats(regions[i].features)
  }

  /** A selected feature: it lies in a region of that id, and was unused there before. */
  predicate Fresh(regions: seq<Region>, used: map<int, set<nat>>, x: Record) {
    && (exists j :: 0 <= j < |regions| && regions[j].id == x.region && x.feature in regions[j].features)
    && x.feature !in UsedIn(used, x.region)
  }

  /** Whether record `k` of `cs` selects feature `x` of region `id`. */
  predicate Selects(cs: seq<Record>, id: int, x: nat) {
    exists k :: 0 <= k < |cs| && cs[k].region == id && cs[k].feature == x
  }

  /**
   * The bookkeeping of a batch in progress: records `cs` numbered from 1,
   * each a fresh feature now marked used in `cur`, no feature twice in a
   * region, and `cur` is `used` plus exactly the selected features.
   */
  ghost predicate Tracked(regions: seq<Region>, used: map<int, set<nat>>, cur: map<int, set<nat>>, cs: seq<Record>) {
    && (forall k :: 0 <= k < |cs| ==> cs[k].validId == k + 1)
    && (forall x :: x in cs ==> Fresh(regions, used, x) && x.feature in UsedIn(cur, x.region))
    && (forall a, c :: 0 <= a < c < |cs| && cs[a].region == cs[c].region ==> cs[a].feature != cs[c].feature)
    && (forall id, x :: x in UsedIn(cur, id) <==> x in UsedIn(used, id) || Selects(cs, id, x))
  }

  /** A region's turn keeps the bookkeeping of the batch. */
  lemma StepKeeps(regions: seq<Region>, used: map<int, set<nat>>, cur: map<int, set<nat>>, cs: seq<Record>,
                  i: nat, draws: seq<nat>)
    requires i < |regions| && RegionsOk(regions) && Tracked(regions, used, cur, cs)
    ensures var s := RegionStep(regions[i], cur, draws, |cs| + 1);
      Tracked(regions, used, s.used, cs + s.recs)
  {
    assert DistinctNats(regions[i].features);
    var s := RegionStep(regions[i], cur, draws, |cs| + 1);
    StepNumbers(cs, s.recs);
    StepFresh(regions, used, cur, cs, i, s);
    StepDistinct(regions[i], cur, cs, s);
    StepUsed(regions[i], used, cur, cs, s);
  }

  lemma StepNumbers(cs: seq<Record>, recs: seq<Record>)
    requires forall k :: 0 <= k < |cs| ==> cs[k].validId == k + 1
    requires forall k :: 0 <= k < |recs| ==> recs[k].validId == |cs| + 1 + k
    ensures forall k :: 0 <= k < |cs + recs| ==> (cs + recs)[k].validId == k + 1
  {
    forall k | 0 <= k < |cs + recs|
      ensures (cs + recs)[k].validId == k + 1
    {
      if k >= |cs| {
        assert (cs + recs)[k] == recs[k - |cs|];
      }
    }
  }

  lemma StepFresh(regions: seq<Region>, used: map<int, set<nat>>, cur: map<int, set<nat>>, cs: seq<Record>,
                  i: nat, s: Step)
    requires i < |regions| && Tracked(regions, used, cur, cs)
    requires forall k :: 0 <= k < |s.recs| ==> s.recs[k].region == regions[i].id
    requires forall k :: 0 <= k < |s.recs| ==>
      s.recs[k].feature in regions[i].features && s.recs[k].feature !in UsedIn(cur, regions[i].id)
    requires forall x :: x in UsedIn(s.used, regions[i].id) <==>
      x in UsedIn(cur, regions[i].id) || exists k :: 0 <= k < |s.recs| && s.recs[k].feature == x
    requires forall other :: other != regions[i].id ==> UsedIn(s.used, other) == UsedIn(cur, other)
    ensures forall x :: x in cs + s.recs ==> Fresh(regions, used, x) && x.feature in UsedIn(s.used, x.region)
  {
    var r := regions[i];
    forall x | x in cs + s.recs
      ensures Fresh(regions, used, x) && x.feature in UsedIn(s.used, x.region)
    {
      if x in cs {
        assert x.feature in UsedIn(cur, x.region);
      } else {
        var k :| 0 <= k < |s.recs| && s.recs[k] == x;
        assert regions[i].id == x.region && x.feature in regions[i].features;
      }
    }
  }

  lemma StepDistinct(r: Region, cur: map<int, set<nat>>, cs: seq<Record>, s: Step)
    requires forall x :: x in cs ==> x.feature in UsedIn(cur, x.region)
    requires forall a, c :: 0 <= a < c < |cs| && cs[a].region == cs[c].region ==> cs[a].feature != cs[c].feature
    requires forall k :: 0 <= k < |s.recs| ==> s.recs[k].region == r.id && s.recs[k].feature !in UsedIn(cur, r.id)
    requires forall a, b :: 0 <= a < b < |s.recs| ==> s.recs[a].feature != s.recs[b].feature
    ensures var cs' := cs + s.recs;
      forall a, c :: 0 <= a < c < |cs'| && cs'[a].region == cs'[c].region ==> cs'[a].feature != cs'[c].feature
  {
    var n := |cs|;
    var cs' := cs + s.recs;
    forall a, c | 0 <= a < c < |cs'| && cs'[a].region == cs'[c].region
      ensures cs'[a].feature != cs'[c].feature
    {
      if c < n {
        assert cs'[a] == cs[a] && cs'[c] == cs[c];
      } else if a >= n {
        assert cs'[a] == s.recs[a - n] && cs'[c] == s.recs[c - n];
      } else {
        assert cs'[a] == cs[a] && cs[a] in cs;
        assert cs'[c] == s.recs[c - n];
      }
    }
  }

  lemma StepUsed(r: Region, used: map<int, set<nat>>, cur: map<int, set<nat>>, cs: seq<Record>, s: Step)
    requires forall id, x :: x in UsedIn(cur, id) <==> x in UsedIn(used, id) || Selects(cs, id, x)
    requires forall k :: 0 <= k < |s.recs| ==> s.recs[k].region == r.id
    requires forall x :: x in UsedIn(s.used, r.id) <==>
      x in UsedIn(cur, r.id) || exists k :: 0 <= k < |s.recs| && s.recs[k].feature == x
    requires forall other :: other != r.id ==> UsedIn(s.used, other) == UsedIn(cur, other)
    ensures forall id, x :: x in UsedIn(s.used, id) <==> x in UsedIn(used, id) || Selects(cs + s.recs, id, x)
  {
    forall id, x
      ensures x in UsedIn(s.used, id) <==> x in UsedIn(used, id) || Selects(cs + s.recs, id, x)
    {
      SelectsConcat(cs, s.recs, id, x);
      if id != r.id {
        assert !Selects(s.recs, id, x);
      }
    }
  }

  lemma SelectsConcat(a: seq<Record>, b: seq<Record>, id: int, x: nat)
    ensures Selects(a + b, id, x) <==> Selects(a, id, x) || Selects(b, id, x)
  {
    if Selects(a + b, id, x) {
      var k :| 0 <= k < |a + b| && (a + b)[k].region == id && (a + b)[k].feature == x;
      if k >= |a| {
        assert b[k - |a|] == (a + b)[k];
      }
    }
    if Selects(a, id, x) {
      var k :| 0 <= k < |a| && a[k].region == id && a[k].feature == x;
      assert (a + b)[k] == a[k];
    }
    if Selects(b, id, x) {
      var k :| 0 <= k < |b| && b[k].region == id && b[k].feature == x;
      assert (a + b)[|a| + k] == b[k];
    }
  }

  /** The regions' ids are distinct, as the keys of `features_by_region` are. */
  predicate DistinctIds(regions: seq<Region>) {
    forall a, c :: 0 <= a < c < |regions| ==> regions[a].id != regions[c].id
  }

  /** The number of records made for region `id`. */
  function Count(cs: seq<Record>, id: int): nat {
    if |cs| == 0 then 0 else (if cs[0].region == id then 1 else 0) + Count(cs[1..], id)
  }

  lemma {:induction false} CountConcat(a: seq<Record>, b: seq<Record>, id: int)
    ensures Count(a + b, id) == Count(a, id) + Count(b, id)
    decreases |a|
  {
    if |a| == 0 {
      assert a + b == b;
    } else {
      assert (a + b)[1..] == a[1..] + b;
      CountConcat(a[1..], b, id);
    }
  }

  /** Records all of one region count fully for it and not at all for any other. */
  lemma {:induction false} CountOneRegion(recs: seq<Record>, r: int, id: int)
    requires forall k :: 0 <= k < |recs| ==> recs[k].region == r
    ensures Count(recs, id) == if id == r then |recs| else 0
    decreases |recs|
  {
    if |recs| > 0 {
      CountOneRegion(recs[1..], r, id);
    }
  }

  /** How many features region `r` contributes to a batch started with `used`. */
  function Quota(r: Region, used: map<int, set<nat>>): nat {
    Min(FeaturesPerRegion, |Available(r.features, UsedIn(used, r.id))|)
  }

  /**
   * The per-region counts of a batch in progress: the regions before `i`
   * have their quota, those from `i` on have no records and untouched used
   * sets.
   */
  ghost predicate Counted(regions: seq<Region>, used: map<int, set<nat>>, cur: map<int, set<nat>>, cs: seq<Record>, i: nat) {
    && (forall j :: 0 <= j < i && j < |regions| ==> Count(cs, regions[j].id) == Quota(regions[j], used))
    && (forall j :: i <= j < |regions| ==> Count(cs, regions[j].id) == 0)
    && (forall j :: i <= j < |regions| ==> UsedIn(cur, regions[j].id) == UsedIn(used, regions[j].id))
  }

  /** A region's turn gives it its quota and leaves the other regions alone. */
  lemma StepCounts(regions: seq<Region>, used: map<int, set<nat>>, cur: map<int, set<nat>>, cs: seq<Record>,
                   i: nat, draws: seq<nat>)
    requires i < |regions| && RegionsOk(regions) && DistinctIds(regions) && Counted(regions, used, cur, cs, i)
    ensures var s := RegionStep(regions[i], cur, draws, |cs| + 1);
      Counted(regions, used, s.used, cs + s.recs, i + 1)
  {
    var r := regions[i];
    assert DistinctNats(r.features);
    var s := RegionStep(r, cur, draws, |cs| + 1);
    forall j | 0 <= j < |regions|
      ensures Count(cs + s.recs, regions[j].id) == Count(cs, regions[j].id) + (if j == i then |s.recs| else 0)
    {
      CountConcat(cs, s.recs, regions[j].id);
      CountOneRegion(s.recs, r.id, regions[j].id);
    }
  }

  /** An empty region keeps its quota of none. */
  lemma SkipCounts(regions: seq<Region>, used: map<int, set<nat>>, cur: map<int, set<nat>>, cs: seq<Record>, i: nat)
    requires i < |regions| && |regions[i].features| == 0 && Counted(regions, used, cur, cs, i)
    ensures Counted(regions, used, cur, cs, i + 1)
  {
  }

  /**
   * `create_batch_datasets`: the regions in order, each drawing up to
   * `FeaturesPerRegion` features not used before in it, numbered from 1; a
   * region without features is skipped. `pointsOf` gives the number of
   * boundary points sampled for a pick; it is at most one, as
   * `BoundaryPoints` guarantees, and since the fuzzed extent is drawn anew
   * for every pick, each record has its own count. Returns the batch and the
   * used features afterwards.
   */
  method CreateBatch(regions: seq<Region>, used: map<int, set<nat>>, draws: seq<seq<nat>>,
                     pointsOf: Record -> nat)
    returns (b: Batch, after: map<int, set<nat>>)
    requires |draws| == |regions| && RegionsOk(regions) && DistinctIds(regions)
    requires forall x :: pointsOf(x) <= 1
    ensures b.extents == b.centroids
    ensures forall k :: 0 <= k < |b.centroids| ==> b.centroids[k].validId == k + 1
    ensures b.boundary == PointRecords(b.centroids, pointsOf)
    ensures |b.boundary| <= |b.centroids|
    ensures forall x :: multiset(b.boundary)[x] == if x in b.centroids then pointsOf(x) else 0
    ensures forall x :: x in b.centroids ==> Fresh(regions, used, x) && x.feature in UsedIn(after, x.region)
    ensures forall a, c :: 0 <= a < c < |b.centroids| && b.centroids[a].region == b.centroids[c].region ==>
      b.centroids[a].feature != b.centroids[c].feature
    ensures forall id, x :: x in UsedIn(after, id) <==> x in UsedIn(used, id) || Selects(b.centroids, id, x)
    ensures forall j :: 0 <= j < |regions| ==> Count(b.centroids, regions[j].id) == Quota(regions[j], used)
  {
    var cs: seq<Record> := [];
    var cur := used;
    var i := 0;
    while i < |regions|
      invariant i <= |regions|
      invariant Tracked(regions, used, cur, cs)
      invariant Counted(regions, used, cur, cs, i)
    {
      if |regions[i].features| > 0 {
        StepKeeps(regions, used, cur, cs, i, draws[i]);
        StepCounts(regions, used, cur, cs, i, draws[i]);
        var s := RegionStep(regions[i], cur, draws[i], |cs| + 1);
        cs := cs + s.recs;
        cur := s.used;
      } else {
        SkipCounts(regions, used, cur, cs, i);
      }
      i := i + 1;
    }
    b := Batch(cs, cs, PointRecords(cs, pointsOf));
    after := cur;
    PointRecordsAtMost(cs, pointsOf);
    forall x
      ensures multiset(b.boundary)[x] == if x in cs then pointsOf(x) else 0
    {
      PointRecordsCount(cs, pointsOf, x);
    }
  }

  /**
   * A batch `GeoDataFrame` can be built from: geopandas (1.0 on) raises
   * ValueError for a frame with a CRS made from an empty list of records, so
   * both the Feature-centroid (and with it the Polygon-extent) and the
   * Boundary-error records must be non-empty.
   */
  predicate Writable(b: Batch) {
    |b.centroids| > 0 && |b.boundary| > 0
  }

  /**
   * A batch has no centroid exactly when no region has a feature left to give:
   * with no regions at all, or every region empty or used up, the stage
   * cannot build its frames.
   */
  lemma NoCentroidsIffNoQuota(regions: seq<Region>, used: map<int, set<nat>>, cs: seq<Record>)
    requires forall j :: 0 <= j < |regions| ==> Count(cs, regions[j].id) == Quota(regions[j], used)
    requires forall x :: x in cs ==> Fresh(regions, used, x)
    ensures |cs| == 0 <==> forall j :: 0 <= j < |regions| ==> Quota(regions[j], used) == 0
  {
    if |cs| > 0 {
      var x := cs[0];
      assert Fresh(regions, used, x);
      var j :| 0 <= j < |regions| && regions[j].id == x.region && x.feature in regions[j].features;
      assert Count(cs, x.region) >= 1;
    }
  }

  /** What `GenerateBatches` needs of `CreateBatch`: picks are fresh and marked used, nothing is unmarked. */
  method NextBatch(regions: seq<Region>, used: map<int, set<nat>>, draws: seq<seq<nat>>, pointsOf: Record -> nat)
    returns (b: Batch, after: map<int, set<nat>>)
    requires |draws| == |regions| && RegionsOk(regions) && DistinctIds(regions)
    requires forall x :: pointsOf(x) <= 1
    ensures forall x :: x in b.centroids ==> x.feature !in UsedIn(used, x.region) && x.feature in UsedIn(after, x.region)
    ensures forall id, x :: x in UsedIn(used, id) ==> x in UsedIn(after, id)
  {
    b, after := CreateBatch(regions, used, draws, pointsOf);
  }

  /**
   * `main`: up to `numBatches` batches over the same regions, each starting
   * from the used features the previous ones left, so that no feature of a
   * region is drawn in two batches. Each batch is saved before the next is
   * made; the first batch that cannot be written stops the stage and is
   * returned as `stopped`.
   */
  method GenerateBatches(regions: seq<Region>, numBatches: nat, draws: seq<seq<seq<nat>>>, pointsOf: Record -> nat)
    returns (batches: seq<Batch>, used: map<int, set<nat>>, stopped: Option<Batch>)
    requires RegionsOk(regions) && DistinctIds(regions)
    requires |draws| == numBatches && forall n :: 0 <= n < numBatches ==> |draws[n]| == |regions|
    requires forall x :: pointsOf(x) <= 1
    ensures |batches| <= numBatches
    ensures stopped.None? <==> |batches| == numBatches
    ensures stopped.Some? ==> !Writable(stopped.value)
    ensures forall n :: 0 <= n < |batches| ==> Writable(batches[n])
    ensures forall n, x :: 0 <= n < |batches| && x in batches[n].centroids ==> x.feature in UsedIn(used, x.region)
    ensures forall m, n, x, y ::
      (0 <= m < n < |batches| && x in batches[m].centroids && y in batches[n].centroids && x.region == y.region)
      ==> x.feature != y.feature
  {
    batches := [];
    used := map[];
    stopped := None;
    var n := 0;
    while n < numBatches
      invariant n <= numBatches && |batches| == n
      invariant forall m :: 0 <= m < n ==> Writable(batches[m])
      invariant forall m, x :: 0 <= m < n && x in batches[m].centroids ==> x.feature in UsedIn(used, x.region)
      invariant forall m, l, x, y ::
        (0 <= m < l < n && x in batches[m].centroids && y in batches[l].centroids && x.region == y.region)
        ==> x.feature != y.feature
    {
      var b, after := NextBatch(regions, used, draws[n], pointsOf);
      if !Writable(b) {
        stopped := Some(b);
        return;
      }
      batches := batches + [b];
      used := after;
      n := n + 1;
    }
  }

  // ---------------------------------------------------------------------------
  // Output files
  // ---------------------------------------------------------------------------

  const OutputDir: string := "working/20"
  const FilePrefix: string := "NW-Aus-Features-v0-4_"

  /** `str.zfill`: `s` padded on the left with zeros to `width` characters. */
  function ZeroFill(s: string, width: nat): (r: string)
    ensures |r| == if |s| >= width then |s| else width
    ensures r[|r| - |s|..] == s
    ensures forall k :: 0 <= k < |r| - |s| ==> r[k] == '0'
    decreases width - |s|
  {
    if |s| >= width then s else ZeroFill("0" + s, width)
  }

  lemma {:induction false} ZeroFillValue(s: string, width: nat)
    requires AllDigits(s)
    ensures AllDigits(ZeroFill(s, width)) && DigitsValue(ZeroFill(s, width)) == DigitsValue(s)
    decreases width - |s|
  {
    if |s| < width {
      LeadingZeroValue(s);
      ZeroFillValue("0" + s, width);
    }
  }

  /** The two-digit batch number of the file names. */
  function BatchString(batch: nat): string {
    ZeroFill(ShowNat(batch), 2)
  }

  /** The batch string reads back as the batch number, so distinct batches get distinct strings. */
  lemma BatchStringParses(batch: nat)
    ensures |BatchString(batch)| >= 2
    ensures ParseNat(BatchString(batch)) == Some(batch)
  {
    DigitsValueOfShowNat(batch);
    ZeroFillValue(ShowNat(batch), 2);
  }

  lemma BatchStringInjective(a: nat, b: nat)
    ensures BatchString(a) == BatchString(b) ==> a == b
  {
    BatchStringParses(a);
    BatchStringParses(b);
  }

  /** The three layers saved per batch and validator. */
  datatype Layer = FeatureCentroid | PolygonExtent | BoundaryError

  function LayerName(l: Layer): string {
    match l
    case FeatureCentroid => "Feature-centroid"
    case PolygonExtent => "Polygon-extent"
    case BoundaryError => "Boundary-error"
  }

  /** The file name of a layer of a batch for a validator. */
  function FileName(l: Layer, batch: nat, validator: string): string {
    FilePrefix + (LayerName(l) + ("-" + (BatchString(batch) + ("_" + validator + ".shp"))))
  }

  /** `save_validation_datasets`: the shapefile of a layer of a batch for a validator. */
  function OutputFile(l: Layer, batch: nat, validator: string): string {
    PathJoin(PathJoin(OutputDir, validator), FileName(l, batch, validator))
  }

  /**
   * For a validator name that is not an absolute path and does not end in a
   * separator, its files lie in its own directory under the output directory.
   */
  lemma OutputFileLayout(l: Layer, batch: nat, validator: string)
    requires |validator| > 0 && validator[0] != '/' && validator[|validator| - 1] != '/'
    ensures OutputFile(l, batch, validator) == OutputDir + "/" + validator + "/" + FileName(l, batch, validator)
  {
    var d := PathJoin(OutputDir, validator);
    assert d == OutputDir + "/" + validator;
    assert d[|d| - 1] == validator[|validator| - 1];
    assert FileName(l, batch, validator)[0] == FilePrefix[0];
  }

  lemma CommonPrefix(p: string, x: string, y: string)
    requires p + x == p + y
    ensures x == y
  {
    assert x == (p + x)[|p|..];
    assert y == (p + y)[|p|..];
  }

  lemma CommonSuffix(x: string, y: string, t: string)
    requires x + t == y + t
    ensures x == y
  {
    assert x == (x + t)[..|x|];
    assert y == (y + t)[..|y|];
  }

  /** Distinct layers or batches of one validator never share a file. */
  lemma OutputFileInjective(l1: Layer, b1: nat, l2: Layer, b2: nat, validator: string)
    requires |validator| > 0 && validator[0] != '/' && validator[|validator| - 1] != '/'
    requires OutputFile(l1, b1, validator) == OutputFile(l2, b2, validator)
    ensures l1 == l2 && b1 == b2
  {
    OutputFileLayout(l1, b1, validator);
    OutputFileLayout(l2, b2, validator);
    CommonPrefix(OutputDir + "/" + validator + "/", FileName(l1, b1, validator), FileName(l2, b2, validator));
    var t := "_" + validator + ".shp";
    var r1 := "-" + (BatchString(b1) + t);
    var r2 := "-" + (BatchString(b2) + t);
    CommonPrefix(FilePrefix, LayerName(l1) + r1, LayerName(l2) + r2);
    assert (LayerName(l1) + r1)[0] == LayerName(l1)[0];
    assert (LayerName(l2) + r2)[0] == LayerName(l2)[0];
    assert l1 == l2;
    CommonPrefix(LayerName(l1), r1, r2);
    CommonPrefix("-", BatchString(b1) + t, BatchString(b2) + t);
    CommonSuffix(BatchString(b1), BatchString(b2), t);
    BatchStringInjective(b1, b2);
  }
}

=== FILE: wrappers.dfy ===
/** Failure-carrying result types shared by every pipeline stage. */
module Wrappers {

  /** A value that may be missing: Python's `None`, or a null cell. */
  datatype Option<+T> = None | Some(value: T) {
    function GetOr(default: T): T {
      match this
      case Some(v) => v
      case None => default
    }
  }

  /** The outcome of a stage: its result, or the fatal error that ended it. */
  datatype Result<+R, +E> = Success(value: R) | Failure(error: E)
}
